=== FILE: README.md ===
# xAIO URL Agent, modelled in Dafny

xAIO URL Agent is a spreadsheet-driven pipeline. Each sheet row holds a URL, and the pipeline takes every row through a fixed series of stages:

1. **capture** (`agent.py`) fetches the page and stores its text and metadata.
2. **condense** (`condense_queue.py`, which runs `reduce4ai.py`) builds an AI envelope.
3. **ai** (`ai_queue.py`) runs three steps: the meta step, the claims step and the xaio merge.
4. **buffers** (`buffer_panels_queue.py`, which runs `call_openai_buffers.py`) generates twelve analytical panels.
5. **wp** (`wp_upload_queue.py`) uploads the result to WordPress.

Every stage is an ordinary script, and `pipeline_run.py` runs the scripts in order. A queue scans the sheet, chooses eligible rows by their status cells and honours a per-run cap (`max_per_run`). It records `*_RUNNING`, `*_DONE` or `*_FAILED` status with errors cut to 49000 characters. A stage is skipped when its output carries a fresh fingerprint: a `.sha256` marker next to the output that holds the hash of the content.

This project models that core as pure Dafny functions and proves what each piece promises. The program's I/O enters as data or as function parameters:

- **Files:** a map from path to text.
- **Environment:** a map from name to value.
- **Sheet:** the rows as lists of cells.
- **Writes:** a log of events, each of which sets cells of a row, starts a child script or writes a file.
- **JSON:** a datatype whose objects keep their fields in order; a lookup reads the last field with the key.
- **Parsers and serialisers:** `json.loads` and `json.dumps` are function parameters.
- **Hashing:** SHA-256 is a function parameter whose results are 64 hexadecimal characters.
- **Child scripts and remote calls:** each stage's child script and each remote model call is a function parameter. It returns the child's return code and output, or the model's reply.

The modules follow the source files:

| module | models |
|---|---|
| `Fingerprint` | the marker helpers of `ai_queue.py` and `buffer_panels_queue.py` |
| `Sheet`, `SheetsBatch`, `Jobs`, `Drivers` | column letters, cell reading, status-write logs, the batch payload, and the shared scan-and-cap loop of the queues |
| `Agent`, `JsonLd` | `run_once` of `agent.py` with its local state store, and the JSON-LD candidate collection |
| `CondenseQueue`, `Reduce4AI` | `condense_queue.py` and the envelope built by `reduce4ai.py` |
| `AiQueue`, `MetaInput`, `MetaPost`, `Scf`, `Claims`, `ParseStage`, `MergeXaio`, `Cli` | `ai_queue.py` and the scripts it runs: `strip_content_for_meta.py`, `call_openai_meta.py`, `call_openai_claims.py`, `call_openai_parse.py`, `merge_xaio.py` |
| `BuffersQueue`, `Panels` | `buffer_panels_queue.py` and the resumable panel generator `call_openai_buffers.py` |
| `WpUploadQueue`, `Topics` | `wp_upload_queue.py` and its `topics_simple` |
| `Pipeline` | stage selection and early exit in `pipeline_run.py` |
| `EnvBootstrap` | the fallback `.env` parser and `load_repo_env` |
| `PyText`, `PyPath`, `JsonValue`, `Dedupe`, `StrOrder`, `Wrappers` | Python string, path, dict and `sorted` behaviour that the scripts share |

The queues share a shape but differ in details, and the model keeps each as written:

- **Processed count.** Each queue counts differently:
  - `ai_queue.py` counts a row only when none of its stages failed (`AiQueue.StagesFromShape`), and its count equals the number of `XAIO_DONE` status writes (`AiQueue.RunCountsDoneWrites`).
  - `agent.py` counts written captures only (`Agent.RunShape`).
  - `condense_queue.py`, `buffer_panels_queue.py` and `wp_upload_queue.py` count failed rows too.
- **Done rows are not rechecked.** `buffer_panels_queue.py` only runs rows whose buffers status is blank or `BUFFERS_FAILED`, so a `BUFFERS_DONE` row is never rerun, even when its marker is stale (`BuffersQueue.OnlyBlankOrFailedRun`).
- **Checks before the cap.** The condense queue checks the capture path before the cap, so it still fails rows without a capture path once the cap is reached (`CondenseQueue.MissingPathBeforeCap`). The agent skips done rows before its cap check.
- **Output check.** `ai_queue.py` and `condense_queue.py` treat a zero return code as success without looking for the output; `buffer_panels_queue.py` also requires the output to exist (`BuffersQueue.RunChildFailure`).
- **Marker comparison.** The marker is compared after stripping whitespace, not byte for byte (`Fingerprint.ReadMarker`).
- **Status writes.** A status write that keeps failing is logged and swallowed after its retries, so the run goes on. Writes are modelled as always succeeding (see "Left out").

## Model

| member | source | states |
|---|---|---|
| Fingerprint.DigestIsTrimmed | src/ai_queue.py:199-202 | a SHA-256 hex digest is never empty and never has whitespace around it |
| Fingerprint.MarkerPath | src/ai_queue.py:103-104 | the marker file is a different file from the output it describes |
| Fingerprint.ReadMarker | src/ai_queue.py:107-110 | a marker reads as `None` exactly when it is missing or blank; otherwise as its stripped, non-empty text |
| Fingerprint.MarkStageFrame | src/ai_queue.py:281-283 | marking with an empty hash changes nothing; otherwise only the marker changes and it holds the hash |
| Fingerprint.ShouldSkipIff | src/ai_queue.py:274-278 | a stage is skipped exactly when its output and marker exist and the marker's stripped text is the non-empty hash |
| Fingerprint.EmptyShaNeverSkips | src/ai_queue.py:278 | an empty hash never skips a stage |
| Fingerprint.PaddedShaNeverSkips | src/ai_queue.py:110 | a hash with whitespace at either end never matches a stripped marker |
| Fingerprint.MarkThenSkip | src/ai_queue.py:274-283 | after marking a stage with a stripped, non-empty hash, the next check for that hash skips it (when the output exists) |
| Fingerprint.MarkDigestThenSkip | src/buffer_panels_queue.py:115-125 | every SHA-256 digest round-trips through its marker |
| Fingerprint.StaleMarkerRuns | src/ai_queue.py:278 | a marker written for one hash never lets a different hash skip |
| Fingerprint.MissingOutputRuns | src/ai_queue.py:275-276 | without the output file nothing is skipped, whatever the marker says |
| PyText.BlankConcat | src/ai_queue.py:59-60 | a concatenation is blank exactly when both parts are |
| PyText.LStrip | src/ai_queue.py:59-60 | `lstrip` removes a prefix made only of whitespace and leaves nothing or a non-space first character |
| PyText.RStrip | src/ai_queue.py:59-60 | `rstrip` removes a suffix made only of whitespace and leaves nothing or a non-space last character |
| PyText.Strip | src/ai_queue.py:59-60 | `strip` leaves no whitespace at either end, and leaves "" exactly for a blank string |
| PyText.StripIdempotent | src/ai_queue.py:59-60 | stripping twice is stripping once |
| PyText.StripStart | src/ai_queue.py:59-60 | the stripped string is a contiguous slice of the original |
| PyText.Upper | src/ai_queue.py:321 | upper-casing keeps the length and maps each character on its own |
| PyText.Lower | src/reduce4ai.py:93 | lower-casing keeps the length and maps each character on its own |
| PyText.Head | src/condense_queue.py:190-195 | `s[:n]` is the prefix of length `min(n, len(s))` |
| PyText.Find | src/reduce4ai.py:96-101 | the first position of the character, or -1 exactly when it does not occur |
| PyText.Before | src/reduce4ai.py:96-101 | the text before the first separator holds no separator, is a prefix, and is everything when there is none |
| PyText.After | src/reduce4ai.py:96-97 | the text before the separator, the separator and the text after it make up the string |
| PyText.BeforeAfterJoin | src/reduce4ai.py:96-101 | cutting `a + c + b` at its first `c` gives `a` and `b` back when `a` holds no `c` |
| PyText.TakeWord | src/reduce4ai.py:50-52 | a first word is the longest prefix without whitespace |
| PyText.Words | src/reduce4ai.py:50-52 | every piece `split()` returns is a non-empty run of non-whitespace |
| PyText.FirstBreak | src/condense_queue.py:189 | the first line boundary, with no boundary before it |
| PyText.SplitLines | src/condense_queue.py:189 | no line holds a boundary, and there are no lines exactly for "" |
| PyText.NatToString | src/sheets_batch.py:36 | a number's decimal text is never empty |
| PyText.CollapseRunsShape | src/call_openai_buffers.py:120 | collapsing whitespace runs leaves single spaces only and keeps a string blank exactly when it was |
| PyText.CleanShape | src/call_openai_buffers.py:120 | a cleaned text is stripped and single-spaced, and empty exactly when the input was blank |
| PyText.CleanIdempotent | src/call_openai_buffers.py:120 | cleaning twice is cleaning once |
| PyText.WordsSpaceCons | src/reduce4ai.py:50-52 | a leading whitespace character does not change what `split()` returns |
| PyText.WordsCharCons | src/reduce4ai.py:50-52 | a non-space character in front starts a new word, or lengthens the first word when the rest begins inside one |
| PyText.WordsSpaceSnoc | src/reduce4ai.py:50-52 | a trailing whitespace character does not change what `split()` returns |
| PyText.StripKeepsWords | src/reduce4ai.py:50-52 | `s.strip().split()` is `s.split()` |
| PyText.CollapseRunsWords | src/call_openai_buffers.py:120 | replacing every whitespace run by one space keeps the words of the text, in order |
| PyText.CleanKeepsWords | src/call_openai_buffers.py:120 | `re.sub(r"\s+", " ", s).strip()` has the same words as `s`, in the same order: cleaning changes only whitespace |
| PyText.SplitOn | src/call_openai_buffers.py:370 | `split` of a one-character separator gives at least one part, none holding the separator |
| PyText.SplitOnJoin | src/call_openai_buffers.py:370 | joining parts without the separator and splitting them again gives the parts back |
| JsonValue.Keys | src/merge_xaio.py:33 | one key per field, in order |
| JsonValue.Lookup | src/merge_xaio.py:33 | a key reads nothing exactly when absent, and otherwise the value of some field with that key |
| JsonValue.LookupLast | src/agent.py:281 | a field no later field overrides is what a lookup finds |
| JsonValue.DictOrEmpty | src/ai_queue.py:200 | a dict gives its fields and anything else `{}` |
| JsonValue.OrEmptyDict | src/reduce4ai.py:258-260 | `(x or {})` used as a dict succeeds exactly for a dict or a falsy value |
| JsonValue.OverwriteLookup | src/call_openai_meta.py:140-146 | overwriting a key keeps the key order, sets the key where it exists and leaves every other key as it was |
| JsonValue.Assign | src/call_openai_meta.py:140-146 | `d[k] = v` makes `k` read `v`, leaves every other key alone, keeps the order of an existing key and appends a new one |
| JsonValue.Remove | src/strip_content_for_meta.py:25 | `pop(k, None)` removes the key, leaves every other key alone and changes nothing when the key was absent |
| JsonValue.Update | src/call_openai_buffers.py:466 | after `update`, a key of the other dict reads its value there, and every other key reads as before |
| JsonValue.DistinctKeys | src/agent.py:281 | the dict's keys, each once, are exactly the keys of the fields |
| JsonValue.Items | src/agent.py:281 | `items()` lists each distinct key once with the value a lookup finds |
| JsonValue.ItemsLookup | src/agent.py:281 | reading the items back as a dict gives the same dict |
| JsonValue.ListPair | src/merge_xaio.py:33 | a list element of `update` is a pair exactly when it has two items and its key is hashable |
| JsonValue.StrPair | src/merge_xaio.py:33 | a string element of `update` is a pair exactly when it has two characters |
| JsonValue.DictPair | src/merge_xaio.py:33 | a dict element of `update` is a pair exactly when it has two keys |
| JsonValue.PairsOf | src/merge_xaio.py:33 | the list is accepted exactly when each element is a pair, and then the pairs come in order |
| JsonValue.DictUpdate | src/merge_xaio.py:33 | `update` with a dict always succeeds and overrides its keys; with a list it succeeds exactly when every element is a pair; with a string exactly when it is ""; anything else fails |
| JsonValue.LastPairWins | src/merge_xaio.py:33 | the last pair of a list with a given key supplies that key's value |
| JsonValue.PairListIsDict | src/merge_xaio.py:33 | a list of `[key, value]` pairs updates a dict exactly as the dict of those fields does |
| JsonValue.UnpairedKeyKept | src/merge_xaio.py:33 | a key that no pair of the list names keeps its value |
| JsonValue.StrList | src/call_openai_meta.py:140-146 | a list of strings becomes a JSON list of those strings, in order |
| JsonValue.FirstTruthy | src/call_openai_meta.py:137 | nothing is found exactly when every value is falsy, and otherwise a truthy value of the list |
| JsonValue.OrChainFirstTruthy | src/call_openai_meta.py:137 | a chain of `or`s is truthy exactly when some operand is, and then it is the first truthy operand |
| Sheet.ColumnLetters | src/agent.py:36-41 | the letters of a column number form a column name |
| Sheet.LettersValuePositive | src/agent.py:36-41 | a column name evaluates to a positive number |
| Sheet.LettersOfNumber | src/agent.py:36-41 | numbers to letters and back is the identity |
| Sheet.NumberOfLetters | src/agent.py:36-41 | letters to numbers and back is the identity on column names |
| Sheet.ColumnNumberOfName | src/agent.py:36-41 | the 1-based `col_letter_to_index` maps each column name to the number it denotes, so distinct names get distinct numbers |
| Sheet.ColumnNumberNormalises | src/agent.py:37 | a name padded with whitespace or in lower case gets the number of the trimmed, upper-cased name |
| Sheet.ColumnNumberSamples | src/agent.py:36-41 | `A` is 1, `Z` is 26 and `AA` is 27 |
| Sheet.ColumnIndexOfName | src/ai_queue.py:47-52 | the 0-based variant gives every column name a non-negative index that names it back |
| Sheet.ColumnIndexSamples | src/ai_queue.py:47-52 | `A` is 0, `Z` is 25 and `AA` is 26 |
| Sheet.PyItem | src/ai_queue.py:319 | `xs[i]` exists exactly for `-len(xs) <= i < len(xs)`, counting from the end for a negative index |
| Sheet.ReadCell | src/ai_queue.py:320-325 | a cell past the row's end reads as blank, a negative index counts from the end, and one before the start raises |
| Sheet.CapError | src/ai_queue.py:374 | the error is cut to its first 49000 characters |
| Sheet.MarkersConcat | src/ai_queue.py:387-392 | joining two logs whose markers are guarded keeps them guarded |
| Sheet.ConcatLogs | src/ai_queue.py:363-454 | joining two logs of the same row keeps them about that row, guarded and with nothing after a failure |
| Sheet.FailedLog | src/ai_queue.py:369-386 | a failed block's log is about its row, has no marker and ends at the failure |
| Sheet.DoneLog | src/ai_queue.py:387-392 | a successful block's log is about its row and its marker sits between the successful child and the done status |
| Sheet.RanCountConcat | src/buffer_panels_queue.py:362-387 | the number of children started adds up over joined logs |
| Sheet.StatusCountConcat | src/condense_queue.py:286 | the number of status writes adds up over joined logs |
| SheetsBatch.Payload | src/sheets_batch.py:34-37 | one range per column, in the order given, each holding its value as a one-cell grid |
| SheetsBatch.BatchUpdateRowCells | src/sheets_batch.py:31-39 | no call for an empty map, otherwise exactly one call carrying one range per column |
| SheetsBatch.LettersOfJoin | src/sheets_batch.py:36 | reading the letters of `col + digits` gives the column back |
| SheetsBatch.PayloadRoundTrip | src/sheets_batch.py:34-37 | every range of the payload names its column followed by the row number, and reads back as the cell it came from |
| Jobs.ErrorText | src/ai_queue.py:371 | the error recorded is the child's standard error when non-empty, else its standard output, stripped |
| PyPath.NameStart | src/reduce4ai.py:358 | where the final path component starts |
| PyPath.Name | src/reduce4ai.py:267 | `Path.name` is a suffix of the path without `/` |
| PyPath.LastDot | src/reduce4ai.py:358 | the last dot of a name, or -1 |
| PyPath.Stem | src/reduce4ai.py:358 | `Path.stem` is the name, or the part of it before a suffix dot that is neither first nor last |
| PyPath.JoinPath | src/reduce4ai.py:359 | `dir / name` starts with the directory and has the plain name as its final component |
| Cli.LoadJson | src/call_openai_claims.py:32-33 | loading succeeds exactly when the file exists and parses, giving the parsed value |
| Agent.UpsertStart | src/agent.py:142-149 | a hash not in the store is inserted as FETCHING; a known hash only gets its url_original replaced and keeps its status; every other record is untouched |
| Agent.Finish | src/agent.py:151-158 | the record with that hash gets the new status, time, final URL, method, path and error and keeps its url_original; an unknown hash changes nothing; other records are untouched |
| Agent.DoneKeptTrans | src/agent.py:444-452 | "every DONE record survives unchanged" composes across successive visits |
| Agent.FetchHttp | src/agent.py:319-331 | the HTTP fetch succeeds exactly when the request succeeded, the status is below 400 and the content type names HTML or XHTML, and then yields the body and the URL after redirects |
| Agent.FetchPage | src/agent.py:470-479 | the page comes via http exactly when HTTP-first is on and the HTTP fetch succeeded; otherwise it is the browser's page; the fetch fails exactly when the browser fails after HTTP was off or failed |
| Agent.DocumentSections | src/agent.py:488-512 | every section of the capture document is found under its own key |
| Agent.DocumentKey | src/agent.py:488-512 | each of the five section keys reads back the value stored at that position |
| Agent.IngestRow | src/agent.py:490-496 | the ingest section records the sheet row |
| Agent.UrlsFields | src/agent.py:497-501 | the url section records the original and the final URL |
| Agent.FetchInfoMethod | src/agent.py:502-505 | the fetch section records the method used |
| Agent.ContentHtml | src/agent.py:507-511 | the content section keeps the raw HTML |
| Agent.CaptureRecordsSource | src/agent.py:488-512 | the capture records the original and final URL, the sheet row and the fetch method, and keeps the raw HTML |
| Agent.Title | src/agent.py:516 | the title written to the sheet is stripped, and it is the stripped page title whenever the page section holds a string title |
| Agent.WritesConcat | src/agent.py:514 | the number of captures written by two consecutive stretches of a run is the sum of their counts |
| Agent.DoneHashResynced | src/agent.py:443-452 | a URL whose hash is DONE in the store is not fetched: the row gets DONE, the stored time and the stored path back (blank when missing), and the store, the files and the count are unchanged |
| Agent.FetchFailureRecorded | src/agent.py:540-547 | a failed fetch ends with the row marked FAILED, the error cut to at most 49000 characters on the sheet, the whole error kept in the store, no file written and nothing counted |
| Agent.CaptureRecorded | src/agent.py:481-529 | a successful fetch writes the serialised capture at `<output>/<day>/<hash>.json`, marks the store record DONE with that path, writes DONE and the path to the row, and counts the row |
| Agent.SettleShape | src/agent.py:457-547 | once a row is claimed, the visit only writes its own row, counts exactly when it wrote one capture, and keeps every DONE record |
| Agent.VisitShape | src/agent.py:443-547 | the whole visit of an eligible row keeps the same three guarantees, whether the hash was already DONE or not |
| Agent.Views | src/agent.py:428-432 | the row views line up one to one with the sheet rows, each the stripped URL and upper-cased stripped status read from that row |
| Agent.RetriedStatuses | src/agent.py:434-437 | a row with a URL and a blank or FAILED status is worked on; DONE and FETCHING rows are skipped |
| Agent.ViewAtRow | src/agent.py:428-432 | looking up sheet row i in the views gives what reading `all_vals[i - 1]` gives, including a missing row |
| Agent.Run | src/agent.py:420-441 | a run never counts more captures than max_per_run, and with a cap that is not positive it counts none and writes nothing |
| Agent.LoopCap | src/agent.py:428-441 | from any point of the scan, the count only grows, stays within the cap, and does not move once the cap is reached |
| Agent.RunShape | src/agent.py:407-567 | a run writes only to eligible rows, its count equals the number of captures written, and every hash DONE in the store before the run keeps its record |
| JsonLd.LdJsonAnyCase | src/agent.py:225 | a script is selected when its type contains `ld+json` in any letter case, and a script without a type is not |
| JsonLd.Kept | src/agent.py:226-236 | at most one item is kept per script |
| JsonLd.KeptConcat | src/agent.py:227-236 | scripts are handled one after another: the items of two runs of scripts are the items of each, in order |
| JsonLd.KeptMembers | src/agent.py:227-236 | a value is kept exactly when some script yields it |
| JsonLd.ParsedItemsMembers | src/agent.py:225-236 | an item is parsed exactly when some JSON-LD script with non-blank, well-formed text yields it, so a bad script never stops the others, and the items keep document order |
| JsonLd.BlankScriptSkipped | src/agent.py:228-232 | a script whose text is blank after stripping contributes nothing, whatever the parser would say |
| JsonLd.GraphIsLookup | src/agent.py:278-280 | the `@graph` pass walks the value `obj.get("@graph")` returns (the key's last value), and nothing when that is missing or null |
| JsonLd.NodesWithin | src/agent.py:275-285 | the node walk yields exactly the dicts that occur inside the value, the value itself included, reached through values the dicts still hold; the extra `@graph` pass adds no dict that is not already inside |
| JsonLd.GraphNodesWithin | src/agent.py:278-280 | every dict the `@graph` pass yields sits inside the current `@graph` value |
| JsonLd.CurrentInPrefix | src/agent.py:281 | a field that holds its key's value in a prefix still does when the next field has a different key |
| JsonLd.CurrentField | src/agent.py:281 | every key present in a dict has a field with that key that no later field overrides |
| JsonLd.ValueNodesWithin | src/agent.py:281-282 | the walk of one key's value yields exactly the dicts inside that value |
| JsonLd.FieldNodesWithin | src/agent.py:281-282 | the walk over a list of keys yields exactly the dicts inside one of their values |
| JsonLd.ValuesWithin | src/agent.py:281-282 | walking `obj.values()` (one value per distinct key, the last one) reaches exactly the dicts inside some field that still holds its key's value |
| JsonLd.ValueIsCurrent | src/agent.py:281 | a dict inside a key's value is inside a current field |
| JsonLd.CurrentIsValue | src/agent.py:281 | a dict inside a current field is inside the value of some key |
| JsonLd.ListNodesWithin | src/agent.py:283-285 | the walk of a list yields exactly the dicts inside one of its items |
| JsonLd.NameOfDict | src/agent.py:253-257 | a dict offers its non-empty string `name`; when `name` is falsy it offers a string `legalName`; a truthy non-string name offers nothing |
| JsonLd.NameOfString | src/agent.py:258-273 | a string is offered as a name or a date after stripping |
| JsonLd.DateOfDict | src/agent.py:264-273 | a date given as a dict is ignored |
| JsonLd.OfferedMembers | src/agent.py:287-296 | a string is offered under a key exactly when some node holding that key offers it |
| JsonLd.NameValuesTrimmed | src/agent.py:248-262 | every name offered is stripped |
| JsonLd.NameValuesListTrimmed | src/agent.py:249-252 | every name offered by a list is stripped |
| JsonLd.DateValuesTrimmed | src/agent.py:264-273 | every date offered is stripped |
| JsonLd.DateValuesListTrimmed | src/agent.py:265-268 | every date offered by a list is stripped |
| JsonLd.OfferedTrimmed | src/agent.py:287-296 | every string offered by the nodes is stripped |
| JsonLd.CollectShape | src/agent.py:238-296 | a collected list has no blanks, no unstripped entries and no repeats, holds a string exactly when some dict inside the parsed items has the key and offers that string under it, and lists the strings in the order they are first offered |
| JsonLd.CollectClean | src/agent.py:243-262 | a collected list has no repeats and no blank or unstripped entry |
| JsonLd.CollectOrder | src/agent.py:258-272 | a collected list lists its strings in the order of their first offers, since the `seen` check only drops later repeats |
| JsonLd.CollectMembers | src/agent.py:259-296 | a string is collected exactly when it is non-empty and some node with the key offers it |
| JsonLd.PublisherNames | src/agent.py:289-303 | the publisher names are distinct, stripped, exactly the non-empty names offered under `publisher` by a dict inside a parsed item, and in the order they are first offered |
| JsonLd.AuthorNames | src/agent.py:291-303 | the same for author names under `author` |
| JsonLd.PublishedDates | src/agent.py:293-303 | the same for dates under `datePublished` |
| JsonLd.ModifiedDates | src/agent.py:295-303 | the same for dates under `dateModified` |
| CondenseQueue.RetriedStatuses | src/condense_queue.py:230-233 | a row whose AI status is blank or `AI_FAILED` is taken again; a row is taken exactly when its status is neither `AI_READY` nor `CONDENSING` |
| CondenseQueue.ReportedPath | src/condense_queue.py:189-194 | the path reported by a tagged line is stripped |
| CondenseQueue.OkMessage | src/condense_queue.py:195 | a successful child's message is never empty |
| CondenseQueue.RunReduce | src/condense_queue.py:159-197 | a missing capture fails without a child; an exception fails with its text; a non-zero return code fails with at most 2000 characters of the error text; success is exactly a started child that returned 0 |
| CondenseQueue.FailureMessageText | src/condense_queue.py:185-187 | a failure message carries the child's error text, cut to 2000 characters |
| CondenseQueue.OkMessageReadsPath | src/condense_queue.py:188-195 | the tagged line a child is expected to print reads back as the path it names |
| CondenseQueue.UntaggedReportsNothing | src/condense_queue.py:190-194 | output without a tagged line reports no path |
| CondenseQueue.BlankStdoutSaysOk | src/condense_queue.py:195 | a child that prints nothing is reported as "ok" |
| CondenseQueue.VisitedShape | src/condense_queue.py:248-287 | whatever `run_reduce4ai` returned, a visited row's log concerns the row, claims it once, and the row counts |
| CondenseQueue.MissingCaptureNoChild | src/condense_queue.py:166-167 | a missing capture is claimed, then failed with "capture json not found", without starting the child or writing a file |
| CondenseQueue.RaisedFailsRow | src/condense_queue.py:196-275 | an exception from starting the child fails the row with the exception's text; nothing runs, no file is written, and the row counts |
| CondenseQueue.ReadyRowRecordsOk | src/condense_queue.py:256-261 | as written: a row whose child printed nothing records `AI_READY` with "ok" in the AI input path column, though the envelope was written |
| CondenseQueue.ReadyRowNamesEnvelope | src/condense_queue.py:256-261 | corrected: such a row records `AI_READY` with the path of the envelope, and the file is there |
| CondenseQueue.Loop | src/condense_queue.py:221-243 | the count of rows handled only grows and never passes `max_per_run` |
| CondenseQueue.MissingPathBeforeCap | src/condense_queue.py:234-243 | an eligible row without a capture path is failed even once the cap is reached, and does not count |
| CondenseQueue.Run | src/condense_queue.py:217-243 | at most `max_per_run` rows reach the child, and none when it is not positive |
| CondenseQueue.RunShape | src/condense_queue.py:200-290 | a run writes cells and starts children only for eligible rows at or after `first_data_row`, and `processed` is exactly the number of rows claimed for condensing, failed or not |
| CondenseQueue.RunFixed | src/condense_queue.py:217-243 | the corrected run keeps the same cap |
| CondenseQueue.RunFixedShape | src/condense_queue.py:200-290 | the correction changes only what the AI input path column receives: the scan guarantees hold for it too |
| CondenseQueue.SilentChildReportsOk | src/condense_queue.py:188-195 | as written: a successful child with blank standard output yields `(True, "ok")`, which is not the envelope's path |
| CondenseQueue.RunReduceFixed | src/condense_queue.py:159-197 | corrected: it succeeds exactly when the original does and fails with the same message |
| CondenseQueue.FixedReportsEnvelope | src/reduce4ai.py:358-360 | with the correction, the path recorded after a successful `reduce4ai.py` run names a file that run wrote |
| Reduce4AI.SafeStr | src/reduce4ai.py:44-45 | `safe_str` never leaves whitespace at either end |
| Reduce4AI.SafeStrEmpty | src/reduce4ai.py:44-45 | a value reads as "" exactly when it is `None` or a blank string; `str()` of any other value is never blank |
| Reduce4AI.WordCountOfTrimmed | src/reduce4ai.py:50-52 | a stripped text has no words exactly when it is empty |
| PyText.WordsCountsWordStarts | src/reduce4ai.py:50-52 | `len(text.split())` equals an independent one-pass count of the positions where a word starts |
| Reduce4AI.GetNestedConcat | src/reduce4ai.py:73-82 | walking the path `p + q` is walking `p`, then `q` from where `p` ended; a walk that stopped stays stopped |
| Reduce4AI.GetNestedMissing | src/reduce4ai.py:73-82 | a segment that is missing, or a non-dict reached part-way, makes the whole path read as `None` |
| Reduce4AI.GetNestedLast | src/reduce4ai.py:73-82 | a path reads the value stored under its last segment in the dict its prefix reaches, else `None` |
| Reduce4AI.FirstNonempty | src/reduce4ai.py:84-89 | the chosen value is stripped |
| Reduce4AI.FirstNonemptyEmpty | src/reduce4ai.py:84-89 | the result is "" exactly when every value reads as empty under `safe_str` |
| Reduce4AI.FirstNonemptyAt | src/reduce4ai.py:84-89 | the result is the `safe_str` of the first value whose `safe_str` is not empty |
| Reduce4AI.FirstNonemptyConcat | src/reduce4ai.py:84-89 | appending fallbacks changes the result only when every earlier value is empty |
| Reduce4AI.SignalSplit | src/reduce4ai.py:166-210 | a signal is its own paths' first non-blank value, else the first non-blank fallback |
| Reduce4AI.UrlChain | src/reduce4ai.py:143-163 | the original URL reads its three paths; the final URL falls back on the original; the canonical hint falls back on the final, then on the original; no canonical hint means no URL at all |
| Reduce4AI.FinalSignal | src/reduce4ai.py:148-154 | the final URL is its own paths' first non-blank value, else the original URL |
| Reduce4AI.CanonicalSignal | src/reduce4ai.py:155-163 | the canonical hint is its own paths' value, else the final URL, else the original URL |
| Reduce4AI.ExtractSignals | src/reduce4ai.py:137-223 | every signal is the first non-blank value along its own list of paths, stripped, with the URL fallbacks of `UrlChain` |
| Reduce4AI.HostOf | src/reduce4ai.py:91-102 | the host `domain_of` keeps has no `:` and no upper-case letter |
| Reduce4AI.DomainOf | src/reduce4ai.py:91-102 | "" when the URL does not parse, else the host steps applied to its netloc |
| Reduce4AI.HostOfPlain | src/reduce4ai.py:91-102 | a netloc made of a host and an optional `:port` gives the host back, lower-cased |
| Reduce4AI.HostOfWithUser | src/reduce4ai.py:91-102 | with `user@` in front, the host still comes back: the first `@` ends the credentials |
| Reduce4AI.Take | src/reduce4ai.py:253-256 | one pass of the whitelist loop keeps the keys free of repetitions |
| Reduce4AI.TakeLookup | src/reduce4ai.py:253-256 | after one pass the key holds its stripped value when that is a non-blank string; every other key reads as before |
| Reduce4AI.WhitelistLookup | src/reduce4ai.py:250-256 | after the loop each key reads its entry when it was asked for and has one, else what it held before |
| Reduce4AI.WhitelistKeysDistinct | src/reduce4ai.py:250-256 | the whitelist holds each key once |
| Reduce4AI.MetaWhitelistContents | src/reduce4ai.py:250-256 | the whitelist holds exactly the asked-for keys whose meta value is a non-blank string, once each, value stripped; nothing unless `page.meta` is a dict |
| Reduce4AI.CleanUrl | src/reduce4ai.py:54-71 | a blank URL gives ""; any other goes, stripped, through the URL cleaner |
| Reduce4AI.DomainSource | src/reduce4ai.py:285 | the domain is read from the first non-empty clean URL, and from "" only when all three are empty |
| Reduce4AI.ShaTagTellsEmpty | src/reduce4ai.py:267 | the id of a capture with text never carries the tag of one without (`no_text`) |
| Reduce4AI.NoWordsIffBlank | src/reduce4ai.py:246 | a text splits into no words exactly when it is blank |
| Reduce4AI.ContentOf | src/reduce4ai.py:243-246 | the content block keeps the text and its length; the hash is empty exactly when the text is, and is the text's hash otherwise; the word count is the number of words |
| Reduce4AI.IdentityOf | src/reduce4ai.py:258-264 | reading the identity candidates fails exactly when `page.jsonld_extracted` is a truthy non-dict |
| Reduce4AI.BuildEnvelope | src/reduce4ai.py:230-314 | building the envelope fails exactly when `page.jsonld_extracted` is a truthy non-dict |
| Reduce4AI.BuildEnvelopeContent | src/reduce4ai.py:243-246 | the envelope's content block is built from the extracted-text signal, and its id from the capture path and the text hash |
| Reduce4AI.CaptureIdShape | src/reduce4ai.py:267 | the capture id is the file name, `__textsha:`, then the first 12 hex digits of the text hash or `no_text` |
| Reduce4AI.AiQueueReadsTextSha | src/reduce4ai.py:297-303 | the freshness hash the AI queue reads back from the written envelope is the hash of the extracted text, or "" |
| Reduce4AI.NonEmptyStrippedClean | src/reduce4ai.py:345 | every meta key kept is non-empty and stripped |
| Reduce4AI.NonEmptyStrippedMembers | src/reduce4ai.py:345 | the keys kept are exactly the non-empty stripped comma-separated parts |
| Reduce4AI.OutPath | src/reduce4ai.py:358-359 | the output file is named after the capture's stem with `.ai_input.json` |
| Reduce4AI.ReadCapture | src/reduce4ai.py:339-348 | a capture is read exactly when the file exists and parses as JSON |
| Reduce4AI.Main | src/reduce4ai.py:321-380 | exit code 0 exactly when the capture exists, parses and its `jsonld_extracted` is a dict or falsy, and then the one output file holds the dumped envelope; exit code 1 writes nothing |
| Reduce4AI.Candidates | src/reduce4ai.py:137-210 | each candidate is the value `get_nested` finds along the corresponding path of the capture |
| Reduce4AI.PlainSignal | src/reduce4ai.py:137-210 | a signal without fallbacks is the first non-blank value along its paths, stripped, or "" |
| Reduce4AI.DropUser | src/reduce4ai.py:93-96 | the part of the lower-cased netloc after the first `@` contains no upper-case letter |
| AiQueue.ContentSha | src/ai_queue.py:199-203 | a missing or falsy `content.sha256` reads as ""; a string one reads as itself |
| AiQueue.EnsureMetaInput | src/ai_queue.py:206-216 | an existing meta input with the same non-empty content hash is kept; otherwise the stripped envelope is (re)written; an existing file that is not JSON or not a dict raises |
| AiQueue.DonePut | src/ai_queue.py:388-392 | the done write sets a status ending in `_DONE` |
| AiQueue.RunStageShape | src/ai_queue.py:363-392 | a stage block succeeds exactly when its child returns 0; a failure logs running, the child and `<STAGE>_FAILED`; a success writes the marker (for a non-empty hash) right before `<STAGE>_DONE` |
| AiQueue.RunStageMarksFresh | src/ai_queue.py:387 | after a successful stage with a stripped, non-empty hash, its output is fresh for that hash |
| AiQueue.ReadRow | src/ai_queue.py:319-325 | the AI status read is the stripped, upper-cased cell, with blank for a short row |
| AiQueue.BlockShape | src/ai_queue.py:363-392 | a stage block concerns only its row and stage, guards its markers and runs nothing after a failure |
| AiQueue.StagesFromShape | src/ai_queue.py:363-456 | the stage loop never crashes, runs only the stages from `s` on, writes markers only between a successful child and its done status, runs nothing after a failure, and counts the row exactly when no child failed |
| AiQueue.StagesFromStartsWithBlock | src/ai_queue.py:363-456 | the log of the stages from `s` begins with the block of `s` |
| AiQueue.StageRunsWhenDue | src/ai_queue.py:363-425 | a stage whose status is not done, or whose output is not fresh, starts its child first thing |
| AiQueue.LabelNotLater | src/ai_queue.py:363-454 | the stages run in the fixed order meta, claims, xaio: a stage's label does not reappear later |
| AiQueue.SkippedBlockRunsLater | src/ai_queue.py:363-454 | when the block of `s` does nothing, no child of stage `s` runs |
| AiQueue.StageSkippedWhenFresh | src/ai_queue.py:363-425 | a stage whose status is `<STAGE>_DONE` and whose output is fresh starts no child |
| AiQueue.FailureAbandonsRow | src/ai_queue.py:370-386 | a failing stage abandons the row: nothing after its block and the row does not count |
| AiQueue.MissingInputFails | src/ai_queue.py:333-346 | a row without an envelope path, or whose envelope is missing, gets `AI_FAILED` in one write, changes no file and does not count |
| AiQueue.FreshRowSkipped | src/ai_queue.py:360-361 | a row whose xaio status is `XAIO_DONE` with a fresh merged output runs no stage, writes no cell and does not count |
| AiQueue.ProcessRowShape | src/ai_queue.py:333-456 | a row's log concerns that row, guards its markers, runs nothing after a failure, and a counted row had no failing child and did not crash |
| AiQueue.Loop | src/ai_queue.py:318-331 | the count of completed rows only grows and never passes `max_per_run` |
| AiQueue.LoopTouchesReadyRows | src/ai_queue.py:318-456 | only `AI_READY` rows from the starting row to the last are written to or have stages run, and markers stay guarded across the scan |
| AiQueue.Run | src/ai_queue.py:305-331 | at most `max_per_run` rows complete, and none when it is not positive |
| AiQueue.RunTouchesReadyRows | src/ai_queue.py:286-468 | a run writes cells and starts children only for `AI_READY` rows at or after `first_data_row`, and each marker sits between a successful child and its done status |
| AiQueue.OutputTail | src/ai_queue.py:356-358 | every stage output name ends in `n`, and its sixteenth character from the end is `m`, `a` or `x` for the meta, claims and merged stage |
| AiQueue.OtherPathsDiffer | src/ai_queue.py:356-358 | the meta and claims outputs and their `.sha256` markers are other files than the merged output and its marker |
| AiQueue.RunStageFrame | src/ai_queue.py:363-392 | a stage block changes no file except its output and that output's marker |
| AiQueue.StatusPutsOfStage | src/ai_queue.py:364-391 | no running or failed status write sets `XAIO_DONE`, and a done status write sets it exactly for the merged stage |
| AiQueue.RunStageDoneWrites | src/ai_queue.py:425-454 | a stage block writes `XAIO_DONE` once when it is the merged stage and its child returns 0, and never otherwise |
| AiQueue.OtherBlockKeepsXaio | src/ai_queue.py:363-423 | a meta or claims block writes no `XAIO_DONE` and leaves the freshness of the merged output for `sha` as it was |
| AiQueue.XaioBlockDoneWrites | src/ai_queue.py:425-454 | on a row that is not `XAIO_DONE` with a fresh merged output, the merged block writes `XAIO_DONE` exactly when it succeeds |
| AiQueue.StagesDoneWrites | src/ai_queue.py:360-456 | on a row that passed the skip test, the stages count the row exactly when they write `XAIO_DONE`, and write it at most once |
| AiQueue.ProcessRowDoneOnce | src/ai_queue.py:333-456 | every row, whatever path it takes, writes `XAIO_DONE` once when it is counted and never otherwise, and a crash counts nothing |
| AiQueue.LoopCountsDoneWrites | src/ai_queue.py:318-456 | from any row on, the scan adds to `processed` exactly the number of `XAIO_DONE` status writes it logs |
| AiQueue.RunCountsDoneWrites | src/ai_queue.py:305-467 | the `processed` a run reports equals the number of `XAIO_DONE` status writes in its log |
| AiQueue.StagesFromAfterSkip | src/ai_queue.py:363-456 | a stage whose block does nothing hands the row on to the next stage unchanged |
| MetaInput.BuildMetaInput | src/strip_content_for_meta.py:21-26 | the stripped copy keeps every key in order and every value except `content`; a dict `content` loses only `extracted_text_full`; a non-dict `content` leaves everything as it was |
| MetaInput.BodyRemoved | src/strip_content_for_meta.py:24-25 | the stripped envelope no longer carries the article body |
| MetaInput.BuildMetaInputIdempotent | src/strip_content_for_meta.py:21-26 | stripping twice is stripping once |
| MetaPost.NormalizeChoice | src/call_openai_meta.py:170-176 | a choice is kept exactly when the value is a string whose stripped form is non-empty and one of the candidates, and then it is that stripped form |
| MetaPost.NormalizeChoiceIdempotent | src/call_openai_meta.py:170-176 | a kept choice is kept again when chosen a second time |
| MetaPost.NormalizeChoiceList | src/call_openai_meta.py:178-192 | a non-list gives `None`; otherwise the result holds exactly the non-empty stripped strings of the list that are candidates, each once, in order of first occurrence, and is `None` instead of empty |
| MetaPost.ChosenShape | src/call_openai_meta.py:181-191 | the loop keeps the stripped strings that are candidates, clean, distinct and in order of first occurrence |
| MetaPost.ChoiceListOfCandidates | src/call_openai_meta.py:178-192 | a non-empty, clean, duplicate-free list of candidates comes back unchanged |
| MetaPost.StrItemsOfStrList | src/call_openai_meta.py:183-185 | the strings of a list of strings are that list |
| MetaPost.AddAllFresh | src/call_openai_meta.py:183-191 | values that are all new, non-empty and accepted are all appended, in order |
| MetaPost.ReadSections | src/call_openai_meta.py:130-134 | reading the sections succeeds only for a dict input, and then `url` and `meta` are the stored dicts (`{}` when falsy) |
| MetaPost.Prefer | src/call_openai_meta.py:140-150 | `out[k] = v or out.get(k)` sets `k` to `v` when truthy and to the earlier value otherwise, and changes no other key |
| MetaPost.PreferAllLookup | src/call_openai_meta.py:140-150 | for distinct keys assigned in turn, each ends up with its own value when truthy and the earlier value otherwise; other keys are untouched |
| MetaPost.DeterministicKeysOf | src/call_openai_meta.py:140-150 | the seven deterministic keys are assigned in the source's order, are distinct, and do not include `canonical_url` |
| MetaPost.DeterministicKeysDistinct | src/call_openai_meta.py:140-150 | the seven deterministic keys are distinct |
| MetaPost.ReadIdentity | src/call_openai_meta.py:135-168 | the organisation and author candidates are each clean and duplicate-free |
| MetaPost.SetCanonicalFrame | src/call_openai_meta.py:126-127 | setting the canonical URL changes no other key |
| MetaPost.SetCanonicalLookup | src/call_openai_meta.py:122-127 | the canonical URL becomes the first truthy source, and stays as it was when none is truthy |
| MetaPost.DeterministicAt | src/call_openai_meta.py:140-150 | each deterministic key holds its own value when truthy and the earlier value otherwise |
| MetaPost.DeterministicFrame | src/call_openai_meta.py:140-150 | keys other than the deterministic ones are untouched |
| MetaPost.PostprocessSteps | src/call_openai_meta.py:120-155 | both versions of `postprocess` read the same sections and fail exactly when those cannot be read; the current one adds only the identity step, which can raise on its own (the legacy root script's `postprocess` is call_openai_meta.py:95-123) |
| MetaPost.CanonicalPrecedence | src/call_openai_meta.py:122-127 | the canonical URL comes from `clean.canonical`, else `canonical_hint`, else `final`, else `original`; when all are falsy the model's value stays |
| MetaPost.DeterministicPrecedence | src/call_openai_meta.py:140-150 | each deterministic value wins over the model's whenever it is truthy; otherwise the model's value stays (`None` when there is none) |
| MetaPost.PublishedAtPrecedence | src/call_openai_meta.py:145 | `published_at` is the whitelisted `article:published_time` when truthy, else the meta hint when truthy, else the model's value |
| MetaPost.ProcessedFrame | call_openai_meta.py:95-123 | without the identity step, every key other than the canonical URL and the deterministic ones keeps the model's value |
| MetaPost.RestrictFrame | src/call_openai_meta.py:152-153 | the identity step changes only the organisation and the authors |
| MetaPost.OrganizationRestricted | src/call_openai_meta.py:152 | the organisation is the model's choice when, stripped, it is one of the organisation candidates, and `None` otherwise |
| MetaPost.AuthorsRestricted | src/call_openai_meta.py:153 | the authors are the model's choices among the author candidates, or `None` when none survives |
| MetaPost.PostprocessFrame | src/call_openai_meta.py:120-155 | keys the post-processing does not assign keep the model's values |
| MetaPost.Main | src/call_openai_meta.py:194-250 | the exit status is 0 or 1; only the parsed and the raw file of the item may change; success leaves a parsed file; a failure changes at most the raw file; without `--write-raw` success writes only the parsed file |
| MetaPost.RefusalKeepsRaw | src/call_openai_meta.py:218-222 | a refusal leaves the raw response and exit status 1 |
| MetaPost.SuccessWritesPostprocessed | src/call_openai_meta.py:218-228 | on success the call produced a parsed reply, post-processing succeeded, and the parsed file holds the post-processed reply |
| MetaPost.PathsDiffer | src/call_openai_meta.py:220-230 | the parsed and the raw file of an item are different files |
| Scf.Iter | src/call_openai_claims.py:38-46 | iterating succeeds exactly for a list, a string or a dict; a list yields its items, and only a list can yield a dict |
| Scf.ChoicesOf | src/call_openai_claims.py:44-48 | the choices returned are truthy or `{}`, and they are the stored choices whenever those are truthy |
| Scf.FieldsOf | src/call_openai_claims.py:39 | a group that is not a dict, or has no `fields` key, contributes no fields |
| Scf.FirstSelect | src/call_openai_claims.py:46-48 | the sub-field search finds nothing exactly when no sub-field is the wanted select |
| Scf.FindSelectChoices | src/call_openai_claims.py:35-49 | an export that is not a list gives `{}`; whatever is returned is truthy or `{}` |
| Scf.SearchGroupsShape | src/call_openai_claims.py:38-48 | a hit found by the group loop is truthy or `{}` |
| Scf.SearchFieldsShape | src/call_openai_claims.py:40-48 | a hit found by the field loop is truthy or `{}` |
| Scf.FirstSelectShape | src/call_openai_claims.py:46-48 | a hit found among sub-fields is truthy or `{}` |
| Scf.Dicts | src/call_openai_claims.py:41-47 | the candidates kept are all dicts |
| Scf.FirstSelectConcat | src/call_openai_claims.py:40-48 | searching two runs of candidates finds the first run's hit, else the second's |
| Scf.FirstSelectDicts | src/call_openai_claims.py:41-47 | skipping the non-dicts does not change which select is found |
| Scf.ContainerNotSelect | src/call_openai_claims.py:43-45 | a repeater or group field is never itself the select |
| Scf.SearchFieldsFlat | src/call_openai_claims.py:40-48 | the field loop returns the first matching select among the group's candidates in walk order (each field, then a container's sub-fields) |
| Scf.SearchGroupsFlat | src/call_openai_claims.py:38-48 | the group loop returns the first matching select among all groups' candidates |
| Scf.FindIsFirstCandidate | src/call_openai_claims.py:35-49 | when every group and container of the export can be read, the choices returned are those of the first select with that name in walk order, or `{}` when there is none |
| Scf.SearchFieldsConcat | src/call_openai_claims.py:40-48 | the field loop over two runs of fields keeps the first run's hit or error and reads the second run only when the first finds nothing |
| Scf.SearchGroupsConcat | src/call_openai_claims.py:38-48 | the group loop over two runs of groups keeps the first run's hit or error and reads the second run only when the first finds nothing |
| Scf.HitInGroup | src/call_openai_claims.py:38-48 | a hit within the first fields of a group is what the group loop returns from that group on, whatever its later fields hold |
| Scf.SearchGroupsStops | src/call_openai_claims.py:38-48 | the group loop returns the first select of the walk up to a hit, whatever follows the hit |
| Scf.FindStopsAtFirstSelect | src/call_openai_claims.py:35-49 | the choices returned are those of the first select with that name in walk order, as soon as the walk up to it can be read, whatever groups, fields or containers follow it |
| Scf.SelectDict | src/call_openai_claims.py:41-42 | a dict with that name, type "select" and truthy choices is the wanted select, is no container, and gives back its choices |
| Scf.HitBeforeNullFields | src/call_openai_claims.py:35-49 | an export whose first group holds the select and whose second group stores `fields` as null returns the choices, although reading the whole export would raise |
| Scf.FieldlessGroupSkipped | src/call_openai_claims.py:39 | a group that is not a dict or has no `fields` key is skipped |
| Scf.NullFieldsRaise | src/call_openai_claims.py:39-40 | a group whose `fields` is stored as null raises, whatever follows it |
| Scf.NonBlank | src/call_openai_claims.py:54 | the filter keeps exactly the keys that are not blank and keeps a duplicate-free list duplicate-free |
| Scf.EnumKeys | src/call_openai_meta.py:51-54 | the key list exists exactly when the search succeeded and its result is a dict or falsy; it is sorted, duplicate-free, and holds exactly the non-blank keys of the choices |
| Scf.EnumKeysDetermined | src/call_openai_meta.py:54 | any sorted, duplicate-free list of exactly the non-blank keys is the list returned |
| Scf.MissingFieldNoKeys | src/call_openai_meta.py:51-54 | with no select of that name the key list is empty |
| Scf.EnumsFromExport | src/call_openai_meta.py:49-60 | the four lists exist exactly when each of the four lookups succeeds, and each is sorted |
| Scf.ClaimTypeChoices | src/call_openai_claims.py:51-54 | the claim types are sorted, duplicate-free, and exactly the non-blank keys of the `claim_type` choices |
| Claims.ClaimText | src/call_openai_claims.py:56-59 | a normalised claim text is stripped and single-spaced, empty exactly when the input is blank, and has the same words as the input, in order |
| Claims.ClaimTextFixed | src/call_openai_claims.py:56-59 | a stripped, single-spaced text is already normal |
| Claims.ClaimTextIdempotent | src/call_openai_claims.py:56-59 | normalising twice is normalising once |
| Claims.Normalized | src/call_openai_claims.py:151-153 | there is one normalised claim per reply claim, at the same position, with the text normalised and the type stripped |
| Claims.NormalizedShape | src/call_openai_claims.py:152-153 | every normalised claim has an empty text or is tidy (normal non-empty text, stripped type) |
| Claims.NormalizedMembers | src/call_openai_claims.py:151-153 | a claim is among the normalised ones exactly when some reply claim normalises to it |
| Claims.FirstAt | src/call_openai_claims.py:157-159 | the first position of a claim holds it and no earlier position does |
| Claims.CleanFrom | src/call_openai_claims.py:149-160 | the loop only appends to the list it started from |
| Claims.CleanClaims | src/call_openai_claims.py:148-161 | the cleaned claims have non-empty normal texts and stripped types, and no (text, type) pair occurs twice |
| Claims.CleanClaimsMembers | src/call_openai_claims.py:149-160 | the cleaned claims are exactly the normalised claims with a non-empty text |
| Claims.CleanClaimsOrder | src/call_openai_claims.py:149-160 | the cleaned claims keep the order in which they first occur among the normalised claims |
| Claims.CleanClaimsLoop | src/call_openai_claims.py:149-160 | cleaning is the loop over the normalised claims from an empty list |
| Claims.CleanFromOrderAt | src/call_openai_claims.py:149-160 | two cleaned claims come in the order of their first occurrences |
| Claims.CleanFromShape | src/call_openai_claims.py:149-160 | from a tidy, duplicate-free list the loop keeps the list tidy and duplicate-free |
| Claims.CleanFromMembers | src/call_openai_claims.py:149-160 | the loop's result holds exactly what it started with and the remaining claims with a non-empty text |
| Claims.CleanFromFresh | src/call_openai_claims.py:154-160 | every claim the loop appends has a non-empty text and was not in the list before |
| Claims.CleanFromOrder | src/call_openai_claims.py:149-160 | appended claims come in the order of their first occurrence |
| Claims.CleanFromClean | src/call_openai_claims.py:149-160 | a list that is already tidy and duplicate-free goes through the loop unchanged |
| Claims.NormalizedTidy | src/call_openai_claims.py:152-153 | tidy claims are their own normal form |
| Claims.CleanClaimsIdempotent | src/call_openai_claims.py:148-161 | cleaning the cleaned claims changes nothing |
| Claims.ReadClaimJson | src/call_openai_claims.py:160 | a written claim reads back as itself |
| Claims.OutputRoundTrip | src/call_openai_claims.py:161 | the output has the single key `claims`, and reading its entries back gives the cleaned claims, one for one |
| Claims.Canonical | src/call_openai_claims.py:125-127 | the canonical URL is the first truthy of `url.clean.canonical`, `url.final`, `url.original`, else the (falsy) original |
| Claims.ReadParts | src/call_openai_claims.py:123-133 | reading the input succeeds only for a dict, then takes `url` and `content` as dicts (a falsy one as `{}`) and `meta` as stored (`{}` when missing); it always succeeds when those are dicts |
| Claims.PromptFields | src/call_openai_claims.py:125-135 | the prompt carries the canonical URL by precedence, the meta section as stored, and of the content only `extracted_text_full` (`""` when missing) |
| Claims.Main | src/call_openai_claims.py:101-187 | the exit status is 0 or 1; only the parsed and the raw file of the item may change; success leaves a parsed file; a failure changes at most the raw file; without `--write-raw` success writes only the parsed file |
| Claims.PathsDiffer | src/call_openai_claims.py:142-167 | the parsed and the raw file of an item are different files |
| Claims.RefusalKeepsRaw | src/call_openai_claims.py:141-144 | a refusal leaves the raw response, exit status 1, and the parsed file as it was |
| Claims.SuccessWritesCleaned | src/call_openai_claims.py:140-165 | on success the call produced parsed claims, and the parsed file holds exactly their cleaned form |
| Claims.MetaFileUnread | src/call_openai_claims.py:104-113 | the meta file named on the command line makes no difference to the run |
| ParseStage.AuthorNames | src/call_openai_parse.py:53-73 | the authors are always a list |
| ParseStage.FirstOrg | src/call_openai_parse.py:72 | taking the first organisation fails exactly when the candidates are truthy but neither a list nor a string |
| ParseStage.Canonical | src/call_openai_parse.py:61-66 | the canonical URL can be read exactly when `url.clean` is a dict or falsy |
| ParseStage.FromSections | src/call_openai_parse.py:53-79 | the fields can be read exactly when the canonical URL and the first organisation can, and the authors are then a list |
| ParseStage.DeterministicFields | src/call_openai_parse.py:48-51 | the fields can only be read from a dict input |
| ParseStage.NonDictSectionIgnored | src/call_openai_parse.py:49-51 | a `url`, `meta` or `content` section that is not a dict reads the same as `{}` |
| ParseStage.SectionReset | src/call_openai_parse.py:49-51 | replacing a non-dict section by `{}` leaves every section's reading unchanged |
| ParseStage.AuthorNamesCases | src/call_openai_parse.py:54-73 | a non-empty list of candidates is kept as it is; a falsy list gives way to a non-blank `author_hint`, stripped, else to `[]`; a truthy non-list gives `[]` |
| ParseStage.OrganizationCases | src/call_openai_parse.py:72 | the organisation is the first candidate when that is a non-blank string (stripped), and the site name when the candidates are falsy or the first is not a non-blank string; a non-empty dict of candidates raises |
| ParseStage.CanonicalPrecedence | src/call_openai_parse.py:41-66 | the canonical URL is the first non-blank source, stripped, in the order clean.canonical, canonical_hint, final, original, and `""` exactly when none is non-blank |
| ParseStage.OutputKeysOf | src/call_openai_parse.py:68-143 | the output has each of its twelve keys once, in a fixed order |
| ParseStage.OutputText | src/call_openai_parse.py:142-143 | the model's text is stored under both `xaio` and `claims` |
| ParseStage.OutputMode | src/call_openai_parse.py:75 | `content_mode` is always `"url"` |
| ParseStage.Main | src/call_openai_parse.py:112-170 | the exit status is 0 or 1; only the output and raw file of the item may change; success leaves an output file; a failure changes nothing; without `--write-raw` only the output file may change |
| ParseStage.PathsDiffer | src/call_openai_parse.py:146-150 | the output and raw file of an item are different files |
| ParseStage.CallFailureSwallowed | src/call_openai_parse.py:132-147 | the run succeeds exactly when the input loads and its fields can be read, whatever the model call does; the output then holds those fields and the model's text, `""` when the call failed |
| MergeXaio.Carry | src/merge_xaio.py:41-44 | a count key the content holds takes the content's value; without it the earlier value (or its absence) stays; no other key changes |
| MergeXaio.WithClaimsAndText | src/merge_xaio.py:32-38 | `claims` is the claims document's list (`[]` when it has none), `extracted_text_full` is the content's text (`""` when absent), and every other key reads as in the meta dict |
| MergeXaio.Merge | src/merge_xaio.py:28-44 | the merge succeeds exactly when the ai input is a dict, `{}.update(meta)` accepts the meta document and the claims document is a dict, and then it is the meta dict with claims, text and counts laid over it |
| MergeXaio.EmptyMetaMerges | src/merge_xaio.py:33 | an empty list or empty string as meta document merges as `{}`: no key other than the merge's own is set |
| MergeXaio.MetaKept | src/merge_xaio.py:33-44 | every key outside claims, text and the two counts keeps its meta value |
| MergeXaio.ClaimsCarried | src/merge_xaio.py:34 | `claims` holds the claims document's `claims` value, `[]` when that key is missing |
| MergeXaio.TextCarried | src/merge_xaio.py:37-38 | `extracted_text_full` holds the content's text, `""` when the content has none |
| MergeXaio.CountsCarried | src/merge_xaio.py:41-44 | `char_count` and `word_count` come from the content when it has them, else keep the meta's value or absence |
| MergeXaio.NonDictContent | src/merge_xaio.py:37 | a content section that is not a dict reads as `{}` |
| MergeXaio.Main | src/merge_xaio.py:14-51 | exit status is 0 or 1 and only the output file can change; inputs that do not load or merge give 1 and write nothing; once they merge, the output holds the dumped merge, and the status is 0 exactly when the merged `claims` value has a `len` (the report at line 50 raises otherwise, after the write at line 48) |
| MergeXaio.MergesIff | src/merge_xaio.py:28-44 | the inputs merge exactly when the three files load, the ai input and the claims document are dicts and the meta document updates a dict, and the merged dict is then the meta, the claims and the content laid over each other |
| MergeXaio.MainStatus | src/merge_xaio.py:34-51 | the status is 0 exactly when the inputs merge and the claims document's `claims` (`[]` when missing) is a string, a list or a dict |
| MergeXaio.NullClaimsFailAfterWrite | src/merge_xaio.py:48-50 | a claims document whose `claims` is null ends with status 1 although the merged file was written |
| MergeXaio.OutPathIsQueueOutput | src/merge_xaio.py:46-47 | the merge writes `<outdir>/<item>.xaio_parsed.json`, the very path the queue tests for the xaio stage and the plain-text parse stage writes |
| MergeXaio.ClaimsFileRoundTrip | src/merge_xaio.py:30-34 | the claims stage writes the path the queue tests for the claims stage, and the merged `claims` list reads back as exactly the cleaned claims the stage wrote, in order |
| BuffersQueue.MaxRows | src/buffer_panels_queue.py:235-241 | the scan's last row is the length of the longest fetched column |
| BuffersQueue.ViewAt | src/buffer_panels_queue.py:253-259 | every row from 1 on can be read |
| BuffersQueue.ShortColumnsReadBlank | src/buffer_panels_queue.py:254-259 | a cell past the end of its column reads as blank |
| BuffersQueue.TextShaShape | src/buffer_panels_queue.py:301-306 | the text hash is stripped, and it is empty exactly when the merged output does not load as a dict |
| BuffersQueue.FailureTextShape | src/buffer_panels_queue.py:339-341 | the recorded error is never empty: the child's error text when there is one, else the fixed message |
| BuffersQueue.DonePut | src/buffer_panels_queue.py:366-376 | the done write sets a status ending in `_DONE` |
| BuffersQueue.RunChildFailure | src/buffer_panels_queue.py:338-363 | a child that returns non-zero or leaves no output logs running, the child and `BUFFERS_FAILED` with the capped error, writes no marker and still counts |
| BuffersQueue.RunChildSuccess | src/buffer_panels_queue.py:365-387 | a successful run with a stripped, non-empty hash logs running, the child, the marker and `BUFFERS_DONE`, counts, and leaves its output fresh |
| BuffersQueue.VisitShape | src/buffer_panels_queue.py:261-387 | a row's log concerns the row, guards its markers, starts at most one child and counts exactly when it does; the row runs exactly when its xaio status is `XAIO_DONE`, the merged output exists and the buffers status is blank or failed |
| BuffersQueue.OnlyBlankOrFailedRun | src/buffer_panels_queue.py:308-313 | a row whose buffers status is neither blank nor `BUFFERS_FAILED` starts no child, changes no file and does not count |
| BuffersQueue.UnreadableTextNeverFresh | src/buffer_panels_queue.py:302-308 | a merged output that does not load as a dict gives an empty hash, so the row is never skipped as fresh |
| BuffersQueue.EmptyShaWritesNoMarker | src/buffer_panels_queue.py:365 | with an empty hash a run writes no marker and leaves the marker file as it was |
| BuffersQueue.MissingXaioFails | src/buffer_panels_queue.py:270-295 | a `XAIO_DONE` row without a merged output path, or whose merged output is missing, gets `BUFFERS_FAILED` and does not count |
| BuffersQueue.Scan | src/buffer_panels_queue.py:249-251 | the count of runs only grows and never passes `max_per_run` |
| BuffersQueue.Run | src/buffer_panels_queue.py:246-251 | at most `max_per_run` generator runs happen, and none when it is not positive |
| BuffersQueue.RunShape | src/buffer_panels_queue.py:219-390 | a run writes only to `XAIO_DONE` rows between `first_data_row` and the longest column, starts the generator only for blank or failed statuses, guards every marker, and counts exactly the generator runs, failed or successful |
| Panels.PanelKeysDistinct | src/call_openai_buffers.py:144-325 | the panel order lists twelve distinct keys, none of them one of the metadata keys `main` writes |
| Panels.FirstStr | src/call_openai_buffers.py:64-68 | the result is stripped; it is "" exactly when no argument is a non-blank string, and otherwise the stripped form of such an argument |
| Panels.FirstStrSkip | src/call_openai_buffers.py:64-68 | skipping a leading argument that is not a non-blank string keeps that reading of the result |
| Panels.TruncateKeepHead | src/call_openai_buffers.py:126-131 | the result is a prefix of the text; it is cut exactly when the limit is positive and the text longer, and then it has exactly `max_chars` characters |
| Panels.TabRunsShape | src/call_openai_buffers.py:74 | collapsing tab runs removes every tab, form feed and vertical tab, keeps every other character, and keeps a string blank exactly when it was |
| Panels.NoCarriageReturns | src/call_openai_buffers.py:72 | replacing every `\r` by `\n` leaves no `\r` |
| Panels.NormalizeWs | src/call_openai_buffers.py:71-75 | the result has no `\r` and no tab-like character, and is blank exactly when the input was |
| Panels.SentenceHasNoNewline | src/call_openai_buffers.py:119-122 | a cleaned sentence holds no line break |
| Panels.CleanAll | src/call_openai_buffers.py:117-123 | the final cleanup keeps at most as many pieces, each non-empty, stripped and single-spaced |
| Panels.CleanAllMembers | src/call_openai_buffers.py:117-123 | the cleaned sentences are exactly the cleaned forms of the non-blank pieces |
| Panels.SplitSentences | src/call_openai_buffers.py:78-123 | a blank text has no sentences; every sentence is non-empty, stripped and single-spaced |
| Panels.SentenceLines | src/call_openai_buffers.py:356-357 | one numbered line per sentence |
| Panels.ArticleWrapper | src/call_openai_buffers.py:328-370 | the facts count the sentences, use at most `max_chars` characters for a positive limit, report truncation exactly when the limit cut the text, and hash the used text |
| Panels.JoinedLines | src/call_openai_buffers.py:346-370 | joined with line breaks, the header and the numbered sentence lines split back into the same lines when no header value holds a line break |
| Panels.WrapperLines | src/call_openai_buffers.py:346-370 | the wrapper splits back into its eight header lines, then `s<i>: <sentence>` for each sentence numbered from 1 |
| Panels.AllPresent | src/call_openai_buffers.py:399-403 | the loop answers true exactly when every key holds a non-blank string |
| Panels.KeepPanelsLookup | src/call_openai_buffers.py:466 | the kept dict holds exactly the panel entries whose value is a non-blank string |
| Panels.KeptPanelsLookup | src/call_openai_buffers.py:466 | the resumed dict keeps exactly the existing non-blank panels |
| Panels.MetaFields | src/call_openai_buffers.py:469-480 | the metadata keys are assigned in the order written |
| Panels.MissingFrame | src/call_openai_buffers.py:483-485 | which panels are missing depends only on which keys are present |
| Panels.FillCalls | src/call_openai_buffers.py:483-500 | the loop asks the service for exactly the panels missing when it starts, in order; a call that raises stops it after a non-empty prefix of them |
| Panels.FillPersists | src/call_openai_buffers.py:483-500 | every answered call is followed by a write of the artifact, only the artifact changes on disk, and once written it holds the dict gathered so far |
| Panels.FillValues | src/call_openai_buffers.py:483-490 | keys outside the panel list and panels already present keep their values; when every call returned, each missing panel holds its stripped answer |
| Panels.StartDictLookup | src/call_openai_buffers.py:464-480 | before the loop the panel keys hold exactly the existing non-blank panels, the metadata keys hold the new metadata, and nothing else is there |
| Panels.ResumeUnfold | src/call_openai_buffers.py:449-503 | the early exit writes nothing and returns 0; a raise returns 1 after the loop; otherwise the final write follows the loop |
| Panels.ResumeSkipsIff | src/call_openai_buffers.py:449-462 | the run calls and writes nothing exactly when it takes the early exit, and then it succeeds with the files untouched |
| Panels.ResumeCallsMissing | src/call_openai_buffers.py:483-489 | the service is asked for exactly the panels the existing artifact lacks, in panel order; a raise stops after a non-empty prefix and gives exit code 1 |
| Panels.ResumeOutput | src/call_openai_buffers.py:464-503 | after a successful run the artifact holds the existing non-blank panels unchanged, the stripped answer for every other panel, the new metadata and no other key, and the output file holds it |
| Panels.ResumePersists | src/call_openai_buffers.py:499-503 | whatever the outcome only the output file changes, every call is followed by a write unless it raised, and after a raise the file holds every answer received before it |
| Panels.GenerateCases | src/call_openai_buffers.py:432-523 | a merged output that is missing, not JSON or not a dict, or an existing artifact that loads as a non-dict, gives exit code 1 and touches nothing; otherwise the run resumes |
| Panels.RerunSkips | src/call_openai_buffers.py:449-462 | running again after a complete run, without `--force`, calls nothing and writes nothing, when the artifact reads back as written and every panel came back non-blank |
| WpUploadQueue.GetCell | src/wp_upload_queue.py:48-51 | a cell read is always stripped |
| WpUploadQueue.GetCellAgainstReadCell | src/wp_upload_queue.py:48-51 | for a non-negative index `get_cell` reads what plain indexing reads (blank past the end), while a negative index reads blank where indexing would count from the end or raise |
| WpUploadQueue.DropScheme | src/wp_upload_queue.py:58 | a leading `https://` or else `http://` is removed, and nothing else changes |
| WpUploadQueue.NormalizeDomain | src/wp_upload_queue.py:56-60 | a normalised domain never holds a slash |
| WpUploadQueue.SchemeUrl | src/wp_upload_queue.py:58-59 | removing the scheme of `scheme + host + "/" + path` leaves `host + "/" + path` |
| WpUploadQueue.NormalizeDomainOfUrl | src/wp_upload_queue.py:56-60 | an http or https URL normalises to its host |
| WpUploadQueue.NoSlashNoScheme | src/wp_upload_queue.py:58 | a text without a slash has no scheme to remove |
| WpUploadQueue.NormalizeDomainOfHost | src/wp_upload_queue.py:56-60 | a stripped host without a slash normalises to itself |
| WpUploadQueue.NormalizeDomainIdempotent | src/wp_upload_queue.py:56-60 | normalising a stripped normalised domain again changes nothing |
| WpUploadQueue.Text | src/wp_upload_queue.py:342-352 | a text field read from the parsed file is stripped |
| WpUploadQueue.Contributor | src/wp_upload_queue.py:349-350 | the contributor is stripped (the first author when `author_names` is a non-empty list, blank otherwise) |
| WpUploadQueue.ContentMode | src/wp_upload_queue.py:343 | the content mode is stripped and never blank |
| WpUploadQueue.OrgName | src/wp_upload_queue.py:348 | the organisation name is stripped |
| WpUploadQueue.OrgDomain | src/wp_upload_queue.py:344 | the organisation domain holds no slash |
| WpUploadQueue.BuildPayload | src/wp_upload_queue.py:342-376 | the payload's content mode is non-blank and stripped, its domain has no slash, its URL, body and organisation are stripped, and it carries the topics it was given |
| WpUploadQueue.OrgNameFallback | src/wp_upload_queue.py:345-348 | a falsy `organization_name` falls back to the stripped site name |
| WpUploadQueue.OrgNameGiven | src/wp_upload_queue.py:348 | a non-empty string `organization_name` is taken, stripped |
| WpUploadQueue.RawText | src/wp_upload_queue.py:286-291 | the response text kept for the error is at most 4000 characters |
| WpUploadQueue.PayloadTopics | src/wp_upload_queue.py:354-363 | with the simple topic mode the posted topics number at most `topics_max` (at least one slot), are distinct and are never stopwords |
| WpUploadQueue.PostOutcome | src/wp_upload_queue.py:385-409 | a POST whose body is a dict (or whose status is 300 or more) ends without an exception and counts; the row ends WP_FAILED with the error cut to 49000 characters exactly when the status is 300 or more or `ok` is falsy, and WP_DONE with the post id otherwise |
| WpUploadQueue.PostLog | src/wp_upload_queue.py:378-409 | the POST step touches only its row, counts exactly when it raised nothing, and then settles the row exactly once |
| WpUploadQueue.SettledLog | src/wp_upload_queue.py:378-404 | the running mark, the POST and the final mark all concern the same row |
| WpUploadQueue.VisitShape | src/wp_upload_queue.py:336-409 | a visit keeps the same guarantees when the parsed file is missing, invalid or not a dict (then it raises before touching the sheet) |
| WpUploadQueue.Views | src/wp_upload_queue.py:319-326 | the row views line up one to one with the sheet rows, each read with `get_cell` |
| WpUploadQueue.Loop | src/wp_upload_queue.py:317-409 | from any point of the scan, the count only grows and stays within `max_per_run` |
| WpUploadQueue.LoopShape | src/wp_upload_queue.py:319-409 | from any sheet row on, the scan touches only eligible rows and counts exactly the rows settled WP_DONE or WP_FAILED |
| WpUploadQueue.LoopVisitShape | src/wp_upload_queue.py:336-409 | the same guarantee at a row that is visited |
| WpUploadQueue.Run | src/wp_upload_queue.py:317-321 | a run never settles more than `max_per_run` rows, and with a cap that is not positive it writes and posts nothing |
| WpUploadQueue.RunShape | src/wp_upload_queue.py:298-412 | a run writes cells and posts only for eligible rows below the header (XAIO_DONE, a path, and a blank or WP_FAILED upload status), and its count is the number of rows it settled |
| Topics.CapsKeptMembers | src/wp_upload_queue.py:185-189 | a phrase is counted exactly when it is, once stripped, at least four characters long |
| Topics.TokensKept | src/wp_upload_queue.py:193-196 | a token is counted exactly when it is not a stopword |
| Topics.KeptTerms | src/wp_upload_queue.py:183-196 | a counted term is a stripped phrase of at least four characters or a token that is not a stopword, and nothing else |
| Topics.CountedCons | src/wp_upload_queue.py:184-196 | a dict with one more entry in front holds that entry's term and everything the rest holds |
| Topics.TalliedTerms | src/wp_upload_queue.py:189-196 | counting a term adds that term to the dict's terms and removes none |
| Topics.CountTerms | src/wp_upload_queue.py:185-196 | after the loops the dict holds exactly the terms it started with and the terms counted |
| Topics.TalliedCountOf | src/wp_upload_queue.py:189-196 | counting a term adds one to its count and changes no other count |
| Topics.TalliedDistinct | src/wp_upload_queue.py:189-196 | counting keeps one entry per term |
| Topics.CountOfEntry | src/wp_upload_queue.py:184-196 | with one entry per term, an entry's count is its term's count |
| Topics.CountCountOf | src/wp_upload_queue.py:185-196 | the loops add to each term's count the number of times it occurs among the terms counted |
| Topics.CountDistinct | src/wp_upload_queue.py:185-196 | the loops keep one entry per term |
| Topics.TallyIsOccurrences | src/wp_upload_queue.py:184-196 | the frequency dict has one entry per term and each entry's count is the number of times that term occurs |
| Topics.InsertPerm | src/wp_upload_queue.py:199 | inserting an entry into the sorted list adds exactly that entry |
| Topics.InsertBounded | src/wp_upload_queue.py:199 | inserting keeps every count under a bound that the entry and the list respect |
| Topics.InsertDescending | src/wp_upload_queue.py:199 | inserting into a list sorted by falling count keeps it sorted |
| Topics.SortByCountShape | src/wp_upload_queue.py:199 | the sorted items are a permutation of the dict's entries, by falling count |
| Topics.SortedOccurrences | src/wp_upload_queue.py:184-199 | after sorting every entry still carries its term's number of occurrences |
| Topics.SortByCountTerms | src/wp_upload_queue.py:199 | sorting keeps exactly the dict's terms |
| Topics.Title | src/wp_upload_queue.py:203 | title-casing keeps the length |
| Topics.Unhyphen | src/wp_upload_queue.py:203 | replacing hyphens keeps the length and leaves no hyphen |
| Topics.Labels | src/wp_upload_queue.py:201-203 | there is one label per sorted entry, in the same order, each the label of its term |
| Topics.PickSkipStep | src/wp_upload_queue.py:204-207 | a stopword label or one already taken is skipped without changing what the rest of the loop guarantees |
| Topics.PickTakeStep | src/wp_upload_queue.py:208-210 | taking a new label keeps the loop's guarantee, including stopping once `k` are taken |
| Topics.PickShape | src/wp_upload_queue.py:200-210 | the selection takes at most `k` labels (one when `k` is below one), distinct and never stopwords, only from the labels; when it takes fewer, every label that is not a stopword was taken |
| Topics.PickOrder | src/wp_upload_queue.py:200-210 | the selection keeps the topics in the order the labels first occur |
| Topics.FirstIndexAtMost | src/wp_upload_queue.py:206 | a label occurring at position n first occurs at n or earlier |
| Topics.TopicsSimple | src/wp_upload_queue.py:179-180 | an empty text has no topics |
| Topics.LabelsOfCounted | src/wp_upload_queue.py:201-203 | every label is the label of a counted term |
| Topics.CountedLabel | src/wp_upload_queue.py:201-203 | every counted term's label is among the labels |
| Topics.TopicsSimpleShape | src/wp_upload_queue.py:173-212 | the topics are at most `k` (one when `k` is below one), distinct, never stopwords, each the label of a counted term; when fewer than the bound are returned, every counted term's label is a stopword or among them |
| Topics.TopicsByCount | src/wp_upload_queue.py:199-210 | the topics come by falling count: each topic's count is at least that of every topic after it |
| Pipeline.StagesDistinct | src/pipeline_run.py:32-37 | the four stage names capture, condense, ai, wp are pairwise distinct |
| Pipeline.Known | src/pipeline_run.py:64-66 | every requested name is one of the known stages |
| Pipeline.KnownMembers | src/pipeline_run.py:64-66 | a stage is requested exactly when it is known and some comma-separated part of `--stages`, stripped, equals its name |
| Pipeline.Pick | src/pipeline_run.py:75-77 | the stages the loop visits are exactly those of `STAGES` that were requested, never more than `STAGES` holds |
| Pipeline.PickInOrder | src/pipeline_run.py:75-77 | with a duplicate-free stage list the visited stages are distinct and keep the stage list's order |
| Pipeline.PickByMembership | src/pipeline_run.py:75-77 | which stages are visited depends only on which names were requested, not on their order or repetition |
| Pipeline.RunStages | src/pipeline_run.py:75-92 | the stages started are a prefix of the stages to run |
| Pipeline.RunStagesOutcome | src/pipeline_run.py:75-102 | the loop returns 0 exactly when every stage returns 0, and then has run all of them; otherwise it returns the code of the last stage started, every earlier one having returned 0 |
| Pipeline.NoStagesRequested | src/pipeline_run.py:64-70 | the exit status is 2 with nothing run exactly when no part of `--stages` names a known stage |
| Pipeline.MainOrder | src/pipeline_run.py:64-92 | a run starts only requested stages, each at most once, in `STAGES` order |
| Pipeline.MainOutcome | src/pipeline_run.py:72-102 | with a non-empty request the status is 0 exactly when every requested stage returns 0, all of them having run; otherwise it is the failing stage's code |
| Pipeline.RequestOrderIrrelevant | src/pipeline_run.py:46-102 | two `--stages` arguments naming the same set of known stages give the same run and status |
| EnvBootstrap.StripChar | src/env_bootstrap.py:106 | `s.strip(c)` leaves no `c` at either end and leaves a string without `c` at its ends unchanged |
| EnvBootstrap.ParseLine | src/env_bootstrap.py:96-108 | a line the fallback parser accepts yields a non-empty, stripped key without `=` and a value with no `'` at either end |
| EnvBootstrap.DropExport | src/env_bootstrap.py:100-101 | dropping a leading `export ` never introduces an `=` |
| EnvBootstrap.KeyPart | src/env_bootstrap.py:104-105 | the key before the first `=` is stripped and holds no `=` |
| EnvBootstrap.Unquote | src/env_bootstrap.py:106 | the value after stripping whitespace, then `"`, then `'` has no `'` at either end |
| EnvBootstrap.ParseSkips | src/env_bootstrap.py:97-103 | blank lines, `#` comments and lines without `=` set nothing |
| EnvBootstrap.ParseAssignment | src/env_bootstrap.py:96-108 | a line `k=v` with a plain key and plain value is read back as exactly the setting `k`, `v` |
| EnvBootstrap.ParseExported | src/env_bootstrap.py:100-101 | `export k=v` is read as the same setting as `k=v` |
| EnvBootstrap.Parsed | src/env_bootstrap.py:96 | each line of the file is parsed on its own, in file order |
| EnvBootstrap.LoadSettings | src/env_bootstrap.py:109-112 | loading never removes a variable, and without override never changes one already set |
| EnvBootstrap.LoadFirstWins | src/env_bootstrap.py:111-112 | without override a variable already set keeps its value and an unset one takes the first value the file gives it |
| EnvBootstrap.LoadLastWins | src/env_bootstrap.py:109-110 | with override the last value the file gives a variable wins, and a variable the file does not set keeps its value |
| EnvBootstrap.LoadEnvFile | src/env_bootstrap.py:77-113 | the result flag is true exactly when the file exists; a missing file changes nothing; otherwise every line is applied with the given override mode |
| EnvBootstrap.SetDefault | src/env_bootstrap.py:116-118 | only the named variable can change; a non-blank value stays; an unset or blank one becomes the default |
| EnvBootstrap.RequireEnv | src/env_bootstrap.py:168-176 | succeeds exactly when the variable holds a non-blank value, returning it stripped; otherwise fails with the missing-variable message |
| EnvBootstrap.RequireAfterDefault | src/env_bootstrap.py:116-118 | after a non-blank default the variable always satisfies `require_env`, as the earlier value when there was one, else the default |
| EnvBootstrap.FillFrom | src/env_bootstrap.py:142-145 | the fill-in loop over the candidate files never changes a variable already set |
| EnvBootstrap.DefaultPath | src/env_bootstrap.py:148-163 | only the named variable can change, and only when it is unset or blank |
| EnvBootstrap.Prepared | src/env_bootstrap.py:132-133 | the two start-up defaults keep every non-blank variable and leave the override path unchanged |
| EnvBootstrap.LoadOverride | src/env_bootstrap.py:137-139 | the override file sets each variable it names to the last value it gives, and nothing else changes |
| EnvBootstrap.PathDefaults | src/env_bootstrap.py:147-163 | the config and service-account defaults keep every non-blank variable |
| EnvBootstrap.LoadRepoEnv | src/env_bootstrap.py:121-165 | after a load the loader is marked loaded, and a repeated call without `force` changes nothing |
| EnvBootstrap.LoadKeepsSet | src/env_bootstrap.py:121-165 | a variable already set to a non-blank value keeps it through a load unless the override file sets it |
| EnvBootstrap.OverrideWins | src/env_bootstrap.py:135-145 | a non-blank value the override file gives a variable is its value after the load |
| Dedupe.NoDupTail | src/reduce4ai.py:110-118 | removing the head of a duplicate-free list keeps it duplicate-free, and the head does not recur |
| Dedupe.Stripped | src/reduce4ai.py:114 | each value is the stripped form of the item at the same position |
| Dedupe.FirstIndex | src/reduce4ai.py:115 | the position returned holds the value and no earlier position does |
| Dedupe.AddAll | src/reduce4ai.py:112-117 | the loop only appends: the list it starts from is a prefix of the result, which grows by at most one element per value |
| Dedupe.AddAllAppends | src/reduce4ai.py:115-117 | every element the loop appends is non-empty, accepted, one of the values and not already present |
| Dedupe.AddAllMembers | src/reduce4ai.py:115-117 | a string ends up in the output exactly when it was there already or is a non-empty, accepted value |
| Dedupe.AddAllKeepsShape | src/reduce4ai.py:115-117 | starting from a clean duplicate-free list with stripped values, the output stays clean and duplicate-free |
| Dedupe.AddAllOrder | src/reduce4ai.py:112-117 | appended elements appear in the order of their first occurrences among the values |
| Dedupe.AddAllSaturated | src/reduce4ai.py:115 | when every acceptable value is already present the loop changes nothing |
| Dedupe.AddAllAgain | src/reduce4ai.py:112-117 | running the loop twice over the same values adds nothing the second time |
| Dedupe.AddAllConcat | src/reduce4ai.py:113 | looping over `xs + ys` is looping over `xs` and then over `ys` |
| Dedupe.Dedup | src/reduce4ai.py:110-118 | the result is duplicate-free and clean, holds exactly the non-empty stripped items, and keeps the order of their first occurrences |
| Dedupe.StrItemsConcat | src/reduce4ai.py:113-114 | the string items of a concatenation are those of each part, in order |
| Dedupe.StrItemsMembers | src/reduce4ai.py:114 | a string is among the string items exactly when the list holds it |
| Dedupe.UniqueStrings | src/reduce4ai.py:107-118 | a non-list gives `[]`; a list gives its non-empty stripped strings, each once, in order of first occurrence, all clean |
| Dedupe.UniqueStringsMembers | src/reduce4ai.py:107-118 | a string is in the result exactly when it is non-empty and the strip of some string item |
| Dedupe.UniqueStringsSkips | src/reduce4ai.py:114 | inserting a non-string item anywhere does not change the result |
| StrOrder.StrLeTotal | src/call_openai_claims.py:54 | any two strings compare one way or the other |
| StrOrder.StrLeAntisymmetric | src/call_openai_claims.py:54 | only equal strings compare both ways |
| StrOrder.StrLeTrans | src/call_openai_claims.py:54 | the string order is transitive |
| StrOrder.Insert | src/call_openai_claims.py:54 | inserting adds exactly the one element, as a multiset |
| StrOrder.InsertSorted | src/call_openai_claims.py:54 | inserting into a sorted list keeps it sorted |
| StrOrder.Sort | src/call_openai_claims.py:54 | `sorted` returns a permutation of its input |
| StrOrder.SortShape | src/call_openai_claims.py:54 | the result is in ascending order and holds the same strings, as often |
| StrOrder.SortedUnique | src/call_openai_claims.py:54 | two sorted lists holding the same strings as often are equal, so the sort's result is the only possible one |
| StrOrder.SortedHeadLe | src/call_openai_claims.py:54 | the head of a sorted list is below every element |
| StrOrder.NoDupCount | src/call_openai_meta.py:54 | in a duplicate-free list each string occurs once or not at all |
| StrOrder.DupCount | src/call_openai_meta.py:54 | a string that occurs at two positions counts at least twice |
| StrOrder.NoDupPerm | src/call_openai_meta.py:54 | a permutation of a duplicate-free list is duplicate-free |
| StrOrder.SameMembersPerm | src/call_openai_meta.py:54 | two duplicate-free lists with the same members are permutations of each other |

## Left out

- Unicode case mapping: `PyText.Upper`, `PyText.Lower` and `Topics.Title` map ASCII letters only. Python's `str.upper()`, `str.lower()` and `str.title()` cover all of Unicode. This matters for status matching in the queues, for `domain_of` (src/reduce4ai.py:93) and for the lower-cased text in `topics_simple`. Status tokens and column letters are ASCII, so those uses are unaffected.
- JSON numbers: `JsonValue.Json` holds integers only (`JNum(int)`). Floats are not modelled, and neither is their truthiness or their `str()` text.
- `JsonValue.Repr`: `str()` and `repr()` of non-string values are written without escaping quotes or control characters inside nested strings.
- Path resolution: `Path.expanduser().resolve()` is taken as the identity, so paths are treated as already absolute and resolved. This affects src/ai_queue.py:344, src/buffer_panels_queue.py:290, src/reduce4ai.py:267, 273 and 333, and the override-file comparison at src/env_bootstrap.py:143. Directory creation (`mkdir(parents=True)`) always succeeds.
- File-write failures: `write_text` always succeeds, so a disk error between an output and its marker is not modelled. The marker-after-output ordering is proved on the write log instead.
- Agent extraction exceptions: `extract_meta_and_text` is an oracle that always returns a value. An exception inside it, which would send the row to `FAILED` (src/agent.py:481, 540-547), is not modelled; fetch failures are.
- Retries and swallowed status writes: the `tenacity` decorators, with their backoff timing and attempt caps, are left out. So is the exception fallback of `safe_update_row` / `safe_update_cells`, which logs and swallows a write that still fails. Every status write is modelled as succeeding.
- Duplicate header letters: when two configured columns resolve to the same letter, a Python dict of cell updates keeps only the last value. The model keeps both cells in the order written.
- `python-dotenv`: `EnvBootstrap` models only the built-in fallback parser of `_load_env_file`, the path taken when `python-dotenv` is not installed. The library's own parser and its quoting rules are left out.
- `EnvBootstrap`: `path_from_env` (src/env_bootstrap.py:179-186) is not modelled, because it only resolves a path and checks that it exists.
- The clock: `now_iso()`, `time.monotonic()` and the day used in file names are one value per run (a parameter), not a value per call.
- Foreign libraries, as oracles: Playwright and `requests` fetching, BeautifulSoup, readability and `dateparser` in `agent.py`; `urlparse` / `urlencode` in `clean_url` and `domain_of`; the sentence-splitting regular expression in `split_sentences`; the regular-expression scans of `topics_simple`; the Pydantic models and OpenAI calls of the `call_openai_*` scripts. The model proves what the code around each one does with its result.
- The sqlite state store of `agent.py` is a map from URL hash to record. Connection handling and SQL are not modelled.
- Subprocesses: a child script is its return code, its standard output and error, and the files it leaves, all given as parameters. Timeouts and signals are not modelled.
- Not modelled at all: `topics_openai`, `wp_headers`, `load_config` / YAML parsing, logging (`logging_utils.py`), the prompt texts, the text the scripts `print` (the `len` taken by the closing report of `merge_xaio.py` is modelled, because it decides the exit status), and the legacy root `call_openai_claims.py`, which does not parse. For the legacy root `call_openai_meta.py` only `postprocess`, `find_select_choices` and the enum export are modelled (`MetaPost.LegacyPostprocess`, `Scf`), not its `main`.
- `MergeXaio.Merge`: `out.update(meta)` is modelled for a dict, a list of pairs and a string. A pair whose key is a number, a boolean or `None` is stored under the text `json.dumps` writes for that key. So the keys `1` and `"1"` become one key, where Python keeps two until the dump writes both.
- Parallel writes and crashes mid-run are out of scope: the model is sequential, with one event after another.

## Findings

| source | as written | input that shows it | evidently intended | confidence | as-written member | corrected member |
|---|---|---|---|---|---|---|
| src/condense_queue.py:188-195 | `run_reduce4ai` reports the text after "Wrote AI envelope:" on standard output, else "ok"; the queue writes that message into the AI input path column (src/condense_queue.py:256-261). `reduce4ai.py` logs its "Wrote AI envelope" line through `logging`, which goes to standard error, so a successful run prints nothing on standard output | a child that returns 0 with blank standard output, the normal case | the column receives the path of the envelope `reduce4ai.py` wrote (`<outdir>/<stem>.ai_input.json`), which the AI queue later reads | not executed | CondenseQueue.SilentChildReportsOk | CondenseQueue.FixedReportsEnvelope |

=== FILE: agent.dfy ===
/** `run_once` of the capture agent: one pass over the sheet that fetches
    each new URL, writes its capture as JSON, records the outcome in the
    local state store and mirrors it on the sheet. */
module Agent {
  import opened Wrappers
  import opened PyText
  import opened JsonValue
  import opened Sheet
  import opened Fingerprint
  import opened PyPath
  import opened Drivers

  datatype Config = Config(
    spreadsheetUrl: string,
    worksheetName: string,
    firstDataRow: int,
    colUrl: string,
    colStatus: string,
    colProcessedAt: string,
    colFinalUrl: string,
    colMethod: string,
    colJsonPath: string,
    colTitle: string,
    colError: string,
    outputDir: string,
    maxPerRun: int,
    tryHttpFirst: bool)

  // ---------- the state store ----------

  /** A row of the sqlite `items` table, keyed by the URL hash; the nullable
      columns are options. */
  datatype Item = Item(
    urlOriginal: string,
    status: string,
    processedAt: Option<string>,
    urlFinal: Option<string>,
    via: Option<string>,
    jsonPath: Option<string>,
    error: Option<string>)

  type Store = map<string, Item>

  /** `seen and seen["status"] == "DONE"` */
  predicate SeenDone(store: Store, h: string) {
    h in store && store[h].status == "DONE"
  }

  /** `db_upsert_start`: a new hash is inserted as `FETCHING`; on a
      conflict only `url_original` changes, so the old status stays. */
  function UpsertStart(store: Store, url: string, h: string): (r: Store)
    ensures h in r && r[h].urlOriginal == url
    ensures h !in store ==> r[h].status == "FETCHING"
    ensures h in store ==> r[h] == store[h].(urlOriginal := url)
    ensures forall k :: k != h ==> (k in r <==> k in store) && (k in store ==> r[k] == store[k])
  {
    if h in store then store[h := store[h].(urlOriginal := url)]
    else store[h := Item(url, "FETCHING", None, None, None, None, None)]
  }

  /** `db_finish`: an `UPDATE` of the row with that hash, if there is one. */
  function Finish(store: Store, h: string, status: string, now: string,
                  urlFinal: string, via: string, jsonPath: string, error: string): (r: Store)
    ensures h in store ==> h in r && r[h] == Item(store[h].urlOriginal, status, Some(now), Some(urlFinal), Some(via), Some(jsonPath), Some(error))
    ensures h !in store ==> r == store
    ensures forall k :: k != h ==> (k in r <==> k in store) && (k in store ==> r[k] == store[k])
  {
    if h in store then store[h := Item(store[h].urlOriginal, status, Some(now), Some(urlFinal), Some(via), Some(jsonPath), Some(error))]
    else store
  }

  /** Every hash that was `DONE` still is, with the same record. */
  ghost predicate DoneKept(before: Store, after: Store) {
    forall k :: SeenDone(before, k) ==> k in after && after[k] == before[k]
  }

  lemma DoneKeptTrans(a: Store, b: Store, c: Store)
    requires DoneKept(a, b) && DoneKept(b, c)
    ensures DoneKept(a, c)
  {
  }

  // ---------- fetching ----------

  /** What `requests.get` returned: status code, content type, body and
      the URL after redirects. */
  datatype HttpResponse = HttpResponse(status: int, contentType: string, text: string, url: string)

  /** A fetched page and the URL it ended at. */
  datatype Page = Page(html: string, finalUrl: string)

  predicate IsHtml(contentType: string) {
    Infix("text/html", contentType) || Infix("application/xhtml+xml", contentType)
  }

  /** `fetch_http`: the response is refused for a 4xx/5xx status or a
      content type that is neither HTML nor XHTML. */
  function FetchHttp(resp: Result<HttpResponse>): (r: Result<Page>)
    ensures r.Success? <==> resp.Success? && resp.value.status < 400 && IsHtml(resp.value.contentType)
    ensures r.Success? ==> r.value == Page(resp.value.text, resp.value.url)
  {
    match resp
    case Failure(e) => Failure(e)
    case Success(p) =>
      if p.status >= 400 then Failure("RequestException: HTTP " + IntToString(p.status))
      else if !IsHtml(p.contentType) then Failure("RequestException: Non-HTML content-type: " + p.contentType)
      else Success(Page(p.text, p.url))
  }

  /** The page and how it was obtained. */
  datatype Fetched = Fetched(via: string, page: Page)

  /** The collaborators of a run: the hash, the two fetchers after their
      retries, the HTML extraction, the JSON serialiser, and the clock. */
  datatype Env = Env(
    sha12: string -> string,
    http: string -> Result<HttpResponse>,
    browser: string -> Result<Page>,
    extract: Page -> Json,
    mainText: Page -> string,
    canonical: Page -> string,
    dump: Json -> string,
    now: string,
    day: string)

  /** The fetch block: HTTP first when configured, the browser when that
      is off or HTTP failed for any reason. */
  function FetchPage(cfg: Config, env: Env, url: string): (r: Result<Fetched>)
    ensures r.Success? ==> r.value.via in {"http", "browser"}
    ensures r.Success? && r.value.via == "http" <==> cfg.tryHttpFirst && FetchHttp(env.http(url)).Success?
    ensures r.Success? && r.value.via == "http" ==> r.value.page == FetchHttp(env.http(url)).value
    ensures r.Success? && r.value.via == "browser" ==> env.browser(url) == Success(r.value.page)
    ensures r.Failure? <==> (!cfg.tryHttpFirst || FetchHttp(env.http(url)).Failure?) && env.browser(url).Failure?
  {
    var viaHttp := if cfg.tryHttpFirst then FetchHttp(env.http(url)) else Failure("");
    if viaHttp.Success? then Success(Fetched("http", viaHttp.value))
    else match env.browser(url)
      case Success(p) => Success(Fetched("browser", p))
      case Failure(e) => Failure(e)
  }

  // ---------- the capture ----------

  /** The payload dict, from its sections. */
  function Document(ingest: Json, urls: Json, fetch: Json, page: Json, content: Json): Json {
    JObj([
      Field("schema_version", JStr("1.0")),
      Field("ingest", ingest),
      Field("url", urls),
      Field("fetch", fetch),
      Field("page", page),
      Field("content", content)])
  }

  function Ingest(cfg: Config, env: Env, row: int): Json {
    JObj([
      Field("source", JStr("google_sheets")),
      Field("spreadsheet_url", JStr(cfg.spreadsheetUrl)),
      Field("worksheet", JStr(cfg.worksheetName)),
      Field("row", JNum(row)),
      Field("seen_at", JStr(env.now))])
  }

  function Urls(url: string, finalUrl: string, canonical: string): Json {
    JObj([Field("original", JStr(url)), Field("final", JStr(finalUrl)), Field("canonical", JStr(canonical))])
  }

  function FetchInfo(via: string, now: string): Json {
    JObj([Field("method", JStr(via)), Field("fetched_at", JStr(now))])
  }

  function Content(text: string, html: string): Json {
    JObj([Field("text", JStr(text)), Field("raw_html", JStr(html))])
  }

  /** The document written to `<output_dir>/<day>/<hash>.json`. */
  function Capture(cfg: Config, env: Env, row: int, url: string, f: Fetched): Json {
    Document(
      Ingest(cfg, env, row),
      Urls(url, f.page.finalUrl, env.canonical(f.page)),
      FetchInfo(f.via, env.now),
      env.extract(f.page),
      Content(env.mainText(f.page), f.page.html))
  }

  /** Each section sits under its own key. */
  lemma DocumentSections(ingest: Json, urls: Json, fetch: Json, page: Json, content: Json)
    ensures var d := Document(ingest, urls, fetch, page, content);
      Get(d, "ingest") == ingest && Get(d, "url") == urls && Get(d, "fetch") == fetch &&
      Get(d, "page") == page && Get(d, "content") == content
  {
    var d := Document(ingest, urls, fetch, page, content);
    DocumentKey(ingest, urls, fetch, page, content, 1);
    DocumentKey(ingest, urls, fetch, page, content, 2);
    DocumentKey(ingest, urls, fetch, page, content, 3);
    DocumentKey(ingest, urls, fetch, page, content, 4);
    DocumentKey(ingest, urls, fetch, page, content, 5);
  }

  /** The section at position `i` is found under its key. */
  lemma DocumentKey(ingest: Json, urls: Json, fetch: Json, page: Json, content: Json, i: nat)
    requires 1 <= i <= 5
    ensures var d := Document(ingest, urls, fetch, page, content);
      Get(d, d.fields[i].key) == d.fields[i].val
  {
    var fs := Document(ingest, urls, fetch, page, content).fields;
    assert forall j :: i < j < |fs| ==> |fs[j].key| != |fs[i].key|;
    LookupLast(fs, i);
  }

  lemma IngestRow(cfg: Config, env: Env, row: int)
    ensures Get(Ingest(cfg, env, row), "row") == JNum(row)
  {
    LookupLast(Ingest(cfg, env, row).fields, 3);
  }

  lemma UrlsFields(url: string, finalUrl: string, canonical: string)
    ensures Get(Urls(url, finalUrl, canonical), "original") == JStr(url)
    ensures Get(Urls(url, finalUrl, canonical), "final") == JStr(finalUrl)
  {
    LookupLast(Urls(url, finalUrl, canonical).fields, 0);
    LookupLast(Urls(url, finalUrl, canonical).fields, 1);
  }

  lemma FetchInfoMethod(via: string, now: string)
    ensures Get(FetchInfo(via, now), "method") == JStr(via)
  {
    LookupLast(FetchInfo(via, now).fields, 0);
  }

  lemma ContentHtml(text: string, html: string)
    ensures Get(Content(text, html), "raw_html") == JStr(html)
  {
  }

  /** The capture records where it came from and keeps the raw HTML. */
  lemma CaptureRecordsSource(cfg: Config, env: Env, row: int, url: string, f: Fetched)
    ensures var c := Capture(cfg, env, row, url, f);
      Get(Get(c, "url"), "original") == JStr(url) &&
      Get(Get(c, "url"), "final") == JStr(f.page.finalUrl) &&
      Get(Get(c, "ingest"), "row") == JNum(row) &&
      Get(Get(c, "fetch"), "method") == JStr(f.via) &&
      Get(Get(c, "content"), "raw_html") == JStr(f.page.html)
  {
    var ingest := Ingest(cfg, env, row);
    var urls := Urls(url, f.page.finalUrl, env.canonical(f.page));
    var fetch := FetchInfo(f.via, env.now);
    var content := Content(env.mainText(f.page), f.page.html);
    DocumentSections(ingest, urls, fetch, env.extract(f.page), content);
    IngestRow(cfg, env, row);
    UrlsFields(url, f.page.finalUrl, env.canonical(f.page));
    FetchInfoMethod(f.via, env.now);
    ContentHtml(env.mainText(f.page), f.page.html);
  }

  /** `safe_str(payload["page"].get("title", ""))`; extraction always
      stores a string title. */
  function Title(page: Json): (t: string)
    ensures IsTrimmed(t)
    ensures Get(page, "title").JStr? ==> t == Strip(Get(page, "title").s)
  {
    match Get(page, "title")
    case JStr(s) => Strip(s)
    case _ => ""
  }

  function OutPath(cfg: Config, env: Env, h: string): string {
    JoinPath(JoinPath(cfg.outputDir, env.day), h + ".json")
  }

  /** `seen.get(k) or ""` */
  function OrBlank(v: Option<string>): string {
    v.GetOr("")
  }

  // ---------- one row ----------

  /** What one row did: its log, the store and files afterwards, and
      whether it counts toward `processed`. */
  datatype Visited = Visited(events: seq<Event>, store: Store, fs: Fs, counted: bool)

  function ResyncPut(cfg: Config, row: int, item: Item): Event {
    Put(row, [Cell(cfg.colStatus, "DONE"),
              Cell(cfg.colProcessedAt, OrBlank(item.processedAt)),
              Cell(cfg.colJsonPath, OrBlank(item.jsonPath))])
  }

  function ClaimPut(cfg: Config, env: Env, row: int): Event {
    Put(row, [Cell(cfg.colStatus, "FETCHING"), Cell(cfg.colProcessedAt, env.now), Cell(cfg.colError, "")])
  }

  function FailedPut(cfg: Config, env: Env, row: int, err: string): Event {
    Put(row, [Cell(cfg.colStatus, "FAILED"), Cell(cfg.colProcessedAt, env.now), Cell(cfg.colError, CapError(err))])
  }

  function DonePut(cfg: Config, env: Env, row: int, f: Fetched, path: string, title: string): Event {
    Put(row, [Cell(cfg.colStatus, "DONE"),
              Cell(cfg.colProcessedAt, env.now),
              Cell(cfg.colFinalUrl, f.page.finalUrl),
              Cell(cfg.colMethod, f.via),
              Cell(cfg.colJsonPath, path),
              Cell(cfg.colTitle, title),
              Cell(cfg.colError, "")])
  }

  /** After the claim: the fetch either fails, recording `FAILED`, or
      succeeds, writing the capture and recording `DONE`. */
  function Settle(cfg: Config, env: Env, row: int, url: string, h: string, store: Store, fs: Fs,
                  fetched: Result<Fetched>): Visited
  {
    match fetched
    case Failure(err) =>
      Visited([ClaimPut(cfg, env, row), FailedPut(cfg, env, row, err)],
              Finish(store, h, "FAILED", env.now, "", "", "", err), fs, false)
    case Success(f) =>
      var path := OutPath(cfg, env, h);
      var capture := Capture(cfg, env, row, url, f);
      Visited([ClaimPut(cfg, env, row), Wrote(path),
               DonePut(cfg, env, row, f, path, Title(env.extract(f.page)))],
              Finish(store, h, "DONE", env.now, f.page.finalUrl, f.via, path, ""),
              fs[path := env.dump(capture)], true)
  }

  /** The body of the row loop once the row is eligible and the cap has
      not been reached. */
  function Visit(cfg: Config, env: Env, row: int, url: string, store: Store, fs: Fs): Visited {
    var h := env.sha12(url);
    if SeenDone(store, h) then Visited([ResyncPut(cfg, row, store[h])], store, fs, false)
    else Settle(cfg, env, row, url, h, UpsertStart(store, url, h), fs, FetchPage(cfg, env, url))
  }

  /** The number of files written. */
  function Writes(events: seq<Event>): nat
    decreases |events|
  {
    if events == [] then 0
    else Writes(events[..|events| - 1]) + (if events[|events| - 1].Wrote? then 1 else 0)
  }

  lemma {:induction false} WritesConcat(a: seq<Event>, b: seq<Event>)
    ensures Writes(a + b) == Writes(a) + Writes(b)
    decreases |b|
  {
    if b == [] {
      assert a + b == a;
    } else {
      var init := b[..|b| - 1];
      assert (a + b)[..|a + b| - 1] == a + init;
      WritesConcat(a, init);
    }
  }

  /** What every visit guarantees: it concerns its own row, it counts
      exactly when it wrote one capture, and it leaves captured hashes
      alone. */
  ghost predicate VisitLog(v: Visited, row: int, before: Store) {
    RowsAre(v.events, row) && Writes(v.events) == (if v.counted then 1 else 0) && DoneKept(before, v.store)
  }

  /** A hash already `DONE` in the store is not fetched again: the sheet
      gets the stored status, time and path back, and nothing else
      changes. */
  lemma DoneHashResynced(cfg: Config, env: Env, row: int, url: string, store: Store, fs: Fs)
    requires SeenDone(store, env.sha12(url))
    ensures var v := Visit(cfg, env, row, url, store, fs);
      var item := store[env.sha12(url)];
      v.events == [Put(row, [Cell(cfg.colStatus, "DONE"),
                             Cell(cfg.colProcessedAt, OrBlank(item.processedAt)),
                             Cell(cfg.colJsonPath, OrBlank(item.jsonPath))])] &&
      v.store == store && v.fs == fs && !v.counted
  {
  }

  /** A failed fetch leaves the row `FAILED` with the error cut to the
      cell limit on the sheet and kept whole in the store. */
  lemma FetchFailureRecorded(cfg: Config, env: Env, row: int, url: string, store: Store, fs: Fs)
    requires !SeenDone(store, env.sha12(url))
    requires FetchPage(cfg, env, url).Failure?
    ensures var v := Visit(cfg, env, row, url, store, fs);
      var h := env.sha12(url);
      var err := FetchPage(cfg, env, url).error;
      v.events[|v.events| - 1] == Put(row, [Cell(cfg.colStatus, "FAILED"), Cell(cfg.colProcessedAt, env.now), Cell(cfg.colError, CapError(err))]) &&
      |CapError(err)| <= ErrorCap &&
      h in v.store && v.store[h].status == "FAILED" && v.store[h].error == Some(err) &&
      v.fs == fs && !v.counted
  {
  }

  /** A successful fetch writes the capture, and the sheet and the store
      both point at it. */
  lemma CaptureRecorded(cfg: Config, env: Env, row: int, url: string, store: Store, fs: Fs)
    requires !SeenDone(store, env.sha12(url))
    requires FetchPage(cfg, env, url).Success?
    ensures var v := Visit(cfg, env, row, url, store, fs);
      var h := env.sha12(url);
      var f := FetchPage(cfg, env, url).value;
      var path := OutPath(cfg, env, h);
      v.counted && path in v.fs && v.fs[path] == env.dump(Capture(cfg, env, row, url, f)) &&
      h in v.store && v.store[h].status == "DONE" && v.store[h].jsonPath == Some(path) &&
      v.events[|v.events| - 1].Put? && v.events[|v.events| - 1].cells[0] == Cell(cfg.colStatus, "DONE") &&
      v.events[|v.events| - 1].cells[4] == Cell(cfg.colJsonPath, path)
  {
  }

  lemma SettleShape(cfg: Config, env: Env, row: int, url: string, h: string, store: Store, fs: Fs, fetched: Result<Fetched>)
    requires h in store && store[h].status != "DONE"
    ensures VisitLog(Settle(cfg, env, row, url, h, store, fs, fetched), row, store)
  {
    var v := Settle(cfg, env, row, url, h, store, fs, fetched);
    var e := v.events;
    if fetched.Success? {
      assert e[..2] == e[..|e| - 1] && e[..1] == e[..2][..1] && e[..1][..0] == [];
      assert Writes(e[..1]) == 0;
      assert Writes(e[..2]) == 1;
    } else {
      assert e[..1] == e[..|e| - 1] && e[..1][..0] == [];
      assert Writes(e[..1]) == 0;
    }
  }

  lemma VisitShape(cfg: Config, env: Env, row: int, url: string, store: Store, fs: Fs)
    ensures VisitLog(Visit(cfg, env, row, url, store, fs), row, store)
  {
    var h := env.sha12(url);
    if SeenDone(store, h) {
      var e := Visit(cfg, env, row, url, store, fs).events;
      assert e[..0] == [];
    } else {
      var s1 := UpsertStart(store, url, h);
      SettleShape(cfg, env, row, url, h, s1, fs, FetchPage(cfg, env, url));
      assert DoneKept(store, s1);
    }
  }

  // ---------- the row loop ----------

  /** The url and status columns as 0-based indices. */
  datatype Indices = Indices(url: int, status: int)

  function ColumnIndices(cfg: Config): Indices {
    Indices(ColumnNumber(cfg.colUrl) - 1, ColumnNumber(cfg.colStatus) - 1)
  }

  /** The stripped URL and the stripped, upper-cased status of sheet row
      `i`; `None` when reading the row or a cell raises `IndexError`. */
  datatype RowView = RowView(url: string, status: string)

  function ReadView(ix: Indices, row: seq<string>): Option<RowView> {
    match ReadCell(row, ix.url)
    case None => None
    case Some(u) =>
      match ReadCell(row, ix.status)
      case None => None
      case Some(s) => Some(RowView(Strip(u), Upper(Strip(s))))
  }

  /** The rows as the loop reads them: `views[k]` is sheet row `k + 1`. */
  function Views(ix: Indices, rows: seq<seq<string>>): (views: seq<Option<RowView>>)
    ensures |views| == |rows|
    ensures forall k :: 0 <= k < |rows| ==> views[k] == ReadView(ix, rows[k])
  {
    seq(|rows|, k requires 0 <= k < |rows| => ReadView(ix, rows[k]))
  }

  /** `all_vals[i - 1]` read as a view; `None` when either raises. */
  function ViewAt(views: seq<Option<RowView>>, i: int): Option<RowView> {
    match PyItem(views, i - 1)
    case None => None
    case Some(v) => v
  }

  /** A row is worked on unless its URL is blank or its status is already
      `DONE` or `FETCHING`. */
  predicate Eligible(v: RowView) {
    v.url != [] && v.status !in {"DONE", "FETCHING"}
  }

  /** A cleared status or a `FAILED` one is retried. */
  lemma RetriedStatuses(url: string)
    requires url != []
    ensures Eligible(RowView(url, "")) && Eligible(RowView(url, "FAILED"))
    ensures !Eligible(RowView(url, "DONE")) && !Eligible(RowView(url, "FETCHING"))
  {
  }

  /** The result of a whole run. */
  datatype Summary = Summary(events: seq<Event>, processed: nat, store: Store, fs: Fs, crash: Option<string>)

  /** Reading the views is reading the sheet row: a row `get_all_values`
      does not have, or a cell index beyond the start, raises. */
  lemma ViewAtRow(ix: Indices, rows: seq<seq<string>>, i: int)
    ensures ViewAt(Views(ix, rows), i) == (if PyItem(rows, i - 1).None? then None else ReadView(ix, PyItem(rows, i - 1).value))
  {
  }

  /** The row loop from sheet row `i` with `processed` rows done so far.
      Ineligible rows are skipped before the cap is looked at. */
  function Loop(cfg: Config, views: seq<Option<RowView>>, visit: (int, string, Store, Fs) -> Visited,
                i: int, processed: nat, store: Store, fs: Fs): Summary
    decreases |views| + 1 - i
  {
    if i > |views| then Summary([], processed, store, fs, None)
    else match ViewAt(views, i)
      case None => Summary([], processed, store, fs, Some(IndexError))
      case Some(view) =>
        if !Eligible(view) then Loop(cfg, views, visit, i + 1, processed, store, fs)
        else if processed >= cfg.maxPerRun then Summary([], processed, store, fs, None)
        else
          var one := visit(i, view.url, store, fs);
          var rest := Loop(cfg, views, visit, i + 1, Bump(processed, one.counted), one.store, one.fs);
          Summary(one.events + rest.events, rest.processed, rest.store, rest.fs, rest.crash)
  }

  predicate EligibleAt(views: seq<Option<RowView>>, row: int, lo: int) {
    lo <= row <= |views| && ViewAt(views, row).Some? && Eligible(ViewAt(views, row).value)
  }

  predicate EligibleRowsOnly(views: seq<Option<RowView>>, events: seq<Event>, lo: int) {
    forall k :: 0 <= k < |events| && (events[k].Put? || events[k].Ran?) ==> EligibleAt(views, events[k].row, lo)
  }

  /** What the scan guarantees: only eligible rows are written, `processed`
      grew by the number of captures written, and captured hashes keep
      their records. */
  ghost predicate ScanLog(views: seq<Option<RowView>>, s: Summary, lo: int, processed: nat, store: Store) {
    EligibleRowsOnly(views, s.events, lo) && s.processed == processed + Writes(s.events) && DoneKept(store, s.store)
  }

  lemma EligibleConcat(views: seq<Option<RowView>>, a: seq<Event>, b: seq<Event>, i: int)
    requires EligibleAt(views, i, i)
    requires RowsAre(a, i) && EligibleRowsOnly(views, b, i + 1)
    ensures EligibleRowsOnly(views, a + b, i)
  {
    var e := a + b;
    forall k | 0 <= k < |e| && (e[k].Put? || e[k].Ran?) ensures EligibleAt(views, e[k].row, i) {
      if k >= |a| { assert e[k] == b[k - |a|]; } else { assert e[k] == a[k]; }
    }
  }

  lemma ScanEndStep(cfg: Config, views: seq<Option<RowView>>, visit: (int, string, Store, Fs) -> Visited,
                    i: int, processed: nat, store: Store, fs: Fs)
    requires i > |views| || ViewAt(views, i).None? || (Eligible(ViewAt(views, i).value) && processed >= cfg.maxPerRun)
    ensures ScanLog(views, Loop(cfg, views, visit, i, processed, store, fs), i, processed, store)
  {
    assert Loop(cfg, views, visit, i, processed, store, fs).events == [];
  }

  lemma ScanSkipStep(cfg: Config, views: seq<Option<RowView>>, visit: (int, string, Store, Fs) -> Visited,
                     i: int, processed: nat, store: Store, fs: Fs)
    requires i <= |views| && ViewAt(views, i).Some? && !Eligible(ViewAt(views, i).value)
    requires ScanLog(views, Loop(cfg, views, visit, i + 1, processed, store, fs), i + 1, processed, store)
    ensures ScanLog(views, Loop(cfg, views, visit, i, processed, store, fs), i, processed, store)
  {
  }

  lemma ScanVisitStep(cfg: Config, views: seq<Option<RowView>>, visit: (int, string, Store, Fs) -> Visited,
                      i: int, processed: nat, store: Store, fs: Fs)
    requires i <= |views| && ViewAt(views, i).Some? && Eligible(ViewAt(views, i).value) && processed < cfg.maxPerRun
    requires var one := visit(i, ViewAt(views, i).value.url, store, fs);
      VisitLog(one, i, store) &&
      ScanLog(views, Loop(cfg, views, visit, i + 1, Bump(processed, one.counted), one.store, one.fs),
              i + 1, Bump(processed, one.counted), one.store)
    ensures ScanLog(views, Loop(cfg, views, visit, i, processed, store, fs), i, processed, store)
  {
    var one := visit(i, ViewAt(views, i).value.url, store, fs);
    var rest := Loop(cfg, views, visit, i + 1, Bump(processed, one.counted), one.store, one.fs);
    EligibleConcat(views, one.events, rest.events, i);
    WritesConcat(one.events, rest.events);
    DoneKeptTrans(store, one.store, rest.store);
  }

  lemma {:induction false} LoopShape(cfg: Config, views: seq<Option<RowView>>, visit: (int, string, Store, Fs) -> Visited,
                                     i: int, processed: nat, store: Store, fs: Fs)
    requires forall n, u, s, f :: VisitLog(visit(n, u, s, f), n, s)
    ensures ScanLog(views, Loop(cfg, views, visit, i, processed, store, fs), i, processed, store)
    decreases |views| + 1 - i
  {
    if i > |views| || ViewAt(views, i).None? {
      ScanEndStep(cfg, views, visit, i, processed, store, fs);
    } else {
      var view := ViewAt(views, i).value;
      if !Eligible(view) {
        LoopShape(cfg, views, visit, i + 1, processed, store, fs);
        ScanSkipStep(cfg, views, visit, i, processed, store, fs);
      } else if processed >= cfg.maxPerRun {
        ScanEndStep(cfg, views, visit, i, processed, store, fs);
      } else {
        var one := visit(i, view.url, store, fs);
        assert VisitLog(one, i, store);
        LoopShape(cfg, views, visit, i + 1, Bump(processed, one.counted), one.store, one.fs);
        ScanVisitStep(cfg, views, visit, i, processed, store, fs);
      }
    }
  }

  /** The loop body of `run_once`. */
  function Visitor(cfg: Config, env: Env): (int, string, Store, Fs) -> Visited {
    (n: int, u: string, s: Store, f: Fs) => Visit(cfg, env, n, u, s, f)
  }

  /** `run_once`: the scan from `first_data_row`. At most `max_per_run`
      pages are captured, and nothing is written at all when the cap is
      not positive. */
  function Run(cfg: Config, env: Env, rows: seq<seq<string>>, store: Store, fs: Fs): (r: Summary)
    ensures cfg.maxPerRun >= 0 ==> r.processed <= cfg.maxPerRun
    ensures cfg.maxPerRun <= 0 ==> r.processed == 0 && r.events == []
  {
    LoopCap(cfg, Views(ColumnIndices(cfg), rows), Visitor(cfg, env), cfg.firstDataRow, 0, store, fs);
    Loop(cfg, Views(ColumnIndices(cfg), rows), Visitor(cfg, env), cfg.firstDataRow, 0, store, fs)
  }

  lemma {:induction false} LoopCap(cfg: Config, views: seq<Option<RowView>>, visit: (int, string, Store, Fs) -> Visited,
                                   i: int, processed: nat, store: Store, fs: Fs)
    ensures var r := Loop(cfg, views, visit, i, processed, store, fs);
      processed <= r.processed <= CapFrom(processed, cfg.maxPerRun) &&
      (processed >= cfg.maxPerRun ==> r.processed == processed && r.events == [])
    decreases |views| + 1 - i
  {
    if i <= |views| && ViewAt(views, i).Some? {
      var view := ViewAt(views, i).value;
      if !Eligible(view) {
        LoopCap(cfg, views, visit, i + 1, processed, store, fs);
      } else if processed < cfg.maxPerRun {
        var one := visit(i, view.url, store, fs);
        LoopCap(cfg, views, visit, i + 1, Bump(processed, one.counted), one.store, one.fs);
      }
    }
  }

  /** A run writes the sheet only for eligible rows, `processed` is the
      number of captures it wrote, and a URL already captured according to
      the store keeps its record: it is never fetched again. */
  lemma RunShape(cfg: Config, env: Env, rows: seq<seq<string>>, store: Store, fs: Fs)
    ensures ScanLog(Views(ColumnIndices(cfg), rows), Run(cfg, env, rows, store, fs), cfg.firstDataRow, 0, store)
  {
    forall n, u, s, f ensures VisitLog(Visitor(cfg, env)(n, u, s, f), n, s) {
      VisitShape(cfg, env, n, u, s, f);
    }
    LoopShape(cfg, Views(ColumnIndices(cfg), rows), Visitor(cfg, env), cfg.firstDataRow, 0, store, fs);
  }
}

=== FILE: ai_queue.dfy ===
/** `ai_queue.py`: for every sheet row whose AI status is `AI_READY`, run the
    meta, claims and merge (xaio) stages in that order, skipping a stage whose
    output is fresh for the envelope's text hash and abandoning the row at the
    first stage that fails. At most `max_per_run` rows complete per run. */
module AiQueue {
  import opened Wrappers
  import opened PyText
  import opened JsonValue
  import opened Sheet
  import opened Fingerprint
  import opened PyPath
  import opened Jobs
  import MetaInput
  import opened Drivers

  datatype Config = Config(
    firstDataRow: int,
    maxPerRun: int,
    colUrl: string,
    colAiStatus: string,
    colAiInputPath: string,
    colAiError: string,
    colMetaStatus: string,
    colMetaPath: string,
    colMetaError: string,
    colClaimsStatus: string,
    colClaimsPath: string,
    colClaimsError: string,
    colXaioStatus: string,
    colXaioPath: string,
    colXaioError: string,
    outAiMetaDir: string,
    outMetaDir: string,
    outClaimsDir: string,
    outXaioDir: string)

  datatype Stage = Meta | Claims | Xaio

  /** The position of a stage in the fixed order meta, claims, xaio. */
  function Rank(s: Stage): nat {
    match s
    case Meta => 0
    case Claims => 1
    case Xaio => 2
  }

  /** The status-token prefix of a stage. */
  function Label(s: Stage): string {
    match s
    case Meta => "META"
    case Claims => "CLAIMS"
    case Xaio => "XAIO"
  }

  function StatusCol(cfg: Config, s: Stage): string {
    match s
    case Meta => cfg.colMetaStatus
    case Claims => cfg.colClaimsStatus
    case Xaio => cfg.colXaioStatus
  }

  function PathCol(cfg: Config, s: Stage): string {
    match s
    case Meta => cfg.colMetaPath
    case Claims => cfg.colClaimsPath
    case Xaio => cfg.colXaioPath
  }

  function ErrorCol(cfg: Config, s: Stage): string {
    match s
    case Meta => cfg.colMetaError
    case Claims => cfg.colClaimsError
    case Xaio => cfg.colXaioError
  }

  /** The outside world of one run: `json.loads`, `json.dumps`, and the
      child process of each (row, stage). */
  datatype Env = Env(
    parse: string -> Option<Json>,
    dump: Json -> string,
    run: (int, Stage) -> Proc)

  /** `content_sha`: `str(content.get("sha256") or "")` of a dict-valued
      `content`, else the empty string. */
  function ContentSha(ai: seq<Field>): (r: string)
    ensures !Truthy(Get(GetField(ai, "content"), "sha256")) ==> r == ""
    ensures Get(GetField(ai, "content"), "sha256").JStr? ==> r == Get(GetField(ai, "content"), "sha256").s
  {
    var content := GetField(ai, "content");
    Str(Or(Get(content, "sha256"), JStr("")))
  }

  /** The file name stem shared by every artefact of a row: the envelope's
      stem with ".ai_input" removed. */
  function Base(aiPath: string): string {
    ReplaceAll(Stem(aiPath), ".ai_input", "")
  }

  function MetaInputPath(cfg: Config, aiPath: string): string {
    JoinPath(cfg.outAiMetaDir, Base(aiPath) + ".meta_input.json")
  }

  function OutputPath(cfg: Config, aiPath: string, s: Stage): string {
    match s
    case Meta => JoinPath(cfg.outMetaDir, Base(aiPath) + ".meta_parsed.json")
    case Claims => JoinPath(cfg.outClaimsDir, Base(aiPath) + ".claims_parsed.json")
    case Xaio => JoinPath(cfg.outXaioDir, Base(aiPath) + ".xaio_parsed.json")
  }

  /** Whether an existing meta input can be reused: it parses as a dict and
      records the same, non-empty content hash as the envelope. */
  predicate MetaInputReusable(env: Env, fs: Fs, ai: seq<Field>, path: string) {
    path in fs &&
    var parsed := env.parse(fs[path]);
    parsed.Some? && parsed.value.JObj? &&
    ContentSha(ai) != "" && ContentSha(parsed.value.fields) == ContentSha(ai)
  }

  /** `ensure_meta_input`: keep a fresh meta input, otherwise (re)write it
      from the envelope. Reading an existing file that is not valid JSON, or
      is JSON but not a dict, raises. */
  function EnsureMetaInput(cfg: Config, env: Env, fs: Fs, ai: seq<Field>, aiPath: string): (r: Result<Fs>)
    ensures var path := MetaInputPath(cfg, aiPath);
      MetaInputReusable(env, fs, ai, path) ==> r == Success(fs)
    ensures var path := MetaInputPath(cfg, aiPath);
      r.Success? && !MetaInputReusable(env, fs, ai, path) ==>
        r.value == fs[path := env.dump(JObj(MetaInput.BuildMetaInput(ai)))]
    ensures var path := MetaInputPath(cfg, aiPath);
      r.Failure? <==> path in fs && (env.parse(fs[path]).None? || !env.parse(fs[path]).value.JObj?)
  {
    var path := MetaInputPath(cfg, aiPath);
    if path in fs && env.parse(fs[path]).None? then Failure("JSONDecodeError: " + path)
    else if path in fs && !env.parse(fs[path]).value.JObj? then Failure("AttributeError: meta input is not a dict")
    else if MetaInputReusable(env, fs, ai, path) then Success(fs)
    else Success(fs[path := env.dump(JObj(MetaInput.BuildMetaInput(ai)))])
  }

  /** Whether the stage has to run: its status is not `<STAGE>_DONE` or its
      output is not fresh for `sha`. */
  predicate StageDue(status: string, s: Stage, fs: Fs, output: string, sha: string) {
    status != Label(s) + "_DONE" || !ShouldSkip(fs, output, sha)
  }

  datatype StageResult = StageResult(events: seq<Event>, fs: Fs, ok: bool)

  /** `<STAGE>_RUNNING`, with the error cleared and the output path set. */
  function RunningPut(cfg: Config, rownum: int, s: Stage, output: string): Event {
    Put(rownum, [Cell(StatusCol(cfg, s), Label(s) + "_RUNNING"), Cell(ErrorCol(cfg, s), ""), Cell(PathCol(cfg, s), output)])
  }

  /** `<STAGE>_FAILED` with the error text cut to 49000 characters. */
  function FailedPut(cfg: Config, rownum: int, s: Stage, p: Proc): Event {
    Put(rownum, [Cell(StatusCol(cfg, s), Label(s) + "_FAILED"), Cell(ErrorCol(cfg, s), CapError(ErrorText(p)))])
  }

  function DonePut(cfg: Config, rownum: int, s: Stage, output: string): (e: Event)
    ensures IsDonePut(e)
  {
    var v := Label(s) + "_DONE";
    assert v[|v| - 5..] == "_DONE";
    Put(rownum, [Cell(StatusCol(cfg, s), v), Cell(PathCol(cfg, s), output), Cell(ErrorCol(cfg, s), "")])
  }

  /** One stage block: the child's output lands at `output`; then either the
      failure is recorded, or the marker and the done status are written. */
  function RunStage(cfg: Config, env: Env, rownum: int, s: Stage, output: string, sha: string, fs: Fs): StageResult {
    var p := env.run(rownum, s);
    var written := if p.output.Some? then fs[output := p.output.value] else fs;
    var start := [RunningPut(cfg, rownum, s, output), Ran(rownum, Label(s), p.rc)];
    if p.rc != 0 then
      StageResult(start + [FailedPut(cfg, rownum, s, p)], written, false)
    else
      var marks := if sha != [] then [Marked(MarkerPath(output), sha)] else [];
      StageResult(start + marks + [DonePut(cfg, rownum, s, output)], MarkStage(written, output, sha), true)
  }

  /** A stage block succeeds iff its child returns 0; a failure is recorded
      as `<STAGE>_FAILED` with the capped error, and a success marks the
      output fresh before setting `<STAGE>_DONE`. */
  lemma RunStageShape(cfg: Config, env: Env, rownum: int, s: Stage, output: string, sha: string, fs: Fs)
    ensures var r := RunStage(cfg, env, rownum, s, output, sha, fs);
      var p := env.run(rownum, s);
      && (r.ok <==> p.rc == 0)
      && RowsAre(r.events, rownum) && MarkersGuarded(r.events) && FailuresLast(r.events)
      && (SomeFailed(r.events) <==> !r.ok)
      && RunsOnly(r.events, {Label(s)})
      && |r.events| >= 2 && r.events[1] == Ran(rownum, Label(s), p.rc)
      && (!r.ok ==> r.events == [RunningPut(cfg, rownum, s, output), Ran(rownum, Label(s), p.rc), FailedPut(cfg, rownum, s, p)])
      && (r.ok && sha != [] ==> r.events[2] == Marked(MarkerPath(output), sha) && IsDonePut(r.events[3]))
  {
    var r := RunStage(cfg, env, rownum, s, output, sha, fs);
    var p := env.run(rownum, s);
    var start := RunningPut(cfg, rownum, s, output);
    var ran := Ran(rownum, Label(s), p.rc);
    if p.rc != 0 {
      assert r.events == [start, ran, FailedPut(cfg, rownum, s, p)];
      FailedLog(start, ran, FailedPut(cfg, rownum, s, p), rownum);
    } else {
      var marks := if sha != [] then [Marked(MarkerPath(output), sha)] else [];
      var done := DonePut(cfg, rownum, s, output);
      assert r.events == [start, ran] + marks + [done];
      DoneLog(start, ran, marks, done, rownum);
    }
  }

  /** After a successful stage with a trimmed, non-empty hash, its output
      (when the child wrote it) is fresh. */
  lemma RunStageMarksFresh(cfg: Config, env: Env, rownum: int, s: Stage, output: string, sha: string, fs: Fs)
    requires env.run(rownum, s).rc == 0 && env.run(rownum, s).output.Some?
    requires sha != [] && IsTrimmed(sha)
    ensures ShouldSkip(RunStage(cfg, env, rownum, s, output, sha, fs).fs, output, sha)
  {
    var p := env.run(rownum, s);
    MarkThenSkip(fs[output := p.output.value], output, sha);
  }

  /** The statuses a row is judged by, read as `safe(...)` and, for the
      status columns, upper-cased. */
  datatype RowView = RowView(aiStatus: string, aiInputPath: string, metaStatus: string, claimsStatus: string, xaioStatus: string)

  function MapUpperSafe(c: Option<string>): Option<string> {
    if c.None? then None else Some(Upper(Safe(c.value)))
  }

  /** The 0-based indices of the columns `main` reads, computed once before
      the scan. */
  datatype Indices = Indices(url: int, aiStatus: int, aiInput: int, meta: int, claims: int, xaio: int)

  function ColumnIndices(cfg: Config): Indices {
    Indices(ColumnIndex(cfg.colUrl), ColumnIndex(cfg.colAiStatus), ColumnIndex(cfg.colAiInputPath),
            ColumnIndex(cfg.colMetaStatus), ColumnIndex(cfg.colClaimsStatus), ColumnIndex(cfg.colXaioStatus))
  }

  /** Read the row's cells; a negative column index beyond the row's start
      raises `IndexError`. */
  function ReadRow(ix: Indices, row: seq<string>): (r: Option<RowView>)
    ensures r.Some? ==> Some(r.value.aiStatus) == MapUpperSafe(ReadCell(row, ix.aiStatus))
  {
    var url := ReadCell(row, ix.url);
    var ai := ReadCell(row, ix.aiStatus);
    var input := ReadCell(row, ix.aiInput);
    var meta := ReadCell(row, ix.meta);
    var claims := ReadCell(row, ix.claims);
    var xaio := ReadCell(row, ix.xaio);
    if url.None? || ai.None? || input.None? || meta.None? || claims.None? || xaio.None? then None
    else Some(RowView(Upper(Safe(ai.value)), Safe(input.value), Upper(Safe(meta.value)),
                      Upper(Safe(claims.value)), Upper(Safe(xaio.value))))
  }

  /** The AI status of sheet row `rownum` (1-based, with Python's negative
      indexing for rows at or before 0), if it can be read. */
  function AiStatusOf(ix: Indices, rows: seq<seq<string>>, rownum: int): Option<string> {
    var row := PyItem(rows, rownum - 1);
    if row.None? then None else MapUpperSafe(ReadCell(row.value, ix.aiStatus))
  }

  function StatusFor(view: RowView, s: Stage): string {
    match s
    case Meta => view.metaStatus
    case Claims => view.claimsStatus
    case Xaio => view.xaioStatus
  }

  function Next(s: Stage): Stage
    requires s != Xaio
  {
    if s == Meta then Claims else Xaio
  }

  /** The stage labels from `s` on in the fixed order. */
  function LabelsFrom(s: Stage): set<string> {
    match s
    case Meta => {"META", "CLAIMS", "XAIO"}
    case Claims => {"CLAIMS", "XAIO"}
    case Xaio => {"XAIO"}
  }

  /** Every child the log starts belongs to one of `labels`. */
  predicate RunsOnly(events: seq<Event>, labels: set<string>) {
    forall i :: 0 <= i < |events| && events[i].Ran? ==> events[i].stage in labels
  }

  lemma RunsOnlyConcat(a: seq<Event>, b: seq<Event>, labels: set<string>)
    requires RunsOnly(a, labels) && RunsOnly(b, labels)
    ensures RunsOnly(a + b, labels)
  {
    forall i | 0 <= i < |a + b| && (a + b)[i].Ran? ensures (a + b)[i].stage in labels {
      if i < |a| { assert (a + b)[i] == a[i]; } else { assert (a + b)[i] == b[i - |a|]; }
    }
  }

  /** The block of stage `s`: its child when it is due, nothing otherwise. */
  function Block(cfg: Config, env: Env, rownum: int, view: RowView, aiPath: string, sha: string, s: Stage, fs: Fs): StageResult {
    var output := OutputPath(cfg, aiPath, s);
    if StageDue(StatusFor(view, s), s, fs, output, sha)
    then RunStage(cfg, env, rownum, s, output, sha, fs)
    else StageResult([], fs, true)
  }

  /** What the stage loop relies on from one block: it concerns `row`, runs
      only stage `s`, guards its markers, and fails exactly when its child
      failed. */
  predicate BlockLog(b: StageResult, row: int, s: Stage) {
    && RowsAre(b.events, row) && MarkersGuarded(b.events) && FailuresLast(b.events)
    && (SomeFailed(b.events) <==> !b.ok)
    && RunsOnly(b.events, {Label(s)})
  }

  lemma BlockShape(cfg: Config, env: Env, rownum: int, view: RowView, aiPath: string, sha: string, s: Stage, fs: Fs)
    ensures BlockLog(Block(cfg, env, rownum, view, aiPath, sha, s, fs), rownum, s)
  {
    var output := OutputPath(cfg, aiPath, s);
    if StageDue(StatusFor(view, s), s, fs, output, sha) {
      RunStageShape(cfg, env, rownum, s, output, sha, fs);
    }
  }

  /** The three blocks of one row, as the stage loop calls them. */
  function RowBlocks(cfg: Config, env: Env, rownum: int, view: RowView, aiPath: string, sha: string): (Stage, Fs) -> StageResult {
    (t: Stage, f: Fs) => Block(cfg, env, rownum, view, aiPath, sha, t, f)
  }

  lemma RowBlocksShape(cfg: Config, env: Env, rownum: int, view: RowView, aiPath: string, sha: string)
    ensures forall t, f :: BlockLog(RowBlocks(cfg, env, rownum, view, aiPath, sha)(t, f), rownum, t)
  {
    forall t, f ensures BlockLog(RowBlocks(cfg, env, rownum, view, aiPath, sha)(t, f), rownum, t) {
      BlockShape(cfg, env, rownum, view, aiPath, sha, t, f);
    }
  }

  /** The stages from `s` on, in the fixed order: the row is abandoned at the
      first block that fails. */
  function StagesFrom(block: (Stage, Fs) -> StageResult, s: Stage, fs: Fs): RowResult
    decreases 2 - Rank(s)
  {
    var b := block(s, fs);
    if !b.ok then RowResult(b.events, b.fs, false, None)
    else if s == Xaio then RowResult(b.events, b.fs, true, None)
    else
      var rest := StagesFrom(block, Next(s), b.fs);
      RowResult(b.events + rest.events, rest.fs, rest.counted, None)
  }

  /** The stage loop never crashes, concerns only its row, runs only the
      stages from `s` on, writes markers only between a successful child and
      its done status, runs nothing after a failure, and completes the row
      exactly when no child failed. */
  lemma {:induction false} StagesFromShape(block: (Stage, Fs) -> StageResult, row: int, s: Stage, fs: Fs)
    requires forall t, f :: BlockLog(block(t, f), row, t)
    ensures var r := StagesFrom(block, s, fs);
      && r.crash.None?
      && RowsAre(r.events, row) && MarkersGuarded(r.events) && FailuresLast(r.events)
      && RunsOnly(r.events, LabelsFrom(s))
      && (r.counted <==> !SomeFailed(r.events))
    decreases 2 - Rank(s)
  {
    var b := block(s, fs);
    assert BlockLog(b, row, s);
    assert RunsOnly(b.events, LabelsFrom(s));
    if s != Xaio && b.ok {
      var rest := StagesFrom(block, Next(s), b.fs);
      StagesFromShape(block, row, Next(s), b.fs);
      ConcatLogs(b.events, rest.events, row);
      assert RunsOnly(rest.events, LabelsFrom(s));
      RunsOnlyConcat(b.events, rest.events, LabelsFrom(s));
    }
  }

  /** The log of the stages from `s` begins with the block of `s`. */
  lemma StagesFromStartsWithBlock(block: (Stage, Fs) -> StageResult, s: Stage, fs: Fs)
    ensures var r := StagesFrom(block, s, fs);
      |block(s, fs).events| <= |r.events| && r.events[..|block(s, fs).events|] == block(s, fs).events
  {
  }

  /** A block that does nothing hands the row on to the next stage. */
  lemma StagesFromAfterSkip(block: (Stage, Fs) -> StageResult, s: Stage, fs: Fs)
    requires s != Xaio && block(s, fs) == StageResult([], fs, true)
    ensures StagesFrom(block, s, fs) == StagesFrom(block, Next(s), fs)
  {
    assert [] + StagesFrom(block, Next(s), fs).events == StagesFrom(block, Next(s), fs).events;
  }

  /** A due stage starts its child first thing. */
  lemma StageRunsWhenDue(cfg: Config, env: Env, rownum: int, view: RowView, aiPath: string, sha: string, s: Stage, fs: Fs)
    requires StageDue(StatusFor(view, s), s, fs, OutputPath(cfg, aiPath, s), sha)
    ensures var r := StagesFrom(RowBlocks(cfg, env, rownum, view, aiPath, sha), s, fs);
      |r.events| >= 2 && r.events[1] == Ran(rownum, Label(s), env.run(rownum, s).rc)
  {
    var block := RowBlocks(cfg, env, rownum, view, aiPath, sha);
    var output := OutputPath(cfg, aiPath, s);
    RunStageShape(cfg, env, rownum, s, output, sha, fs);
    assert block(s, fs) == RunStage(cfg, env, rownum, s, output, sha, fs);
    StagesFromStartsWithBlock(block, s, fs);
    var r := StagesFrom(block, s, fs);
    assert r.events[1] == r.events[..|block(s, fs).events|][1];
  }

  /** A stage's label is not among those of the stages after it. */
  lemma LabelNotLater(s: Stage)
    requires s != Xaio
    ensures Label(s) !in LabelsFrom(Next(s))
  {
    if s == Meta {
      assert "META"[0] != "CLAIMS"[0] && "META"[0] != "XAIO"[0];
    } else {
      assert "CLAIMS"[0] != "XAIO"[0];
    }
  }

  /** When the block of `s` does nothing, no child of stage `s` runs. */
  lemma SkippedBlockRunsLater(block: (Stage, Fs) -> StageResult, row: int, s: Stage, fs: Fs)
    requires forall t, f :: BlockLog(block(t, f), row, t)
    requires block(s, fs) == StageResult([], fs, true)
    ensures var r := StagesFrom(block, s, fs);
      forall i :: 0 <= i < |r.events| && r.events[i].Ran? ==> r.events[i].stage != Label(s)
  {
    if s != Xaio {
      StagesFromAfterSkip(block, s, fs);
      StagesFromShape(block, row, Next(s), fs);
      LabelNotLater(s);
    }
  }

  /** A stage whose status is `<STAGE>_DONE` and whose output is fresh starts
      no child at all. */
  lemma StageSkippedWhenFresh(cfg: Config, env: Env, rownum: int, view: RowView, aiPath: string, sha: string, s: Stage, fs: Fs)
    requires !StageDue(StatusFor(view, s), s, fs, OutputPath(cfg, aiPath, s), sha)
    ensures var r := StagesFrom(RowBlocks(cfg, env, rownum, view, aiPath, sha), s, fs);
      forall i :: 0 <= i < |r.events| && r.events[i].Ran? ==> r.events[i].stage != Label(s)
  {
    var block := RowBlocks(cfg, env, rownum, view, aiPath, sha);
    assert block(s, fs) == StageResult([], fs, true);
    RowBlocksShape(cfg, env, rownum, view, aiPath, sha);
    SkippedBlockRunsLater(block, rownum, s, fs);
  }

  /** The row is abandoned at a failing stage: no later stage starts a child
      and the row does not count. */
  lemma FailureAbandonsRow(block: (Stage, Fs) -> StageResult, s: Stage, fs: Fs)
    requires !block(s, fs).ok
    ensures var r := StagesFrom(block, s, fs);
      !r.counted && r.events == block(s, fs).events
  {
  }

  /** What `main` does with an envelope that parsed as a dict. */
  function ProcessLoaded(cfg: Config, env: Env, rownum: int, view: RowView, path: string, ai: seq<Field>, fs: Fs): RowResult {
    var ensured := EnsureMetaInput(cfg, env, fs, ai, path);
    if ensured.Failure? then RowResult([], fs, false, Some(ensured.error))
    else ProcessEnsured(cfg, env, rownum, view, path, ContentSha(ai), fs, ensured.value)
  }

  /** The rest of the row once the meta input is in place in `fs1`: skip a
      row whose merged output is done and fresh, else run the stages. */
  function ProcessEnsured(cfg: Config, env: Env, rownum: int, view: RowView, path: string, sha: string, fs: Fs, fs1: Fs): RowResult {
    var wrote := if fs1 == fs then [] else [Wrote(MetaInputPath(cfg, path))];
    if view.xaioStatus == "XAIO_DONE" && ShouldSkip(fs1, OutputPath(cfg, path, Xaio), sha) then
      RowResult(wrote, fs1, false, None)
    else
      var stages := StagesFrom(RowBlocks(cfg, env, rownum, view, path, sha), Meta, fs1);
      RowResult(wrote + stages.events, stages.fs, stages.counted, None)
  }

  /** Everything `main` does for an eligible row once the cap allows it. */
  function ProcessRow(cfg: Config, env: Env, rownum: int, view: RowView, fs: Fs): RowResult {
    var path := view.aiInputPath;
    if path == "" then
      RowResult([Put(rownum, [Cell(cfg.colAiStatus, "AI_FAILED"), Cell(cfg.colAiError, "Missing ai_input_path.")])], fs, false, None)
    else if path !in fs then
      RowResult([Put(rownum, [Cell(cfg.colAiStatus, "AI_FAILED"), Cell(cfg.colAiError, "ai_input not found: " + path)])], fs, false, None)
    else
      var loaded := env.parse(fs[path]);
      if loaded.None? then RowResult([], fs, false, Some("JSONDecodeError: " + path))
      else if !loaded.value.JObj? then RowResult([], fs, false, Some("AttributeError: ai_input is not a dict"))
      else ProcessLoaded(cfg, env, rownum, view, path, loaded.value.fields, fs)
  }

  /** A row without an envelope path, or whose envelope is missing, gets
      `AI_FAILED` with the reason and does not count. */
  lemma MissingInputFails(cfg: Config, env: Env, rownum: int, view: RowView, fs: Fs)
    requires view.aiInputPath == "" || view.aiInputPath !in fs
    ensures var r := ProcessRow(cfg, env, rownum, view, fs);
      && !r.counted && r.crash.None? && r.fs == fs
      && |r.events| == 1 && r.events[0].Put? && r.events[0].row == rownum
      && r.events[0].cells[0] == Cell(cfg.colAiStatus, "AI_FAILED")
      && r.events[0].cells[1].col == cfg.colAiError
  {
  }

  /** A row whose xaio status is `XAIO_DONE` with a fresh merged output runs
      no stage, writes no cell, and does not count. */
  lemma FreshRowSkipped(cfg: Config, env: Env, rownum: int, view: RowView, path: string, sha: string, fs: Fs, fs1: Fs)
    requires view.xaioStatus == "XAIO_DONE" && ShouldSkip(fs1, OutputPath(cfg, path, Xaio), sha)
    ensures var r := ProcessEnsured(cfg, env, rownum, view, path, sha, fs, fs1);
      !r.counted && r.crash.None? && forall i :: 0 <= i < |r.events| ==> r.events[i].Wrote?
  {
  }

  /** What the scan relies on from one row: its log concerns the row, guards
      its markers, runs nothing after a failure, and a counted row had no
      failing child and did not crash. */
  predicate RowLog(r: RowResult, row: int) {
    && RowsAre(r.events, row) && MarkersGuarded(r.events) && FailuresLast(r.events)
    && (r.counted ==> r.crash.None? && !SomeFailed(r.events))
  }

  lemma ProcessEnsuredShape(cfg: Config, env: Env, rownum: int, view: RowView, path: string, sha: string, fs: Fs, fs1: Fs)
    ensures RowLog(ProcessEnsured(cfg, env, rownum, view, path, sha, fs, fs1), rownum)
  {
    var wrote: seq<Event> := if fs1 == fs then [] else [Wrote(MetaInputPath(cfg, path))];
    WritesOnlyLog(wrote, rownum);
    if !(view.xaioStatus == "XAIO_DONE" && ShouldSkip(fs1, OutputPath(cfg, path, Xaio), sha)) {
      var block := RowBlocks(cfg, env, rownum, view, path, sha);
      RowBlocksShape(cfg, env, rownum, view, path, sha);
      StagesFromShape(block, rownum, Meta, fs1);
      ConcatLogs(wrote, StagesFrom(block, Meta, fs1).events, rownum);
    }
  }

  /** A log of file writes alone touches no row and runs no child. */
  lemma WritesOnlyLog(ws: seq<Event>, row: int)
    requires forall i :: 0 <= i < |ws| ==> ws[i].Wrote?
    ensures RowsAre(ws, row) && MarkersGuarded(ws) && FailuresLast(ws) && !SomeFailed(ws)
  {
    assert forall i :: 0 <= i < |ws| ==> GuardedAt(ws, i);
  }

  lemma ProcessLoadedShape(cfg: Config, env: Env, rownum: int, view: RowView, path: string, ai: seq<Field>, fs: Fs)
    ensures RowLog(ProcessLoaded(cfg, env, rownum, view, path, ai, fs), rownum)
  {
    var ensured := EnsureMetaInput(cfg, env, fs, ai, path);
    if ensured.Success? {
      ProcessEnsuredShape(cfg, env, rownum, view, path, ContentSha(ai), fs, ensured.value);
    }
  }

  lemma ProcessRowShape(cfg: Config, env: Env, rownum: int, view: RowView, fs: Fs)
    ensures RowLog(ProcessRow(cfg, env, rownum, view, fs), rownum)
  {
    var path := view.aiInputPath;
    if path != "" && path in fs {
      var loaded := env.parse(fs[path]);
      if loaded.Some? && loaded.value.JObj? {
        ProcessLoadedShape(cfg, env, rownum, view, path, loaded.value.fields, fs);
      }
    }
  }

  /** The status write that completes a row: the merged output is done. */
  const XaioDone: set<string> := {"XAIO_DONE"}

  function OutputDir(cfg: Config, s: Stage): string {
    match s
    case Meta => cfg.outMetaDir
    case Claims => cfg.outClaimsDir
    case Xaio => cfg.outXaioDir
  }

  /** The name suffix of a stage's output. Each ends in `n`, and its
      sixteenth character from the end tells the stages apart. */
  function OutputSuffix(s: Stage): (r: string)
    ensures |r| >= 16 && r[|r| - 1] == 'n' && r[|r| - 16] == StageMark(s)
  {
    match s
    case Meta => ".meta_parsed.json"
    case Claims => ".claims_parsed.json"
    case Xaio => ".xaio_parsed.json"
  }

  /** The character sixteen places from the end of a stage output's name. */
  function StageMark(s: Stage): char {
    match s
    case Meta => 'm'
    case Claims => 'a'
    case Xaio => 'x'
  }

  /** `OutputPath` joins the stage's directory and suffix. */
  lemma OutputPathParts(cfg: Config, aiPath: string, s: Stage)
    ensures OutputPath(cfg, aiPath, s) == JoinPath(OutputDir(cfg, s), Base(aiPath) + OutputSuffix(s))
  {
  }

  /** A joined path ends with the name joined on. */
  lemma JoinTail(dir: string, name: string, k: int)
    requires 1 <= k <= |name|
    ensures var r := JoinPath(dir, name);
      |r| >= |name| && r[|r| - k] == name[|name| - k]
  {
    if dir != [] && dir[|dir| - 1] == '/' {
      assert JoinPath(dir, name) == dir + name;
      SuffixTail(dir, name, k);
    } else {
      assert JoinPath(dir, name) == (dir + "/") + name;
      SuffixTail(dir + "/", name, k);
    }
  }

  /** `base + suffix` ends as `suffix` does. */
  lemma SuffixTail(base: string, suffix: string, k: int)
    requires 1 <= k <= |suffix|
    ensures (base + suffix)[|base + suffix| - k] == suffix[|suffix| - k]
  {
  }

  /** A name joined on a directory keeps the last and the sixteenth-from-last
      characters of its suffix. */
  lemma JoinedSuffixTail(dir: string, base: string, suffix: string)
    requires |suffix| >= 16
    ensures var o := JoinPath(dir, base + suffix);
      |o| >= 16 && o[|o| - 1] == suffix[|suffix| - 1] && o[|o| - 16] == suffix[|suffix| - 16]
  {
    var name := base + suffix;
    JoinTail(dir, name, 1);
    JoinTail(dir, name, 16);
    SuffixTail(base, suffix, 1);
    SuffixTail(base, suffix, 16);
  }

  /** Every stage output ends in `n`, and the sixteenth character from the
      end tells the three stages apart. */
  lemma OutputTail(cfg: Config, aiPath: string, s: Stage)
    ensures var o := OutputPath(cfg, aiPath, s);
      |o| >= 16 && o[|o| - 1] == 'n' && o[|o| - 16] == StageMark(s)
  {
    OutputPathParts(cfg, aiPath, s);
    JoinedSuffixTail(OutputDir(cfg, s), Base(aiPath), OutputSuffix(s));
  }

  /** The meta and claims outputs and their markers are other files than
      the merged output and its marker. */
  lemma OtherPathsDiffer(cfg: Config, aiPath: string, s: Stage)
    requires s != Xaio
    ensures var o := OutputPath(cfg, aiPath, s);
      var x := OutputPath(cfg, aiPath, Xaio);
      o != x && o != MarkerPath(x) && MarkerPath(o) != x && MarkerPath(o) != MarkerPath(x)
  {
    var o := OutputPath(cfg, aiPath, s);
    var x := OutputPath(cfg, aiPath, Xaio);
    OutputTail(cfg, aiPath, s);
    OutputTail(cfg, aiPath, Xaio);
    var mo, mx := MarkerPath(o), MarkerPath(x);
    assert mo[|mo| - 1] == '6' && mx[|mx| - 1] == '6';
    assert mo[|mo| - 23] == o[|o| - 16] && mx[|mx| - 23] == x[|x| - 16];
  }

  /** A stage block writes no file but its output and that output's marker. */
  lemma RunStageFrame(cfg: Config, env: Env, rownum: int, s: Stage, output: string, sha: string, fs: Fs, other: string)
    requires other != output && other != MarkerPath(output)
    ensures var r := RunStage(cfg, env, rownum, s, output, sha, fs);
      (other in r.fs <==> other in fs) && (other in fs ==> r.fs[other] == fs[other])
  {
    var p := env.run(rownum, s);
    var written := if p.output.Some? then fs[output := p.output.value] else fs;
    assert (other in written <==> other in fs) && (other in fs ==> written[other] == fs[other]);
    var marked := MarkStage(written, output, sha);
    assert (other in marked <==> other in fs) && (other in fs ==> marked[other] == fs[other]);
    assert RunStage(cfg, env, rownum, s, output, sha, fs).fs == if p.rc != 0 then written else marked;
  }

  /** `<STAGE>_DONE` is `XAIO_DONE` for the merged stage only. */
  lemma DoneStatusOfStage(s: Stage)
    ensures Label(s) + "_DONE" == "XAIO_DONE" <==> s == Xaio
  {
    var done := Label(s) + "_DONE";
    assert done[0] == Label(s)[0];
  }

  /** Running and failed statuses are longer than `XAIO_DONE`; the done
      status is `XAIO_DONE` for the merged stage only. */
  lemma StatusPutsOfStage(cfg: Config, rownum: int, s: Stage, output: string, p: Proc)
    ensures !SetsStatus(RunningPut(cfg, rownum, s, output), XaioDone)
    ensures !SetsStatus(FailedPut(cfg, rownum, s, p), XaioDone)
    ensures SetsStatus(DonePut(cfg, rownum, s, output), XaioDone) <==> s == Xaio
  {
    assert |Label(s)| >= 4;
    DoneStatusOfStage(s);
  }

  /** A failed block's log counts its failure status alone. */
  lemma FailedLogWrites(start: Event, ran: Event, failed: Event, statuses: set<string>)
    requires !SetsStatus(start, statuses) && ran.Ran?
    ensures StatusCount([start, ran, failed], statuses) == (if SetsStatus(failed, statuses) then 1 else 0)
  {
    var init := [start, ran];
    assert [start, ran, failed] == init + [failed];
    StatusCountLast(init, failed, statuses);
  }

  /** A successful block's log counts its done status alone. */
  lemma DoneLogWrites(start: Event, ran: Event, marks: seq<Event>, done: Event, statuses: set<string>)
    requires !SetsStatus(start, statuses) && ran.Ran?
    requires forall i :: 0 <= i < |marks| ==> marks[i].Marked?
    ensures StatusCount([start, ran] + marks + [done], statuses) == (if SetsStatus(done, statuses) then 1 else 0)
  {
    var init := [start, ran] + marks;
    forall i | 0 <= i < |init| ensures !SetsStatus(init[i], statuses) {
      if i >= 2 { assert init[i] == marks[i - 2]; }
    }
    StatusCountLast(init, done, statuses);
  }

  /** Only the merged block's done status completes a row: a block writes
      one `XAIO_DONE` when it is the merged stage and succeeds, none
      otherwise. */
  lemma RunStageDoneWrites(cfg: Config, env: Env, rownum: int, s: Stage, output: string, sha: string, fs: Fs)
    ensures var b := RunStage(cfg, env, rownum, s, output, sha, fs);
      StatusCount(b.events, XaioDone) == (if b.ok && s == Xaio then 1 else 0)
  {
    var b := RunStage(cfg, env, rownum, s, output, sha, fs);
    var p := env.run(rownum, s);
    StatusPutsOfStage(cfg, rownum, s, output, p);
    var start := RunningPut(cfg, rownum, s, output);
    var ran := Ran(rownum, Label(s), p.rc);
    if p.rc != 0 {
      assert b.events == [start, ran, FailedPut(cfg, rownum, s, p)];
      FailedLogWrites(start, ran, FailedPut(cfg, rownum, s, p), XaioDone);
    } else {
      var marks := if sha != [] then [Marked(MarkerPath(output), sha)] else [];
      var done := DonePut(cfg, rownum, s, output);
      assert b.events == [start, ran] + marks + [done];
      DoneLogWrites(start, ran, marks, done, XaioDone);
    }
  }

  /** A meta or claims block completes no row and leaves the freshness of
      the merged output as it was. */
  lemma OtherBlockKeepsXaio(cfg: Config, env: Env, rownum: int, view: RowView, aiPath: string, sha: string, s: Stage, fs: Fs)
    requires s != Xaio
    ensures var b := Block(cfg, env, rownum, view, aiPath, sha, s, fs);
      var x := OutputPath(cfg, aiPath, Xaio);
      StatusCount(b.events, XaioDone) == 0 && (ShouldSkip(b.fs, x, sha) <==> ShouldSkip(fs, x, sha))
  {
    var output := OutputPath(cfg, aiPath, s);
    var x := OutputPath(cfg, aiPath, Xaio);
    if StageDue(StatusFor(view, s), s, fs, output, sha) {
      RunStageDoneWrites(cfg, env, rownum, s, output, sha, fs);
      OtherPathsDiffer(cfg, aiPath, s);
      RunStageFrame(cfg, env, rownum, s, output, sha, fs, x);
      RunStageFrame(cfg, env, rownum, s, output, sha, fs, MarkerPath(x));
    }
  }

  /** The merged block, run on a row that is not done and fresh, writes
      `XAIO_DONE` exactly when it succeeds. */
  lemma XaioBlockDoneWrites(cfg: Config, env: Env, rownum: int, view: RowView, aiPath: string, sha: string, fs: Fs)
    requires !(view.xaioStatus == "XAIO_DONE" && ShouldSkip(fs, OutputPath(cfg, aiPath, Xaio), sha))
    ensures var b := Block(cfg, env, rownum, view, aiPath, sha, Xaio, fs);
      StatusCount(b.events, XaioDone) == (if b.ok then 1 else 0)
  {
    var output := OutputPath(cfg, aiPath, Xaio);
    DoneStatusOfStage(Xaio);
    BlockWhenDue(cfg, env, rownum, view, aiPath, sha, Xaio, fs);
    RunStageDoneWrites(cfg, env, rownum, Xaio, output, sha, fs);
  }

  /** A block that is due runs its stage. */
  lemma BlockWhenDue(cfg: Config, env: Env, rownum: int, view: RowView, aiPath: string, sha: string, s: Stage, fs: Fs)
    requires StageDue(StatusFor(view, s), s, fs, OutputPath(cfg, aiPath, s), sha)
    ensures Block(cfg, env, rownum, view, aiPath, sha, s, fs) == RunStage(cfg, env, rownum, s, OutputPath(cfg, aiPath, s), sha, fs)
  {
  }

  /** The stages of a row that is not done and fresh complete it exactly
      when they write `XAIO_DONE`, which they do at most once. */
  lemma {:induction false} StagesDoneWrites(cfg: Config, env: Env, rownum: int, view: RowView, aiPath: string, sha: string, s: Stage, fs: Fs)
    requires !(view.xaioStatus == "XAIO_DONE" && ShouldSkip(fs, OutputPath(cfg, aiPath, Xaio), sha))
    ensures var r := StagesFrom(RowBlocks(cfg, env, rownum, view, aiPath, sha), s, fs);
      StatusCount(r.events, XaioDone) == (if r.counted then 1 else 0)
    decreases 2 - Rank(s)
  {
    if s == Xaio {
      XaioBlockDoneWrites(cfg, env, rownum, view, aiPath, sha, fs);
      assert RowBlocks(cfg, env, rownum, view, aiPath, sha)(s, fs) == Block(cfg, env, rownum, view, aiPath, sha, s, fs);
    } else {
      var b := Block(cfg, env, rownum, view, aiPath, sha, s, fs);
      OtherBlockKeepsXaio(cfg, env, rownum, view, aiPath, sha, s, fs);
      if b.ok {
        StagesDoneWrites(cfg, env, rownum, view, aiPath, sha, Next(s), b.fs);
      }
      StagesAfterOtherBlock(cfg, env, rownum, view, aiPath, sha, s, fs);
    }
  }

  /** One step of `StagesDoneWrites`: a meta or claims block adds no
      `XAIO_DONE` to what the later stages write. */
  lemma StagesAfterOtherBlock(cfg: Config, env: Env, rownum: int, view: RowView, aiPath: string, sha: string, s: Stage, fs: Fs)
    requires s != Xaio
    requires var b := Block(cfg, env, rownum, view, aiPath, sha, s, fs);
      && StatusCount(b.events, XaioDone) == 0
      && (b.ok ==> var rest := StagesFrom(RowBlocks(cfg, env, rownum, view, aiPath, sha), Next(s), b.fs);
                   StatusCount(rest.events, XaioDone) == (if rest.counted then 1 else 0))
    ensures var r := StagesFrom(RowBlocks(cfg, env, rownum, view, aiPath, sha), s, fs);
      StatusCount(r.events, XaioDone) == (if r.counted then 1 else 0)
  {
    var block := RowBlocks(cfg, env, rownum, view, aiPath, sha);
    var b := Block(cfg, env, rownum, view, aiPath, sha, s, fs);
    assert block(s, fs) == b;
    if b.ok {
      StatusCountConcat(b.events, StagesFrom(block, Next(s), b.fs).events, XaioDone);
    }
  }

  /** What the count of a run relies on from one row: it writes `XAIO_DONE`
      once when it completes and never otherwise, and a crash completes
      nothing. */
  predicate DoneOnce(r: RowResult) {
    StatusCount(r.events, XaioDone) == (if r.counted then 1 else 0) && (r.crash.Some? ==> !r.counted)
  }

  lemma ProcessEnsuredDoneOnce(cfg: Config, env: Env, rownum: int, view: RowView, path: string, sha: string, fs: Fs, fs1: Fs)
    ensures DoneOnce(ProcessEnsured(cfg, env, rownum, view, path, sha, fs, fs1))
  {
    var wrote: seq<Event> := if fs1 == fs then [] else [Wrote(MetaInputPath(cfg, path))];
    NoStatusCount(wrote, XaioDone);
    if !(view.xaioStatus == "XAIO_DONE" && ShouldSkip(fs1, OutputPath(cfg, path, Xaio), sha)) {
      var stages := StagesFrom(RowBlocks(cfg, env, rownum, view, path, sha), Meta, fs1);
      StagesDoneWrites(cfg, env, rownum, view, path, sha, Meta, fs1);
      StatusCountConcat(wrote, stages.events, XaioDone);
    }
  }

  /** A row of `main` completes exactly when it writes `XAIO_DONE`, once. */
  lemma ProcessRowDoneOnce(cfg: Config, env: Env, rownum: int, view: RowView, fs: Fs)
    ensures DoneOnce(ProcessRow(cfg, env, rownum, view, fs))
  {
    var path := view.aiInputPath;
    if path == "" || path !in fs {
      var r := ProcessRow(cfg, env, rownum, view, fs);
      StatusCountSingle(r.events[0], XaioDone);
      assert r.events == [r.events[0]];
    } else {
      var loaded := env.parse(fs[path]);
      if loaded.Some? && loaded.value.JObj? {
        var ensured := EnsureMetaInput(cfg, env, fs, loaded.value.fields, path);
        if ensured.Success? {
          ProcessEnsuredDoneOnce(cfg, env, rownum, view, path, ContentSha(loaded.value.fields), fs, ensured.value);
        }
      }
    }
  }

  /** The row at `rownum`, read, when the scan has not run past the end
      and reading it does not raise `IndexError`. */
  function ViewAt(ix: Indices, rows: seq<seq<string>>, rownum: int): Option<RowView> {
    if rownum > |rows| then None
    else
      var row := PyItem(rows, rownum - 1);
      if row.None? then None else ReadRow(ix, row.value)
  }

  /** `for rownum in range(first_data_row, len(all_vals) + 1)`, from `rownum`
      on, with `processed` rows completed so far; `visit` is the work done
      on an eligible row. */
  function Loop(cfg: Config, ix: Indices, rows: seq<seq<string>>, visit: (int, RowView, Fs) -> RowResult,
                rownum: int, processed: nat, fs: Fs): (r: Outcome)
    ensures processed <= r.processed <= CapFrom(processed, cfg.maxPerRun)
    decreases |rows| + 1 - rownum
  {
    if rownum > |rows| then Outcome([], processed, fs, None)
    else
      var view := ViewAt(ix, rows, rownum);
      if view.None? then Outcome([], processed, fs, Some(IndexError))
      else if view.value.aiStatus != "AI_READY" then Loop(cfg, ix, rows, visit, rownum + 1, processed, fs)
      else if processed >= cfg.maxPerRun then Outcome([], processed, fs, None)
      else
        var one := visit(rownum, view.value, fs);
        if one.crash.Some? then Outcome(one.events, processed, one.fs, one.crash)
        else
          var rest := Loop(cfg, ix, rows, visit, rownum + 1, Bump(processed, one.counted), one.fs);
          Outcome(one.events + rest.events, rest.processed, rest.fs, rest.crash)
  }

  /** Every cell write and child run of the log is for a row in
      `lo..|rows|` whose AI status reads `AI_READY`. */
  predicate ReadyRowsOnly(ix: Indices, rows: seq<seq<string>>, events: seq<Event>, lo: int) {
    forall i :: 0 <= i < |events| && (events[i].Put? || events[i].Ran?) ==>
      lo <= events[i].row <= |rows| && AiStatusOf(ix, rows, events[i].row) == Some("AI_READY")
  }

  lemma ReadyRowsConcat(ix: Indices, rows: seq<seq<string>>, a: seq<Event>, b: seq<Event>, rownum: int)
    requires rownum <= |rows| && AiStatusOf(ix, rows, rownum) == Some("AI_READY")
    requires RowsAre(a, rownum) && ReadyRowsOnly(ix, rows, b, rownum + 1)
    ensures ReadyRowsOnly(ix, rows, a + b, rownum)
  {
    var e := a + b;
    forall i | 0 <= i < |e| && (e[i].Put? || e[i].Ran?)
      ensures rownum <= e[i].row <= |rows| && AiStatusOf(ix, rows, e[i].row) == Some("AI_READY")
    {
      if i >= |a| { assert e[i] == b[i - |a|]; } else { assert e[i] == a[i]; }
    }
  }

  /** One eligible row's log followed by the rest of the scan. */
  lemma ReadyStepLog(ix: Indices, rows: seq<seq<string>>, rownum: int, one: RowResult, rest: seq<Event>)
    requires rownum <= |rows| && AiStatusOf(ix, rows, rownum) == Some("AI_READY")
    requires RowLog(one, rownum) && MarkersGuarded(rest) && ReadyRowsOnly(ix, rows, rest, rownum + 1)
    ensures MarkersGuarded(one.events + rest) && ReadyRowsOnly(ix, rows, one.events + rest, rownum)
  {
    MarkersConcat(one.events, rest);
    ReadyRowsConcat(ix, rows, one.events, rest, rownum);
  }

  lemma ReadyRowsLater(ix: Indices, rows: seq<seq<string>>, events: seq<Event>, lo: int)
    requires ReadyRowsOnly(ix, rows, events, lo + 1)
    ensures ReadyRowsOnly(ix, rows, events, lo)
  {
  }

  /** Every marker of the log is guarded and every write or child run is
      for an `AI_READY` row from `lo` on. */
  predicate ScanLog(ix: Indices, rows: seq<seq<string>>, o: Outcome, lo: int) {
    MarkersGuarded(o.events) && ReadyRowsOnly(ix, rows, o.events, lo)
  }

  /** A row that is not `AI_READY` adds nothing to the scan's log. */
  lemma ScanSkipStep(cfg: Config, ix: Indices, rows: seq<seq<string>>, visit: (int, RowView, Fs) -> RowResult,
                     rownum: int, processed: nat, fs: Fs)
    requires rownum <= |rows| && ViewAt(ix, rows, rownum).Some? && ViewAt(ix, rows, rownum).value.aiStatus != "AI_READY"
    requires ScanLog(ix, rows, Loop(cfg, ix, rows, visit, rownum + 1, processed, fs), rownum + 1)
    ensures ScanLog(ix, rows, Loop(cfg, ix, rows, visit, rownum, processed, fs), rownum)
  {
    ReadyRowsLater(ix, rows, Loop(cfg, ix, rows, visit, rownum + 1, processed, fs).events, rownum);
  }

  /** Past the last row, on an `IndexError`, or once the cap is reached,
      the scan logs nothing more. */
  lemma ScanEndStep(cfg: Config, ix: Indices, rows: seq<seq<string>>, visit: (int, RowView, Fs) -> RowResult,
                    rownum: int, processed: nat, fs: Fs)
    requires || rownum > |rows| || ViewAt(ix, rows, rownum).None?
             || (ViewAt(ix, rows, rownum).value.aiStatus == "AI_READY" && processed >= cfg.maxPerRun)
    ensures Loop(cfg, ix, rows, visit, rownum, processed, fs).events == []
    ensures ScanLog(ix, rows, Loop(cfg, ix, rows, visit, rownum, processed, fs), rownum)
  {
  }

  /** An eligible row's log, followed by the rest of the scan unless the
      row crashed. */
  lemma ScanVisitStep(cfg: Config, ix: Indices, rows: seq<seq<string>>, visit: (int, RowView, Fs) -> RowResult,
                      rownum: int, processed: nat, fs: Fs, one: RowResult, rest: Outcome)
    requires rownum <= |rows| && ViewAt(ix, rows, rownum).Some? && ViewAt(ix, rows, rownum).value.aiStatus == "AI_READY"
    requires processed < cfg.maxPerRun
    requires one == visit(rownum, ViewAt(ix, rows, rownum).value, fs) && RowLog(one, rownum)
    requires rest == Loop(cfg, ix, rows, visit, rownum + 1, Bump(processed, one.counted), one.fs)
    requires one.crash.None? ==> ScanLog(ix, rows, rest, rownum + 1)
    ensures ScanLog(ix, rows, Loop(cfg, ix, rows, visit, rownum, processed, fs), rownum)
  {
    assert AiStatusOf(ix, rows, rownum) == Some("AI_READY");
    if one.crash.None? {
      ReadyStepLog(ix, rows, rownum, one, rest.events);
    } else {
      assert one.events + [] == one.events;
      ReadyStepLog(ix, rows, rownum, one, []);
    }
  }

  /** Only `AI_READY` rows from `rownum` to the last row are written to or
      have stages run, and markers stay guarded across the whole run. */
  lemma {:induction false} LoopTouchesReadyRows(cfg: Config, ix: Indices, rows: seq<seq<string>>, visit: (int, RowView, Fs) -> RowResult,
                                                rownum: int, processed: nat, fs: Fs)
    requires forall n, v, f :: RowLog(visit(n, v, f), n)
    ensures ScanLog(ix, rows, Loop(cfg, ix, rows, visit, rownum, processed, fs), rownum)
    decreases |rows| + 1 - rownum
  {
    var view := ViewAt(ix, rows, rownum);
    if rownum > |rows| || view.None? || (view.value.aiStatus == "AI_READY" && processed >= cfg.maxPerRun) {
      ScanEndStep(cfg, ix, rows, visit, rownum, processed, fs);
    } else if view.value.aiStatus != "AI_READY" {
      LoopTouchesReadyRows(cfg, ix, rows, visit, rownum + 1, processed, fs);
      ScanSkipStep(cfg, ix, rows, visit, rownum, processed, fs);
    } else {
      var one := visit(rownum, view.value, fs);
      assert RowLog(one, rownum);
      var next := Bump(processed, one.counted);
      LoopTouchesReadyRows(cfg, ix, rows, visit, rownum + 1, next, one.fs);
      ScanVisitStep(cfg, ix, rows, visit, rownum, processed, fs, one, Loop(cfg, ix, rows, visit, rownum + 1, next, one.fs));
    }
  }

  /** The scan's count grew from `processed` by the number of `XAIO_DONE`
      writes it logs. */
  predicate CountsDoneWrites(o: Outcome, processed: nat) {
    o.processed == processed + StatusCount(o.events, XaioDone)
  }

  /** The scan's count is the number of `XAIO_DONE` writes it logs. */
  lemma {:induction false} LoopCountsDoneWrites(cfg: Config, ix: Indices, rows: seq<seq<string>>, visit: (int, RowView, Fs) -> RowResult,
                                                rownum: int, processed: nat, fs: Fs)
    requires forall n, v, f :: DoneOnce(visit(n, v, f))
    ensures CountsDoneWrites(Loop(cfg, ix, rows, visit, rownum, processed, fs), processed)
    decreases |rows| + 1 - rownum, 1
  {
    var view := ViewAt(ix, rows, rownum);
    if rownum > |rows| || view.None? || (view.value.aiStatus == "AI_READY" && processed >= cfg.maxPerRun) {
      CountEndStep(cfg, ix, rows, visit, rownum, processed, fs);
    } else if view.value.aiStatus != "AI_READY" {
      LoopCountsDoneWrites(cfg, ix, rows, visit, rownum + 1, processed, fs);
      CountSkipStep(cfg, ix, rows, visit, rownum, processed, fs);
    } else {
      LoopVisitCounts(cfg, ix, rows, visit, rownum, processed, fs);
    }
  }

  /** The eligible-row case of `LoopCountsDoneWrites`. */
  lemma {:induction false} LoopVisitCounts(cfg: Config, ix: Indices, rows: seq<seq<string>>, visit: (int, RowView, Fs) -> RowResult,
                                           rownum: int, processed: nat, fs: Fs)
    requires rownum <= |rows| && ViewAt(ix, rows, rownum).Some? && ViewAt(ix, rows, rownum).value.aiStatus == "AI_READY"
    requires processed < cfg.maxPerRun
    requires forall n, v, f :: DoneOnce(visit(n, v, f))
    ensures CountsDoneWrites(Loop(cfg, ix, rows, visit, rownum, processed, fs), processed)
    decreases |rows| + 1 - rownum, 0
  {
    var one := visit(rownum, ViewAt(ix, rows, rownum).value, fs);
    assert DoneOnce(one);
    var next := Bump(processed, one.counted);
    LoopCountsDoneWrites(cfg, ix, rows, visit, rownum + 1, next, one.fs);
    CountVisitStep(cfg, ix, rows, visit, rownum, processed, fs, one, Loop(cfg, ix, rows, visit, rownum + 1, next, one.fs));
  }

  /** Where the scan stops, it counts nothing more. */
  lemma CountEndStep(cfg: Config, ix: Indices, rows: seq<seq<string>>, visit: (int, RowView, Fs) -> RowResult,
                     rownum: int, processed: nat, fs: Fs)
    requires || rownum > |rows| || ViewAt(ix, rows, rownum).None?
             || (ViewAt(ix, rows, rownum).value.aiStatus == "AI_READY" && processed >= cfg.maxPerRun)
    ensures CountsDoneWrites(Loop(cfg, ix, rows, visit, rownum, processed, fs), processed)
  {
    assert Loop(cfg, ix, rows, visit, rownum, processed, fs).events == [];
  }

  /** A row that is not `AI_READY` leaves the count to the rest of the scan. */
  lemma CountSkipStep(cfg: Config, ix: Indices, rows: seq<seq<string>>, visit: (int, RowView, Fs) -> RowResult,
                      rownum: int, processed: nat, fs: Fs)
    requires rownum <= |rows| && ViewAt(ix, rows, rownum).Some? && ViewAt(ix, rows, rownum).value.aiStatus != "AI_READY"
    requires CountsDoneWrites(Loop(cfg, ix, rows, visit, rownum + 1, processed, fs), processed)
    ensures CountsDoneWrites(Loop(cfg, ix, rows, visit, rownum, processed, fs), processed)
  {
  }

  /** An eligible row adds its own `XAIO_DONE` writes to the count of the
      rest of the scan. */
  lemma CountVisitStep(cfg: Config, ix: Indices, rows: seq<seq<string>>, visit: (int, RowView, Fs) -> RowResult,
                       rownum: int, processed: nat, fs: Fs, one: RowResult, rest: Outcome)
    requires rownum <= |rows| && ViewAt(ix, rows, rownum).Some? && ViewAt(ix, rows, rownum).value.aiStatus == "AI_READY"
    requires processed < cfg.maxPerRun
    requires one == visit(rownum, ViewAt(ix, rows, rownum).value, fs) && DoneOnce(one)
    requires rest == Loop(cfg, ix, rows, visit, rownum + 1, Bump(processed, one.counted), one.fs)
    requires one.crash.None? ==> CountsDoneWrites(rest, Bump(processed, one.counted))
    ensures CountsDoneWrites(Loop(cfg, ix, rows, visit, rownum, processed, fs), processed)
  {
    if one.crash.None? {
      StatusCountConcat(one.events, rest.events, XaioDone);
    }
  }

  /** The work `main` does on each eligible row. */
  function Visitor(cfg: Config, env: Env): (int, RowView, Fs) -> RowResult {
    (n: int, v: RowView, f: Fs) => ProcessRow(cfg, env, n, v, f)
  }

  /** `main`: the whole scan, from `first_data_row` with nothing processed.
      At most `max_per_run` rows complete, and none when it is not positive. */
  function Run(cfg: Config, env: Env, rows: seq<seq<string>>, fs: Fs): (r: Outcome)
    ensures cfg.maxPerRun >= 0 ==> r.processed <= cfg.maxPerRun
    ensures cfg.maxPerRun <= 0 ==> r.processed == 0
  {
    Loop(cfg, ColumnIndices(cfg), rows, Visitor(cfg, env), cfg.firstDataRow, 0, fs)
  }

  /** A run writes cells and starts children only for `AI_READY` rows at or
      after `first_data_row`, and every marker it writes sits between a
      successful child and its done status. */
  lemma RunTouchesReadyRows(cfg: Config, env: Env, rows: seq<seq<string>>, fs: Fs)
    ensures ScanLog(ColumnIndices(cfg), rows, Run(cfg, env, rows, fs), cfg.firstDataRow)
  {
    forall n, v, f ensures RowLog(Visitor(cfg, env)(n, v, f), n) {
      ProcessRowShape(cfg, env, n, v, f);
    }
    LoopTouchesReadyRows(cfg, ColumnIndices(cfg), rows, Visitor(cfg, env), cfg.firstDataRow, 0, fs);
  }

  /** `processed` counts the rows a run completed: it equals the number of
      `XAIO_DONE` status writes the run logs. */
  lemma RunCountsDoneWrites(cfg: Config, env: Env, rows: seq<seq<string>>, fs: Fs)
    ensures var o := Run(cfg, env, rows, fs);
      o.processed == StatusCount(o.events, XaioDone)
  {
    forall n, v, f ensures DoneOnce(Visitor(cfg, env)(n, v, f)) {
      ProcessRowDoneOnce(cfg, env, n, v, f);
    }
    LoopCountsDoneWrites(cfg, ColumnIndices(cfg), rows, Visitor(cfg, env), cfg.firstDataRow, 0, fs);
    assert CountsDoneWrites(Run(cfg, env, rows, fs), 0);
  }
}

=== FILE: buffers_queue.dfy ===
/** `buffer_panels_queue.py`: for every row whose xaio status is `XAIO_DONE`,
    run the panel generator on the merged output unless its panels are
    already done and fresh, recording `BUFFERS_RUNNING`, then
    `BUFFERS_FAILED` or `BUFFERS_DONE`. The cap is checked at the top of
    every row, and every row whose child ran counts, failed or not. */
module BuffersQueue {
  import opened Wrappers
  import opened PyText
  import opened JsonValue
  import opened Sheet
  import opened Fingerprint
  import opened PyPath
  import opened Jobs
  import opened Drivers
  import Panels

  datatype Config = Config(
    firstDataRow: int,
    maxPerRun: int,
    colBuffersStatus: string,
    colBuffersPath: string,
    colBuffersError: string,
    outBuffersDir: string)

  /** The five columns `main` fetches with `col_values`, each as long as the
      sheet returns it. */
  datatype Columns = Columns(url: seq<string>, xaioStatus: seq<string>, xaioPath: seq<string>,
                             bufStatus: seq<string>, bufPath: seq<string>)

  /** The length of the longest fetched column: the scan's last row. */
  function MaxRows(c: Columns): (n: nat)
    ensures |c.url| <= n && |c.xaioStatus| <= n && |c.xaioPath| <= n && |c.bufStatus| <= n && |c.bufPath| <= n
    ensures n in {|c.url|, |c.xaioStatus|, |c.xaioPath|, |c.bufStatus|, |c.bufPath|}
  {
    var a := if |c.url| < |c.xaioStatus| then |c.xaioStatus| else |c.url|;
    var b := if a < |c.xaioPath| then |c.xaioPath| else a;
    var d := if b < |c.bufStatus| then |c.bufStatus| else b;
    if d < |c.bufPath| then |c.bufPath| else d
  }

  /** The outside world: `json.loads`, SHA-256 of a text, and the panel
      generator run for a row. */
  datatype Env = Env(parse: string -> Option<Json>, sha256: string -> HexDigest, run: int -> Proc)

  /** The cells of one row, `safe(...)` and, for the statuses, upper-cased. */
  datatype RowView = RowView(url: string, xaioStatus: string, xaioPath: string, bufStatus: string)

  /** Row `rownum` read from the columns: a cell past a column's end reads as
      blank; a negative position beyond a column's start raises. */
  function ViewAt(c: Columns, rownum: int): (r: Option<RowView>)
    ensures rownum >= 1 ==> r.Some?
  {
    var i := rownum - 1;
    var url := ReadCell(c.url, i);
    var xs := ReadCell(c.xaioStatus, i);
    var xp := ReadCell(c.xaioPath, i);
    var bs := ReadCell(c.bufStatus, i);
    var bp := ReadCell(c.bufPath, i);
    if url.None? || xs.None? || xp.None? || bs.None? || bp.None? then None
    else Some(RowView(Safe(url.value), Upper(Safe(xs.value)), Safe(xp.value), Upper(Safe(bs.value))))
  }

  /** Where the generator writes the panels of a merged output: the same
      path `Panels.OutPath` computes, so the queue finds what the child wrote. */
  function ExpectedOut(cfg: Config, xaioPath: string): string {
    Panels.OutPath(cfg.outBuffersDir, xaioPath)
  }

  /** The hash the panels are fingerprinted with: SHA-256 of the merged
      output's `extracted_text_full` (as `str`, `""` when falsy), or `""`
      when the file is not JSON or not a dict. */
  function TextSha(env: Env, text: string): string {
    var v := env.parse(text);
    if v.None? || !v.value.JObj? then ""
    else env.sha256(Str(Or(GetField(v.value.fields, "extracted_text_full"), JStr(""))))
  }

  /** The hash is either empty or a digest, so never has surrounding
      whitespace; it is empty exactly when the file does not load as a dict. */
  lemma TextShaShape(env: Env, text: string)
    ensures IsTrimmed(TextSha(env, text))
    ensures TextSha(env, text) == "" <==> (env.parse(text).None? || !env.parse(text).value.JObj?)
  {
    var v := env.parse(text);
    if v.Some? && v.value.JObj? {
      DigestIsTrimmed(env.sha256(Str(Or(GetField(v.value.fields, "extracted_text_full"), JStr("")))));
    }
  }

  /** The statuses a run may overwrite: blank or `BUFFERS_FAILED`. */
  predicate RunnableStatus(bufStatus: string) {
    bufStatus == "" || bufStatus == "BUFFERS_FAILED"
  }

  const DefaultError: string := "buffers stage failed (no stderr/stdout)"

  /** The error recorded for a failed run: the child's error text, or a
      fixed message when it printed nothing. */
  function FailureText(p: Proc): string {
    var e := ErrorText(p);
    if e == [] then DefaultError else e
  }

  /** The recorded error is never empty: it is the child's error text when
      there is one, and the fixed message otherwise. */
  lemma FailureTextShape(p: Proc)
    ensures FailureText(p) != []
    ensures ErrorText(p) != [] ==> FailureText(p) == ErrorText(p)
    ensures ErrorText(p) == [] ==> FailureText(p) == DefaultError
  {
  }

  function FailedPut(cfg: Config, rownum: int, err: string): Event {
    Put(rownum, [Cell(cfg.colBuffersStatus, "BUFFERS_FAILED"), Cell(cfg.colBuffersError, err)])
  }

  function RunningPut(cfg: Config, rownum: int, out: string): Event {
    Put(rownum, [Cell(cfg.colBuffersStatus, "BUFFERS_RUNNING"), Cell(cfg.colBuffersPath, out), Cell(cfg.colBuffersError, "")])
  }

  function DonePut(cfg: Config, rownum: int, out: string): (e: Event)
    ensures IsDonePut(e)
  {
    var v := "BUFFERS_DONE";
    assert v[|v| - 5..] == "_DONE";
    Put(rownum, [Cell(cfg.colBuffersStatus, v), Cell(cfg.colBuffersPath, out), Cell(cfg.colBuffersError, "")])
  }

  /** Run the generator: it fails when it returns non-zero or leaves no
      output file; on success the marker is written before the done status. */
  function RunChild(cfg: Config, env: Env, rownum: int, out: string, sha: string, fs: Fs): RowResult {
    var p := env.run(rownum);
    var written := if p.output.Some? then fs[out := p.output.value] else fs;
    if p.rc != 0 || out !in written then
      RowResult([RunningPut(cfg, rownum, out), Ran(rownum, "BUFFERS", p.rc), FailedPut(cfg, rownum, CapError(FailureText(p)))],
                written, true, None)
    else
      var marks := if sha != [] then [Marked(MarkerPath(out), sha)] else [];
      RowResult([RunningPut(cfg, rownum, out), Ran(rownum, "BUFFERS", p.rc)] + marks + [DonePut(cfg, rownum, out)],
                MarkStage(written, out, sha), true, None)
  }

  /** A cell past the end of a column reads as blank. */
  lemma ShortColumnsReadBlank(c: Columns, rownum: int)
    requires rownum >= 1
    ensures var v := ViewAt(c, rownum).value;
      && (rownum > |c.xaioStatus| ==> v.xaioStatus == "")
      && (rownum > |c.xaioPath| ==> v.xaioPath == "")
      && (rownum > |c.bufStatus| ==> v.bufStatus == "")
  {
    assert Safe("") == "" by { assert IsBlank(""); }
  }

  /** The body of the loop for a row the cap lets through. */
  function Visit(cfg: Config, env: Env, rownum: int, view: RowView, fs: Fs): RowResult {
    var path := view.xaioPath;
    if view.xaioStatus != "XAIO_DONE" then RowResult([], fs, false, None)
    else if path == "" then
      RowResult([FailedPut(cfg, rownum, "Missing xaio_path.")], fs, false, None)
    else if path !in fs then
      RowResult([FailedPut(cfg, rownum, "xaio_parsed not found: " + path)], fs, false, None)
    else
      var out := ExpectedOut(cfg, path);
      var sha := TextSha(env, fs[path]);
      if view.bufStatus == "BUFFERS_DONE" && ShouldSkip(fs, out, sha) then RowResult([], fs, false, None)
      else if !RunnableStatus(view.bufStatus) then RowResult([], fs, false, None)
      else RunChild(cfg, env, rownum, out, sha, fs)
  }

  /** Whether the row starts the generator. */
  predicate Runs(cfg: Config, env: Env, view: RowView, fs: Fs) {
    && view.xaioStatus == "XAIO_DONE" && view.xaioPath != "" && view.xaioPath in fs
    && RunnableStatus(view.bufStatus)
  }

  /** No child is started in the log. */
  predicate NoRuns(events: seq<Event>) {
    forall i :: 0 <= i < |events| ==> !events[i].Ran?
  }

  /** A generator run fails when the child returns non-zero or its output
      is missing afterwards; a failure records the capped error (the
      child's, or the fixed message when it printed nothing) and writes no
      marker. */
  lemma RunChildFailure(cfg: Config, env: Env, rownum: int, out: string, sha: string, fs: Fs)
    requires var p := env.run(rownum); p.rc != 0 || (p.output.None? && out !in fs)
    ensures var r := RunChild(cfg, env, rownum, out, sha, fs);
      var p := env.run(rownum);
      && r.events == [RunningPut(cfg, rownum, out), Ran(rownum, "BUFFERS", p.rc), FailedPut(cfg, rownum, CapError(FailureText(p)))]
      && r.counted
      && r.fs == (if p.output.Some? then fs[out := p.output.value] else fs)
  {
  }

  /** A successful run with a digest of the text leaves its output fresh,
      so the next run skips the row once it reads `BUFFERS_DONE`. */
  lemma RunChildSuccess(cfg: Config, env: Env, rownum: int, out: string, sha: string, fs: Fs)
    requires var p := env.run(rownum); p.rc == 0 && (p.output.Some? || out in fs)
    requires sha != [] && IsTrimmed(sha)
    ensures var r := RunChild(cfg, env, rownum, out, sha, fs);
      && r.counted
      && r.events == [RunningPut(cfg, rownum, out), Ran(rownum, "BUFFERS", 0), Marked(MarkerPath(out), sha), DonePut(cfg, rownum, out)]
      && ShouldSkip(r.fs, out, sha)
  {
    var p := env.run(rownum);
    var written := if p.output.Some? then fs[out := p.output.value] else fs;
    MarkThenSkip(written, out, sha);
  }

  /** What the scan relies on from one row: the log concerns the row, guards
      its markers, starts at most one child and only for a row that runs,
      counts exactly when it started one, and writes nothing for a row whose
      merged output is not done. */
  predicate VisitLog(one: RowResult, row: int, view: RowView) {
    && RowsAre(one.events, row) && MarkersGuarded(one.events) && one.crash.None?
    && RanCount(one.events) == (if one.counted then 1 else 0)
    && (!RunnableStatus(view.bufStatus) ==> NoRuns(one.events))
    && (view.xaioStatus != "XAIO_DONE" ==> one.events == [])
  }

  lemma RunChildLog(cfg: Config, env: Env, rownum: int, out: string, sha: string, fs: Fs)
    ensures var r := RunChild(cfg, env, rownum, out, sha, fs);
      RowsAre(r.events, rownum) && MarkersGuarded(r.events) && r.crash.None? && r.counted && RanCount(r.events) == 1
  {
    var p := env.run(rownum);
    var start := RunningPut(cfg, rownum, out);
    var ran := Ran(rownum, "BUFFERS", p.rc);
    var written := if p.output.Some? then fs[out := p.output.value] else fs;
    var r := RunChild(cfg, env, rownum, out, sha, fs);
    if p.rc != 0 || out !in written {
      var failed := FailedPut(cfg, rownum, CapError(FailureText(p)));
      assert r.events == [start, ran, failed];
      FailedLog(start, ran, failed, rownum);
    } else {
      var marks := if sha != [] then [Marked(MarkerPath(out), sha)] else [];
      var done := DonePut(cfg, rownum, out);
      assert r.events == [start, ran] + marks + [done];
      DoneLog(start, ran, marks, done, rownum);
    }
  }

  lemma VisitShape(cfg: Config, env: Env, rownum: int, view: RowView, fs: Fs)
    ensures VisitLog(Visit(cfg, env, rownum, view, fs), rownum, view)
    ensures Visit(cfg, env, rownum, view, fs).counted <==> Runs(cfg, env, view, fs)
  {
    var path := view.xaioPath;
    if view.xaioStatus == "XAIO_DONE" && path != "" && path in fs {
      var out := ExpectedOut(cfg, path);
      var sha := TextSha(env, fs[path]);
      if !(view.bufStatus == "BUFFERS_DONE" && ShouldSkip(fs, out, sha)) && RunnableStatus(view.bufStatus) {
        RunChildLog(cfg, env, rownum, out, sha, fs);
      }
    } else if view.xaioStatus == "XAIO_DONE" {
      var e := Visit(cfg, env, rownum, view, fs).events;
      assert |e| == 1 && e[0].Put?;
      assert e[..0] == [];
    }
  }

  /** A row whose status is `BUFFERS_DONE` (fresh or stale), `BUFFERS_RUNNING`
      or anything but blank and `BUFFERS_FAILED` never starts the generator
      and does not count. */
  lemma OnlyBlankOrFailedRun(cfg: Config, env: Env, rownum: int, view: RowView, fs: Fs)
    requires !RunnableStatus(view.bufStatus)
    ensures var r := Visit(cfg, env, rownum, view, fs);
      NoRuns(r.events) && !r.counted && r.fs == fs
  {
    VisitShape(cfg, env, rownum, view, fs);
  }

  /** A merged output that does not load as a dict gives an empty hash, so
      the row is never skipped as fresh. */
  lemma UnreadableTextNeverFresh(env: Env, text: string, fs: Fs, out: string)
    requires env.parse(text).None? || !env.parse(text).value.JObj?
    ensures TextSha(env, text) == "" && !ShouldSkip(fs, out, TextSha(env, text))
  {
  }

  /** With an empty hash a successful run writes no marker. */
  lemma EmptyShaWritesNoMarker(cfg: Config, env: Env, rownum: int, out: string, fs: Fs)
    ensures var r := RunChild(cfg, env, rownum, out, "", fs);
      && (forall i :: 0 <= i < |r.events| ==> !r.events[i].Marked?)
      && (MarkerPath(out) in r.fs <==> MarkerPath(out) in fs)
      && (MarkerPath(out) in fs ==> r.fs[MarkerPath(out)] == fs[MarkerPath(out)])
  {
    EmptyShaEvents(cfg, env, rownum, out, fs);
    EmptyShaFiles(cfg, env, rownum, out, fs);
    var e := RunChild(cfg, env, rownum, out, "", fs).events;
    forall i | 0 <= i < |e| ensures !e[i].Marked? {
      assert i == 0 || i == 1 || i == 2;
    }
  }

  lemma EmptyShaFiles(cfg: Config, env: Env, rownum: int, out: string, fs: Fs)
    ensures var r := RunChild(cfg, env, rownum, out, "", fs);
      && (MarkerPath(out) in r.fs <==> MarkerPath(out) in fs)
      && (MarkerPath(out) in fs ==> r.fs[MarkerPath(out)] == fs[MarkerPath(out)])
  {
    var p := env.run(rownum);
    var written := if p.output.Some? then fs[out := p.output.value] else fs;
    assert RunChild(cfg, env, rownum, out, "", fs).fs == written;
    assert MarkerPath(out) != out;
  }

  lemma EmptyShaEvents(cfg: Config, env: Env, rownum: int, out: string, fs: Fs)
    ensures var e := RunChild(cfg, env, rownum, out, "", fs).events;
      |e| == 3 && e[0].Put? && e[1].Ran? && e[2].Put?
  {
  }

  /** A row without a merged output path, or whose merged output is missing,
      gets `BUFFERS_FAILED` with the reason and does not count. */
  lemma MissingXaioFails(cfg: Config, env: Env, rownum: int, view: RowView, fs: Fs)
    requires view.xaioStatus == "XAIO_DONE" && (view.xaioPath == "" || view.xaioPath !in fs)
    ensures var r := Visit(cfg, env, rownum, view, fs);
      && !r.counted && r.fs == fs && |r.events| == 1
      && r.events[0] == FailedPut(cfg, rownum, if view.xaioPath == "" then "Missing xaio_path." else "xaio_parsed not found: " + view.xaioPath)
  {
  }

  /** `for rownum in range(first_data_row, max_rows + 1)` from `rownum` on;
      `visit` is the loop body after the cap check. */
  function Scan(c: Columns, maxPerRun: int, visit: (int, RowView, Fs) -> RowResult,
                rownum: int, processed: nat, fs: Fs): (r: Outcome)
    ensures processed <= r.processed <= CapFrom(processed, maxPerRun)
    decreases MaxRows(c) + 1 - rownum
  {
    if rownum > MaxRows(c) || processed >= maxPerRun then Outcome([], processed, fs, None)
    else
      var view := ViewAt(c, rownum);
      if view.None? then Outcome([], processed, fs, Some(IndexError))
      else
        var one := visit(rownum, view.value, fs);
        var rest := Scan(c, maxPerRun, visit, rownum + 1, Bump(processed, one.counted), one.fs);
        Outcome(one.events + rest.events, rest.processed, rest.fs, rest.crash)
  }

  /** Every cell write and child run of the log is for a row from `lo` to
      the scan's last row whose xaio status is `XAIO_DONE`, and every child
      run is for a row whose buffers status is blank or `BUFFERS_FAILED`. */
  predicate ScanRows(c: Columns, events: seq<Event>, lo: int) {
    forall i :: 0 <= i < |events| && (events[i].Put? || events[i].Ran?) ==> ScanRowAt(c, events[i], lo)
  }

  predicate ScanRowAt(c: Columns, e: Event, lo: int)
    requires e.Put? || e.Ran?
  {
    && lo <= e.row <= MaxRows(c) && ViewAt(c, e.row).Some?
    && ViewAt(c, e.row).value.xaioStatus == "XAIO_DONE"
    && (e.Ran? ==> RunnableStatus(ViewAt(c, e.row).value.bufStatus))
  }

  /** What a whole scan guarantees: its log satisfies `ScanRows`, markers
      are guarded, and `processed` grew by exactly the number of children
      started. */
  predicate ScanLog(c: Columns, o: Outcome, lo: int, processed: nat) {
    ScanRows(c, o.events, lo) && MarkersGuarded(o.events) && o.processed == processed + RanCount(o.events)
  }

  lemma ScanRowsConcat(c: Columns, a: seq<Event>, b: seq<Event>, rownum: int, view: RowView)
    requires rownum <= MaxRows(c) && ViewAt(c, rownum) == Some(view)
    requires RowsAre(a, rownum) && (view.xaioStatus != "XAIO_DONE" ==> a == [])
    requires !RunnableStatus(view.bufStatus) ==> NoRuns(a)
    requires ScanRows(c, b, rownum + 1)
    ensures ScanRows(c, a + b, rownum)
  {
    var e := a + b;
    forall i | 0 <= i < |e| && (e[i].Put? || e[i].Ran?) ensures ScanRowAt(c, e[i], rownum) {
      if i >= |a| { assert e[i] == b[i - |a|]; } else { assert e[i] == a[i]; }
    }
  }

  lemma ScanEndStep(c: Columns, maxPerRun: int, visit: (int, RowView, Fs) -> RowResult, rownum: int, processed: nat, fs: Fs)
    requires rownum > MaxRows(c) || processed >= maxPerRun || ViewAt(c, rownum).None?
    ensures ScanLog(c, Scan(c, maxPerRun, visit, rownum, processed, fs), rownum, processed)
  {
  }

  lemma ScanVisitStep(c: Columns, maxPerRun: int, visit: (int, RowView, Fs) -> RowResult, rownum: int, processed: nat, fs: Fs)
    requires rownum <= MaxRows(c) && processed < maxPerRun && ViewAt(c, rownum).Some?
    requires var view := ViewAt(c, rownum).value; VisitLog(visit(rownum, view, fs), rownum, view)
    requires var one := visit(rownum, ViewAt(c, rownum).value, fs);
      var next := Bump(processed, one.counted);
      ScanLog(c, Scan(c, maxPerRun, visit, rownum + 1, next, one.fs), rownum + 1, next)
    ensures ScanLog(c, Scan(c, maxPerRun, visit, rownum, processed, fs), rownum, processed)
  {
    var view := ViewAt(c, rownum).value;
    var one := visit(rownum, view, fs);
    var rest := Scan(c, maxPerRun, visit, rownum + 1, Bump(processed, one.counted), one.fs);
    MarkersConcat(one.events, rest.events);
    ScanRowsConcat(c, one.events, rest.events, rownum, view);
    RanCountConcat(one.events, rest.events);
  }

  lemma {:induction false} ScanShape(c: Columns, maxPerRun: int, visit: (int, RowView, Fs) -> RowResult, rownum: int, processed: nat, fs: Fs)
    requires forall n, v, f :: VisitLog(visit(n, v, f), n, v)
    ensures ScanLog(c, Scan(c, maxPerRun, visit, rownum, processed, fs), rownum, processed)
    decreases MaxRows(c) + 1 - rownum
  {
    if rownum > MaxRows(c) || processed >= maxPerRun || ViewAt(c, rownum).None? {
      ScanEndStep(c, maxPerRun, visit, rownum, processed, fs);
    } else {
      var view := ViewAt(c, rownum).value;
      var one := visit(rownum, view, fs);
      assert VisitLog(one, rownum, view);
      ScanShape(c, maxPerRun, visit, rownum + 1, Bump(processed, one.counted), one.fs);
      ScanVisitStep(c, maxPerRun, visit, rownum, processed, fs);
    }
  }

  /** The loop body of `main`. */
  function Visitor(cfg: Config, env: Env): (int, RowView, Fs) -> RowResult {
    (n: int, v: RowView, f: Fs) => Visit(cfg, env, n, v, f)
  }

  /** `main`: the scan from `first_data_row` with nothing processed. At most
      `max_per_run` generator runs happen, and none when it is not
      positive. */
  function Run(cfg: Config, env: Env, c: Columns, fs: Fs): (r: Outcome)
    ensures cfg.maxPerRun >= 0 ==> r.processed <= cfg.maxPerRun
    ensures cfg.maxPerRun <= 0 ==> r.processed == 0
  {
    Scan(c, cfg.maxPerRun, Visitor(cfg, env), cfg.firstDataRow, 0, fs)
  }

  /** A run writes only to `XAIO_DONE` rows between `first_data_row` and the
      longest column, starts the generator only for blank or failed buffers
      statuses, guards every marker, and counts exactly the generator runs,
      failed or successful. */
  lemma RunShape(cfg: Config, env: Env, c: Columns, fs: Fs)
    ensures ScanLog(c, Run(cfg, env, c, fs), cfg.firstDataRow, 0)
  {
    forall n, v, f ensures VisitLog(Visitor(cfg, env)(n, v, f), n, v) {
      VisitShape(cfg, env, n, v, f);
    }
    ScanShape(c, cfg.maxPerRun, Visitor(cfg, env), cfg.firstDataRow, 0, fs);
  }
}

=== FILE: claims.dfy ===
/** The claims stage, src/call_openai_claims.py: the page text goes to the
    model, and the claims it returns are normalised and de-duplicated before
    `<item>.claims_parsed.json` is written. */
module Claims {
  import opened Wrappers
  import opened PyText
  import opened JsonValue
  import opened Fingerprint
  import opened PyPath
  import opened Scf
  import opened Cli

  // ---------------------------------------------------------------------
  // Claim text

  /** `normalize_claim_text`: strip, collapse whitespace runs to one space,
      strip again. */
  function ClaimText(s: string): (r: string)
    ensures IsTrimmed(r) && SingleSpaced(r)
    ensures r == [] <==> IsBlank(s)
    ensures Words(r) == Words(s)
  {
    CleanShape(Strip(s));
    CleanKeepsWords(Strip(s));
    StripKeepsWords(s);
    Clean(Strip(s))
  }

  /** A trimmed, single-spaced text is already normal. */
  lemma ClaimTextFixed(t: string)
    requires IsTrimmed(t) && SingleSpaced(t)
    ensures ClaimText(t) == t
  {
    StripOfTrimmed(t);
    CollapseRunsOfSingleSpaced(t, false);
    StripOfTrimmed(t);
  }

  /** Normalising twice is normalising once. */
  lemma ClaimTextIdempotent(s: string)
    ensures ClaimText(ClaimText(s)) == ClaimText(s)
  {
    ClaimTextFixed(ClaimText(s));
  }

  // ---------------------------------------------------------------------
  // Cleaning the parsed claims

  /** One parsed claim: the structured reply guarantees both are strings. */
  datatype Claim = Claim(text: string, kind: string)

  /** `ct = normalize_claim_text(claim_text)`, `ctype = claim_type.strip()`. */
  function Normalize(c: Claim): Claim {
    Claim(ClaimText(c.text), Strip(c.kind))
  }

  /** What a cleaned claim looks like: non-empty normal text, stripped type. */
  predicate Tidy(c: Claim) {
    c.text != [] && IsTrimmed(c.text) && SingleSpaced(c.text) && IsTrimmed(c.kind)
  }

  predicate AllTidy(cs: seq<Claim>) {
    forall i :: 0 <= i < |cs| ==> Tidy(cs[i])
  }

  predicate Distinct(cs: seq<Claim>) {
    forall i, j :: 0 <= i < j < |cs| ==> cs[i] != cs[j]
  }

  /** The normalised claims, in reply order: one per reply claim, at the
      same position. */
  function Normalized(cs: seq<Claim>): (r: seq<Claim>)
    ensures |r| == |cs|
    ensures forall i :: 0 <= i < |cs| ==> r[i] == Normalize(cs[i])
  {
    seq(|cs|, i requires 0 <= i < |cs| => Normalize(cs[i]))
  }

  /** Every normalised claim is tidy unless its text is empty. */
  lemma NormalizedShape(cs: seq<Claim>)
    ensures forall i :: 0 <= i < |cs| ==> Normalized(cs)[i].text == [] || Tidy(Normalized(cs)[i])
  {
    forall i | 0 <= i < |cs| ensures Normalized(cs)[i].text == [] || Tidy(Normalized(cs)[i]) {
    }
  }

  /** A claim is among the normalised ones exactly when some reply claim
      normalises to it. */
  lemma NormalizedMembers(cs: seq<Claim>, c: Claim)
    ensures c in Normalized(cs) <==> exists i :: 0 <= i < |cs| && Normalize(cs[i]) == c
  {
    if c in Normalized(cs) {
      NormalizedMemberFrom(cs, c);
    }
    if exists i :: 0 <= i < |cs| && Normalize(cs[i]) == c {
      var i :| 0 <= i < |cs| && Normalize(cs[i]) == c;
    }
  }

  lemma NormalizedMemberFrom(cs: seq<Claim>, c: Claim)
    requires c in Normalized(cs)
    ensures exists i :: 0 <= i < |cs| && Normalize(cs[i]) == c
  {
    var ns := Normalized(cs);
    var i :| 0 <= i < |ns| && ns[i] == c;
  }

  /** The position of the first occurrence of `c`. */
  function FirstAt(cs: seq<Claim>, c: Claim): (i: nat)
    requires c in cs
    ensures i < |cs| && cs[i] == c && c !in cs[..i]
    decreases |cs|
  {
    if cs[0] == c then 0
    else
      var j := FirstAt(cs[1..], c);
      assert cs[1..][..j] == cs[1..j + 1];
      1 + j
  }

  /** One turn of the loop: an empty text or an already seen
      `(text, type)` pair is skipped. */
  function Step(acc: seq<Claim>, n: Claim): seq<Claim> {
    if n.text == [] || n in acc then acc else acc + [n]
  }

  /** The loop from the cleaned list `acc` over the remaining claims. */
  function CleanFrom(acc: seq<Claim>, ns: seq<Claim>): (r: seq<Claim>)
    ensures |acc| <= |r| && r[..|acc|] == acc
    decreases |ns|
  {
    if ns == [] then acc
    else
      var next := Step(acc, ns[0]);
      var r := CleanFrom(next, ns[1..]);
      assert r[..|acc|] == r[..|next|][..|acc|];
      r
  }

  /** The whole clean/dedupe block: no empty text, stripped types, no
      `(text, type)` pair twice. */
  function CleanClaims(cs: seq<Claim>): (r: seq<Claim>)
    ensures AllTidy(r) && Distinct(r)
  {
    var ns := Normalized(cs);
    NormalizedShape(cs);
    CleanFromShape([], ns);
    CleanFrom([], ns)
  }

  /** The cleaned claims are exactly the normalised claims with a
      non-empty text. */
  lemma CleanClaimsMembers(cs: seq<Claim>, c: Claim)
    ensures c in CleanClaims(cs) <==> c.text != [] && c in Normalized(cs)
  {
    CleanFromMembers([], Normalized(cs));
  }

  /** The cleaned claims keep the order in which they first occur among
      the normalised claims. */
  lemma CleanClaimsOrder(cs: seq<Claim>, i: nat, j: nat)
    requires i < j < |CleanClaims(cs)|
    ensures CleanClaims(cs)[i] in Normalized(cs) && CleanClaims(cs)[j] in Normalized(cs)
    ensures FirstAt(Normalized(cs), CleanClaims(cs)[i]) < FirstAt(Normalized(cs), CleanClaims(cs)[j])
  {
    CleanClaimsLoop(cs);
    CleanFromOrderAt(Normalized(cs), i, j);
  }

  lemma CleanClaimsLoop(cs: seq<Claim>)
    ensures CleanClaims(cs) == CleanFrom([], Normalized(cs))
  {
  }

  lemma CleanFromOrderAt(ns: seq<Claim>, i: nat, j: nat)
    requires i < j < |CleanFrom([], ns)|
    ensures CleanFrom([], ns)[i] in ns && CleanFrom([], ns)[j] in ns
    ensures FirstAt(ns, CleanFrom([], ns)[i]) < FirstAt(ns, CleanFrom([], ns)[j])
  {
    CleanFromOrder([], ns);
  }

  lemma {:induction false} CleanFromShape(acc: seq<Claim>, ns: seq<Claim>)
    requires AllTidy(acc) && Distinct(acc)
    requires forall i :: 0 <= i < |ns| ==> ns[i].text == [] || Tidy(ns[i])
    ensures AllTidy(CleanFrom(acc, ns)) && Distinct(CleanFrom(acc, ns))
    decreases |ns|
  {
    if ns != [] {
      var next := Step(acc, ns[0]);
      assert Distinct(next) by {
        forall i, j | 0 <= i < j < |next| ensures next[i] != next[j] {
          if j == |acc| { assert next[i] == acc[i]; }
        }
      }
      CleanFromShape(next, ns[1..]);
    }
  }

  lemma {:induction false} CleanFromMembers(acc: seq<Claim>, ns: seq<Claim>)
    ensures forall c :: c in CleanFrom(acc, ns) <==> c in acc || (c.text != [] && c in ns)
    decreases |ns|
  {
    if ns != [] {
      CleanFromMembers(Step(acc, ns[0]), ns[1..]);
      assert ns == [ns[0]] + ns[1..];
    }
  }

  /** Claims added after `acc` were not in it. */
  lemma {:induction false} CleanFromFresh(acc: seq<Claim>, ns: seq<Claim>)
    ensures forall i :: |acc| <= i < |CleanFrom(acc, ns)| ==> CleanFrom(acc, ns)[i] !in acc && CleanFrom(acc, ns)[i].text != []
    decreases |ns|
  {
    if ns != [] {
      var next := Step(acc, ns[0]);
      var r := CleanFrom(next, ns[1..]);
      assert r == CleanFrom(acc, ns);
      CleanFromFresh(next, ns[1..]);
      assert r[..|next|] == next;
      forall i | |acc| <= i < |r| ensures r[i] !in acc && r[i].text != [] {
        if i < |next| {
          assert r[i] == next[i] == ns[0];
        } else {
          assert r[i] !in next && r[i].text != [];
          assert forall x :: x in acc ==> x in next;
        }
      }
    }
  }

  /** New claims come in the order of their first occurrence. */
  lemma {:induction false} CleanFromOrder(acc: seq<Claim>, ns: seq<Claim>)
    ensures var r := CleanFrom(acc, ns);
      forall i, j :: |acc| <= i < j < |r| ==> r[i] in ns && r[j] in ns && FirstAt(ns, r[i]) < FirstAt(ns, r[j])
    decreases |ns|
  {
    var r := CleanFrom(acc, ns);
    if ns != [] {
      var n0 := ns[0];
      var next := Step(acc, n0);
      assert r == CleanFrom(next, ns[1..]);
      CleanFromOrder(next, ns[1..]);
      CleanFromFresh(next, ns[1..]);
      CleanFromMembers(next, ns[1..]);
      forall i | |next| <= i < |r|
        ensures r[i] in ns[1..] && FirstAt(ns, r[i]) == 1 + FirstAt(ns[1..], r[i])
      {
        assert r[i] != n0 by {
          if next == acc {
            if n0.text != [] { assert n0 in acc; }
          } else {
            assert n0 in next;
          }
        }
        assert r[i] in ns[1..] by {
          assert r[i] !in next && r[i].text != [];
        }
      }
      if next != acc {
        assert r[|acc|] == n0 by { assert r[..|next|] == next; }
      }
    }
  }

  /** A list that is already clean goes through the loop unchanged. */
  lemma {:induction false} CleanFromClean(acc: seq<Claim>, xs: seq<Claim>)
    requires Distinct(acc + xs)
    requires forall i :: 0 <= i < |xs| ==> xs[i].text != []
    ensures CleanFrom(acc, xs) == acc + xs
    decreases |xs|
  {
    if xs != [] {
      assert xs[0] !in acc by {
        forall i | 0 <= i < |acc| ensures acc[i] != xs[0] {
          assert (acc + xs)[i] == acc[i] && (acc + xs)[|acc|] == xs[0];
        }
      }
      assert acc + xs == (acc + [xs[0]]) + xs[1..];
      CleanFromClean(acc + [xs[0]], xs[1..]);
    }
  }

  /** Tidy claims are their own normal form. */
  lemma NormalizedTidy(cs: seq<Claim>)
    requires AllTidy(cs)
    ensures Normalized(cs) == cs
  {
    forall i | 0 <= i < |cs| ensures Normalized(cs)[i] == cs[i] {
      ClaimTextFixed(cs[i].text);
      StripOfTrimmed(cs[i].kind);
    }
  }

  /** Cleaning the cleaned claims changes nothing. */
  lemma {:induction false} CleanClaimsIdempotent(cs: seq<Claim>)
    ensures CleanClaims(CleanClaims(cs)) == CleanClaims(cs)
  {
    var r := CleanClaims(cs);
    NormalizedTidy(r);
    assert [] + r == r;
    CleanFromClean([], r);
  }

  // ---------------------------------------------------------------------
  // The output document

  function ClaimJson(c: Claim): Json {
    JObj([Field("claim_text", JStr(c.text)), Field("claim_type", JStr(c.kind))])
  }

  /** `{"claims": cleaned}`. */
  function Output(cs: seq<Claim>): Json {
    JObj([Field("claims", JArr(seq(|cs|, i requires 0 <= i < |cs| => ClaimJson(cs[i]))))])
  }

  /** A claim as the merge step reads it back from the output file. */
  function ReadClaim(v: Json): Option<Claim> {
    if v.JObj? && Get(v, "claim_text").JStr? && Get(v, "claim_type").JStr? then
      Some(Claim(Get(v, "claim_text").s, Get(v, "claim_type").s))
    else None
  }

  lemma ReadClaimJson(c: Claim)
    ensures ReadClaim(ClaimJson(c)) == Some(c)
  {
    assert "claim_text"[7] != "claim_type"[7];
    LookupLast(ClaimJson(c).fields, 0);
    LookupLast(ClaimJson(c).fields, 1);
  }

  /** The output has exactly the one key `claims`, and reading each entry
      back gives the cleaned claims. */
  lemma OutputRoundTrip(cs: seq<Claim>)
    ensures Output(cs).JObj? && Keys(Output(cs).fields) == ["claims"]
    ensures var items := Get(Output(cs), "claims");
      && items.JArr? && |items.items| == |cs|
      && forall i :: 0 <= i < |cs| ==> ReadClaim(items.items[i]) == Some(cs[i])
  {
    var items := Get(Output(cs), "claims");
    forall i | 0 <= i < |cs| ensures ReadClaim(items.items[i]) == Some(cs[i]) {
      ReadClaimJson(cs[i]);
    }
  }

  // ---------------------------------------------------------------------
  // The prompt

  /** The sources of the canonical URL, strongest first. */
  function CanonicalSources(url: seq<Field>, clean: seq<Field>): seq<Json> {
    [GetField(clean, "canonical"), GetField(url, "final"), GetField(url, "original")]
  }

  /** `clean.canonical or final or original`: the first truthy source,
      else the (falsy) original URL. */
  function Canonical(url: seq<Field>, clean: seq<Field>): (r: Json)
    ensures r == FirstTruthy(CanonicalSources(url, clean)).GetOr(GetField(url, "original"))
  {
    var vs := CanonicalSources(url, clean);
    OrChainFirstTruthy(vs);
    OrChain(vs)
  }

  /** The parts of the ai input the prompt is built from, each dict read
      through `(x or {})`. */
  datatype Parts = Parts(url: seq<Field>, clean: seq<Field>, meta: Json, content: seq<Field>)

  /** An ai input that is not a dict, or a truthy non-dict `url`,
      `url.clean` or `content`, raises `AttributeError`. */
  function ReadParts(ai: Json): (r: Result<Parts>)
    ensures r.Success? ==> ai.JObj?
    ensures r.Success? ==> r.value.url == DictOrEmpty(GetField(ai.fields, "url"))
                           && r.value.content == DictOrEmpty(GetField(ai.fields, "content"))
                           && r.value.meta == Lookup(ai.fields, "meta").GetOr(Empty)
    ensures (ai.JObj? && GetField(ai.fields, "url").JObj? && GetField(ai.fields, "content").JObj?
             && GetField(GetField(ai.fields, "url").fields, "clean").JObj?) ==> r.Success?
  {
    if !ai.JObj? then Failure("AttributeError: object has no attribute 'get'")
    else
      var url :- OrEmptyDict(GetField(ai.fields, "url"));
      var clean :- OrEmptyDict(GetField(url, "clean"));
      var content :- OrEmptyDict(GetField(ai.fields, "content"));
      Success(Parts(url, clean, Lookup(ai.fields, "meta").GetOr(Empty), content))
  }

  /** `{canonical_url, meta, content: {extracted_text_full}}`. */
  function Prompt(p: Parts): Json {
    JObj([Field("canonical_url", Canonical(p.url, p.clean)),
          Field("meta", p.meta),
          Field("content", JObj([Field("extracted_text_full", Lookup(p.content, "extracted_text_full").GetOr(JStr("")))]))])
  }

  /** The prompt carries the canonical URL by precedence, the meta section
      as it is, and of the content only the full text (`""` when absent). */
  lemma PromptFields(p: Parts)
    ensures Get(Prompt(p), "canonical_url") == FirstTruthy(CanonicalSources(p.url, p.clean)).GetOr(GetField(p.url, "original"))
    ensures Get(Prompt(p), "meta") == p.meta
    ensures var c := Get(Prompt(p), "content");
      && c.JObj? && Keys(c.fields) == ["extracted_text_full"]
      && Get(c, "extracted_text_full") == (if HasKey(p.content, "extracted_text_full") then GetField(p.content, "extracted_text_full") else JStr(""))
  {
    var f := Prompt(p).fields;
    LookupLast(f, 0);
    LookupLast(f, 1);
    PromptContent(p);
  }

  lemma PromptContent(p: Parts)
    ensures var c := Get(Prompt(p), "content");
      && c.JObj? && Keys(c.fields) == ["extracted_text_full"]
      && Get(c, "extracted_text_full") == (if HasKey(p.content, "extracted_text_full") then GetField(p.content, "extracted_text_full") else JStr(""))
  {
    var inner := [Field("extracted_text_full", Lookup(p.content, "extracted_text_full").GetOr(JStr("")))];
    LookupLast(Prompt(p).fields, 2);
    assert Get(Prompt(p), "content") == JObj(inner);
    LookupLast(inner, 0);
  }

  function UserInput(ai: Json): Result<Json> {
    var p :- ReadParts(ai);
    Success(Prompt(p))
  }

  // ---------------------------------------------------------------------
  // The script

  /** The structured reply: the parsed claims (`None` on a refusal or a
      parse failure) and the raw response. */
  datatype Reply = Reply(parsed: Option<seq<Claim>>, raw: Json)

  function OutPath(outdir: string, aiPath: string): string {
    JoinPath(outdir, ItemBase(aiPath, ".ai_input") + ".claims_parsed.json")
  }

  function RawPath(outdir: string, aiPath: string): string {
    JoinPath(outdir, ItemBase(aiPath, ".ai_input") + ".claims_response_raw.json")
  }

  /** `main` of src/call_openai_claims.py. `call` is the model call given
      the prompt and the claim types; it fails when the call raises after
      its retries. The meta file named on the command line is never read.
      Every exception inside the `try` becomes exit status 1. */
  function Main(fs: Fs, aiPath: string, metaPath: string, scfPath: string, outdir: string, writeRaw: bool,
                parse: string -> Option<Json>, dump: Json -> string, call: (Json, seq<string>) -> Result<Reply>): (r: Exit)
    ensures r.rc == 0 || r.rc == 1
    ensures Frame(fs, r.fs, {OutPath(outdir, aiPath), RawPath(outdir, aiPath)})
    ensures r.rc == 0 ==> OutPath(outdir, aiPath) in r.fs
    ensures r.rc == 1 ==> Frame(fs, r.fs, {RawPath(outdir, aiPath)})
    ensures !writeRaw && r.rc == 0 ==> Frame(fs, r.fs, {OutPath(outdir, aiPath)})
  {
    var ai := LoadJson(fs, aiPath, parse);
    if ai.Failure? then Exit(1, fs)
    else
      var prompt := UserInput(ai.value);
      if prompt.Failure? then Exit(1, fs)
      else
        var scf := LoadJson(fs, scfPath, parse);
        if scf.Failure? then Exit(1, fs)
        else
          var types := ClaimTypeChoices(scf.value);
          if types.Failure? then Exit(1, fs)
          else
            var reply := call(prompt.value, types.value);
            if reply.Failure? then Exit(1, fs)
            else if reply.value.parsed.None? then Exit(1, fs[RawPath(outdir, aiPath) := dump(reply.value.raw)])
            else
              var fs1 := fs[OutPath(outdir, aiPath) := dump(Output(CleanClaims(reply.value.parsed.value)))];
              Exit(0, if writeRaw then fs1[RawPath(outdir, aiPath) := dump(reply.value.raw)] else fs1)
  }

  /** The parsed and raw files of an item are different files. */
  lemma PathsDiffer(outdir: string, aiPath: string)
    ensures OutPath(outdir, aiPath) != RawPath(outdir, aiPath)
  {
    assert |OutPath(outdir, aiPath)| != |RawPath(outdir, aiPath)|;
  }

  /** A refusal leaves the raw response, exit status 1 and no new parsed
      file. */
  lemma RefusalKeepsRaw(fs: Fs, aiPath: string, metaPath: string, scfPath: string, outdir: string, writeRaw: bool,
                        parse: string -> Option<Json>, dump: Json -> string, call: (Json, seq<string>) -> Result<Reply>)
    requires LoadJson(fs, aiPath, parse).Success? && UserInput(LoadJson(fs, aiPath, parse).value).Success?
    requires LoadJson(fs, scfPath, parse).Success? && ClaimTypeChoices(LoadJson(fs, scfPath, parse).value).Success?
    requires var reply := call(UserInput(LoadJson(fs, aiPath, parse).value).value,
                               ClaimTypeChoices(LoadJson(fs, scfPath, parse).value).value);
      reply.Success? && reply.value.parsed.None?
    ensures var r := Main(fs, aiPath, metaPath, scfPath, outdir, writeRaw, parse, dump, call);
      && r.rc == 1 && RawPath(outdir, aiPath) in r.fs
      && (OutPath(outdir, aiPath) in r.fs <==> OutPath(outdir, aiPath) in fs)
  {
    PathsDiffer(outdir, aiPath);
  }

  /** On success the parsed file holds exactly the cleaned claims. */
  lemma SuccessWritesCleaned(fs: Fs, aiPath: string, metaPath: string, scfPath: string, outdir: string, writeRaw: bool,
                             parse: string -> Option<Json>, dump: Json -> string, call: (Json, seq<string>) -> Result<Reply>)
    requires Main(fs, aiPath, metaPath, scfPath, outdir, writeRaw, parse, dump, call).rc == 0
    ensures var reply := call(UserInput(LoadJson(fs, aiPath, parse).value).value,
                              ClaimTypeChoices(LoadJson(fs, scfPath, parse).value).value);
      && reply.Success? && reply.value.parsed.Some?
      && Main(fs, aiPath, metaPath, scfPath, outdir, writeRaw, parse, dump, call).fs[OutPath(outdir, aiPath)]
           == dump(Output(CleanClaims(reply.value.parsed.value)))
  {
    PathsDiffer(outdir, aiPath);
  }

  /** The meta file argument makes no difference. */
  lemma MetaFileUnread(fs: Fs, aiPath: string, metaPath: string, metaPath2: string, scfPath: string, outdir: string,
                       writeRaw: bool, parse: string -> Option<Json>, dump: Json -> string,
                       call: (Json, seq<string>) -> Result<Reply>)
    ensures Main(fs, aiPath, metaPath, scfPath, outdir, writeRaw, parse, dump, call)
         == Main(fs, aiPath, metaPath2, scfPath, outdir, writeRaw, parse, dump, call)
  {
  }
}

=== FILE: cli.dfy ===
/** What the command-line scripts share: reading a JSON file through
    `json.loads`, the item name derived from an input file, and the exit
    status together with the files a run leaves behind. */
module Cli {
  import opened Wrappers
  import opened PyText
  import opened JsonValue
  import opened Fingerprint
  import opened PyPath

  /** A finished script run: its exit status and the resulting files. */
  datatype Exit = Exit(rc: int, fs: Fs)

  /** `json.loads(path.read_text())`: a missing file or text that does not
      parse raises. */
  function LoadJson(fs: Fs, path: string, parse: string -> Option<Json>): (r: Result<Json>)
    ensures r.Success? <==> path in fs && parse(fs[path]).Some?
    ensures r.Success? ==> r.value == parse(fs[path]).value
  {
    if path !in fs then Failure("FileNotFoundError: " + path)
    else if parse(fs[path]).None? then Failure("JSONDecodeError: " + path)
    else Success(parse(fs[path]).value)
  }

  /** `path.stem.replace(tag, "")`: the item name the outputs are named by. */
  function ItemBase(path: string, tag: string): string
    requires tag != []
  {
    ReplaceAll(Stem(path), tag, "")
  }

  /** Every file outside `paths` is as it was. */
  ghost predicate Frame(before: Fs, after: Fs, paths: set<string>) {
    forall p :: p !in paths ==> (p in after <==> p in before) && (p in before ==> after[p] == before[p])
  }
}

=== FILE: condense_queue.dfy ===
/** `condense_queue.py`: for every sheet row whose capture status is `DONE`
    and whose AI status is neither `AI_READY` nor `CONDENSING`, run
    `reduce4ai.py` on the capture, recording `CONDENSING`, then `AI_READY`
    with the envelope path or `AI_FAILED` with the error. A row without a
    capture path is failed before the cap is consulted and does not count;
    every row that reached the child counts, whatever its outcome. */
module CondenseQueue {
  import opened Wrappers
  import opened PyText
  import opened Sheet
  import opened Fingerprint
  import opened PyPath
  import opened Jobs
  import opened Drivers
  import opened JsonValue
  import Reduce4AI

  datatype Config = Config(
    firstDataRow: int,
    maxPerRun: int,
    colUrl: string,
    colStatus: string,
    colJsonPath: string,
    colAiStatus: string,
    colAiInputPath: string,
    colAiError: string,
    outAiDir: string,
    promptSetId: string)

  /** The 0-based positions of the columns `main` reads. */
  datatype Indices = Indices(status: int, json: int, aiStatus: int, url: int)

  function ColumnIndices(cfg: Config): Indices {
    Indices(ColumnIndex(cfg.colStatus), ColumnIndex(cfg.colJsonPath), ColumnIndex(cfg.colAiStatus), ColumnIndex(cfg.colUrl))
  }

  /** The cells of one row, `safe(...)` and, for the statuses, upper-cased. */
  datatype RowView = RowView(status: string, aiStatus: string, jsonPath: string, url: string)

  /** Read the row's cells; a negative column index beyond the row's start
      raises `IndexError`. */
  function ReadRow(ix: Indices, row: seq<string>): Option<RowView> {
    var status := ReadCell(row, ix.status);
    var ai := ReadCell(row, ix.aiStatus);
    var json := ReadCell(row, ix.json);
    var url := ReadCell(row, ix.url);
    if status.None? || ai.None? || json.None? || url.None? then None
    else Some(RowView(Upper(Safe(status.value)), Upper(Safe(ai.value)), Safe(json.value), Safe(url.value)))
  }

  /** Sheet row `rownum` (1-based; Python's negative indexing for rows at
      or before 0), if reading it does not raise. */
  function ViewAt(ix: Indices, rows: seq<seq<string>>, rownum: int): Option<RowView> {
    var row := PyItem(rows, rownum - 1);
    if row.None? then None else ReadRow(ix, row.value)
  }

  /** The rows the queue handles: the capture is done and the row is neither
      condensed nor being condensed, so blank and `AI_FAILED` rows are
      retried. */
  predicate Eligible(v: RowView) {
    v.status == "DONE" && v.aiStatus != "AI_READY" && v.aiStatus != "CONDENSING"
  }

  lemma RetriedStatuses(v: RowView)
    requires v.status == "DONE"
    ensures v.aiStatus == "" ==> Eligible(v)
    ensures v.aiStatus == "AI_FAILED" ==> Eligible(v)
    ensures Eligible(v) <==> v.aiStatus !in {"AI_READY", "CONDENSING"}
  {
  }

  // ---------------------------------------------------------------------
  // run_reduce4ai

  /** The child's success line on standard output. */
  const EnvelopeTag: string := "Wrote AI envelope:"

  const FailurePrefix: string := "reduce4ai failed: "

  const ExceptionPrefix: string := "reduce4ai exception: "

  /** The text after the tag on the first line that starts with it, stripped;
      "" when no line does. */
  function ReportedPath(lines: seq<string>): (r: string)
    ensures IsTrimmed(r)
    decreases |lines|
  {
    if lines == [] then ""
    else if StartsWith(lines[0], EnvelopeTag) then Strip(lines[0][|EnvelopeTag|..])
    else ReportedPath(lines[1..])
  }

  /** The message of a child that returned 0: the reported path, or "ok". */
  function OkMessage(stdout: string): (msg: string)
    ensures msg != []
  {
    var p := ReportedPath(SplitLines(Strip(stdout)));
    if p != [] then p else "ok"
  }

  /** What `run_reduce4ai` returns: success and the envelope path or a
      message, or failure and the error. */
  datatype Reduced = Reduced(ok: bool, msg: string)

  /** What `subprocess.run` does for the row: the child finished with a
      return code and its streams, or the call raised; `error` is the
      exception's `"<type name>: <message>"`. */
  datatype Launch = Finished(p: Proc) | Raised(error: string)

  /** `run_reduce4ai`, given what starting the child does: a missing capture
      fails without a child; an exception from the call fails with its
      name and text; a non-zero return code fails with at most 2000
      characters of the child's error text. */
  function RunReduce(path: string, fs: Fs, l: Launch): (r: Reduced)
    ensures path !in fs ==> r == Reduced(false, "capture json not found: " + path)
    ensures path in fs && l.Raised? ==> r == Reduced(false, ExceptionPrefix + l.error)
    ensures path in fs && l.Finished? && l.p.rc != 0 ==>
      !r.ok && StartsWith(r.msg, FailurePrefix) && |r.msg| <= |FailurePrefix| + 2000
    ensures r.ok <==> path in fs && l.Finished? && l.p.rc == 0
    ensures r.ok ==> r.msg != []
  {
    if path !in fs then Reduced(false, "capture json not found: " + path)
    else if l.Raised? then Reduced(false, ExceptionPrefix + l.error)
    else if l.p.rc != 0 then Reduced(false, FailurePrefix + Head(ErrorText(l.p), 2000))
    else Reduced(true, OkMessage(l.p.stdout))
  }

  /** A failure message carries the child's error text, cut to 2000
      characters. */
  lemma FailureMessageText(path: string, fs: Fs, p: Proc)
    requires path in fs && p.rc != 0
    ensures var m := RunReduce(path, fs, Finished(p)).msg;
      m[|FailurePrefix|..] == ErrorText(p)[..|m| - |FailurePrefix|]
      && (|ErrorText(p)| <= 2000 ==> m == FailurePrefix + ErrorText(p))
  {
    var e := Head(ErrorText(p), 2000);
    assert (FailurePrefix + e)[|FailurePrefix|..] == e;
  }

  lemma LStripOfSpaced(p: string)
    requires p != [] && !IsSpace(p[0])
    ensures LStrip(" " + p) == p
  {
    assert (" " + p)[1..] == p;
  }

  lemma TagNoBreaks(s: string)
    requires forall j :: 0 <= j < |s| ==> !IsLineBreak(s[j])
    ensures forall j :: 0 <= j < |EnvelopeTag + " " + s| ==> !IsLineBreak((EnvelopeTag + " " + s)[j])
  {
    var t := EnvelopeTag + " " + s;
    forall j | 0 <= j < |t| ensures !IsLineBreak(t[j]) {
      if j >= |EnvelopeTag| + 1 {
        assert t[j] == s[j - |EnvelopeTag| - 1];
      }
    }
  }

  /** The line the child is expected to print reads back as the path it
      names. */
  lemma OkMessageReadsPath(path: string)
    requires path != [] && IsTrimmed(path)
    requires forall j :: 0 <= j < |path| ==> !IsLineBreak(path[j])
    ensures OkMessage(EnvelopeTag + " " + path) == path
  {
    var line := EnvelopeTag + " " + path;
    assert line[0] == 'W' && line[|line| - 1] == path[|path| - 1];
    StripOfTrimmed(line);
    TagNoBreaks(path);
    assert FirstBreak(line) == |line|;
    assert SplitLines(line) == [line];
    assert line[..|EnvelopeTag|] == EnvelopeTag;
    assert line[|EnvelopeTag|..] == " " + path;
    LStripOfSpaced(path);
    StripOfTrimmed(path);
  }

  /** Standard output without a tagged line gives "ok". */
  lemma {:induction false} UntaggedReportsNothing(lines: seq<string>)
    requires forall k :: 0 <= k < |lines| ==> !StartsWith(lines[k], EnvelopeTag)
    ensures ReportedPath(lines) == ""
    decreases |lines|
  {
    if lines != [] {
      UntaggedReportsNothing(lines[1..]);
    }
  }

  lemma BlankStdoutSaysOk(stdout: string)
    requires IsBlank(stdout)
    ensures OkMessage(stdout) == "ok"
  {
  }

  // ---------------------------------------------------------------------
  // The row loop

  /** What starting the child does for the row it is started on. */
  datatype Env = Env(run: int -> Launch)

  /** Where `reduce4ai.py` writes the envelope of a capture. */
  function EnvelopePath(cfg: Config, jsonPath: string): string {
    Reduce4AI.OutPath(Reduce4AI.Args(jsonPath, cfg.outAiDir, cfg.promptSetId, Reduce4AI.DefaultMetaKeys))
  }

  function MissingPut(cfg: Config, rownum: int): Event {
    Put(rownum, [Cell(cfg.colAiStatus, "AI_FAILED"), Cell(cfg.colAiError, "Missing json_path (col F).")])
  }

  function ClaimPut(cfg: Config, rownum: int): Event {
    Put(rownum, [Cell(cfg.colAiStatus, "CONDENSING"), Cell(cfg.colAiError, "")])
  }

  /** The status written once the child is done. */
  function FinishPut(cfg: Config, rownum: int, r: Reduced): Event {
    if r.ok then Put(rownum, [Cell(cfg.colAiStatus, "AI_READY"), Cell(cfg.colAiInputPath, r.msg), Cell(cfg.colAiError, "")])
    else Put(rownum, [Cell(cfg.colAiStatus, "AI_FAILED"), Cell(cfg.colAiError, CapError(r.msg))])
  }

  /** The work on a row the cap lets through: claim it, run the child when
      the capture exists, record the outcome. The row counts either way. */
  function Visit(cfg: Config, env: Env, rownum: int, view: RowView, fs: Fs): RowResult {
    Visited(cfg, env, rownum, view, fs, RunReduce(view.jsonPath, fs, env.run(rownum)))
  }

  /** `Visit` with the corrected report of the envelope path. */
  function VisitFixed(cfg: Config, env: Env, rownum: int, view: RowView, fs: Fs): RowResult {
    Visited(cfg, env, rownum, view, fs, RunReduceFixed(cfg, view.jsonPath, fs, env.run(rownum)))
  }

  /** A visited row's result, given what `run_reduce4ai` returned. */
  function Visited(cfg: Config, env: Env, rownum: int, view: RowView, fs: Fs, r: Reduced): RowResult {
    var l := env.run(rownum);
    var started := view.jsonPath in fs && l.Finished?;
    RowResult(VisitEvents(cfg, rownum, started, if l.Finished? then l.p.rc else 0, r),
              Written(cfg, view.jsonPath, fs, l), true, None)
  }

  /** The row's log: the claim, the child's run when it was started, and
      the outcome. */
  function VisitEvents(cfg: Config, rownum: int, started: bool, rc: int, r: Reduced): seq<Event> {
    if !started then [ClaimPut(cfg, rownum), FinishPut(cfg, rownum, r)]
    else [ClaimPut(cfg, rownum), Ran(rownum, "REDUCE4AI", rc), FinishPut(cfg, rownum, r)]
  }

  /** The files after the row: the envelope, when the child was started and
      wrote one. */
  function Written(cfg: Config, path: string, fs: Fs, l: Launch): Fs {
    if path in fs && l.Finished? && l.p.output.Some? then fs[EnvelopePath(cfg, path) := l.p.output.value] else fs
  }

  const Claimed: set<string> := {"CONDENSING"}

  /** The number of rows the log claims for condensing. */
  function ClaimCount(events: seq<Event>): nat {
    StatusCount(events, Claimed)
  }

  lemma ClaimCountConcat(a: seq<Event>, b: seq<Event>)
    ensures ClaimCount(a + b) == ClaimCount(a) + ClaimCount(b)
  {
    StatusCountConcat(a, b, Claimed);
  }

  lemma ClaimCountSingle(e: Event)
    ensures ClaimCount([e]) == (if SetsStatus(e, Claimed) then 1 else 0)
  {
    StatusCountSingle(e, Claimed);
  }

  /** What the loop relies on from a visited row: its log concerns the row,
      claims it exactly once, and it counts. */
  predicate VisitLog(one: RowResult, row: int) {
    RowsAre(one.events, row) && ClaimCount(one.events) == 1 && one.counted && one.crash.None?
  }

  /** A log of one row's events: it concerns the row, and the claims in it
      are those of its parts. */
  lemma RowLog(a: Event, mid: seq<Event>, c: Event, row: int)
    requires (a.Put? || a.Ran?) && a.row == row && (c.Put? || c.Ran?) && c.row == row
    requires |mid| <= 1 && forall i :: 0 <= i < |mid| ==> (mid[i].Put? || mid[i].Ran?) && mid[i].row == row
    ensures RowsAre([a] + mid + [c], row)
    ensures ClaimCount([a] + mid + [c]) == ClaimCount([a]) + ClaimCount(mid) + ClaimCount([c])
  {
    var e := [a] + mid + [c];
    forall i | 0 <= i < |e| && (e[i].Put? || e[i].Ran?) ensures e[i].row == row {
      if i == 0 { assert e[i] == a; }
      else if i == |e| - 1 { assert e[i] == c; }
      else { assert e[i] == mid[i - 1]; }
    }
    ClaimCountConcat([a], mid);
    ClaimCountConcat([a] + mid, [c]);
  }

  /** Whatever `run_reduce4ai` returned, a visited row's log concerns the
      row, claims it once, and the row counts. */
  lemma VisitedShape(cfg: Config, env: Env, rownum: int, view: RowView, fs: Fs, r: Reduced)
    ensures VisitLog(Visited(cfg, env, rownum, view, fs, r), rownum)
  {
    var l := env.run(rownum);
    VisitEventsShape(cfg, rownum, view.jsonPath in fs && l.Finished?, if l.Finished? then l.p.rc else 0, r);
  }

  lemma VisitEventsShape(cfg: Config, rownum: int, started: bool, rc: int, r: Reduced)
    ensures var events := VisitEvents(cfg, rownum, started, rc, r);
      RowsAre(events, rownum) && ClaimCount(events) == 1
  {
    var claim := ClaimPut(cfg, rownum);
    var finish := FinishPut(cfg, rownum, r);
    var mid := if !started then [] else [Ran(rownum, "REDUCE4AI", rc)];
    assert VisitEvents(cfg, rownum, started, rc, r) == [claim] + mid + [finish];
    ClaimLog(cfg, rownum, mid, finish);
  }

  lemma ClaimLog(cfg: Config, rownum: int, mid: seq<Event>, finish: Event)
    requires finish.Put? && finish.row == rownum && !SetsStatus(finish, Claimed)
    requires mid == [] || (|mid| == 1 && mid[0].Ran? && mid[0].row == rownum)
    ensures RowsAre([ClaimPut(cfg, rownum)] + mid + [finish], rownum)
    ensures ClaimCount([ClaimPut(cfg, rownum)] + mid + [finish]) == 1
  {
    var claim := ClaimPut(cfg, rownum);
    ClaimCountSingle(claim);
    ClaimCountSingle(finish);
    if mid != [] { ClaimCountSingle(mid[0]); }
    RowLog(claim, mid, finish, rownum);
  }

  /** A missing capture is failed without starting the child. */
  lemma MissingCaptureNoChild(cfg: Config, env: Env, rownum: int, view: RowView, fs: Fs)
    requires view.jsonPath !in fs
    ensures var one := Visit(cfg, env, rownum, view, fs);
      && one.fs == fs
      && one.events == [ClaimPut(cfg, rownum), FinishPut(cfg, rownum, Reduced(false, "capture json not found: " + view.jsonPath))]
  {
  }

  /** An exception from starting the child fails the row with the
      exception's text; nothing runs and no file is written. */
  lemma RaisedFailsRow(cfg: Config, env: Env, rownum: int, view: RowView, fs: Fs)
    requires view.jsonPath in fs && env.run(rownum).Raised?
    ensures var one := Visit(cfg, env, rownum, view, fs);
      && one.fs == fs && one.counted
      && one.events == [ClaimPut(cfg, rownum),
                        Put(rownum, [Cell(cfg.colAiStatus, "AI_FAILED"),
                                     Cell(cfg.colAiError, CapError(ExceptionPrefix + env.run(rownum).error))])]
  {
  }

  /** As written: a row condensed by a child that printed nothing records
      `AI_READY` with "ok" in the AI input path column, although the
      envelope was written. */
  lemma ReadyRowRecordsOk(cfg: Config, env: Env, rownum: int, view: RowView, fs: Fs)
    requires view.jsonPath in fs && env.run(rownum).Finished?
    requires env.run(rownum).p.rc == 0 && IsBlank(env.run(rownum).p.stdout) && env.run(rownum).p.output.Some?
    ensures var one := Visit(cfg, env, rownum, view, fs);
      var path := EnvelopePath(cfg, view.jsonPath);
      && one.events[|one.events| - 1] == Put(rownum, [Cell(cfg.colAiStatus, "AI_READY"), Cell(cfg.colAiInputPath, "ok"), Cell(cfg.colAiError, "")])
      && path in one.fs && one.fs[path] == env.run(rownum).p.output.value
  {
    BlankStdoutSaysOk(env.run(rownum).p.stdout);
  }

  /** Corrected: a row condensed by a child that wrote its envelope records
      `AI_READY` with that envelope's path, and the file is there. */
  lemma ReadyRowNamesEnvelope(cfg: Config, env: Env, rownum: int, view: RowView, fs: Fs)
    requires view.jsonPath in fs && env.run(rownum).Finished?
    requires env.run(rownum).p.rc == 0 && env.run(rownum).p.output.Some?
    ensures var one := VisitFixed(cfg, env, rownum, view, fs);
      var path := EnvelopePath(cfg, view.jsonPath);
      && one.events[|one.events| - 1] == Put(rownum, [Cell(cfg.colAiStatus, "AI_READY"), Cell(cfg.colAiInputPath, path), Cell(cfg.colAiError, "")])
      && path in one.fs && one.fs[path] == env.run(rownum).p.output.value
  {
  }

  /** `for rownum in range(first_data_row, len(all_vals) + 1)` from `rownum`
      on, with `processed` rows handled so far; `visit` is the work on a row
      the cap lets through. */
  function Loop(cfg: Config, ix: Indices, rows: seq<seq<string>>, visit: (int, RowView, Fs) -> RowResult,
                rownum: int, processed: nat, fs: Fs): (r: Outcome)
    ensures processed <= r.processed <= CapFrom(processed, cfg.maxPerRun)
    decreases |rows| + 1 - rownum
  {
    if rownum > |rows| then Outcome([], processed, fs, None)
    else
      var view := ViewAt(ix, rows, rownum);
      if view.None? then Outcome([], processed, fs, Some(IndexError))
      else if !Eligible(view.value) then Loop(cfg, ix, rows, visit, rownum + 1, processed, fs)
      else if view.value.jsonPath == "" then
        var rest := Loop(cfg, ix, rows, visit, rownum + 1, processed, fs);
        Outcome([MissingPut(cfg, rownum)] + rest.events, rest.processed, rest.fs, rest.crash)
      else if processed >= cfg.maxPerRun then Outcome([], processed, fs, None)
      else
        var one := visit(rownum, view.value, fs);
        var rest := Loop(cfg, ix, rows, visit, rownum + 1, Bump(processed, one.counted), one.fs);
        Outcome(one.events + rest.events, rest.processed, rest.fs, rest.crash)
  }

  /** Every cell write and child run of the log is for an eligible row from
      `lo` to the last row. */
  predicate EligibleRowsOnly(ix: Indices, rows: seq<seq<string>>, events: seq<Event>, lo: int) {
    forall i :: 0 <= i < |events| && (events[i].Put? || events[i].Ran?) ==> EligibleAt(ix, rows, events[i].row, lo)
  }

  predicate EligibleAt(ix: Indices, rows: seq<seq<string>>, row: int, lo: int) {
    lo <= row <= |rows| && ViewAt(ix, rows, row).Some? && Eligible(ViewAt(ix, rows, row).value)
  }

  /** What the scan guarantees: only eligible rows are touched, and
      `processed` grew by exactly the number of rows claimed. */
  predicate ScanLog(ix: Indices, rows: seq<seq<string>>, o: Outcome, lo: int, processed: nat) {
    EligibleRowsOnly(ix, rows, o.events, lo) && o.processed == processed + ClaimCount(o.events)
  }

  lemma EligibleConcat(ix: Indices, rows: seq<seq<string>>, a: seq<Event>, b: seq<Event>, rownum: int)
    requires EligibleAt(ix, rows, rownum, rownum)
    requires RowsAre(a, rownum) && EligibleRowsOnly(ix, rows, b, rownum + 1)
    ensures EligibleRowsOnly(ix, rows, a + b, rownum)
  {
    var e := a + b;
    forall i | 0 <= i < |e| && (e[i].Put? || e[i].Ran?) ensures EligibleAt(ix, rows, e[i].row, rownum) {
      if i >= |a| { assert e[i] == b[i - |a|]; } else { assert e[i] == a[i]; }
    }
  }

  lemma ScanEndStep(cfg: Config, ix: Indices, rows: seq<seq<string>>, visit: (int, RowView, Fs) -> RowResult,
                    rownum: int, processed: nat, fs: Fs)
    requires || rownum > |rows| || ViewAt(ix, rows, rownum).None?
             || (Eligible(ViewAt(ix, rows, rownum).value) && ViewAt(ix, rows, rownum).value.jsonPath != ""
                 && processed >= cfg.maxPerRun)
    ensures ScanLog(ix, rows, Loop(cfg, ix, rows, visit, rownum, processed, fs), rownum, processed)
  {
  }

  lemma ScanSkipStep(cfg: Config, ix: Indices, rows: seq<seq<string>>, visit: (int, RowView, Fs) -> RowResult,
                     rownum: int, processed: nat, fs: Fs)
    requires rownum <= |rows| && ViewAt(ix, rows, rownum).Some? && !Eligible(ViewAt(ix, rows, rownum).value)
    requires ScanLog(ix, rows, Loop(cfg, ix, rows, visit, rownum + 1, processed, fs), rownum + 1, processed)
    ensures ScanLog(ix, rows, Loop(cfg, ix, rows, visit, rownum, processed, fs), rownum, processed)
  {
  }

  lemma MissingLog(cfg: Config, rownum: int)
    ensures RowsAre([MissingPut(cfg, rownum)], rownum) && ClaimCount([MissingPut(cfg, rownum)]) == 0
  {
    ClaimCountSingle(MissingPut(cfg, rownum));
  }

  lemma ScanMissingStep(cfg: Config, ix: Indices, rows: seq<seq<string>>, visit: (int, RowView, Fs) -> RowResult,
                        rownum: int, processed: nat, fs: Fs)
    requires rownum <= |rows| && ViewAt(ix, rows, rownum).Some?
    requires Eligible(ViewAt(ix, rows, rownum).value) && ViewAt(ix, rows, rownum).value.jsonPath == ""
    requires ScanLog(ix, rows, Loop(cfg, ix, rows, visit, rownum + 1, processed, fs), rownum + 1, processed)
    ensures ScanLog(ix, rows, Loop(cfg, ix, rows, visit, rownum, processed, fs), rownum, processed)
  {
    var rest := Loop(cfg, ix, rows, visit, rownum + 1, processed, fs);
    var m := MissingPut(cfg, rownum);
    var r := Loop(cfg, ix, rows, visit, rownum, processed, fs);
    assert r == Outcome([m] + rest.events, rest.processed, rest.fs, rest.crash);
    MissingLog(cfg, rownum);
    EligibleConcat(ix, rows, [m], rest.events, rownum);
    ClaimCountConcat([m], rest.events);
  }

  lemma ScanVisitStep(cfg: Config, ix: Indices, rows: seq<seq<string>>, visit: (int, RowView, Fs) -> RowResult,
                      rownum: int, processed: nat, fs: Fs)
    requires rownum <= |rows| && ViewAt(ix, rows, rownum).Some?
    requires Eligible(ViewAt(ix, rows, rownum).value) && ViewAt(ix, rows, rownum).value.jsonPath != ""
    requires processed < cfg.maxPerRun
    requires VisitLog(visit(rownum, ViewAt(ix, rows, rownum).value, fs), rownum)
    requires var one := visit(rownum, ViewAt(ix, rows, rownum).value, fs);
      ScanLog(ix, rows, Loop(cfg, ix, rows, visit, rownum + 1, processed + 1, one.fs), rownum + 1, processed + 1)
    ensures ScanLog(ix, rows, Loop(cfg, ix, rows, visit, rownum, processed, fs), rownum, processed)
  {
    var one := visit(rownum, ViewAt(ix, rows, rownum).value, fs);
    var rest := Loop(cfg, ix, rows, visit, rownum + 1, processed + 1, one.fs);
    EligibleConcat(ix, rows, one.events, rest.events, rownum);
    ClaimCountConcat(one.events, rest.events);
  }

  lemma {:induction false} LoopShape(cfg: Config, ix: Indices, rows: seq<seq<string>>, visit: (int, RowView, Fs) -> RowResult,
                                     rownum: int, processed: nat, fs: Fs)
    requires forall n, v, f :: VisitLog(visit(n, v, f), n)
    ensures ScanLog(ix, rows, Loop(cfg, ix, rows, visit, rownum, processed, fs), rownum, processed)
    decreases |rows| + 1 - rownum
  {
    var view := ViewAt(ix, rows, rownum);
    if rownum > |rows| || view.None? ||
       (Eligible(view.value) && view.value.jsonPath != "" && processed >= cfg.maxPerRun) {
      ScanEndStep(cfg, ix, rows, visit, rownum, processed, fs);
    } else if !Eligible(view.value) {
      LoopShape(cfg, ix, rows, visit, rownum + 1, processed, fs);
      ScanSkipStep(cfg, ix, rows, visit, rownum, processed, fs);
    } else if view.value.jsonPath == "" {
      LoopShape(cfg, ix, rows, visit, rownum + 1, processed, fs);
      ScanMissingStep(cfg, ix, rows, visit, rownum, processed, fs);
    } else {
      var one := visit(rownum, view.value, fs);
      assert VisitLog(one, rownum);
      LoopShape(cfg, ix, rows, visit, rownum + 1, processed + 1, one.fs);
      ScanVisitStep(cfg, ix, rows, visit, rownum, processed, fs);
    }
  }

  /** An eligible row without a capture path is failed even once the cap is
      reached, and does not count. */
  lemma MissingPathBeforeCap(cfg: Config, ix: Indices, rows: seq<seq<string>>, visit: (int, RowView, Fs) -> RowResult,
                             rownum: int, processed: nat, fs: Fs)
    requires rownum <= |rows| && ViewAt(ix, rows, rownum).Some?
    requires Eligible(ViewAt(ix, rows, rownum).value) && ViewAt(ix, rows, rownum).value.jsonPath == ""
    ensures var r := Loop(cfg, ix, rows, visit, rownum, processed, fs);
      && |r.events| > 0 && r.events[0] == MissingPut(cfg, rownum)
      && r == (var rest := Loop(cfg, ix, rows, visit, rownum + 1, processed, fs);
               Outcome([MissingPut(cfg, rownum)] + rest.events, rest.processed, rest.fs, rest.crash))
  {
  }

  /** The loop body of `main`. */
  function Visitor(cfg: Config, env: Env): (int, RowView, Fs) -> RowResult {
    (n: int, v: RowView, f: Fs) => Visit(cfg, env, n, v, f)
  }

  /** The loop body with the corrected report. */
  function VisitorFixed(cfg: Config, env: Env): (int, RowView, Fs) -> RowResult {
    (n: int, v: RowView, f: Fs) => VisitFixed(cfg, env, n, v, f)
  }

  /** `main`: the scan from `first_data_row` with nothing processed. At most
      `max_per_run` rows reach the child, and none when it is not positive. */
  function Run(cfg: Config, env: Env, rows: seq<seq<string>>, fs: Fs): (r: Outcome)
    ensures cfg.maxPerRun >= 0 ==> r.processed <= cfg.maxPerRun
    ensures cfg.maxPerRun <= 0 ==> r.processed == 0
  {
    Loop(cfg, ColumnIndices(cfg), rows, Visitor(cfg, env), cfg.firstDataRow, 0, fs)
  }

  /** A run writes cells and starts children only for eligible rows at or
      after `first_data_row`, and `processed` is exactly the number of rows
      claimed for condensing, whether they then succeeded or failed. */
  lemma RunShape(cfg: Config, env: Env, rows: seq<seq<string>>, fs: Fs)
    ensures ScanLog(ColumnIndices(cfg), rows, Run(cfg, env, rows, fs), cfg.firstDataRow, 0)
  {
    forall n, v, f ensures VisitLog(Visitor(cfg, env)(n, v, f), n) {
      VisitedShape(cfg, env, n, v, f, RunReduce(v.jsonPath, f, env.run(n)));
    }
    LoopShape(cfg, ColumnIndices(cfg), rows, Visitor(cfg, env), cfg.firstDataRow, 0, fs);
  }

  /** `main` with the corrected report. */
  function RunFixed(cfg: Config, env: Env, rows: seq<seq<string>>, fs: Fs): (r: Outcome)
    ensures cfg.maxPerRun >= 0 ==> r.processed <= cfg.maxPerRun
    ensures cfg.maxPerRun <= 0 ==> r.processed == 0
  {
    Loop(cfg, ColumnIndices(cfg), rows, VisitorFixed(cfg, env), cfg.firstDataRow, 0, fs)
  }

  /** The correction changes only what is written in the AI input path
      column: the scan guarantees of `Run` hold for it too. */
  lemma RunFixedShape(cfg: Config, env: Env, rows: seq<seq<string>>, fs: Fs)
    ensures ScanLog(ColumnIndices(cfg), rows, RunFixed(cfg, env, rows, fs), cfg.firstDataRow, 0)
  {
    forall n, v, f ensures VisitLog(VisitorFixed(cfg, env)(n, v, f), n) {
      VisitedShape(cfg, env, n, v, f, RunReduceFixed(cfg, v.jsonPath, f, env.run(n)));
    }
    LoopShape(cfg, ColumnIndices(cfg), rows, VisitorFixed(cfg, env), cfg.firstDataRow, 0, fs);
  }

  // ---------------------------------------------------------------------
  // The reported path

  /** As written: `reduce4ai.py` logs to standard error and prints nothing
      on standard output, so a successful run is reported as "ok" and "ok"
      is what lands in the AI input path column, not the envelope's path. */
  lemma SilentChildReportsOk(cfg: Config, path: string, fs: Fs, p: Proc)
    requires path in fs && p.rc == 0 && IsBlank(p.stdout)
    ensures RunReduce(path, fs, Finished(p)) == Reduced(true, "ok")
    ensures RunReduce(path, fs, Finished(p)).msg != EnvelopePath(cfg, path)
  {
    var e := EnvelopePath(cfg, path);
    var name := Stem(path) + ".ai_input.json";
    assert Name(e) == name;
  }

  /** Corrected: report the file the child writes. */
  function RunReduceFixed(cfg: Config, path: string, fs: Fs, l: Launch): (r: Reduced)
    ensures r.ok <==> RunReduce(path, fs, l).ok
    ensures !r.ok ==> r == RunReduce(path, fs, l)
  {
    var r := RunReduce(path, fs, l);
    if r.ok then Reduced(true, EnvelopePath(cfg, path)) else r
  }

  /** With the correction, a row condensed by a successful `reduce4ai.py`
      run records the path of the envelope that run wrote. */
  lemma FixedReportsEnvelope(cfg: Config, path: string, fs: Fs, l: Launch, parse: string -> Option<Json>,
                             dump: Json -> string, sha: string -> HexDigest,
                             netloc: string -> Option<string>, clean: string -> string, now: string)
    requires RunReduce(path, fs, l).ok
    requires var args := Reduce4AI.Args(path, cfg.outAiDir, cfg.promptSetId, Reduce4AI.DefaultMetaKeys);
      Reduce4AI.Main(args, fs, parse, dump, sha, netloc, clean, now).rc == 0
    ensures var args := Reduce4AI.Args(path, cfg.outAiDir, cfg.promptSetId, Reduce4AI.DefaultMetaKeys);
      RunReduceFixed(cfg, path, fs, l).msg in Reduce4AI.Main(args, fs, parse, dump, sha, netloc, clean, now).fs
  {
  }
}

=== FILE: dedupe.dfy ===
/** The "strip, drop blanks, keep the first occurrence" loop that recurs
    across the pipeline: `unique_strings`, `normalize_candidates`,
    `normalize_choice_list` and the JSON-LD collectors all append
    `item.strip()` to an output list when it is non-empty and not yet in the
    `seen` set that mirrors the list. */
module Dedupe {
  import opened PyText
  import opened JsonValue

  predicate NoDup(xs: seq<string>) {
    forall i, j :: 0 <= i < j < |xs| ==> xs[i] != xs[j]
  }

  /** Dropping the head keeps a list duplicate-free, and the head is not in
      what remains. */
  lemma NoDupTail(keys: seq<string>)
    requires keys != [] && NoDup(keys)
    ensures NoDup(keys[1..]) && keys[0] !in keys[1..]
    ensures forall k2 :: k2 in keys <==> k2 == keys[0] || k2 in keys[1..]
  {
    var tail := keys[1..];
    forall i, j | 0 <= i < j < |tail| ensures tail[i] != tail[j] {
      assert tail[i] == keys[i + 1] && tail[j] == keys[j + 1];
    }
    assert keys == [keys[0]] + tail;
  }

  /** Every element is non-empty and has no surrounding whitespace. */
  predicate AllClean(xs: seq<string>) {
    forall i :: 0 <= i < |xs| ==> xs[i] != [] && IsTrimmed(xs[i])
  }

  /** `[x.strip() for x in xs]` */
  function Stripped(xs: seq<string>): (r: seq<string>)
    ensures |r| == |xs|
    ensures forall i :: 0 <= i < |xs| ==> r[i] == Strip(xs[i])
  {
    seq(|xs|, i requires 0 <= i < |xs| => Strip(xs[i]))
  }

  lemma StrippedCons(parts: seq<string>)
    requires parts != []
    ensures Stripped(parts) == [Strip(parts[0])] + Stripped(parts[1..])
  {
    var a := Stripped(parts);
    var b := [Strip(parts[0])] + Stripped(parts[1..]);
    forall i | 0 <= i < |a| ensures a[i] == b[i] {
      if i > 0 { assert parts[1..][i - 1] == parts[i]; }
    }
  }

  lemma InConcat(h: seq<string>, t: seq<string>, k: string)
    ensures k in h + t <==> k in h || k in t
  {
    if k in h + t {
      var i :| 0 <= i < |h + t| && (h + t)[i] == k;
      if i >= |h| { assert t[i - |h|] == k; }
    }
  }

  /** `xs.index(v)`: the first position of `v`. */
  function FirstIndex(xs: seq<string>, v: string): (i: nat)
    requires v in xs
    ensures i < |xs| && xs[i] == v && v !in xs[..i]
  {
    if xs[0] == v then 0
    else
      var k := FirstIndex(xs[1..], v);
      assert xs[..k + 1] == [xs[0]] + xs[1..][..k];
      k + 1
  }

  /** Past the head, positions in a list are one more than in its tail. */
  lemma FirstIndexTail(xs: seq<string>, v: string)
    requires xs != [] && v in xs[1..] && v != xs[0]
    ensures FirstIndex(xs, v) == FirstIndex(xs[1..], v) + 1
  {
  }

  /** One loop step on an already stripped value: appended when non-empty,
      accepted by `keep` and not seen before. */
  function AddOne(acc: seq<string>, v: string, keep: string -> bool): seq<string> {
    if v != [] && keep(v) && v !in acc then acc + [v] else acc
  }

  /** The whole loop over the stripped values `vs`, starting from the output
      list `acc`: the list only grows at its end. */
  function AddAll(acc: seq<string>, vs: seq<string>, keep: string -> bool): (r: seq<string>)
    ensures |acc| <= |r| <= |acc| + |vs| && r[..|acc|] == acc
    decreases |vs|
  {
    if vs == [] then acc
    else
      var next := AddOne(acc, vs[0], keep);
      var r := AddAll(next, vs[1..], keep);
      assert r[..|acc|] == r[..|next|][..|acc|];
      r
  }

  /** Every element of `r` past `acc` is new at its position, non-empty,
      accepted, and one of the values. */
  predicate FreshFrom(acc: seq<string>, r: seq<string>, vs: seq<string>, keep: string -> bool) {
    forall i :: |acc| <= i < |r| ==> r[i] !in r[..i] && r[i] != [] && keep(r[i]) && r[i] in vs
  }

  lemma {:induction false} AddAllAppends(acc: seq<string>, vs: seq<string>, keep: string -> bool)
    ensures FreshFrom(acc, AddAll(acc, vs, keep), vs, keep)
    decreases |vs|
  {
    if vs != [] {
      var next := AddOne(acc, vs[0], keep);
      var r := AddAll(next, vs[1..], keep);
      assert r == AddAll(acc, vs, keep);
      AddAllAppends(next, vs[1..], keep);
      assert r[..|next|] == next;
      forall i | |acc| <= i < |r|
        ensures r[i] !in r[..i] && r[i] != [] && keep(r[i]) && r[i] in vs
      {
        if i < |next| {
          assert r[i] == next[i] && r[..i] == acc;
        } else {
          assert r[i] in vs[1..];
        }
      }
    }
  }

  /** A value ends up in the output exactly when it is non-empty and
      accepted (or was there already). */
  lemma AddAllMembers(acc: seq<string>, vs: seq<string>, keep: string -> bool)
    ensures var r := AddAll(acc, vs, keep);
      forall v :: v in r <==> (v in acc || (v != [] && keep(v) && v in vs))
  {
    forall v ensures v in AddAll(acc, vs, keep) <==> (v in acc || (v != [] && keep(v) && v in vs)) {
      AddAllMember(acc, vs, keep, v);
    }
  }

  /** `AddAllMembers` for one value. */
  lemma {:induction false} AddAllMember(acc: seq<string>, vs: seq<string>, keep: string -> bool, v: string)
    ensures v in AddAll(acc, vs, keep) <==> (v in acc || (v != [] && keep(v) && v in vs))
    decreases |vs|
  {
    if vs != [] {
      var next := AddOne(acc, vs[0], keep);
      assert AddAll(acc, vs, keep) == AddAll(next, vs[1..], keep);
      AddAllMember(next, vs[1..], keep, v);
      AddOneMembers(acc, vs[0], keep, v);
      assert v in vs <==> v == vs[0] || v in vs[1..] by {
        assert vs == [vs[0]] + vs[1..];
      }
    }
  }

  lemma AddOneMembers(acc: seq<string>, v: string, keep: string -> bool, u: string)
    ensures u in AddOne(acc, v, keep) <==> u in acc || (u == v && v != [] && keep(v))
  {
  }

  /** Starting from a clean, duplicate-free list and trimmed values, the
      result stays clean and duplicate-free. */
  lemma AddAllKeepsShape(acc: seq<string>, vs: seq<string>, keep: string -> bool)
    requires NoDup(acc) && AllClean(acc)
    requires forall k :: 0 <= k < |vs| ==> IsTrimmed(vs[k])
    ensures NoDup(AddAll(acc, vs, keep)) && AllClean(AddAll(acc, vs, keep))
  {
    var r := AddAll(acc, vs, keep);
    AddAllAppends(acc, vs, keep);
    forall i, j | 0 <= i < j < |r| ensures r[i] != r[j] {
      if j >= |acc| {
        assert r[i] in r[..j];
      } else {
        assert r[i] == acc[i] && r[j] == acc[j];
      }
    }
    forall i | 0 <= i < |r| ensures r[i] != [] && IsTrimmed(r[i]) {
      if i < |acc| {
        assert r[i] == acc[i];
      }
    }
  }

  /** The elements `AddAll` appends appear in the order of their first
      occurrences among the values. */
  lemma {:induction false} AddAllOrder(acc: seq<string>, vs: seq<string>, keep: string -> bool)
    ensures var r := AddAll(acc, vs, keep);
      forall i, j :: |acc| <= i < j < |r| ==> r[i] in vs && r[j] in vs && FirstIndex(vs, r[i]) < FirstIndex(vs, r[j])
    decreases |vs|
  {
    var r := AddAll(acc, vs, keep);
    if vs != [] {
      var v0 := vs[0];
      var next := AddOne(acc, v0, keep);
      assert r == AddAll(next, vs[1..], keep);
      AddAllOrder(next, vs[1..], keep);
      AddAllAppends(next, vs[1..], keep);
      assert r[..|next|] == next;
      forall i | |next| <= i < |r|
        ensures r[i] in vs && FirstIndex(vs, r[i]) == 1 + FirstIndex(vs[1..], r[i])
      {
        assert r[i] != v0 by {
          if next == acc {
            if v0 != [] && keep(v0) { assert v0 in acc; }
          } else {
            assert next[|acc|] == v0 && r[|acc|] == v0;
          }
        }
        FirstIndexTail(vs, r[i]);
      }
      if next != acc {
        assert r[|acc|] == v0;
      }
    }
  }

  /** When every acceptable value is already present the loop changes nothing. */
  lemma {:induction false} AddAllSaturated(acc: seq<string>, vs: seq<string>, keep: string -> bool)
    requires forall k :: 0 <= k < |vs| && vs[k] != [] && keep(vs[k]) ==> vs[k] in acc
    ensures AddAll(acc, vs, keep) == acc
    decreases |vs|
  {
    if vs != [] {
      AddAllSaturated(acc, vs[1..], keep);
    }
  }

  /** Feeding the same values a second time adds nothing. */
  lemma AddAllAgain(acc: seq<string>, vs: seq<string>, keep: string -> bool)
    ensures AddAll(AddAll(acc, vs, keep), vs, keep) == AddAll(acc, vs, keep)
  {
    AddAllMembers(acc, vs, keep);
    AddAllSaturated(AddAll(acc, vs, keep), vs, keep);
  }

  /** Looping over `xs + ys` is looping over `xs`, then over `ys`. */
  lemma {:induction false} AddAllConcat(acc: seq<string>, xs: seq<string>, ys: seq<string>, keep: string -> bool)
    ensures AddAll(acc, xs + ys, keep) == AddAll(AddAll(acc, xs, keep), ys, keep)
    decreases |xs|
  {
    if xs == [] {
      assert xs + ys == ys;
    } else {
      assert (xs + ys)[0] == xs[0];
      assert (xs + ys)[1..] == xs[1..] + ys;
      AddAllConcat(AddOne(acc, xs[0], keep), xs[1..], ys, keep);
    }
  }

  /** Accept every string. */
  function Any(v: string): bool {
    true
  }

  /** `unique_strings` on a list of strings: strip each, keep the non-empty
      ones, first occurrence only. */
  function Dedup(xs: seq<string>): (r: seq<string>)
    ensures NoDup(r) && AllClean(r)
    ensures forall v :: v in r <==> (v != [] && v in Stripped(xs))
    ensures forall i, j :: 0 <= i < j < |r| ==> FirstIndex(Stripped(xs), r[i]) < FirstIndex(Stripped(xs), r[j])
  {
    var vs := Stripped(xs);
    AddAllOrder([], vs, Any);
    AddAllMembers([], vs, Any);
    AddAllKeepsShape([], vs, Any);
    AddAll([], vs, Any)
  }

  /** The strings of a list, in order; other items are skipped. */
  function StrItems(items: seq<Json>): (r: seq<string>)
    decreases |items|
  {
    if items == [] then []
    else if items[0].JStr? then [items[0].s] + StrItems(items[1..])
    else StrItems(items[1..])
  }

  lemma {:induction false} StrItemsConcat(a: seq<Json>, b: seq<Json>)
    ensures StrItems(a + b) == StrItems(a) + StrItems(b)
    decreases |a|
  {
    if a != [] {
      assert (a + b)[0] == a[0];
      assert (a + b)[1..] == a[1..] + b;
      StrItemsConcat(a[1..], b);
    } else {
      assert a + b == b;
    }
  }

  lemma {:induction false} StrItemsMembers(items: seq<Json>, s: string)
    ensures s in StrItems(items) <==> JStr(s) in items
    decreases |items|
  {
    if items != [] {
      StrItemsMembers(items[1..], s);
      assert items == [items[0]] + items[1..];
    }
  }

  /** `unique_strings` (and `normalize_candidates`, the same loop): `[]`
      for anything but a list; otherwise the stripped
      non-empty strings of the list, each once, in order of first occurrence. */
  function UniqueStrings(items: Json): (r: seq<string>)
    ensures !items.JArr? ==> r == []
    ensures NoDup(r) && AllClean(r)
    ensures items.JArr? ==> forall v :: v in r <==> v != [] && v in Stripped(StrItems(items.items))
    ensures items.JArr? ==> forall i, j :: 0 <= i < j < |r| ==>
      FirstIndex(Stripped(StrItems(items.items)), r[i]) < FirstIndex(Stripped(StrItems(items.items)), r[j])
  {
    if items.JArr? then Dedup(StrItems(items.items)) else []
  }

  /** The members of `unique_strings` are exactly the non-empty stripped
      forms of the list's strings. */
  lemma UniqueStringsMembers(items: seq<Json>, v: string)
    ensures v in UniqueStrings(JArr(items)) <==> v != [] && exists s :: JStr(s) in items && Strip(s) == v
  {
    var xs := StrItems(items);
    if v in Stripped(xs) {
      var i :| 0 <= i < |xs| && Stripped(xs)[i] == v;
      StrItemsMembers(items, xs[i]);
    }
    if exists s :: JStr(s) in items && Strip(s) == v {
      var s :| JStr(s) in items && Strip(s) == v;
      StrItemsMembers(items, s);
      var i :| 0 <= i < |xs| && xs[i] == s;
      assert Stripped(xs)[i] == v;
    }
  }

  /** Items that are not strings do not affect the result. */
  lemma UniqueStringsSkips(a: seq<Json>, x: Json, b: seq<Json>)
    requires !x.JStr?
    ensures UniqueStrings(JArr(a + [x] + b)) == UniqueStrings(JArr(a + b))
  {
    StrItemsConcat(a + [x], b);
    StrItemsConcat(a, [x]);
    StrItemsConcat(a, b);
    assert StrItems([x]) == StrItems([x][1..]) == [];
    assert StrItems(a + [x] + b) == StrItems(a + b);
  }

}

=== FILE: drivers.dfy ===
/** What the sheet-driven queues have in common: each scans rows in order,
    does some work on the eligible ones, and counts completed rows against
    `max_per_run`. */
module Drivers {
  import opened Wrappers
  import opened Sheet
  import opened Fingerprint

  /** The work done on one row: its log, the files afterwards, whether it
      counts toward `processed`, and the exception that ended the run, if
      any. */
  datatype RowResult = RowResult(events: seq<Event>, fs: Fs, counted: bool, crash: Option<string>)

  /** The result of a whole run. */
  datatype Outcome = Outcome(events: seq<Event>, processed: nat, fs: Fs, crash: Option<string>)

  /** The cap `processed` can reach from `start`: it only grows while below
      `max_per_run`. */
  function CapFrom(start: nat, maxPerRun: int): nat {
    if start >= maxPerRun then start else maxPerRun
  }

  /** `processed += 1` for a row that counts. */
  function Bump(processed: nat, counted: bool): nat {
    if counted then processed + 1 else processed
  }

  const IndexError: string := "IndexError: list index out of range"
}

=== FILE: env_bootstrap.dfy ===
/** `env_bootstrap.py`: loading `KEY=VALUE` files into the process
    environment, once per process. The environment is a map from name to
    value; the files are the same path-to-text map the rest of the model
    uses. Only the built-in fallback parser is modelled (the one used when
    `python-dotenv` is not installed). */
module EnvBootstrap {
  import opened Wrappers
  import opened PyText
  import opened PyPath
  import opened Fingerprint

  type Environ = map<string, string>

  /** `os.getenv(name) or ""` */
  function Getenv(env: Environ, name: string): string {
    if name in env then env[name] else ""
  }

  /** `os.getenv(name)` */
  function EnvLookup(env: Environ, name: string): Option<string> {
    if name in env then Some(env[name]) else None
  }

  /** Every character of `s` is `c`. */
  predicate AllAre(s: string, c: char) {
    forall i :: 0 <= i < |s| ==> s[i] == c
  }

  /** `s.lstrip(c)` for a single character `c`. */
  function LStripChar(s: string, c: char): (r: string)
    ensures |r| <= |s| && r == s[|s| - |r|..]
    ensures AllAre(s[..|s| - |r|], c)
    ensures r == [] || r[0] != c
    decreases |s|
  {
    if s == [] || s[0] != c then s else LStripChar(s[1..], c)
  }

  /** `s.rstrip(c)` for a single character `c`. */
  function RStripChar(s: string, c: char): (r: string)
    ensures |r| <= |s| && r == s[..|r|]
    ensures AllAre(s[|r|..], c)
    ensures r == [] || r[|r| - 1] != c
    decreases |s|
  {
    if s == [] || s[|s| - 1] != c then s else RStripChar(s[..|s| - 1], c)
  }

  /** `s.strip(c)`: every leading and trailing `c` removed, nothing else. */
  function StripChar(s: string, c: char): (r: string)
    ensures r == [] || (r[0] != c && r[|r| - 1] != c)
    ensures (s == [] || (s[0] != c && s[|s| - 1] != c)) ==> r == s
  {
    var l := LStripChar(s, c);
    var r := RStripChar(l, c);
    assert r != [] ==> r[0] == l[0];
    r
  }

  /** A character absent from `s` is absent from `s.strip()`. */
  lemma StripKeepsOut(s: string, c: char)
    requires c !in s
    ensures c !in Strip(s)
  {
    var a := StripStart(s);
    assert forall i :: 0 <= i < |Strip(s)| ==> Strip(s)[i] == s[a + i];
  }

  /** One `KEY=VALUE` setting. */
  datatype Setting = Setting(key: string, value: string)

  const ExportPrefix: string := "export "

  /** What the parser accepts as a name: non-empty, stripped, no `=`. */
  predicate IsKey(k: string) {
    k != [] && IsTrimmed(k) && '=' !in k
  }

  /** A value with no `'` left at either end. */
  predicate NoOuterQuote(v: string) {
    v == [] || (v[0] != '\'' && v[|v| - 1] != '\'')
  }

  /** The body of the fallback parser's loop for one line: blank lines and
      `#` comments are skipped, a leading `export ` is dropped, the line is
      split at its first `=`, the key is stripped and must be non-empty, and
      the value is stripped and then loses surrounding `"` and then `'`
      characters. */
  function ParseLine(raw: string): (r: Option<Setting>)
    ensures r.Some? ==> IsKey(r.value.key) && NoOuterQuote(r.value.value)
  {
    var line0 := Strip(raw);
    if line0 == [] || StartsWith(line0, "#") then None
    else SplitSetting(DropExport(line0))
  }

  /** A leading `export ` removed, and the rest stripped again. */
  function DropExport(line: string): (r: string)
    ensures '=' !in line ==> '=' !in r
  {
    if StartsWith(line, ExportPrefix) then
      var rest := line[|ExportPrefix|..];
      assert '=' !in line ==> '=' !in rest by {
        assert forall i :: 0 <= i < |rest| ==> rest[i] == line[|ExportPrefix| + i];
      }
      if '=' !in rest then StripKeepsOut(rest, '='); Strip(rest) else Strip(rest)
    else line
  }

  /** `line.split("=", 1)[0].strip()` */
  function KeyPart(line: string): (k: string)
    ensures IsTrimmed(k) && '=' !in k
  {
    StripKeepsOut(Before(line, '='), '=');
    Strip(Before(line, '='))
  }

  /** `val.strip().strip('"').strip("'")` */
  function Unquote(val: string): (v: string)
    ensures v == [] || (v[0] != '\'' && v[|v| - 1] != '\'')
  {
    StripChar(StripChar(Strip(val), '"'), '\'')
  }

  /** `line.split("=", 1)[1]`, unquoted. */
  function ValuePart(line: string): (v: string)
    requires '=' in line
    ensures NoOuterQuote(v)
  {
    Unquote(After(line, '='))
  }

  /** The part of the parser after the `export ` prefix is gone. */
  function SplitSetting(line: string): (r: Option<Setting>)
    ensures r.Some? ==> IsKey(r.value.key) && NoOuterQuote(r.value.value)
  {
    if '=' !in line then None
    else
      var key := KeyPart(line);
      if key == [] then None else Some(Setting(key, ValuePart(line)))
  }

  /** Blank lines, comments and lines without `=` set nothing. */
  lemma ParseSkips(raw: string)
    requires IsBlank(raw) || StartsWith(Strip(raw), "#") || '=' !in raw
    ensures ParseLine(raw).None?
  {
    var line0 := Strip(raw);
    if line0 != [] && !StartsWith(line0, "#") {
      StripKeepsOut(raw, '=');
      assert '=' !in DropExport(line0);
    }
  }

  /** A name the parser reads back unchanged: non-empty, no whitespace, no
      `=`, not a comment. */
  predicate IsPlainKey(k: string) {
    && k != [] && k[0] != '#'
    && forall i :: 0 <= i < |k| ==> !IsSpace(k[i]) && k[i] != '='
  }

  /** A value the parser reads back unchanged: no surrounding whitespace or
      quote characters. */
  predicate IsPlainValue(v: string) {
    IsTrimmed(v) && (v == [] || (v[0] != '"' && v[0] != '\'' && v[|v| - 1] != '"' && v[|v| - 1] != '\''))
  }

  lemma PlainLine(k: string, v: string)
    requires IsPlainKey(k) && IsPlainValue(v)
    ensures var line := k + "=" + v;
      && IsTrimmed(line) && line != [] && line[0] == k[0]
      && !StartsWith(line, "#") && !StartsWith(line, ExportPrefix)
  {
    var line := k + "=" + v;
    assert line[0] == k[0];
    assert line[|k|] == '=';
    if v != [] {
      assert line[|line| - 1] == v[|v| - 1];
    }
    if |k| > 6 {
      assert line[6] == k[6];
    } else {
      assert ExportPrefix[|k|] != '=';
    }
  }

  lemma SplitAssignment(k: string, v: string)
    requires IsPlainKey(k)
    ensures var line := k + "=" + v; '=' in line && Before(line, '=') == k && After(line, '=') == v
  {
    assert '=' !in k;
    BeforeAfterJoin(k, v, '=');
  }

  lemma UnquotePlain(v: string)
    requires IsPlainValue(v)
    ensures Unquote(v) == v
  {
    StripOfTrimmed(v);
    assert Strip(v) == v;
    var once := StripChar(v, '"');
    assert once == v;
    assert StripChar(once, '\'') == v;
  }

  lemma KeyPartPlain(k: string, v: string)
    requires IsPlainKey(k)
    ensures KeyPart(k + "=" + v) == k
  {
    SplitAssignment(k, v);
    assert IsTrimmed(k) by {
      assert !IsSpace(k[0]) && !IsSpace(k[|k| - 1]);
    }
    StripOfTrimmed(k);
  }

  lemma SplitPlain(k: string, v: string)
    requires IsPlainKey(k) && IsPlainValue(v)
    ensures SplitSetting(k + "=" + v) == Some(Setting(k, v))
  {
    SplitAssignment(k, v);
    KeyPartPlain(k, v);
    UnquotePlain(v);
  }

  /** `k=v` is read back as the setting it writes. */
  lemma ParseAssignment(k: string, v: string)
    requires IsPlainKey(k) && IsPlainValue(v)
    ensures ParseLine(k + "=" + v) == Some(Setting(k, v))
  {
    PlainLine(k, v);
    StripOfTrimmed(k + "=" + v);
    SplitPlain(k, v);
  }

  lemma DropExportOf(inner: string)
    requires IsTrimmed(inner)
    ensures DropExport(ExportPrefix + inner) == inner
  {
    var line := ExportPrefix + inner;
    assert line[..|ExportPrefix|] == ExportPrefix;
    assert line[|ExportPrefix|..] == inner;
    StripOfTrimmed(inner);
  }

  lemma ExportLine(inner: string)
    requires inner != [] && IsTrimmed(inner)
    ensures var line := ExportPrefix + inner;
      IsTrimmed(line) && line != [] && !StartsWith(line, "#")
  {
    var line := ExportPrefix + inner;
    assert line[0] == 'e';
    assert line[|line| - 1] == inner[|inner| - 1];
  }

  /** `export k=v` is read the same way as `k=v`. */
  lemma ParseExported(k: string, v: string)
    requires IsPlainKey(k) && IsPlainValue(v)
    ensures ParseLine(ExportPrefix + (k + "=" + v)) == Some(Setting(k, v))
  {
    var inner := k + "=" + v;
    PlainLine(k, v);
    ExportLine(inner);
    StripOfTrimmed(ExportPrefix + inner);
    DropExportOf(inner);
    SplitPlain(k, v);
  }

  /** `os.environ[key] = val` with `override`, else
      `os.environ.setdefault(key, val)`. */
  function Apply(env: Environ, s: Setting, override: bool): Environ {
    if override || s.key !in env then env[s.key := s.value] else env
  }

  /** What the parser makes of each line of a file. */
  function Parsed(lines: seq<string>): (ps: seq<Option<Setting>>)
    ensures |ps| == |lines| && forall i :: 0 <= i < |lines| ==> ps[i] == ParseLine(lines[i])
  {
    seq(|lines|, i requires 0 <= i < |lines| => ParseLine(lines[i]))
  }

  /** The fallback parser's loop, on the parsed lines of a file. */
  function LoadSettings(env: Environ, ps: seq<Option<Setting>>, override: bool): (r: Environ)
    ensures forall k :: k in env ==> k in r
    ensures !override ==> forall k :: k in env ==> r[k] == env[k]
    decreases |ps|
  {
    if ps == [] then env
    else LoadSettings(if ps[0].Some? then Apply(env, ps[0].value, override) else env, ps[1..], override)
  }

  /** The value of the first setting of `k`. */
  function FirstValue(ps: seq<Option<Setting>>, k: string): Option<string>
    decreases |ps|
  {
    if ps == [] then None
    else if ps[0].Some? && ps[0].value.key == k then Some(ps[0].value.value)
    else FirstValue(ps[1..], k)
  }

  /** The value of the last setting of `k`. */
  function LastValue(ps: seq<Option<Setting>>, k: string): Option<string>
    decreases |ps|
  {
    if ps == [] then None
    else
      var later := LastValue(ps[1..], k);
      if later.Some? then later
      else if ps[0].Some? && ps[0].value.key == k then Some(ps[0].value.value)
      else None
  }

  /** Without override a variable that is already set keeps its value, and
      an unset one takes the first value the file gives it. */
  lemma {:induction false} LoadFirstWins(env: Environ, ps: seq<Option<Setting>>, k: string)
    ensures EnvLookup(LoadSettings(env, ps, false), k) == if k in env then Some(env[k]) else FirstValue(ps, k)
    decreases |ps|
  {
    if ps != [] {
      var next := if ps[0].Some? then Apply(env, ps[0].value, false) else env;
      LoadFirstWins(next, ps[1..], k);
    }
  }

  /** With override the last value the file gives a variable wins; a
      variable the file does not set keeps its value. */
  lemma {:induction false} LoadLastWins(env: Environ, ps: seq<Option<Setting>>, k: string)
    ensures var l := LastValue(ps, k);
      EnvLookup(LoadSettings(env, ps, true), k) == if l.Some? then l else EnvLookup(env, k)
    decreases |ps|
  {
    if ps != [] {
      var next := if ps[0].Some? then Apply(env, ps[0].value, true) else env;
      LoadLastWins(next, ps[1..], k);
    }
  }

  /** The settings of a file's text. */
  function FileSettings(text: string): seq<Option<Setting>> {
    Parsed(SplitLines(text))
  }

  /** `_load_env_file`: a missing file reports `False` and changes nothing;
      otherwise every line is applied. */
  function LoadEnvFile(env: Environ, fs: Fs, path: string, override: bool): (r: (bool, Environ))
    ensures r.0 <==> path in fs
    ensures !r.0 ==> r.1 == env
    ensures r.0 ==> r.1 == LoadSettings(env, FileSettings(fs[path]), override)
  {
    if path !in fs then (false, env) else (true, LoadSettings(env, FileSettings(fs[path]), override))
  }

  /** `_set_default`: assign only when the variable is unset or blank. */
  function SetDefault(env: Environ, name: string, value: string): (r: Environ)
    ensures forall k :: k != name ==> EnvLookup(r, k) == EnvLookup(env, k)
    ensures !IsBlank(Getenv(env, name)) ==> r == env
    ensures IsBlank(Getenv(env, name)) ==> Getenv(r, name) == value
  {
    if IsBlank(Getenv(env, name)) then env[name := value] else env
  }

  /** `require_env`: the stripped value, or the error `main` would raise. */
  function RequireEnv(env: Environ, name: string): (r: Result<string>)
    ensures r.Success? <==> !IsBlank(Getenv(env, name))
    ensures r.Success? ==> r.value == Strip(Getenv(env, name)) && r.value != [] && IsTrimmed(r.value)
  {
    var v := Strip(Getenv(env, name));
    if v == [] then
      Failure("Missing required environment variable: " + name + ". Set it in .runtime/.env (recommended) or via XAIO_ENV_FILE.")
    else Success(v)
  }

  /** After `_set_default` with a non-blank value the variable is always
      available to `require_env`: as the value already set, or the default. */
  lemma RequireAfterDefault(env: Environ, name: string, value: string)
    requires !IsBlank(value)
    ensures var r := RequireEnv(SetDefault(env, name, value), name);
      && r.Success?
      && r.value == (if IsBlank(Getenv(env, name)) then Strip(value) else Strip(Getenv(env, name)))
  {
  }

  /** `runtime_dir()`: `$XAIO_RUNTIME_DIR` stripped, or `<repo>/.runtime`. */
  function RuntimeDir(env: Environ, root: string): string {
    var raw := Strip(Getenv(env, "XAIO_RUNTIME_DIR"));
    if raw != [] then raw else JoinPath(root, ".runtime")
  }

  /** `_iter_env_candidates()`, in order. */
  function Candidates(env: Environ, root: string, home: string): seq<string> {
    var rt := RuntimeDir(env, root);
    var o := Strip(Getenv(env, "XAIO_ENV_FILE"));
    (if o != [] then [o] else [])
      + [JoinPath(rt, ".env"), JoinPath(root, ".env"), JoinPath(rt, "xaio-url-agent.env"),
         JoinPath(JoinPath(home, ".config"), "xaio-url-agent.env")]
  }

  /** The fill-in loop: every candidate but the override file is loaded
      without override. */
  function FillFrom(env: Environ, fs: Fs, candidates: seq<string>, skip: string): (r: Environ)
    ensures forall k :: k in env ==> k in r && r[k] == env[k]
    decreases |candidates|
  {
    if candidates == [] then env
    else
      var c := candidates[0];
      var next := if skip != [] && c == skip then env else LoadEnvFile(env, fs, c, false).1;
      FillFrom(next, fs, candidates[1..], skip)
  }

  /** Every variable set to a non-blank value in `a` has the same value
      in `b`. */
  predicate KeepsNonBlank(a: Environ, b: Environ) {
    forall k :: k in a && !IsBlank(a[k]) ==> k in b && b[k] == a[k]
  }

  lemma KeepsTrans(a: Environ, b: Environ, c: Environ)
    requires KeepsNonBlank(a, b) && KeepsNonBlank(b, c)
    ensures KeepsNonBlank(a, c)
  {
  }

  /** The default for a path variable: when it is unset or blank, the first
      of two files that exists. */
  function DefaultPath(env: Environ, name: string, first: string, second: string, fs: Fs): (r: Environ)
    ensures forall k :: k != name ==> EnvLookup(r, k) == EnvLookup(env, k)
    ensures !IsBlank(Getenv(env, name)) ==> r == env
    ensures KeepsNonBlank(env, r)
  {
    if !IsBlank(Getenv(env, name)) then env
    else if first in fs then env[name := first]
    else if second in fs then env[name := second]
    else env
  }

  /** The process: whether the environment was loaded, and the environment. */
  datatype Loader = Loader(loaded: bool, env: Environ)

  /** What the loader sees of the machine: the repository root, the home
      directory and the files. */
  datatype Host = Host(root: string, home: string, fs: Fs)

  /** The override file the run loads first, if `$XAIO_ENV_FILE` names one. */
  function OverridePath(env: Environ): string {
    Strip(Getenv(env, "XAIO_ENV_FILE"))
  }

  /** Whether the override file of the run sets `k`. */
  predicate OverrideSets(env: Environ, fs: Fs, k: string) {
    var o := OverridePath(env);
    o != [] && o in fs && LastValue(FileSettings(fs[o]), k).Some?
  }

  /** The two `_set_default` calls at the start of a load. */
  function Prepared(env: Environ, root: string, rt: string): (r: Environ)
    ensures KeepsNonBlank(env, r)
    ensures OverridePath(r) == OverridePath(env)
  {
    SetDefault(SetDefault(env, "XAIO_PROJECT_DIR", root), "XAIO_RUNTIME_DIR", rt)
  }

  /** The override file, loaded with override, when `$XAIO_ENV_FILE` names
      one. */
  function LoadOverride(env: Environ, fs: Fs): (r: Environ)
    ensures forall k :: !OverrideSets(env, fs, k) ==> EnvLookup(r, k) == EnvLookup(env, k)
    ensures forall k :: OverrideSets(env, fs, k) ==>
      EnvLookup(r, k) == LastValue(FileSettings(fs[OverridePath(env)]), k)
  {
    var o := OverridePath(env);
    if o == [] then env
    else
      var r := LoadEnvFile(env, fs, o, true).1;
      forall k ensures EnvLookup(r, k) == if OverrideSets(env, fs, k) then LastValue(FileSettings(fs[o]), k) else EnvLookup(env, k) {
        if o in fs {
          LoadLastWins(env, FileSettings(fs[o]), k);
        }
      }
      r
  }

  /** The config and service-account defaults at the end of a load. */
  function PathDefaults(env: Environ, root: string, rt: string, fs: Fs): (r: Environ)
    ensures KeepsNonBlank(env, r)
  {
    var e := DefaultPath(env, "XAIO_CONFIG_PATH", JoinPath(rt, "config.yaml"), JoinPath(root, "config.yaml"), fs);
    var r := DefaultPath(e, "GOOGLE_SERVICE_ACCOUNT_JSON",
                         JoinPath(JoinPath(rt, "secrets"), "service_account.json"),
                         JoinPath(JoinPath(root, "secrets"), "service_account.json"), fs);
    KeepsTrans(env, e, r);
    r
  }

  /** `load_repo_env(force=...)`. The loader is marked loaded, and a second
      call without `force` changes nothing. */
  function LoadRepoEnv(st: Loader, force: bool, h: Host): (r: Loader)
    ensures r.loaded
    ensures st.loaded && !force ==> r == st
  {
    if st.loaded && !force then st
    else
      var rt := RuntimeDir(st.env, h.root);
      var e1 := Prepared(st.env, h.root, rt);
      var e2 := LoadOverride(e1, h.fs);
      var e3 := FillFrom(e2, h.fs, Candidates(e2, h.root, h.home), OverridePath(e1));
      Loader(true, PathDefaults(e3, h.root, rt, h.fs))
  }

  /** Loading only fills in: a variable already set to a non-blank value
      keeps it unless the override file sets it. */
  lemma LoadKeepsSet(st: Loader, force: bool, h: Host, k: string)
    requires k in st.env && !IsBlank(st.env[k]) && !OverrideSets(st.env, h.fs, k)
    ensures var r := LoadRepoEnv(st, force, h); k in r.env && r.env[k] == st.env[k]
  {
    if !(st.loaded && !force) {
      var rt := RuntimeDir(st.env, h.root);
      var e1 := Prepared(st.env, h.root, rt);
      assert EnvLookup(e1, k) == Some(st.env[k]);
      assert !OverrideSets(e1, h.fs, k);
      var e2 := LoadOverride(e1, h.fs);
      assert EnvLookup(e2, k) == Some(st.env[k]);
      var e3 := FillFrom(e2, h.fs, Candidates(e2, h.root, h.home), OverridePath(e1));
      assert e3[k] == st.env[k];
    }
  }

  /** The override file has the last word: a non-blank value it gives a
      variable is the variable's value after loading. */
  lemma OverrideWins(st: Loader, force: bool, h: Host, k: string, v: string)
    requires !(st.loaded && !force)
    requires var o := OverridePath(st.env); o != [] && o in h.fs && LastValue(FileSettings(h.fs[o]), k) == Some(v)
    requires !IsBlank(v)
    ensures var r := LoadRepoEnv(st, force, h); k in r.env && r.env[k] == v
  {
    var rt := RuntimeDir(st.env, h.root);
    var e1 := Prepared(st.env, h.root, rt);
    var e2 := LoadOverride(e1, h.fs);
    OverrideLoaded(e1, h.fs, k, v);
    var e3 := FillFrom(e2, h.fs, Candidates(e2, h.root, h.home), OverridePath(e1));
    assert k in e3 && e3[k] == v;
    assert LoadRepoEnv(st, force, h) == Loader(true, PathDefaults(e3, h.root, rt, h.fs));
  }

  /** A value the override file gives `k` is `k`'s value once it is loaded. */
  lemma OverrideLoaded(env: Environ, fs: Fs, k: string, v: string)
    requires var o := OverridePath(env); o != [] && o in fs && LastValue(FileSettings(fs[o]), k) == Some(v)
    ensures k in LoadOverride(env, fs) && LoadOverride(env, fs)[k] == v
  {
    assert OverrideSets(env, fs, k);
    assert EnvLookup(LoadOverride(env, fs), k) == Some(v);
  }
}

=== FILE: fingerprint.dfy ===
/** Stage freshness. A stage output `p` is accompanied by a sibling marker
    file `p.sha256` holding the SHA-256 of the text the output was computed
    from; the stage is skipped when the output exists and the marker holds the
    current hash. The same helpers are defined in `ai_queue.py` and
    `buffer_panels_queue.py`. The file system is a map from path to text. */
module Fingerprint {
  import opened Wrappers
  import opened PyText

  type Fs = map<string, string>

  predicate IsHexDigit(c: char) {
    ('0' <= c <= '9') || ('a' <= c <= 'f')
  }

  /** What `hashlib.sha256(...).hexdigest()` returns: 64 lower-case hex digits. */
  type HexDigest = s: string | |s| == 64 && forall i :: 0 <= i < |s| ==> IsHexDigit(s[i])
    witness seq(64, _ => '0')

  /** A hex digest is never empty and has no surrounding whitespace. */
  lemma DigestIsTrimmed(d: HexDigest)
    ensures d != [] && IsTrimmed(d)
  {
    assert IsHexDigit(d[0]) && IsHexDigit(d[|d| - 1]);
  }

  /** `path.with_suffix(path.suffix + ".sha256")`: for the output names the
      pipeline builds this appends ".sha256" to the whole name. */
  function MarkerPath(p: string): (m: string)
    ensures m != p
  {
    p + ".sha256"
  }

  /** `read_sha_marker`: the stripped marker text, with a missing or blank
      marker read as `None`. */
  function ReadMarker(fs: Fs, marker: string): (r: Option<string>)
    ensures r.Some? ==> r.value != [] && IsTrimmed(r.value)
    ensures r.Some? <==> marker in fs && !IsBlank(fs[marker])
  {
    if marker !in fs then None
    else
      var t := Strip(fs[marker]);
      if t == [] then None else Some(t)
  }

  /** `should_skip_stage`: the output exists and its marker holds the
      non-empty `sha`. */
  predicate ShouldSkip(fs: Fs, output: string, sha: string) {
    output in fs &&
    var marker := ReadMarker(fs, MarkerPath(output));
    marker.Some? && sha != [] && marker.value == sha
  }

  /** `mark_stage`: record `sha` in the marker, unless it is empty. */
  function MarkStage(fs: Fs, output: string, sha: string): Fs {
    if sha != [] then fs[MarkerPath(output) := sha] else fs
  }

  /** Marking with an empty hash does nothing; otherwise the marker holds
      the hash and no other file changes. */
  lemma MarkStageFrame(fs: Fs, output: string, sha: string)
    ensures var r := MarkStage(fs, output, sha);
      && (sha == [] ==> r == fs)
      && (sha != [] ==> MarkerPath(output) in r && r[MarkerPath(output)] == sha)
      && (forall p :: p != MarkerPath(output) ==> (p in r <==> p in fs))
      && (forall p :: p in fs && p != MarkerPath(output) ==> r[p] == fs[p])
  {
  }

  /** Skipping means exactly: the output and its marker exist, and the
      marker's stripped text is the non-empty `sha`. */
  lemma ShouldSkipIff(fs: Fs, output: string, sha: string)
    ensures ShouldSkip(fs, output, sha) <==>
      output in fs && MarkerPath(output) in fs && sha != [] && Strip(fs[MarkerPath(output)]) == sha
  {
  }

  /** An empty hash never skips a stage. */
  lemma EmptyShaNeverSkips(fs: Fs, output: string)
    ensures !ShouldSkip(fs, output, "")
  {
  }

  /** A hash with whitespace at either end never matches a stripped marker. */
  lemma PaddedShaNeverSkips(fs: Fs, output: string, sha: string)
    requires sha != [] && !IsTrimmed(sha)
    ensures !ShouldSkip(fs, output, sha)
  {
  }

  /** Marking after a successful stage makes the next check skip it, for an
      existing output and a hash without surrounding whitespace. */
  lemma MarkThenSkip(fs: Fs, output: string, sha: string)
    requires output in fs && sha != [] && IsTrimmed(sha)
    ensures ShouldSkip(MarkStage(fs, output, sha), output, sha)
  {
    StripOfTrimmed(sha);
  }

  /** Every SHA-256 digest round-trips through its marker. */
  lemma MarkDigestThenSkip(fs: Fs, output: string, d: HexDigest)
    requires output in fs
    ensures ShouldSkip(MarkStage(fs, output, d), output, d)
  {
    DigestIsTrimmed(d);
    MarkThenSkip(fs, output, d);
  }

  /** A marker for one hash does not let a different hash skip. */
  lemma StaleMarkerRuns(fs: Fs, output: string, sha: string, other: string)
    requires ShouldSkip(fs, output, sha) && other != sha
    ensures !ShouldSkip(fs, output, other)
  {
  }

  /** Without the output file nothing is skipped, whatever the marker says. */
  lemma MissingOutputRuns(fs: Fs, output: string, sha: string)
    requires output !in fs
    ensures !ShouldSkip(fs, output, sha)
  {
  }
}

=== FILE: jobs.dfy ===
/** The outcome of a child process (`subprocess.run(..., capture_output=True,
    text=True, check=False)`) and the error text the drivers derive from it. */
module Jobs {
  import opened Wrappers
  import opened PyText

  /** Return code, captured streams, and the text of the file the child was
      expected to write, if it wrote one. */
  datatype Proc = Proc(rc: int, stdout: string, stderr: string, output: Option<string>)

  /** `(res.stderr or res.stdout or "").strip()`: standard error when it is
      non-empty, else standard output, stripped. */
  function ErrorText(p: Proc): (r: string)
    ensures p.stderr != [] ==> r == Strip(p.stderr)
    ensures p.stderr == [] ==> r == Strip(p.stdout)
    ensures IsTrimmed(r)
  {
    Strip(if p.stderr != [] then p.stderr else p.stdout)
  }
}

=== FILE: json.dfy ===
/** The JSON documents the pipeline reads and writes, as Python sees them
    after `json.loads`: `None`, booleans, integers, strings, lists and
    insertion-ordered dicts. A dict is kept as its sequence of fields; when a
    key occurs twice the later field supplies the value, as `json.loads` and
    repeated assignment both do. */
module JsonValue {
  import opened Wrappers
  import opened PyText

  datatype Json =
    | JNull
    | JBool(b: bool)
    | JNum(n: int)
    | JStr(s: string)
    | JArr(items: seq<Json>)
    | JObj(fields: seq<Field>)

  datatype Field = Field(key: string, val: Json)

  /** Python truthiness: `None`, `False`, `0`, `""`, `[]` and `{}` are falsy. */
  predicate Truthy(v: Json) {
    match v
    case JNull => false
    case JBool(b) => b
    case JNum(n) => n != 0
    case JStr(s) => s != []
    case JArr(items) => items != []
    case JObj(fields) => fields != []
  }

  /** `a or b` */
  function Or(a: Json, b: Json): Json {
    if Truthy(a) then a else b
  }

  /** The empty dict `{}`. */
  const Empty: Json := JObj([])

  predicate HasKey(fields: seq<Field>, k: string) {
    exists i :: 0 <= i < |fields| && fields[i].key == k
  }

  /** `fields.keys()` with repetitions, in order. */
  function Keys(fields: seq<Field>): (ks: seq<string>)
    ensures |ks| == |fields|
    ensures forall i :: 0 <= i < |fields| ==> ks[i] == fields[i].key
  {
    seq(|fields|, i requires 0 <= i < |fields| => fields[i].key)
  }

  /** The value stored under `k`: the last field with that key wins. */
  function Lookup(fields: seq<Field>, k: string): (r: Option<Json>)
    ensures r.None? <==> !HasKey(fields, k)
    ensures r.Some? ==> exists i :: 0 <= i < |fields| && fields[i] == Field(k, r.value)
    decreases |fields|
  {
    if fields == [] then None
    else if fields[|fields| - 1].key == k then Some(fields[|fields| - 1].val)
    else
      var r := Lookup(fields[..|fields| - 1], k);
      assert r.None? ==> !HasKey(fields, k) by {
        if r.None? {
          forall i | 0 <= i < |fields| ensures fields[i].key != k {
            if i < |fields| - 1 { assert fields[i] == fields[..|fields| - 1][i]; }
          }
        }
      }
      assert r.Some? ==> exists i :: 0 <= i < |fields| && fields[i] == Field(k, r.value) by {
        if r.Some? {
          var i :| 0 <= i < |fields| - 1 && fields[..|fields| - 1][i] == Field(k, r.value);
          assert fields[i] == Field(k, r.value);
        }
      }
      r
  }

  /** A field that no later field overrides is what `Lookup` finds. */
  lemma {:induction false} LookupLast(fields: seq<Field>, i: nat)
    requires i < |fields|
    requires forall j :: i < j < |fields| ==> fields[j].key != fields[i].key
    ensures Lookup(fields, fields[i].key) == Some(fields[i].val)
    decreases |fields|
  {
    if i < |fields| - 1 {
      var init := fields[..|fields| - 1];
      assert init[i] == fields[i];
      LookupLast(init, i);
    }
  }

  /** `d.get(k)` on a dict. */
  function GetField(fields: seq<Field>, k: string): Json {
    Lookup(fields, k).GetOr(JNull)
  }

  /** `d.get(k)` where a non-dict is treated as an empty dict. */
  function Get(v: Json, k: string): Json {
    if v.JObj? then GetField(v.fields, k) else JNull
  }

  /** `k in d` for a dict value; false for anything else. */
  predicate Contains(v: Json, k: string) {
    v.JObj? && HasKey(v.fields, k)
  }

  /** `x if isinstance(x, dict) else {}` */
  function DictOrEmpty(v: Json): (r: seq<Field>)
    ensures v.JObj? ==> r == v.fields
    ensures !v.JObj? ==> r == []
  {
    if v.JObj? then v.fields else []
  }

  /** `(x or {})` followed by a dict method: a falsy value reads as `{}`,
      a truthy non-dict raises `AttributeError`. */
  function OrEmptyDict(v: Json): (r: Result<seq<Field>>)
    ensures r.Success? <==> (v.JObj? || !Truthy(v))
    ensures v.JObj? ==> r == Success(v.fields)
  {
    if v.JObj? then Success(v.fields)
    else if !Truthy(v) then Success([])
    else Failure("AttributeError: object has no attribute 'get'")
  }

  /** Every field whose key is `k` now holds `v`; nothing else moves. */
  function Overwrite(fields: seq<Field>, k: string, v: Json): (r: seq<Field>)
    ensures |r| == |fields|
    ensures forall i :: 0 <= i < |r| ==> r[i] == (if fields[i].key == k then Field(k, v) else fields[i])
  {
    seq(|fields|, i requires 0 <= i < |fields| => if fields[i].key == k then Field(k, v) else fields[i])
  }

  /** Overwriting keeps the key order, sets `k` where it exists and leaves
      every other key as it was. */
  lemma {:induction false} OverwriteLookup(fields: seq<Field>, k: string, v: Json)
    ensures Keys(Overwrite(fields, k, v)) == Keys(fields)
    ensures HasKey(fields, k) ==> Lookup(Overwrite(fields, k, v), k) == Some(v)
    ensures forall k2 :: k2 != k ==> Lookup(Overwrite(fields, k, v), k2) == Lookup(fields, k2)
    decreases |fields|
  {
    var r := Overwrite(fields, k, v);
    assert Keys(r) == Keys(fields);
    if fields != [] {
      var init := fields[..|fields| - 1];
      var last := fields[|fields| - 1];
      OverwriteLookup(init, k, v);
      assert r[..|r| - 1] == Overwrite(init, k, v);
      forall k2 | k2 != k ensures Lookup(r, k2) == Lookup(fields, k2) {
        assert Lookup(Overwrite(init, k, v), k2) == Lookup(init, k2);
      }
      assert HasKey(fields, k) && last.key != k ==> HasKey(init, k) by {
        if HasKey(fields, k) && last.key != k {
          var i :| 0 <= i < |fields| && fields[i].key == k;
          assert init[i] == fields[i];
        }
      }
    }
  }

  /** `d[k] = v`: an existing key keeps its position, a new key goes last. */
  function Assign(fields: seq<Field>, k: string, v: Json): (r: seq<Field>)
    ensures Lookup(r, k) == Some(v)
    ensures forall k2 :: k2 != k ==> Lookup(r, k2) == Lookup(fields, k2)
    ensures HasKey(fields, k) ==> Keys(r) == Keys(fields)
    ensures !HasKey(fields, k) ==> Keys(r) == Keys(fields) + [k]
  {
    if HasKey(fields, k) then
      OverwriteLookup(fields, k, v);
      Overwrite(fields, k, v)
    else
      var r := fields + [Field(k, v)];
      assert r[..|r| - 1] == fields;
      r
  }

  /** `d.pop(k, None)`: the key is gone; every other key reads as before. */
  function Remove(fields: seq<Field>, k: string): (r: seq<Field>)
    ensures !HasKey(r, k)
    ensures forall k2 :: k2 != k ==> Lookup(r, k2) == Lookup(fields, k2)
    ensures |r| <= |fields|
    ensures !HasKey(fields, k) ==> r == fields
    decreases |fields|
  {
    if fields == [] then []
    else
      var init := fields[..|fields| - 1];
      var last := fields[|fields| - 1];
      var rest := Remove(init, k);
      assert !HasKey(fields, k) ==> !HasKey(init, k) by {
        if HasKey(init, k) {
          var i :| 0 <= i < |init| && init[i].key == k;
          assert fields[i] == init[i];
        }
      }
      if last.key == k then rest
      else
        var r := rest + [last];
        assert r[..|r| - 1] == rest;
        assert !HasKey(fields, k) ==> r == fields by {
          if !HasKey(fields, k) { assert fields == init + [last]; }
        }
        r
  }

  /** `d.update(other)`: the fields of `other` assigned one by one. */
  function Update(fields: seq<Field>, other: seq<Field>): (r: seq<Field>)
    ensures forall k :: Lookup(r, k) == (if HasKey(other, k) then Lookup(other, k) else Lookup(fields, k))
    decreases |other|
  {
    if other == [] then fields
    else
      var init := other[..|other| - 1];
      var last := other[|other| - 1];
      var front := Update(fields, init);
      var r := Assign(front, last.key, last.val);
      assert forall k :: Lookup(r, k) == (if HasKey(other, k) then Lookup(other, k) else Lookup(fields, k)) by {
        forall k ensures Lookup(r, k) == (if HasKey(other, k) then Lookup(other, k) else Lookup(fields, k)) {
          if k == last.key {
            assert HasKey(other, k) by { assert other[|other| - 1].key == k; }
          } else {
            assert Lookup(other, k) == Lookup(init, k);
            UpdateHasKey(other, k);
          }
        }
      }
      r
  }

  lemma UpdateHasKey(other: seq<Field>, k: string)
    requires other != [] && other[|other| - 1].key != k
    ensures HasKey(other, k) <==> HasKey(other[..|other| - 1], k)
  {
    var init := other[..|other| - 1];
    if HasKey(other, k) {
      var i :| 0 <= i < |other| && other[i].key == k;
      assert init[i] == other[i];
    }
    if HasKey(init, k) {
      var i :| 0 <= i < |init| && init[i].key == k;
      assert other[i] == init[i];
    }
  }

  /** A key occurs in `fields` iff it occurs before the last field or is
      the last field's key. */
  lemma HasKeySnoc(fields: seq<Field>, k: string)
    requires fields != []
    ensures HasKey(fields, k) <==> HasKey(fields[..|fields| - 1], k) || fields[|fields| - 1].key == k
  {
    var init := fields[..|fields| - 1];
    if HasKey(fields, k) && fields[|fields| - 1].key != k {
      var i :| 0 <= i < |fields| && fields[i].key == k;
      assert init[i] == fields[i];
    }
    if HasKey(init, k) {
      var i :| 0 <= i < |init| && init[i].key == k;
      assert fields[i] == init[i];
    }
  }

  /** The distinct keys of `fields` in order of first occurrence: the key
      order of the dict that `json.loads` builds from them. */
  function DistinctKeys(fields: seq<Field>): (ks: seq<string>)
    ensures forall k :: k in ks <==> HasKey(fields, k)
    ensures forall i, j :: 0 <= i < j < |ks| ==> ks[i] != ks[j]
    decreases |fields|
  {
    if fields == [] then []
    else
      var k := fields[|fields| - 1].key;
      var ks := DistinctKeys(fields[..|fields| - 1]);
      assert forall k2 :: HasKey(fields, k2) <==> k2 in ks || k2 == k by {
        forall k2 ensures HasKey(fields, k2) <==> k2 in ks || k2 == k {
          HasKeySnoc(fields, k2);
        }
      }
      if k in ks then ks else ks + [k]
  }

  /** `d.items()`: each distinct key once, in first-occurrence order, with
      the value the dict holds for it. */
  function Items(fields: seq<Field>): (r: seq<Field>)
    ensures Keys(r) == DistinctKeys(fields)
    ensures forall i :: 0 <= i < |r| ==> Lookup(fields, r[i].key) == Some(r[i].val)
  {
    var ks := DistinctKeys(fields);
    seq(|ks|, i requires 0 <= i < |ks| => Field(ks[i], Lookup(fields, ks[i]).value))
  }

  /** Reading the items back as a dict gives the same dict. */
  lemma ItemsLookup(fields: seq<Field>, k: string)
    ensures Lookup(Items(fields), k) == Lookup(fields, k)
  {
    var r := Items(fields);
    assert Keys(r) == DistinctKeys(fields);
    if HasKey(fields, k) {
      assert k in DistinctKeys(fields);
      var i :| 0 <= i < |r| && Keys(r)[i] == k;
      LookupLast(r, i);
    }
  }

  // ---------------------------------------------------------------------
  // `d.update(m)` for whatever a document holds

  /** The dict key a JSON scalar makes, as `json.dumps` writes it back:
      strings as they are, integers in decimal, `true`, `false`, `null`. */
  function KeyText(k: Json): string
    requires !k.JArr? && !k.JObj?
  {
    match k
    case JStr(s) => s
    case JNum(n) => IntToString(n)
    case JBool(b) => if b then "true" else "false"
    case JNull => "null"
  }

  /** One element of the sequence handed to `dict.update`, read as a
      `(key, value)` pair: it must iterate to exactly two things, the first
      hashable. A two-item list gives its items, a two-character string its
      characters, a two-key dict its keys; a scalar does not iterate. */
  function UpdatePair(e: Json): (r: Result<Field>)
  {
    if e.JArr? then ListPair(e.items)
    else if e.JStr? then StrPair(e.s)
    else if e.JObj? then DictPair(e.fields)
    else Failure("TypeError: cannot convert dictionary update sequence element to a sequence")
  }

  const WrongLength: string := "ValueError: dictionary update sequence element has the wrong length; 2 is required"

  /** A list element: its two items, the first as the key. */
  function ListPair(items: seq<Json>): (r: Result<Field>)
    ensures r.Success? <==> |items| == 2 && !items[0].JArr? && !items[0].JObj?
    ensures r.Success? ==> r.value.val == items[1]
  {
    if |items| != 2 then Failure(WrongLength)
    else if items[0].JArr? || items[0].JObj? then Failure("TypeError: unhashable type")
    else Success(Field(KeyText(items[0]), items[1]))
  }

  /** A string element: its two characters. */
  function StrPair(s: string): (r: Result<Field>)
    ensures r.Success? <==> |s| == 2
  {
    if |s| != 2 then Failure(WrongLength) else Success(Field(s[..1], JStr(s[1..])))
  }

  /** A dict element: iterating it gives its two keys. */
  function DictPair(fields: seq<Field>): (r: Result<Field>)
    ensures r.Success? <==> |Items(fields)| == 2
  {
    var its := Items(fields);
    if |its| != 2 then Failure(WrongLength)
    else Success(Field(its[0].key, JStr(its[1].key)))
  }

  /** The pairs of a list handed to `dict.update`, or the first element's
      error when one of them is not a pair. */
  function PairsOf(items: seq<Json>): (r: Result<seq<Field>>)
    ensures r.Success? <==> forall i :: 0 <= i < |items| ==> UpdatePair(items[i]).Success?
    ensures r.Success? ==> |r.value| == |items|
    ensures r.Success? ==> forall i :: 0 <= i < |items| ==> r.value[i] == UpdatePair(items[i]).value
    decreases |items|
  {
    if items == [] then Success([])
    else
      var head := UpdatePair(items[0]);
      var rest := PairsOf(items[1..]);
      if head.Failure? then Failure(head.error)
      else if rest.Failure? then
        assert !(forall i :: 0 <= i < |items| ==> UpdatePair(items[i]).Success?) by {
          var j :| 0 <= j < |items[1..]| && UpdatePair(items[1..][j]).Failure?;
          assert items[j + 1] == items[1..][j];
        }
        Failure(rest.error)
      else
        var r := [head.value] + rest.value;
        assert forall i :: 0 <= i < |items| ==> r[i] == UpdatePair(items[i]).value by {
          forall i | 0 <= i < |items| ensures r[i] == UpdatePair(items[i]).value {
            if i > 0 { assert items[i] == items[1..][i - 1]; }
          }
        }
        Success(r)
  }

  /** `d.update(m)`: a dict's fields are assigned in order; a list's
      elements must each be a pair; a string iterates to one-character
      strings, so only the empty string passes; `None`, a boolean or a
      number is not iterable. */
  function DictUpdate(fields: seq<Field>, m: Json): (r: Result<seq<Field>>)
    ensures m.JObj? ==> r.Success?
    ensures m.JObj? ==> forall k ::
      Lookup(r.value, k) == (if HasKey(m.fields, k) then Lookup(m.fields, k) else Lookup(fields, k))
    ensures m.JArr? ==> (r.Success? <==> forall i :: 0 <= i < |m.items| ==> UpdatePair(m.items[i]).Success?)
    ensures m.JStr? ==> (r.Success? <==> m.s == [])
    ensures m.JNull? || m.JBool? || m.JNum? ==> r.Failure?
    ensures m == JArr([]) || m == JStr([]) ==> r == Success(fields)
  {
    match m
    case JObj(other) => Success(Update(fields, other))
    case JArr(items) =>
      var pairs := PairsOf(items);
      if pairs.Failure? then Failure(pairs.error) else Success(Update(fields, pairs.value))
    case JStr(s) =>
      if s == [] then Success(fields)
      else Failure("ValueError: dictionary update sequence element #0 has length 1; 2 is required")
    case _ => Failure("TypeError: object is not iterable")
  }

  /** The last pair of a list with a given key supplies that key's value. */
  lemma LastPairWins(fields: seq<Field>, items: seq<Json>, i: nat)
    requires i < |items| && DictUpdate(fields, JArr(items)).Success?
    requires forall j :: i < j < |items| ==> UpdatePair(items[j]).value.key != UpdatePair(items[i]).value.key
    ensures Lookup(DictUpdate(fields, JArr(items)).value, UpdatePair(items[i]).value.key) ==
      Some(UpdatePair(items[i]).value.val)
  {
    var pairs := PairsOf(items).value;
    assert pairs[i] == UpdatePair(items[i]).value;
    assert HasKey(pairs, pairs[i].key);
    LookupLast(pairs, i);
  }

  /** The list of `[key, value]` pairs of some fields updates a dict
      exactly as a dict of those fields does. */
  lemma PairListIsDict(fields: seq<Field>, kvs: seq<Field>)
    ensures var items := seq(|kvs|, i requires 0 <= i < |kvs| => JArr([JStr(kvs[i].key), kvs[i].val]));
      DictUpdate(fields, JArr(items)) == DictUpdate(fields, JObj(kvs))
  {
    var items := seq(|kvs|, i requires 0 <= i < |kvs| => JArr([JStr(kvs[i].key), kvs[i].val]));
    forall i | 0 <= i < |items| ensures UpdatePair(items[i]) == Success(kvs[i]) {
      assert items[i] == JArr([JStr(kvs[i].key), kvs[i].val]);
    }
    assert PairsOf(items).value == kvs;
  }

  /** A key no pair of the list names keeps its value. */
  lemma UnpairedKeyKept(fields: seq<Field>, items: seq<Json>, k: string)
    requires DictUpdate(fields, JArr(items)).Success?
    requires forall j :: 0 <= j < |items| ==> UpdatePair(items[j]).value.key != k
    ensures Lookup(DictUpdate(fields, JArr(items)).value, k) == Lookup(fields, k)
  {
    var pairs := PairsOf(items).value;
    forall j | 0 <= j < |pairs| ensures pairs[j].key != k {
      assert pairs[j] == UpdatePair(items[j]).value;
    }
  }

  /** `isinstance(v, list) and all strings`: the strings of a list. */
  predicate IsStrList(v: Json) {
    v.JArr? && forall i :: 0 <= i < |v.items| ==> v.items[i].JStr?
  }

  /** `json.dumps(list_of_strings)` inputs: a list of string values. */
  function StrList(xs: seq<string>): (r: Json)
    ensures IsStrList(r) && |r.items| == |xs|
    ensures forall i :: 0 <= i < |xs| ==> r.items[i] == JStr(xs[i])
  {
    JArr(seq(|xs|, i requires 0 <= i < |xs| => JStr(xs[i])))
  }

  /** `str(v)` for the JSON values: strings as they are, `None`/`True`/`False`
      by name, integers in decimal, containers by their `repr`. */
  function Str(v: Json): string {
    match v
    case JStr(s) => s
    case _ => Repr(v)
  }

  /** `repr(v)`; strings are quoted with `'` without escaping their contents. */
  function Repr(v: Json): string
    decreases v
  {
    match v
    case JNull => "None"
    case JBool(b) => if b then "True" else "False"
    case JNum(n) => IntToString(n)
    case JStr(s) => "'" + s + "'"
    case JArr(items) => "[" + ReprItems(items) + "]"
    case JObj(fields) => "{" + ReprFields(fields) + "}"
  }

  function ReprItems(items: seq<Json>): string
    decreases items
  {
    if items == [] then ""
    else if |items| == 1 then Repr(items[0])
    else Repr(items[0]) + ", " + ReprItems(items[1..])
  }

  function ReprFields(fields: seq<Field>): string
    decreases fields
  {
    if fields == [] then ""
    else
      var f := fields[0];
      var one := "'" + f.key + "': " + Repr(f.val);
      if |fields| == 1 then one else one + ", " + ReprFields(fields[1..])
  }

  // ---------------------------------------------------------------------
  // Precedence chains

  /** The first truthy value, if any: what `a or b or ...` yields when any
      operand is truthy. */
  function FirstTruthy(vs: seq<Json>): (r: Option<Json>)
    ensures r.None? <==> forall i :: 0 <= i < |vs| ==> !Truthy(vs[i])
    ensures r.Some? ==> exists i :: 0 <= i < |vs| && r.value == vs[i] && Truthy(vs[i])
                                    && forall j :: 0 <= j < i ==> !Truthy(vs[j])
    decreases |vs|
  {
    if vs == [] then None
    else if Truthy(vs[0]) then Some(vs[0])
    else
      var r := FirstTruthy(vs[1..]);
      assert r.None? ==> forall i :: 0 <= i < |vs| ==> !Truthy(vs[i]) by {
        if r.None? {
          forall i | 0 < i < |vs| ensures !Truthy(vs[i]) { assert vs[i] == vs[1..][i - 1]; }
        }
      }
      assert r.Some? ==> exists i :: 0 <= i < |vs| && r.value == vs[i] && Truthy(vs[i])
                                     && forall j :: 0 <= j < i ==> !Truthy(vs[j]) by {
        if r.Some? {
          var i :| 0 <= i < |vs[1..]| && r.value == vs[1..][i] && Truthy(vs[1..][i])
                   && forall j :: 0 <= j < i ==> !Truthy(vs[1..][j]);
          assert vs[i + 1] == vs[1..][i];
          forall j | 0 <= j < i + 1 ensures !Truthy(vs[j]) {
            if j > 0 { assert vs[j] == vs[1..][j - 1]; }
          }
        }
      }
      r
  }

  /** `vs[0] or vs[1] or ... or vs[n-1]`, grouped from the left as Python
      evaluates it; `None` for no operands. */
  function OrChain(vs: seq<Json>): Json
    decreases |vs|
  {
    if vs == [] then JNull
    else if |vs| == 1 then vs[0]
    else Or(OrChain(vs[..|vs| - 1]), vs[|vs| - 1])
  }

  /** A chain of `or`s is truthy exactly when some operand is, and then
      it is the first truthy operand. */
  lemma {:induction false} OrChainFirstTruthy(vs: seq<Json>)
    ensures Truthy(OrChain(vs)) <==> FirstTruthy(vs).Some?
    ensures Truthy(OrChain(vs)) ==> OrChain(vs) == FirstTruthy(vs).value
    decreases |vs|
  {
    if |vs| > 1 {
      var init := vs[..|vs| - 1];
      OrChainFirstTruthy(init);
      FirstTruthyAppend(init, vs[|vs| - 1]);
      assert vs == init + [vs[|vs| - 1]];
    } else if |vs| == 1 {
      assert vs[1..] == [];
    }
  }

  lemma {:induction false} FirstTruthyAppend(vs: seq<Json>, v: Json)
    ensures FirstTruthy(vs + [v]) == if FirstTruthy(vs).Some? then FirstTruthy(vs) else FirstTruthy([v])
    decreases |vs|
  {
    if vs == [] {
      assert vs + [v] == [v];
    } else {
      assert (vs + [v])[0] == vs[0];
      assert (vs + [v])[1..] == vs[1..] + [v];
      FirstTruthyAppend(vs[1..], v);
    }
  }
}

=== FILE: jsonld.dfy ===
/** `extract_jsonld_candidates` in the capture agent: the publisher and
    author names and the publication dates found in a page's JSON-LD
    scripts, each list stripped, without blanks and without repeats. */
module JsonLd {
  import opened Wrappers
  import opened PyText
  import opened JsonValue
  import opened Dedupe

  // ---------- the scripts ----------

  /** A `<script>` element: its `type` attribute and its `.string`, either
      of which may be absent. */
  datatype Script = Script(typ: Option<string>, text: Option<string>)

  /** The `find_all` filter: a string `type` containing `ld+json` in any case. */
  predicate IsLdJson(s: Script) {
    s.typ.Some? && Infix("ld+json", Lower(s.typ.value))
  }

  /** The match ignores case: `application/LD+JSON` is selected. */
  lemma LdJsonAnyCase(text: Option<string>)
    ensures IsLdJson(Script(Some("application/LD+JSON"), text))
    ensures !IsLdJson(Script(None, text))
  {
    var t := Lower("application/LD+JSON");
    assert t[12..19] == "ld+json";
    assert InfixAt("ld+json", t, 12);
  }

  /** What one script contributes: nothing when it is not JSON-LD, has no
      text, is blank, or does not parse (`JSONDecodeError` is swallowed). */
  function Parsed(s: Script, parse: string -> Option<Json>): Option<Json> {
    if !IsLdJson(s) || s.text.None? || s.text.value == [] then None
    else
      var raw := Strip(s.text.value);
      if raw == [] then None else parse(raw)
  }

  /** The per-script step as a function value. */
  function Reader(parse: string -> Option<Json>): Script -> Option<Json> {
    (s: Script) => Parsed(s, parse)
  }

  /** The values `read` yields for the scripts, in order. */
  function Kept(scripts: seq<Script>, read: Script -> Option<Json>): (r: seq<Json>)
    ensures |r| <= |scripts|
    decreases |scripts|
  {
    if scripts == [] then []
    else
      var rest := Kept(scripts[1..], read);
      match read(scripts[0])
      case Some(v) => [v] + rest
      case None => rest
  }

  /** `parsed_items`, in document order. */
  function ParsedItems(scripts: seq<Script>, parse: string -> Option<Json>): seq<Json> {
    Kept(scripts, Reader(parse))
  }

  /** Scripts are handled one after the other: the items of a longer page
      are those of its first part followed by those of the rest. */
  lemma {:induction false} KeptConcat(a: seq<Script>, b: seq<Script>, read: Script -> Option<Json>)
    ensures Kept(a + b, read) == Kept(a, read) + Kept(b, read)
    decreases |a|
  {
    if a == [] {
      assert a + b == b;
    } else {
      assert (a + b)[0] == a[0];
      assert (a + b)[1..] == a[1..] + b;
      KeptConcat(a[1..], b, read);
    }
  }

  /** A value is kept exactly when some script yields it. */
  lemma {:induction false} KeptMembers(scripts: seq<Script>, read: Script -> Option<Json>, v: Json)
    ensures v in Kept(scripts, read) <==> exists i :: 0 <= i < |scripts| && read(scripts[i]) == Some(v)
    decreases |scripts|
  {
    if scripts != [] {
      KeptMembers(scripts[1..], read, v);
      if exists i :: 0 <= i < |scripts| && read(scripts[i]) == Some(v) {
        var i :| 0 <= i < |scripts| && read(scripts[i]) == Some(v);
        if i > 0 { assert scripts[1..][i - 1] == scripts[i]; }
      }
      if exists i :: 0 <= i < |scripts[1..]| && read(scripts[1..][i]) == Some(v) {
        var i :| 0 <= i < |scripts[1..]| && read(scripts[1..][i]) == Some(v);
        assert scripts[i + 1] == scripts[1..][i];
      }
    }
  }

  /** An item is parsed exactly when some JSON-LD script yields it, so a
      blank, empty or malformed script never stops the others from being
      read, and the items of a page are those of its parts in order. */
  lemma ParsedItemsMembers(scripts: seq<Script>, more: seq<Script>, parse: string -> Option<Json>, v: Json)
    ensures v in ParsedItems(scripts, parse) <==> exists i :: 0 <= i < |scripts| && Parsed(scripts[i], parse) == Some(v)
    ensures ParsedItems(scripts + more, parse) == ParsedItems(scripts, parse) + ParsedItems(more, parse)
  {
    KeptMembers(scripts, Reader(parse), v);
    KeptConcat(scripts, more, Reader(parse));
  }

  /** A script whose text is blank after stripping is skipped without
      consulting the parser. */
  lemma BlankScriptSkipped(s: Script, parse: string -> Option<Json>)
    requires s.text.Some? && IsBlank(s.text.value)
    ensures Parsed(s, parse) == None
  {
  }

  // ---------- the walk over nodes ----------

  /** `iter_nodes(obj)`: a dict yields itself, then the nodes of its
      `@graph` value when that is not `None`, then the nodes of each of its
      values (`obj.values()`: one per distinct key, the key's last value);
      a list yields the nodes of its items. */
  function Nodes(v: Json): seq<seq<Field>>
    decreases v, 1
  {
    match v
    case JObj(fields) => [fields] + GraphNodes(fields) + FieldNodes(fields, DistinctKeys(fields))
    case JArr(items) => ListNodes(items)
    case _ => []
  }

  /** The nodes of `obj.get("@graph")`: the last `@graph` field decides. */
  function GraphNodes(fields: seq<Field>): seq<seq<Field>>
    decreases fields, 0
  {
    if fields == [] then []
    else if fields[|fields| - 1].key == "@graph" then
      (if fields[|fields| - 1].val != JNull then Nodes(fields[|fields| - 1].val) else [])
    else GraphNodes(fields[..|fields| - 1])
  }

  /** The nodes of the values the dict holds for `ks`, in order. */
  function FieldNodes(fields: seq<Field>, ks: seq<string>): seq<seq<Field>>
    decreases fields, |ks|
  {
    if ks == [] then [] else ValueNodes(fields, ks[0]) + FieldNodes(fields, ks[1..])
  }

  /** The nodes of the value the dict holds for `k`. */
  function ValueNodes(fields: seq<Field>, k: string): seq<seq<Field>>
    decreases fields, 0
  {
    match Lookup(fields, k)
    case None => []
    case Some(x) => Nodes(x)
  }

  /** The nodes of the items of a list, in order. */
  function ListNodes(items: seq<Json>): seq<seq<Field>>
    decreases items, 0
  {
    if items == [] then [] else Nodes(items[0]) + ListNodes(items[1..])
  }

  /** Field `i` holds its key's value: no later field repeats the key. */
  predicate Current(fields: seq<Field>, i: nat)
    requires i < |fields|
  {
    forall j :: i < j < |fields| ==> fields[j].key != fields[i].key
  }

  /** The reference meaning of the walk: `d` is a dict occurring somewhere
      inside `v`, `v` itself included, reached through values the dicts on
      the way still hold. */
  predicate Within(d: seq<Field>, v: Json)
    decreases v
  {
    match v
    case JObj(fields) => d == fields || exists i :: 0 <= i < |fields| && Current(fields, i) && Within(d, fields[i].val)
    case JArr(items) => exists i :: 0 <= i < |items| && Within(d, items[i])
    case _ => false
  }

  /** `GraphNodes` walks the value `obj.get("@graph")` reads. */
  lemma {:induction false} GraphIsLookup(fields: seq<Field>)
    ensures GraphNodes(fields) == (if GetField(fields, "@graph") != JNull then Nodes(GetField(fields, "@graph")) else [])
    decreases |fields|
  {
    if fields != [] && fields[|fields| - 1].key != "@graph" {
      GraphIsLookup(fields[..|fields| - 1]);
    }
  }

  /** The walk yields exactly the dicts inside the value: every one of them
      is visited, and the second pass over `@graph` adds no new node. */
  lemma {:induction false} NodesWithin(d: seq<Field>, v: Json)
    ensures d in Nodes(v) <==> Within(d, v)
    decreases v, 1
  {
    match v
    case JObj(fields) =>
      FieldNodesWithin(d, fields, DistinctKeys(fields));
      ValuesWithin(d, fields);
      GraphNodesWithin(d, fields);
      InNodeConcat([fields] + GraphNodes(fields), FieldNodes(fields, DistinctKeys(fields)), d);
      InNodeConcat([fields], GraphNodes(fields), d);
    case JArr(items) =>
      ListNodesWithin(d, items);
    case _ =>
  }

  lemma {:induction false} GraphNodesWithin(d: seq<Field>, fields: seq<Field>)
    ensures d in GraphNodes(fields) ==>
      exists i :: 0 <= i < |fields| && fields[i].key == "@graph" && Current(fields, i) && Within(d, fields[i].val)
    decreases fields, 0
  {
    if fields != [] {
      var n := |fields| - 1;
      if fields[n].key == "@graph" {
        if fields[n].val != JNull {
          NodesWithin(d, fields[n].val);
          assert Current(fields, n);
        }
      } else {
        GraphNodesWithin(d, fields[..n]);
        if d in GraphNodes(fields[..n]) {
          var i :| 0 <= i < n && fields[..n][i].key == "@graph" && Current(fields[..n], i) && Within(d, fields[..n][i].val);
          assert fields[i] == fields[..n][i];
          CurrentInPrefix(fields, i);
        }
      }
    }
  }

  /** A field current in a prefix stays current when the next field has
      another key. */
  lemma CurrentInPrefix(fields: seq<Field>, i: nat)
    requires i < |fields| - 1 && Current(fields[..|fields| - 1], i)
    requires fields[|fields| - 1].key != fields[i].key
    ensures Current(fields, i)
  {
    var init := fields[..|fields| - 1];
    forall j | i < j < |fields| ensures fields[j].key != fields[i].key {
      if j < |fields| - 1 { assert fields[j] == init[j]; }
    }
  }

  /** Every key of a dict has a current field. */
  lemma {:induction false} CurrentField(fields: seq<Field>, k: string) returns (j: nat)
    requires HasKey(fields, k)
    ensures j < |fields| && fields[j].key == k && Current(fields, j)
    decreases |fields|
  {
    var n := |fields| - 1;
    if fields[n].key == k {
      j := n;
    } else {
      var init := fields[..n];
      assert HasKey(init, k) by {
        var i :| 0 <= i < |fields| && fields[i].key == k;
        assert init[i] == fields[i];
      }
      j := CurrentField(init, k);
      assert fields[j] == init[j];
      CurrentInPrefix(fields, j);
    }
  }

  /** `d` is inside the value the dict holds for `k`. */
  predicate InValue(d: seq<Field>, fields: seq<Field>, k: string) {
    HasKey(fields, k) && Within(d, Lookup(fields, k).value)
  }

  lemma {:induction false} ValueNodesWithin(d: seq<Field>, fields: seq<Field>, k: string)
    ensures d in ValueNodes(fields, k) <==> InValue(d, fields, k)
    decreases fields, 0
  {
    if HasKey(fields, k) {
      NodesWithin(d, Lookup(fields, k).value);
    }
  }

  lemma {:induction false} FieldNodesWithin(d: seq<Field>, fields: seq<Field>, ks: seq<string>)
    ensures d in FieldNodes(fields, ks) <==> exists i :: 0 <= i < |ks| && InValue(d, fields, ks[i])
    decreases fields, |ks|
  {
    if ks != [] {
      ValueNodesWithin(d, fields, ks[0]);
      FieldNodesWithin(d, fields, ks[1..]);
      InNodeConcat(ValueNodes(fields, ks[0]), FieldNodes(fields, ks[1..]), d);
      if exists i :: 0 <= i < |ks| && InValue(d, fields, ks[i]) {
        var i :| 0 <= i < |ks| && InValue(d, fields, ks[i]);
        if i > 0 { assert ks[1..][i - 1] == ks[i]; }
      }
      if exists i :: 0 <= i < |ks[1..]| && InValue(d, fields, ks[1..][i]) {
        var i :| 0 <= i < |ks[1..]| && InValue(d, fields, ks[1..][i]);
        assert ks[i + 1] == ks[1..][i];
      }
    }
  }

  /** The values `obj.values()` gives are exactly those of the current
      fields. */
  lemma ValuesWithin(d: seq<Field>, fields: seq<Field>)
    ensures (exists i :: 0 <= i < |DistinctKeys(fields)| && InValue(d, fields, DistinctKeys(fields)[i])) <==>
            (exists j :: 0 <= j < |fields| && Current(fields, j) && Within(d, fields[j].val))
  {
    var ks := DistinctKeys(fields);
    if exists i :: 0 <= i < |ks| && InValue(d, fields, ks[i]) {
      var i :| 0 <= i < |ks| && InValue(d, fields, ks[i]);
      ValueIsCurrent(d, fields, ks[i]);
    }
    if exists j :: 0 <= j < |fields| && Current(fields, j) && Within(d, fields[j].val) {
      var j :| 0 <= j < |fields| && Current(fields, j) && Within(d, fields[j].val);
      CurrentIsValue(d, fields, j);
    }
  }

  lemma ValueIsCurrent(d: seq<Field>, fields: seq<Field>, k: string)
    requires InValue(d, fields, k)
    ensures exists j :: 0 <= j < |fields| && Current(fields, j) && Within(d, fields[j].val)
  {
    var j := CurrentField(fields, k);
    LookupLast(fields, j);
    assert Within(d, fields[j].val);
  }

  lemma CurrentIsValue(d: seq<Field>, fields: seq<Field>, j: nat)
    requires j < |fields| && Current(fields, j) && Within(d, fields[j].val)
    ensures exists i :: 0 <= i < |DistinctKeys(fields)| && InValue(d, fields, DistinctKeys(fields)[i])
  {
    var ks := DistinctKeys(fields);
    var k := fields[j].key;
    assert HasKey(fields, k);
    var i :| 0 <= i < |ks| && ks[i] == k;
    LookupLast(fields, j);
    assert InValue(d, fields, ks[i]);
  }

  lemma {:induction false} ListNodesWithin(d: seq<Field>, items: seq<Json>)
    ensures d in ListNodes(items) <==> exists i :: 0 <= i < |items| && Within(d, items[i])
    decreases items, 0
  {
    if items != [] {
      NodesWithin(d, items[0]);
      ListNodesWithin(d, items[1..]);
      InNodeConcat(Nodes(items[0]), ListNodes(items[1..]), d);
      if exists i :: 0 <= i < |items| && Within(d, items[i]) {
        var i :| 0 <= i < |items| && Within(d, items[i]);
        if i > 0 { assert items[1..][i - 1] == items[i]; }
      }
      if exists i :: 0 <= i < |items[1..]| && Within(d, items[1..][i]) {
        var i :| 0 <= i < |items[1..]| && Within(d, items[1..][i]);
        assert items[i + 1] == items[1..][i];
      }
    }
  }

  lemma InNodeConcat(a: seq<seq<Field>>, b: seq<seq<Field>>, d: seq<Field>)
    ensures d in a + b <==> d in a || d in b
  {
    if d in a + b {
      var i :| 0 <= i < |a + b| && (a + b)[i] == d;
      if i >= |a| { assert b[i - |a|] == d; }
    }
  }

  // ---------- the collectors ----------

  /** The stripped strings `add_name` offers to its list: a list offers
      those of its items, a dict its `name` (or, when that is falsy, its
      `legalName`) if that is a string, and a string itself. */
  function NameValues(v: Json): seq<string>
    decreases v, 1
  {
    match v
    case JArr(items) => NameValuesList(items)
    case JObj(fields) =>
      var name := Or(GetField(fields, "name"), GetField(fields, "legalName"));
      if name.JStr? then [Strip(name.s)] else []
    case JStr(s) => [Strip(s)]
    case _ => []
  }

  function NameValuesList(items: seq<Json>): seq<string>
    decreases items, 0
  {
    if items == [] then [] else NameValues(items[0]) + NameValuesList(items[1..])
  }

  /** The stripped strings `add_date` offers: strings, and lists of them;
      a dict contributes nothing. */
  function DateValues(v: Json): seq<string>
    decreases v, 1
  {
    match v
    case JArr(items) => DateValuesList(items)
    case JStr(s) => [Strip(s)]
    case _ => []
  }

  function DateValuesList(items: seq<Json>): seq<string>
    decreases items, 0
  {
    if items == [] then [] else DateValues(items[0]) + DateValuesList(items[1..])
  }

  /** What a dict offers as a name, as `add_name` decides it. */
  lemma NameOfDict(fields: seq<Field>)
    ensures var name := GetField(fields, "name");
      var legal := GetField(fields, "legalName");
      (name.JStr? && name.s != [] ==> NameValues(JObj(fields)) == [Strip(name.s)]) &&
      (!Truthy(name) && legal.JStr? ==> NameValues(JObj(fields)) == [Strip(legal.s)]) &&
      (Truthy(name) && !name.JStr? ==> NameValues(JObj(fields)) == [])
  {
  }

  lemma NameOfString(s: string)
    ensures NameValues(JStr(s)) == [Strip(s)] && DateValues(JStr(s)) == [Strip(s)]
  {
  }

  /** A date given as a dict is ignored, unlike a name. */
  lemma DateOfDict(fields: seq<Field>)
    ensures DateValues(JObj(fields)) == []
  {
  }

  /** The value `node.get(key)` offers for every node that has `key`, in
      node order. */
  function Offered(nodes: seq<seq<Field>>, key: string, values: Json -> seq<string>): seq<string>
    decreases |nodes|
  {
    if nodes == [] then []
    else (if HasKey(nodes[0], key) then values(GetField(nodes[0], key)) else []) + Offered(nodes[1..], key, values)
  }

  /** A string is offered exactly when some node holding `key` offers it. */
  lemma {:induction false} OfferedMembers(nodes: seq<seq<Field>>, key: string, values: Json -> seq<string>, s: string)
    ensures s in Offered(nodes, key, values) <==>
      exists j :: 0 <= j < |nodes| && HasKey(nodes[j], key) && s in values(GetField(nodes[j], key))
    decreases |nodes|
  {
    if nodes != [] {
      OfferedMembers(nodes[1..], key, values, s);
      var head := if HasKey(nodes[0], key) then values(GetField(nodes[0], key)) else [];
      InConcat(head, Offered(nodes[1..], key, values), s);
      if exists j :: 0 <= j < |nodes| && HasKey(nodes[j], key) && s in values(GetField(nodes[j], key)) {
        var j :| 0 <= j < |nodes| && HasKey(nodes[j], key) && s in values(GetField(nodes[j], key));
        if j > 0 { assert nodes[1..][j - 1] == nodes[j]; }
      }
      if exists j :: 0 <= j < |nodes[1..]| && HasKey(nodes[1..][j], key) && s in values(GetField(nodes[1..][j], key)) {
        var j :| 0 <= j < |nodes[1..]| && HasKey(nodes[1..][j], key) && s in values(GetField(nodes[1..][j], key));
        assert nodes[j + 1] == nodes[1..][j];
      }
    }
  }

  /** Every offered string has been stripped. */
  predicate AllTrimmed(xs: seq<string>) {
    forall k :: 0 <= k < |xs| ==> IsTrimmed(xs[k])
  }

  lemma TrimmedConcat(a: seq<string>, b: seq<string>)
    requires AllTrimmed(a) && AllTrimmed(b)
    ensures AllTrimmed(a + b)
  {
    forall k | 0 <= k < |a + b| ensures IsTrimmed((a + b)[k]) {
      if k >= |a| { assert (a + b)[k] == b[k - |a|]; }
    }
  }

  lemma {:induction false} NameValuesTrimmed(v: Json)
    ensures AllTrimmed(NameValues(v))
    decreases v, 1
  {
    match v
    case JArr(items) => NameValuesListTrimmed(items);
    case _ =>
  }

  lemma {:induction false} NameValuesListTrimmed(items: seq<Json>)
    ensures AllTrimmed(NameValuesList(items))
    decreases items, 0
  {
    if items != [] {
      NameValuesTrimmed(items[0]);
      NameValuesListTrimmed(items[1..]);
      TrimmedConcat(NameValues(items[0]), NameValuesList(items[1..]));
    }
  }

  lemma {:induction false} DateValuesTrimmed(v: Json)
    ensures AllTrimmed(DateValues(v))
    decreases v, 1
  {
    match v
    case JArr(items) => DateValuesListTrimmed(items);
    case _ =>
  }

  lemma {:induction false} DateValuesListTrimmed(items: seq<Json>)
    ensures AllTrimmed(DateValuesList(items))
    decreases items, 0
  {
    if items != [] {
      DateValuesTrimmed(items[0]);
      DateValuesListTrimmed(items[1..]);
      TrimmedConcat(DateValues(items[0]), DateValuesList(items[1..]));
    }
  }

  lemma {:induction false} OfferedTrimmed(nodes: seq<seq<Field>>, key: string, values: Json -> seq<string>)
    requires forall v :: AllTrimmed(values(v))
    ensures AllTrimmed(Offered(nodes, key, values))
    decreases |nodes|
  {
    if nodes != [] {
      OfferedTrimmed(nodes[1..], key, values);
      var head := if HasKey(nodes[0], key) then values(GetField(nodes[0], key)) else [];
      TrimmedConcat(head, Offered(nodes[1..], key, values));
    }
  }

  /** One collected list: the offered strings, non-empty and first
      occurrence only, which is what the `seen` set guarantees. */
  function Collect(nodes: seq<seq<Field>>, key: string, values: Json -> seq<string>): seq<string> {
    AddAll([], Offered(nodes, key, values), Any)
  }

  function Names(v: Json): seq<string> {
    NameValues(v)
  }

  function Dates(v: Json): seq<string> {
    DateValues(v)
  }

  /** The returned dict. */
  datatype Candidates = Candidates(
    publisherNames: seq<string>,
    authorNames: seq<string>,
    datePublished: seq<string>,
    dateModified: seq<string>)

  function Extract(scripts: seq<Script>, parse: string -> Option<Json>): (r: Candidates) {
    var nodes := ListNodes(ParsedItems(scripts, parse));
    Candidates(
      Collect(nodes, "publisher", Names),
      Collect(nodes, "author", Names),
      Collect(nodes, "datePublished", Dates),
      Collect(nodes, "dateModified", Dates))
  }

  /** A collected list holds no blank, unstripped or repeated string,
      holds a string exactly when some dict inside the parsed items has
      `key` and offers that string under it, and keeps the order in which
      the strings are first offered. */
  lemma CollectShape(items: seq<Json>, key: string, values: Json -> seq<string>, s: string)
    requires forall v :: AllTrimmed(values(v))
    ensures var r := Collect(ListNodes(items), key, values);
      NoDup(r) && AllClean(r) &&
      (s in r <==> s != [] && exists d :: d in ListNodes(items) && HasKey(d, key) && s in values(GetField(d, key)))
    ensures var r := Collect(ListNodes(items), key, values);
      InFirstOfferOrder(r, Offered(ListNodes(items), key, values))
  {
    var nodes := ListNodes(items);
    CollectOrder(nodes, key, values);
    CollectClean(nodes, key, values);
    CollectMembers(nodes, key, values, s);
    if s != [] && exists d :: d in nodes && HasKey(d, key) && s in values(GetField(d, key)) {
      var d :| d in nodes && HasKey(d, key) && s in values(GetField(d, key));
      var j :| 0 <= j < |nodes| && nodes[j] == d;
      assert HasKey(nodes[j], key) && s in values(GetField(nodes[j], key));
    }
  }

  /** Every string of `r` is offered, and `r` lists them in the order of
      their first offers. */
  predicate InFirstOfferOrder(r: seq<string>, offered: seq<string>) {
    forall i, j :: 0 <= i < j < |r| ==>
      r[i] in offered && r[j] in offered && FirstIndex(offered, r[i]) < FirstIndex(offered, r[j])
  }

  /** A collected list keeps the order of the strings' first offers. */
  lemma CollectOrder(nodes: seq<seq<Field>>, key: string, values: Json -> seq<string>)
    ensures InFirstOfferOrder(Collect(nodes, key, values), Offered(nodes, key, values))
  {
    FromEmptyOrder(Offered(nodes, key, values), Any);
  }

  /** `AddAll` from an empty list keeps the values' first-occurrence order. */
  lemma FromEmptyOrder(vs: seq<string>, keep: string -> bool)
    ensures InFirstOfferOrder(AddAll([], vs, keep), vs)
  {
    AddAllAppends([], vs, keep);
    AddAllOrder([], vs, keep);
  }

  lemma CollectClean(nodes: seq<seq<Field>>, key: string, values: Json -> seq<string>)
    requires forall v :: AllTrimmed(values(v))
    ensures NoDup(Collect(nodes, key, values)) && AllClean(Collect(nodes, key, values))
  {
    OfferedTrimmed(nodes, key, values);
    AddAllKeepsShape([], Offered(nodes, key, values), Any);
  }

  lemma CollectMembers(nodes: seq<seq<Field>>, key: string, values: Json -> seq<string>, s: string)
    ensures s in Collect(nodes, key, values) <==>
      s != [] && exists j :: 0 <= j < |nodes| && HasKey(nodes[j], key) && s in values(GetField(nodes[j], key))
  {
    AddAllMembers([], Offered(nodes, key, values), Any);
    OfferedMembers(nodes, key, values, s);
  }

  /** The publisher names: stripped, distinct, exactly the non-empty names
      offered under `publisher` by a dict somewhere inside a parsed JSON-LD
      item, in the order they are first offered. */
  lemma PublisherNames(scripts: seq<Script>, parse: string -> Option<Json>, s: string)
    ensures var items := ParsedItems(scripts, parse);
      var r := Extract(scripts, parse).publisherNames;
      NoDup(r) && AllClean(r) &&
      (s in r <==> s != [] && exists d :: d in ListNodes(items) && HasKey(d, "publisher") && s in NameValues(GetField(d, "publisher")))
    ensures var items := ParsedItems(scripts, parse);
      InFirstOfferOrder(Extract(scripts, parse).publisherNames, Offered(ListNodes(items), "publisher", Names))
  {
    forall v ensures AllTrimmed(Names(v)) { NameValuesTrimmed(v); }
    CollectShape(ParsedItems(scripts, parse), "publisher", Names, s);
  }

  lemma AuthorNames(scripts: seq<Script>, parse: string -> Option<Json>, s: string)
    ensures var items := ParsedItems(scripts, parse);
      var r := Extract(scripts, parse).authorNames;
      NoDup(r) && AllClean(r) &&
      (s in r <==> s != [] && exists d :: d in ListNodes(items) && HasKey(d, "author") && s in NameValues(GetField(d, "author")))
    ensures var items := ParsedItems(scripts, parse);
      InFirstOfferOrder(Extract(scripts, parse).authorNames, Offered(ListNodes(items), "author", Names))
  {
    forall v ensures AllTrimmed(Names(v)) { NameValuesTrimmed(v); }
    CollectShape(ParsedItems(scripts, parse), "author", Names, s);
  }

  lemma PublishedDates(scripts: seq<Script>, parse: string -> Option<Json>, s: string)
    ensures var items := ParsedItems(scripts, parse);
      var r := Extract(scripts, parse).datePublished;
      NoDup(r) && AllClean(r) &&
      (s in r <==> s != [] && exists d :: d in ListNodes(items) && HasKey(d, "datePublished") && s in DateValues(GetField(d, "datePublished")))
    ensures var items := ParsedItems(scripts, parse);
      InFirstOfferOrder(Extract(scripts, parse).datePublished, Offered(ListNodes(items), "datePublished", Dates))
  {
    forall v ensures AllTrimmed(Dates(v)) { DateValuesTrimmed(v); }
    CollectShape(ParsedItems(scripts, parse), "datePublished", Dates, s);
  }

  lemma ModifiedDates(scripts: seq<Script>, parse: string -> Option<Json>, s: string)
    ensures var items := ParsedItems(scripts, parse);
      var r := Extract(scripts, parse).dateModified;
      NoDup(r) && AllClean(r) &&
      (s in r <==> s != [] && exists d :: d in ListNodes(items) && HasKey(d, "dateModified") && s in DateValues(GetField(d, "dateModified")))
    ensures var items := ParsedItems(scripts, parse);
      InFirstOfferOrder(Extract(scripts, parse).dateModified, Offered(ListNodes(items), "dateModified", Dates))
  {
    forall v ensures AllTrimmed(Dates(v)) { DateValuesTrimmed(v); }
    CollectShape(ParsedItems(scripts, parse), "dateModified", Dates, s);
  }
}

=== FILE: merge.dfy ===
/** The merge step, src/merge_xaio.py: the parsed meta, the cleaned claims
    and the verbatim text of the ai input become the final
    `<item>.xaio_parsed.json`. */
module MergeXaio {
  import opened Wrappers
  import opened JsonValue
  import opened Fingerprint
  import opened PyPath
  import opened Cli
  import AiQueue
  import Claims
  import ParseStage

  /** `out[k] = content[k]` when the content has `k`. */
  function Carry(o: seq<Field>, content: seq<Field>, k: string): (r: seq<Field>)
    ensures Lookup(r, k) == if HasKey(content, k) then Lookup(content, k) else Lookup(o, k)
    ensures forall k2 :: k2 != k ==> Lookup(r, k2) == Lookup(o, k2)
  {
    if HasKey(content, k) then Assign(o, k, GetField(content, k)) else o
  }

  /** `claims.get("claims", [])`. */
  function ClaimsValue(claims: seq<Field>): Json {
    Lookup(claims, "claims").GetOr(JArr([]))
  }

  /** `len(v)` is defined: `v` is a string, a list or a dict. */
  predicate Sized(v: Json) {
    v.JStr? || v.JArr? || v.JObj?
  }

  /** The claims and the full text laid over the dict the meta filled. */
  function WithClaimsAndText(meta: seq<Field>, claims: seq<Field>, content: seq<Field>): (r: seq<Field>)
    ensures Lookup(r, "claims") == Some(ClaimsValue(claims))
    ensures Lookup(r, "extracted_text_full") == Some(Lookup(content, "extracted_text_full").GetOr(JStr("")))
    ensures forall k :: k != "claims" && k != "extracted_text_full" ==> Lookup(r, k) == Lookup(meta, k)
  {
    var o := Assign(meta, "claims", ClaimsValue(claims));
    Assign(o, "extracted_text_full", Lookup(content, "extracted_text_full").GetOr(JStr("")))
  }

  /** The merged dict, given the dict the meta filled, the claims
      document's dict and the ai input's content section. */
  function MergeFields(meta: seq<Field>, claims: seq<Field>, content: seq<Field>): seq<Field> {
    Carry(Carry(WithClaimsAndText(meta, claims, content), content, "char_count"), content, "word_count")
  }

  /** `content` when it is a dict, else `{}`. */
  function Content(ai: seq<Field>): seq<Field> {
    DictOrEmpty(GetField(ai, "content"))
  }

  /** The merge of the three loaded documents. `out.update(meta)` raises
      when the meta is neither a dict nor a sequence of pairs, and `.get`
      raises on a claims document or ai input that is not a dict. */
  function Merge(ai: Json, meta: Json, claims: Json): (r: Result<seq<Field>>)
    ensures r.Success? <==> ai.JObj? && DictUpdate([], meta).Success? && claims.JObj?
    ensures r.Success? ==> r.value == MergeFields(DictUpdate([], meta).value, claims.fields, Content(ai.fields))
  {
    var out := DictUpdate([], meta);
    if out.Failure? then Failure(out.error)
    else if !claims.JObj? || !ai.JObj? then Failure("AttributeError: object has no attribute 'get'")
    else Success(MergeFields(out.value, claims.fields, Content(ai.fields)))
  }

  /** A meta document that is an empty list or an empty string merges as
      if it were `{}`: only the merge's own keys are set. */
  lemma EmptyMetaMerges(ai: Json, meta: Json, claims: Json, k: string)
    requires meta == JArr([]) || meta == JStr([])
    requires ai.JObj? && claims.JObj?
    requires k !in ["claims", "extracted_text_full", "char_count", "word_count"]
    ensures Merge(ai, meta, claims).Success?
    ensures Lookup(Merge(ai, meta, claims).value, k) == None
  {
    MetaKept([], claims.fields, Content(ai.fields), k);
  }

  // ---------------------------------------------------------------------
  // What the merge guarantees

  /** Every meta key keeps its meta value unless the merge assigns it. */
  lemma MetaKept(meta: seq<Field>, claims: seq<Field>, content: seq<Field>, k: string)
    requires k != "claims" && k != "extracted_text_full"
    requires k == "char_count" || k == "word_count" ==> !HasKey(content, k)
    ensures Lookup(MergeFields(meta, claims, content), k) == Lookup(meta, k)
  {
  }

  /** `claims` is the claims document's list, `[]` when it has none. */
  lemma ClaimsCarried(meta: seq<Field>, claims: seq<Field>, content: seq<Field>)
    ensures Lookup(MergeFields(meta, claims, content), "claims") == Some(Lookup(claims, "claims").GetOr(JArr([])))
  {
  }

  /** The full text comes from the ai input's content, `""` when absent. */
  lemma TextCarried(meta: seq<Field>, claims: seq<Field>, content: seq<Field>)
    ensures Lookup(MergeFields(meta, claims, content), "extracted_text_full") ==
      Some(Lookup(content, "extracted_text_full").GetOr(JStr("")))
  {
  }

  /** A count present in the content overrides the meta's; otherwise the
      meta's (or none) stays. */
  lemma CountsCarried(meta: seq<Field>, claims: seq<Field>, content: seq<Field>, k: string)
    requires k == "char_count" || k == "word_count"
    ensures Lookup(MergeFields(meta, claims, content), k) ==
      if HasKey(content, k) then Lookup(content, k) else Lookup(meta, k)
  {
    var o := WithClaimsAndText(meta, claims, content);
    var o2 := Carry(o, content, "char_count");
    assert Lookup(o, k) == Lookup(meta, k);
    if k == "char_count" {
      assert Lookup(Carry(o2, content, "word_count"), k) == Lookup(o2, k);
    }
  }

  /** A non-dict content section reads as `{}`: no text, no counts. */
  lemma NonDictContent(ai: seq<Field>)
    requires !GetField(ai, "content").JObj?
    ensures Content(ai) == []
  {
  }

  // ---------------------------------------------------------------------
  // The script

  /** `<outdir>/<item>.xaio_parsed.json`. */
  function OutPath(outdir: string, aiPath: string): string {
    JoinPath(outdir, ItemBase(aiPath, ".ai_input") + ".xaio_parsed.json")
  }

  /** The three inputs load, and `Merge` of them succeeds. */
  predicate Merges(fs: Fs, aiPath: string, metaPath: string, claimsPath: string, parse: string -> Option<Json>) {
    && LoadJson(fs, aiPath, parse).Success? && LoadJson(fs, metaPath, parse).Success?
    && LoadJson(fs, claimsPath, parse).Success?
    && Merge(LoadJson(fs, aiPath, parse).value, LoadJson(fs, metaPath, parse).value,
             LoadJson(fs, claimsPath, parse).value).Success?
  }

  /** The merged dict, when the inputs load and merge. */
  function Merged(fs: Fs, aiPath: string, metaPath: string, claimsPath: string, parse: string -> Option<Json>): seq<Field>
    requires Merges(fs, aiPath, metaPath, claimsPath, parse)
  {
    Merge(LoadJson(fs, aiPath, parse).value, LoadJson(fs, metaPath, parse).value,
          LoadJson(fs, claimsPath, parse).value).value
  }

  /** `main` of src/merge_xaio.py. Nothing is caught: a missing or
      malformed input ends the interpreter with status 1 before anything
      is written. Once the merge is built the output is written, and only
      then does `len(out.get('claims', []))` run for the closing report;
      it raises for a `claims` value that is null, a number or a boolean,
      so that run also ends with status 1, the file already written. */
  function Main(fs: Fs, aiPath: string, metaPath: string, claimsPath: string, outdir: string,
                parse: string -> Option<Json>, dump: Json -> string): (r: Exit)
    ensures r.rc == 0 || r.rc == 1
    ensures Frame(fs, r.fs, {OutPath(outdir, aiPath)})
    ensures Merges(fs, aiPath, metaPath, claimsPath, parse) ==>
      && OutPath(outdir, aiPath) in r.fs
      && r.fs[OutPath(outdir, aiPath)] == dump(JObj(Merged(fs, aiPath, metaPath, claimsPath, parse)))
      && (r.rc == 0 <==> Sized(GetField(Merged(fs, aiPath, metaPath, claimsPath, parse), "claims")))
    ensures !Merges(fs, aiPath, metaPath, claimsPath, parse) ==> r.rc == 1 && r.fs == fs
  {
    if !Merges(fs, aiPath, metaPath, claimsPath, parse) then Exit(1, fs)
    else
      var out := Merged(fs, aiPath, metaPath, claimsPath, parse);
      var written := fs[OutPath(outdir, aiPath) := dump(JObj(out))];
      if Sized(GetField(out, "claims")) then Exit(0, written) else Exit(1, written)
  }

  /** The inputs merge exactly when the three files load, the ai input and
      the claims document are dicts and the meta document updates a dict;
      the merged dict is then `MergeFields` of them. */
  lemma MergesIff(fs: Fs, aiPath: string, metaPath: string, claimsPath: string, parse: string -> Option<Json>)
    ensures Merges(fs, aiPath, metaPath, claimsPath, parse) <==>
      && LoadJson(fs, aiPath, parse).Success? && LoadJson(fs, metaPath, parse).Success?
      && LoadJson(fs, claimsPath, parse).Success?
      && LoadJson(fs, aiPath, parse).value.JObj? && DictUpdate([], LoadJson(fs, metaPath, parse).value).Success?
      && LoadJson(fs, claimsPath, parse).value.JObj?
    ensures Merges(fs, aiPath, metaPath, claimsPath, parse) ==>
      Merged(fs, aiPath, metaPath, claimsPath, parse) == MergeFields(
        DictUpdate([], LoadJson(fs, metaPath, parse).value).value, LoadJson(fs, claimsPath, parse).value.fields,
        Content(LoadJson(fs, aiPath, parse).value.fields))
  {
  }

  /** The exit status: 0 exactly when the inputs merge and the claims
      document's `claims` (`[]` when missing) is a string, a list or a
      dict, the value whose `len` the closing report takes. */
  lemma MainStatus(fs: Fs, aiPath: string, metaPath: string, claimsPath: string, outdir: string,
                   parse: string -> Option<Json>, dump: Json -> string)
    ensures Main(fs, aiPath, metaPath, claimsPath, outdir, parse, dump).rc == 0 <==>
      Merges(fs, aiPath, metaPath, claimsPath, parse) && Sized(ClaimsValue(LoadJson(fs, claimsPath, parse).value.fields))
  {
    if Merges(fs, aiPath, metaPath, claimsPath, parse) {
      MergesIff(fs, aiPath, metaPath, claimsPath, parse);
      var claims := LoadJson(fs, claimsPath, parse).value.fields;
      var meta := DictUpdate([], LoadJson(fs, metaPath, parse).value).value;
      ClaimsCarried(meta, claims, Content(LoadJson(fs, aiPath, parse).value.fields));
    }
  }

  /** A claims document whose `claims` is null fails the run after the
      merged file is written: status 1, and the file is there. */
  lemma NullClaimsFailAfterWrite(fs: Fs, aiPath: string, metaPath: string, claimsPath: string, outdir: string,
                                 parse: string -> Option<Json>, dump: Json -> string)
    requires Merges(fs, aiPath, metaPath, claimsPath, parse)
    requires Lookup(LoadJson(fs, claimsPath, parse).value.fields, "claims") == Some(JNull)
    ensures var r := Main(fs, aiPath, metaPath, claimsPath, outdir, parse, dump);
      r.rc == 1 && OutPath(outdir, aiPath) in r.fs
  {
    MainStatus(fs, aiPath, metaPath, claimsPath, outdir, parse, dump);
  }

  /** The merge writes the file the queue checks for the xaio stage, under
      the same name the plain-text parse stage uses. */
  lemma OutPathIsQueueOutput(cfg: AiQueue.Config, aiPath: string)
    ensures OutPath(cfg.outXaioDir, aiPath) == AiQueue.OutputPath(cfg, aiPath, AiQueue.Xaio)
    ensures OutPath(cfg.outXaioDir, aiPath) == ParseStage.OutPath(cfg.outXaioDir, aiPath)
  {
  }

  /** The claims stage writes the file the queue checks for the claims
      stage, and the merge reads back exactly the cleaned claims from it. */
  lemma ClaimsFileRoundTrip(cfg: AiQueue.Config, aiPath: string, cs: seq<Claims.Claim>,
                            meta: seq<Field>, content: seq<Field>)
    ensures Claims.OutPath(cfg.outClaimsDir, aiPath) == AiQueue.OutputPath(cfg, aiPath, AiQueue.Claims)
    ensures var merged := Lookup(MergeFields(meta, Claims.Output(cs).fields, content), "claims");
      && merged.Some? && merged.value.JArr? && |merged.value.items| == |cs|
      && forall i :: 0 <= i < |cs| ==> Claims.ReadClaim(merged.value.items[i]) == Some(cs[i])
  {
    ClaimsReadBack(cs, meta, content);
  }

  lemma ClaimsReadBack(cs: seq<Claims.Claim>, meta: seq<Field>, content: seq<Field>)
    ensures var merged := Lookup(MergeFields(meta, Claims.Output(cs).fields, content), "claims");
      && merged.Some? && merged.value.JArr? && |merged.value.items| == |cs|
      && forall i :: 0 <= i < |cs| ==> Claims.ReadClaim(merged.value.items[i]) == Some(cs[i])
  {
    var doc := Claims.Output(cs).fields;
    ClaimsCarried(meta, doc, content);
    Claims.OutputRoundTrip(cs);
    assert Lookup(doc, "claims") == Some(Get(Claims.Output(cs), "claims"));
  }
}

=== FILE: meta_input.dfy ===
/** `strip_content_for_meta.py`: the meta stage's input is the AI envelope
    without the article body. */
module MetaInput {
  import opened Wrappers
  import opened JsonValue

  /** The key removed from `content`. */
  const BodyKey: string := "extracted_text_full"

  /** `build_meta_input`: a deep copy of the envelope in which a dict-valued
      `content` loses its `extracted_text_full`. Dafny values are immutable,
      so the argument is never changed, as the deep copy guarantees. */
  function BuildMetaInput(ai: seq<Field>): (r: seq<Field>)
    ensures Keys(r) == Keys(ai)
    ensures forall k :: k != "content" ==> Lookup(r, k) == Lookup(ai, k)
    ensures Get(JObj(ai), "content").JObj? ==>
      Lookup(r, "content") == Some(JObj(Remove(Get(JObj(ai), "content").fields, BodyKey)))
    ensures !Get(JObj(ai), "content").JObj? ==> r == ai
  {
    var content := GetField(ai, "content");
    if content.JObj? then Assign(ai, "content", JObj(Remove(content.fields, BodyKey))) else ai
  }

  /** A dict whose every `k` field already holds `v` is unchanged by
      assigning `v` to `k`. */
  lemma OverwriteSame(fields: seq<Field>, k: string, v: Json)
    requires forall i :: 0 <= i < |fields| && fields[i].key == k ==> fields[i].val == v
    ensures Overwrite(fields, k, v) == fields
  {
  }

  /** The stripped envelope no longer carries the article body. */
  lemma BodyRemoved(ai: seq<Field>)
    ensures !Contains(Get(JObj(BuildMetaInput(ai)), "content"), BodyKey)
  {
  }

  /** Stripping twice is stripping once. */
  lemma BuildMetaInputIdempotent(ai: seq<Field>)
    ensures BuildMetaInput(BuildMetaInput(ai)) == BuildMetaInput(ai)
  {
    var r := BuildMetaInput(ai);
    var content := GetField(ai, "content");
    if content.JObj? {
      var stripped := JObj(Remove(content.fields, BodyKey));
      assert HasKey(ai, "content");
      assert r == Overwrite(ai, "content", stripped);
      assert GetField(r, "content") == stripped;
      assert Remove(stripped.fields, BodyKey) == stripped.fields;
      OverwriteSame(r, "content", stripped);
    }
  }
}

=== FILE: meta_post.dfy ===
/** The meta stage (src/call_openai_meta.py, and the older root
    call_openai_meta.py): after the model has filled the meta schema, the
    deterministic fields of the meta input overwrite its guesses and the
    organisation and author names are restricted to the identity
    candidates found on the page. The model call itself is a parameter. */
module MetaPost {
  import opened Wrappers
  import opened PyText
  import opened JsonValue
  import opened Dedupe
  import opened Fingerprint
  import opened PyPath
  import opened Scf
  import opened Cli

  // ---------------------------------------------------------------------
  // Restricting values to the candidates

  /** `normalize_choice(value, candidates)`: the stripped string when it is
      one of the candidates, else `None`. */
  function NormalizeChoice(value: Json, candidates: seq<string>): (r: Option<string>)
    ensures r.Some? ==> value.JStr? && r.value == Strip(value.s) && r.value in candidates
    ensures r.None? ==> !value.JStr? || Strip(value.s) == [] || Strip(value.s) !in candidates
  {
    if !value.JStr? then None
    else
      var v := Strip(value.s);
      if v == [] then None
      else if v in candidates then Some(v)
      else None
  }

  /** A chosen value is kept when chosen again. */
  lemma NormalizeChoiceIdempotent(value: Json, candidates: seq<string>)
    requires NormalizeChoice(value, candidates).Some?
    ensures var v := NormalizeChoice(value, candidates).value;
      NormalizeChoice(JStr(v), candidates) == Some(v)
  {
    StripIdempotent(value.s);
  }

  /** Membership in the candidate list, as the filter of the loop. */
  function InCandidates(candidates: seq<string>): string -> bool {
    (v: string) => v in candidates
  }

  /** `normalize_choice_list(value, candidates)`: the stripped strings of
      the list that are candidates, each once, in input order; `None` for a
      non-list or when nothing survives. */
  function NormalizeChoiceList(value: Json, candidates: seq<string>): (r: Option<seq<string>>)
    ensures !value.JArr? ==> r.None?
    ensures r.Some? ==> r.value != [] && NoDup(r.value) && AllClean(r.value)
    ensures value.JArr? ==> forall v :: (r.Some? && v in r.value) <==>
      v != [] && v in candidates && v in Stripped(StrItems(value.items))
    ensures r.Some? ==> forall i, j :: 0 <= i < j < |r.value| ==>
      FirstIndex(Stripped(StrItems(value.items)), r.value[i]) < FirstIndex(Stripped(StrItems(value.items)), r.value[j])
  {
    if !value.JArr? then None
    else
      var vs := Stripped(StrItems(value.items));
      var keep := InCandidates(candidates);
      var chosen := AddAll([], vs, keep);
      ChosenShape(vs, candidates);
      if chosen == [] then None else Some(chosen)
  }

  /** The strings kept from the stripped list: clean, distinct, exactly the
      non-empty candidates among them, in first-occurrence order. */
  lemma ChosenShape(vs: seq<string>, candidates: seq<string>)
    requires forall i :: 0 <= i < |vs| ==> IsTrimmed(vs[i])
    ensures var r := AddAll([], vs, InCandidates(candidates));
      && NoDup(r) && AllClean(r)
      && (forall v :: v in r <==> v != [] && v in candidates && v in vs)
      && (forall i, j :: 0 <= i < j < |r| ==> FirstIndex(vs, r[i]) < FirstIndex(vs, r[j]))
  {
    var keep := InCandidates(candidates);
    AddAllMembers([], vs, keep);
    AddAllKeepsShape([], vs, keep);
    AddAllOrder([], vs, keep);
  }

  /** A list of candidates, chosen from, comes back unchanged. */
  lemma ChoiceListOfCandidates(xs: seq<string>, candidates: seq<string>)
    requires xs != [] && NoDup(xs) && AllClean(xs)
    requires forall i :: 0 <= i < |xs| ==> xs[i] in candidates
    ensures NormalizeChoiceList(StrList(xs), candidates) == Some(xs)
  {
    var items := StrList(xs).items;
    StrItemsOfStrList(xs);
    assert Stripped(xs) == xs by {
      forall i | 0 <= i < |xs| ensures Stripped(xs)[i] == xs[i] {
        StripOfTrimmed(xs[i]);
      }
    }
    AddAllFresh([], xs, InCandidates(candidates));
  }

  lemma {:induction false} StrItemsOfStrList(xs: seq<string>)
    ensures StrItems(StrList(xs).items) == xs
    decreases |xs|
  {
    if xs != [] {
      StrItemsOfStrList(xs[1..]);
      assert StrList(xs).items[1..] == StrList(xs[1..]).items;
    }
  }

  /** Values that are all new, non-empty and accepted are all appended. */
  lemma {:induction false} AddAllFresh(acc: seq<string>, vs: seq<string>, keep: string -> bool)
    requires NoDup(acc + vs)
    requires forall i :: 0 <= i < |vs| ==> vs[i] != [] && keep(vs[i])
    ensures AddAll(acc, vs, keep) == acc + vs
    decreases |vs|
  {
    if vs != [] {
      forall i | 0 <= i < |acc| ensures acc[i] != vs[0] {
        assert (acc + vs)[i] == acc[i] && (acc + vs)[|acc|] == vs[0];
      }
      assert acc + vs == (acc + [vs[0]]) + vs[1..];
      AddAllFresh(acc + [vs[0]], vs[1..], keep);
    }
  }

  /** The JSON value stored for a chosen name: the string or `None`. */
  function NameJson(v: Option<string>): Json {
    if v.Some? then JStr(v.value) else JNull
  }

  /** The JSON value stored for a chosen list: the strings or `None`. */
  function NamesJson(v: Option<seq<string>>): Json {
    if v.Some? then StrList(v.value) else JNull
  }

  /** The dicts `postprocess` reads from the meta input, each through
      `(x or {})`. */
  datatype Sections = Sections(url: seq<Field>, clean: seq<Field>, meta: seq<Field>, mw: seq<Field>,
                               cap: seq<Field>, content: seq<Field>)

  /** Reading the sections: a meta input that is not a dict, or a truthy
      section that is not a dict, raises `AttributeError` at `.get`. */
  function ReadSections(mi: Json): (r: Result<Sections>)
    ensures r.Success? ==> mi.JObj?
    ensures r.Success? ==> r.value.url == DictOrEmpty(GetField(mi.fields, "url"))
                           && r.value.meta == DictOrEmpty(GetField(mi.fields, "meta"))
  {
    if !mi.JObj? then Failure("AttributeError: object has no attribute 'get'")
    else
      var url :- OrEmptyDict(GetField(mi.fields, "url"));
      var clean :- OrEmptyDict(GetField(url, "clean"));
      var meta :- OrEmptyDict(GetField(mi.fields, "meta"));
      var mw :- OrEmptyDict(GetField(meta, "meta_whitelist"));
      var cap :- OrEmptyDict(GetField(mi.fields, "capture"));
      var content :- OrEmptyDict(GetField(mi.fields, "content"));
      Success(Sections(url, clean, meta, mw, cap, content))
  }

  /** The canonical URL sources, strongest first. */
  function CanonicalSources(s: Sections): seq<Json> {
    [GetField(s.clean, "canonical"), GetField(s.url, "canonical_hint"), GetField(s.url, "final"), GetField(s.url, "original")]
  }

  /** `canon = clean.canonical or canonical_hint or final or original`;
      `out["canonical_url"] = canon` only when it is truthy. */
  function SetCanonical(o: seq<Field>, s: Sections): seq<Field> {
    var canon := OrChain(CanonicalSources(s));
    if Truthy(canon) then Assign(o, "canonical_url", canon) else o
  }

  /** `out[k] = v or out.get(k)` */
  function Prefer(o: seq<Field>, k: string, v: Json): (r: seq<Field>)
    ensures Lookup(r, k) == Some(if Truthy(v) then v else GetField(o, k))
    ensures forall k2 :: k2 != k ==> Lookup(r, k2) == Lookup(o, k2)
  {
    Assign(o, k, Or(v, GetField(o, k)))
  }

  /** `out[k] = v or out.get(k)` for each field `k: v` in turn. */
  function PreferAll(o: seq<Field>, kvs: seq<Field>): seq<Field>
    decreases |kvs|
  {
    if kvs == [] then o else PreferAll(Prefer(o, kvs[0].key, kvs[0].val), kvs[1..])
  }

  /** For distinct keys, each key ends up with its own value when that is
      truthy and with the dict's earlier value otherwise; other keys are
      untouched. */
  lemma {:induction false} PreferAllLookup(o: seq<Field>, kvs: seq<Field>)
    requires NoDup(Keys(kvs))
    ensures forall i :: 0 <= i < |kvs| ==>
      Lookup(PreferAll(o, kvs), kvs[i].key) == Some(if Truthy(kvs[i].val) then kvs[i].val else GetField(o, kvs[i].key))
    ensures forall k :: !HasKey(kvs, k) ==> Lookup(PreferAll(o, kvs), k) == Lookup(o, k)
    decreases |kvs|
  {
    if kvs != [] {
      var o1 := Prefer(o, kvs[0].key, kvs[0].val);
      var rest := kvs[1..];
      assert NoDup(Keys(rest)) by {
        forall i, j | 0 <= i < j < |Keys(rest)| ensures Keys(rest)[i] != Keys(rest)[j] {
          assert Keys(rest)[i] == Keys(kvs)[i + 1] && Keys(rest)[j] == Keys(kvs)[j + 1];
        }
      }
      PreferAllLookup(o1, rest);
      forall i | 0 <= i < |kvs|
        ensures Lookup(PreferAll(o, kvs), kvs[i].key) == Some(if Truthy(kvs[i].val) then kvs[i].val else GetField(o, kvs[i].key))
      {
        if i == 0 {
          assert !HasKey(rest, kvs[0].key) by {
            forall j | 0 <= j < |rest| ensures rest[j].key != kvs[0].key {
              assert Keys(kvs)[j + 1] == rest[j].key && Keys(kvs)[0] == kvs[0].key;
            }
          }
        } else {
          assert kvs[i] == rest[i - 1];
          assert kvs[i].key != kvs[0].key by { assert Keys(kvs)[i] == kvs[i].key && Keys(kvs)[0] == kvs[0].key; }
        }
      }
      forall k | !HasKey(kvs, k) ensures Lookup(PreferAll(o, kvs), k) == Lookup(o, k) {
        assert kvs[0].key != k;
        assert !HasKey(rest, k) by {
          forall j | 0 <= j < |rest| ensures rest[j].key != k { assert rest[j] == kvs[j + 1]; }
        }
      }
    }
  }

  /** The deterministic values, in the order the source assigns them. */
  function DeterministicFields(s: Sections): seq<Field> {
    [Field("domain", GetField(s.url, "domain")),
     Field("site_name", GetField(s.meta, "site_name")),
     Field("collected_at_utc", GetField(s.cap, "collected_at_utc")),
     Field("published_at", OrChain([GetField(s.mw, "article:published_time"), GetField(s.meta, "published_at_hint")])),
     Field("modified_time", GetField(s.mw, "article:modified_time")),
     Field("char_count", GetField(s.content, "char_count")),
     Field("word_count", GetField(s.content, "word_count"))]
  }

  /** The keys `Deterministic` assigns. */
  const DeterministicKeys: seq<string> :=
    ["domain", "site_name", "collected_at_utc", "published_at", "modified_time", "char_count", "word_count"]

  lemma DeterministicKeysOf(s: Sections)
    ensures Keys(DeterministicFields(s)) == DeterministicKeys
    ensures NoDup(DeterministicKeys)
    ensures "canonical_url" !in DeterministicKeys
  {
    DeterministicKeysDistinct();
    assert "canonical_url" !in DeterministicKeys by {
      var ks := DeterministicKeys;
      assert |ks[0]| == 6 && |ks[1]| == 9 && |ks[2]| == 16 && |ks[3]| == 12 && |ks[4]| == 13 && |ks[5]| == 10 && |ks[6]| == 10;
    }
  }

  lemma DeterministicKeysDistinct()
    ensures NoDup(DeterministicKeys)
  {
    var ks := DeterministicKeys;
    assert |ks[0]| == 6 && |ks[1]| == 9 && |ks[2]| == 16 && |ks[3]| == 12 && |ks[4]| == 13 && |ks[5]| == 10 && |ks[6]| == 10;
    assert ks[5][0] != ks[6][0];
  }

  /** The deterministic fields assigned in turn. */
  function Deterministic(o: seq<Field>, s: Sections): seq<Field> {
    PreferAll(o, DeterministicFields(s))
  }

  /** The identity candidates, `normalize_candidates` of each list. */
  datatype Identity = Identity(orgs: seq<string>, authors: seq<string>)

  function ReadIdentity(s: Sections): (r: Result<Identity>)
    ensures r.Success? ==> NoDup(r.value.orgs) && AllClean(r.value.orgs)
                           && NoDup(r.value.authors) && AllClean(r.value.authors)
  {
    var ident :- OrEmptyDict(GetField(s.meta, "identity_candidates"));
    Success(Identity(UniqueStrings(GetField(ident, "organization_names")), UniqueStrings(GetField(ident, "author_names"))))
  }

  /** Organisation and author names restricted to the candidates. */
  function Restrict(o: seq<Field>, id: Identity): seq<Field> {
    var o1 := Assign(o, "organization_name", NameJson(NormalizeChoice(GetField(o, "organization_name"), id.orgs)));
    Assign(o1, "author_names", NamesJson(NormalizeChoiceList(GetField(o1, "author_names"), id.authors)))
  }

  /** The canonical URL and the deterministic fields, once the sections
      are read. */
  function Processed(o: seq<Field>, s: Sections): seq<Field> {
    Deterministic(SetCanonical(o, s), s)
  }

  /** `postprocess(out, meta_input)` of src/call_openai_meta.py. */
  function Postprocess(out: seq<Field>, mi: Json): Result<seq<Field>> {
    var s :- ReadSections(mi);
    var id :- ReadIdentity(s);
    Success(Restrict(Processed(out, s), id))
  }

  /** `postprocess(out, meta_input)` of the root call_openai_meta.py: the
      same chains without the identity restriction. */
  function LegacyPostprocess(out: seq<Field>, mi: Json): Result<seq<Field>> {
    var s :- ReadSections(mi);
    Success(Processed(out, s))
  }

  // ---------------------------------------------------------------------
  // What the post-processing guarantees

  lemma SetCanonicalFrame(o: seq<Field>, s: Sections, k: string)
    requires k != "canonical_url"
    ensures Lookup(SetCanonical(o, s), k) == Lookup(o, k)
  {
  }

  lemma SetCanonicalLookup(o: seq<Field>, s: Sections)
    ensures Lookup(SetCanonical(o, s), "canonical_url") ==
      (if FirstTruthy(CanonicalSources(s)).Some? then FirstTruthy(CanonicalSources(s)) else Lookup(o, "canonical_url"))
  {
    OrChainFirstTruthy(CanonicalSources(s));
  }

  /** Each deterministic key holds its own value when truthy, the
      earlier value otherwise. */
  lemma DeterministicAt(o: seq<Field>, s: Sections, i: nat)
    requires i < |DeterministicFields(s)|
    ensures Lookup(Deterministic(o, s), DeterministicFields(s)[i].key) ==
      Some(Or(DeterministicFields(s)[i].val, GetField(o, DeterministicFields(s)[i].key)))
  {
    DeterministicKeysOf(s);
    PreferAllLookup(o, DeterministicFields(s));
  }

  /** Other keys are untouched. */
  lemma DeterministicFrame(o: seq<Field>, s: Sections, k: string)
    requires k !in DeterministicKeys
    ensures Lookup(Deterministic(o, s), k) == Lookup(o, k)
  {
    var kvs := DeterministicFields(s);
    DeterministicKeysOf(s);
    PreferAllLookup(o, kvs);
    assert !HasKey(kvs, k) by {
      forall j | 0 <= j < |kvs| ensures kvs[j].key != k { assert Keys(kvs)[j] == kvs[j].key; }
    }
  }

  /** Both versions read the same sections and differ only in the identity
      step, which can add an `AttributeError` of its own. */
  lemma PostprocessSteps(out: seq<Field>, mi: Json)
    ensures LegacyPostprocess(out, mi).Success? <==> ReadSections(mi).Success?
    ensures LegacyPostprocess(out, mi).Success? ==> LegacyPostprocess(out, mi).value == Processed(out, ReadSections(mi).value)
    ensures Postprocess(out, mi).Success? <==> ReadSections(mi).Success? && ReadIdentity(ReadSections(mi).value).Success?
    ensures Postprocess(out, mi).Success? ==>
      Postprocess(out, mi).value == Restrict(Processed(out, ReadSections(mi).value), ReadIdentity(ReadSections(mi).value).value)
  {
  }

  /** The canonical URL comes from clean.canonical, else canonical_hint,
      else final, else original; when all are falsy the model's value
      stays. */
  lemma CanonicalPrecedence(out: seq<Field>, s: Sections)
    ensures Lookup(Processed(out, s), "canonical_url") ==
      if FirstTruthy(CanonicalSources(s)).Some? then FirstTruthy(CanonicalSources(s)) else Lookup(out, "canonical_url")
  {
    SetCanonicalLookup(out, s);
    DeterministicFrame(SetCanonical(out, s), s, "canonical_url");
  }

  /** Each deterministic value wins over the model's whenever it is
      truthy; otherwise the model's value stays (`None` when it had none). */
  lemma DeterministicPrecedence(out: seq<Field>, s: Sections, i: nat)
    requires i < |DeterministicFields(s)|
    ensures Lookup(Processed(out, s), DeterministicFields(s)[i].key) ==
      Some(Or(DeterministicFields(s)[i].val, GetField(out, DeterministicFields(s)[i].key)))
  {
    var k := DeterministicFields(s)[i].key;
    DeterministicAt(SetCanonical(out, s), s, i);
    DeterministicKeysOf(s);
    assert k == DeterministicKeys[i];
    SetCanonicalFrame(out, s, k);
  }

  /** `published_at` prefers the whitelisted `article:published_time`,
      then the meta hint, then the model's value. */
  lemma PublishedAtPrecedence(out: seq<Field>, s: Sections)
    ensures Lookup(Processed(out, s), "published_at") ==
      Some(FirstTruthy([GetField(s.mw, "article:published_time"), GetField(s.meta, "published_at_hint")]).GetOr(GetField(out, "published_at")))
  {
    var chain := [GetField(s.mw, "article:published_time"), GetField(s.meta, "published_at_hint")];
    var prior := GetField(out, "published_at");
    assert DeterministicFields(s)[3] == Field("published_at", OrChain(chain));
    DeterministicPrecedence(out, s, 3);
    OrChainFirstTruthy(chain);
    assert Or(OrChain(chain), prior) == FirstTruthy(chain).GetOr(prior);
  }

  /** Without the identity step every key other than the canonical URL and
      the deterministic ones -- the organisation and authors among them --
      keeps the model's value. */
  lemma ProcessedFrame(out: seq<Field>, s: Sections, k: string)
    requires k !in DeterministicKeys && k != "canonical_url"
    ensures Lookup(Processed(out, s), k) == Lookup(out, k)
  {
    SetCanonicalFrame(out, s, k);
    DeterministicFrame(SetCanonical(out, s), s, k);
  }

  /** Restricting touches only the two identity keys. */
  lemma RestrictFrame(o: seq<Field>, id: Identity, k: string)
    requires k != "organization_name" && k != "author_names"
    ensures Lookup(Restrict(o, id), k) == Lookup(o, k)
  {
  }

  /** The organisation is the model's choice when, stripped, it is one of
      the page's organisation candidates, else `None`. */
  lemma OrganizationRestricted(out: seq<Field>, s: Sections, id: Identity)
    ensures Lookup(Restrict(Processed(out, s), id), "organization_name") ==
      Some(NameJson(NormalizeChoice(GetField(out, "organization_name"), id.orgs)))
  {
    SetCanonicalFrame(out, s, "organization_name");
    DeterministicFrame(SetCanonical(out, s), s, "organization_name");
  }

  /** The authors are the model's choices among the author candidates, or
      `None` when none survives. */
  lemma AuthorsRestricted(out: seq<Field>, s: Sections, id: Identity)
    ensures Lookup(Restrict(Processed(out, s), id), "author_names") ==
      Some(NamesJson(NormalizeChoiceList(GetField(out, "author_names"), id.authors)))
  {
    SetCanonicalFrame(out, s, "author_names");
    DeterministicFrame(SetCanonical(out, s), s, "author_names");
  }

  /** Keys the post-processing does not assign keep the model's values. */
  lemma PostprocessFrame(out: seq<Field>, s: Sections, id: Identity, k: string)
    requires k !in DeterministicKeys && k != "canonical_url" && k != "organization_name" && k != "author_names"
    ensures Lookup(Restrict(Processed(out, s), id), k) == Lookup(out, k)
  {
    ProcessedFrame(out, s, k);
    RestrictFrame(Processed(out, s), id, k);
  }

  // ---------------------------------------------------------------------
  // The script

  /** The structured-output call's reply: the parsed object (`None` on a
      refusal or parse failure) and the raw response. */
  datatype Reply = Reply(parsed: Option<seq<Field>>, raw: Json)

  /** `main` of src/call_openai_meta.py. `call` is the model call given the
      meta input and the enum lists; it fails when the call raises after
      its retries. Every exception inside the `try` becomes exit status 1. */
  function Main(fs: Fs, metaPath: string, scfPath: string, outdir: string, writeRaw: bool,
                parse: string -> Option<Json>, dump: Json -> string, call: (Json, Enums) -> Result<Reply>): (r: Exit)
    ensures var outPath := JoinPath(outdir, ItemBase(metaPath, ".meta_input") + ".meta_parsed.json");
      var rawPath := JoinPath(outdir, ItemBase(metaPath, ".meta_input") + ".meta_response_raw.json");
      && (r.rc == 0 || r.rc == 1)
      && Frame(fs, r.fs, {outPath, rawPath})
      && (r.rc == 0 ==> outPath in r.fs)
      && (r.rc == 1 ==> Frame(fs, r.fs, {rawPath}))
      && (!writeRaw && r.rc == 0 ==> Frame(fs, r.fs, {outPath}))
  {
    var outPath := JoinPath(outdir, ItemBase(metaPath, ".meta_input") + ".meta_parsed.json");
    var rawPath := JoinPath(outdir, ItemBase(metaPath, ".meta_input") + ".meta_response_raw.json");
    var mi := LoadJson(fs, metaPath, parse);
    if mi.Failure? then Exit(1, fs)
    else
      var scf := LoadJson(fs, scfPath, parse);
      if scf.Failure? then Exit(1, fs)
      else
        var enums := EnumsFromExport(scf.value);
        if enums.Failure? then Exit(1, fs)
        else
          var reply := call(mi.value, enums.value);
          if reply.Failure? then Exit(1, fs)
          else if reply.value.parsed.None? then Exit(1, fs[rawPath := dump(reply.value.raw)])
          else
            var out := Postprocess(reply.value.parsed.value, mi.value);
            if out.Failure? then Exit(1, fs)
            else
              var fs1 := fs[outPath := dump(JObj(out.value))];
              Exit(0, if writeRaw then fs1[rawPath := dump(reply.value.raw)] else fs1)
  }

  /** A refusal leaves the raw response for inspection and no parsed file. */
  lemma RefusalKeepsRaw(fs: Fs, metaPath: string, scfPath: string, outdir: string, writeRaw: bool,
                        parse: string -> Option<Json>, dump: Json -> string, call: (Json, Enums) -> Result<Reply>)
    requires LoadJson(fs, metaPath, parse).Success? && LoadJson(fs, scfPath, parse).Success?
    requires EnumsFromExport(LoadJson(fs, scfPath, parse).value).Success?
    requires var reply := call(LoadJson(fs, metaPath, parse).value, EnumsFromExport(LoadJson(fs, scfPath, parse).value).value);
      reply.Success? && reply.value.parsed.None?
    ensures var r := Main(fs, metaPath, scfPath, outdir, writeRaw, parse, dump, call);
      var rawPath := JoinPath(outdir, ItemBase(metaPath, ".meta_input") + ".meta_response_raw.json");
      r.rc == 1 && rawPath in r.fs
  {
  }

  /** On success the parsed file holds the post-processed reply. */
  lemma SuccessWritesPostprocessed(fs: Fs, metaPath: string, scfPath: string, outdir: string, writeRaw: bool,
                                   parse: string -> Option<Json>, dump: Json -> string, call: (Json, Enums) -> Result<Reply>)
    requires Main(fs, metaPath, scfPath, outdir, writeRaw, parse, dump, call).rc == 0
    ensures var mi := LoadJson(fs, metaPath, parse).value;
      var reply := call(mi, EnumsFromExport(LoadJson(fs, scfPath, parse).value).value);
      var outPath := JoinPath(outdir, ItemBase(metaPath, ".meta_input") + ".meta_parsed.json");
      && reply.Success? && reply.value.parsed.Some?
      && Postprocess(reply.value.parsed.value, mi).Success?
      && Main(fs, metaPath, scfPath, outdir, writeRaw, parse, dump, call).fs[outPath]
           == dump(JObj(Postprocess(reply.value.parsed.value, mi).value))
  {
    PathsDiffer(outdir, ItemBase(metaPath, ".meta_input"));
    var outPath := JoinPath(outdir, ItemBase(metaPath, ".meta_input") + ".meta_parsed.json");
    var rawPath := JoinPath(outdir, ItemBase(metaPath, ".meta_input") + ".meta_response_raw.json");
    var mi := LoadJson(fs, metaPath, parse);
    var scf := LoadJson(fs, scfPath, parse);
    assert mi.Success? && scf.Success?;
    var enums := EnumsFromExport(scf.value);
    assert enums.Success?;
    var reply := call(mi.value, enums.value);
    assert reply.Success? && reply.value.parsed.Some?;
    var out := Postprocess(reply.value.parsed.value, mi.value);
    assert out.Success?;
  }

  /** The parsed and raw files of an item are different files. */
  lemma PathsDiffer(outdir: string, base: string)
    ensures JoinPath(outdir, base + ".meta_parsed.json") != JoinPath(outdir, base + ".meta_response_raw.json")
  {
    var a := JoinPath(outdir, base + ".meta_parsed.json");
    var b := JoinPath(outdir, base + ".meta_response_raw.json");
    assert |a| != |b|;
  }
}

=== FILE: panels.dfy ===
/** The resumable twelve-panel generator of `src/call_openai_buffers.py`.
    It reads one merged `*.xaio_parsed.json`, builds the article wrapper the
    twelve panel prompts share (metadata plus the text split into numbered
    sentences), and asks the remote model for every panel the existing
    `*.buffers.json` lacks, writing the artifact after each answer so that a
    later run resumes where this one stopped. */
module Panels {
  import opened Wrappers
  import opened PyText
  import opened JsonValue
  import opened Fingerprint
  import opened PyPath
  import opened Dedupe

  /** `PANEL_ORDER`: the keys of the panel prompts, in declaration order. */
  const PanelOrder: seq<string> := [
    "aio_panel_01_intent_buffer",
    "aio_panel_02_story_spine_buffer",
    "aio_panel_03_definitions_buffer",
    "aio_panel_04_evidence_posture_buffer",
    "aio_panel_05_uncertainty_buffer",
    "aio_panel_06_omissions_buffer",
    "aio_panel_07_rhetoric_buffer",
    "aio_panel_08_normative_buffer",
    "aio_panel_09_predictions_buffer",
    "aio_panel_10_actor_map_buffer",
    "aio_panel_11_internal_consistency_buffer",
    "aio_panel_12_falsifiability_buffer"
  ]

  /** The metadata keys the generator writes next to the panels. */
  const MetaKeys: seq<string> := [
    "aio_schema_version", "aio_generated_at", "aio_model", "title", "canonical_url",
    "publisher_organization", "author_byline", "published_at", "sentence_count",
    "text_char_count_used", "text_truncated", "text_sha256"
  ]

  /** The two digits after "aio_panel_", which number the panels. */
  function PanelTag(k: string): (char, char) {
    if |k| >= 12 then (k[10], k[11]) else (' ', ' ')
  }

  /** Starts like "ai??p": true of every panel key, false of every metadata key. */
  predicate PanelLike(k: string) {
    |k| > 4 && k[0] == 'a' && k[1] == 'i' && k[4] == 'p'
  }

  /** Twelve distinct panel keys, none of them a metadata key. */
  lemma PanelKeysDistinct()
    ensures |PanelOrder| == 12 && NoDup(PanelOrder)
    ensures forall k :: k in MetaKeys ==> k !in PanelOrder
  {
    PanelTags();
    MetaKeysNotPanelLike();
  }

  /** Each panel key carries its own two-digit number. */
  lemma PanelTags()
    ensures forall i :: 0 <= i < 12 ==> PanelTag(PanelOrder[i]) == PanelNumbers[i] && PanelLike(PanelOrder[i])
  {
    forall i | 0 <= i < 12 ensures PanelTag(PanelOrder[i]) == PanelNumbers[i] && PanelLike(PanelOrder[i]) {
      assert i == 0 || i == 1 || i == 2 || i == 3 || i == 4 || i == 5 || i == 6 || i == 7 || i == 8 || i == 9 || i == 10 || i == 11;
    }
  }

  /** No metadata key looks like a panel key. */
  lemma MetaKeysNotPanelLike()
    ensures forall i :: 0 <= i < 12 ==> !PanelLike(MetaKeys[i])
  {
    forall i | 0 <= i < 12 ensures !PanelLike(MetaKeys[i]) {
      assert i == 0 || i == 1 || i == 2 || i == 3 || i == 4 || i == 5 || i == 6 || i == 7 || i == 8 || i == 9 || i == 10 || i == 11;
    }
  }

  /** The panel numbers "01" to "12". */
  const PanelNumbers: seq<(char, char)> :=
    [('0', '1'), ('0', '2'), ('0', '3'), ('0', '4'), ('0', '5'), ('0', '6'),
     ('0', '7'), ('0', '8'), ('0', '9'), ('1', '0'), ('1', '1'), ('1', '2')]

  // ---------------------------------------------------------------------
  // Small text helpers

  /** A string value with non-blank content. */
  predicate NonBlankStr(v: Json) {
    v.JStr? && !IsBlank(v.s)
  }

  /** `first_str(*vals)`: the first argument that is a string with non-blank
      content, stripped; `""` when there is none. */
  function FirstStr(vals: seq<Json>): (r: string)
    ensures IsTrimmed(r)
    ensures r == [] <==> forall i :: 0 <= i < |vals| ==> !NonBlankStr(vals[i])
    ensures r != [] ==> exists i :: 0 <= i < |vals| && NonBlankStr(vals[i]) && r == Strip(vals[i].s)
                                      && forall j :: 0 <= j < i ==> !NonBlankStr(vals[j])
    decreases |vals|
  {
    if vals == [] then ""
    else if NonBlankStr(vals[0]) then Strip(vals[0].s)
    else
      var r := FirstStr(vals[1..]);
      FirstStrSkip(vals, r);
      r
  }

  /** Of a single value: its stripped text when it is a non-blank string,
      `""` otherwise. */
  lemma FirstStrSingle(v: Json)
    ensures FirstStr([v]) == if NonBlankStr(v) then Strip(v.s) else ""
  {
    assert [v][0] == v;
  }

  /** Skipping a leading value that is not a non-blank string keeps the
      "first non-blank string" reading of the result. */
  lemma FirstStrSkip(vals: seq<Json>, r: string)
    requires vals != [] && !NonBlankStr(vals[0])
    requires r == [] <==> forall i :: 0 <= i < |vals| - 1 ==> !NonBlankStr(vals[1..][i])
    requires r != [] ==> exists i :: 0 <= i < |vals| - 1 && NonBlankStr(vals[1..][i]) && r == Strip(vals[1..][i].s)
                                       && forall j :: 0 <= j < i ==> !NonBlankStr(vals[1..][j])
    ensures r == [] <==> forall i :: 0 <= i < |vals| ==> !NonBlankStr(vals[i])
    ensures r != [] ==> exists i :: 0 <= i < |vals| && NonBlankStr(vals[i]) && r == Strip(vals[i].s)
                                      && forall j :: 0 <= j < i ==> !NonBlankStr(vals[j])
  {
    if r == [] {
      forall i | 0 <= i < |vals| ensures !NonBlankStr(vals[i]) {
        if i > 0 { assert vals[i] == vals[1..][i - 1]; }
      }
    } else {
      var i :| 0 <= i < |vals| - 1 && NonBlankStr(vals[1..][i]) && r == Strip(vals[1..][i].s)
               && forall j :: 0 <= j < i ==> !NonBlankStr(vals[1..][j]);
      assert vals[i + 1] == vals[1..][i];
      forall j | 0 <= j < i + 1 ensures !NonBlankStr(vals[j]) {
        if j > 0 { assert vals[j] == vals[1..][j - 1]; }
      }
    }
  }

  /** `safe_str(x)`: `None` reads as `""`, a string as itself, anything
      else as `str(x)`. */
  function SafeStr(v: Json): string {
    match v
    case JNull => ""
    case JStr(s) => s
    case _ => Str(v)
  }

  /** `truncate_text_keep_head(text, max_chars)`: a positive limit keeps the
      first `max_chars` characters of a longer text and reports the cut. */
  function TruncateKeepHead(text: string, maxChars: int): (r: (string, bool))
    ensures |r.0| <= |text| && r.0 == text[..|r.0|]
    ensures r.1 <==> maxChars > 0 && |text| > maxChars
    ensures r.1 ==> |r.0| == maxChars
    ensures !r.1 ==> r.0 == text
    ensures maxChars > 0 ==> |r.0| <= maxChars
  {
    if maxChars <= 0 then (text, false)
    else if |text| <= maxChars then (text, false)
    else (text[..maxChars], true)
  }

  // ---------------------------------------------------------------------
  // Sentences

  /** The characters of the class `[\t\f\v]`. */
  predicate IsTabLike(c: char) {
    c == '\t' || c == '\U{0B}' || c == '\U{0C}'
  }

  /** `re.sub(r"[\t\f\v]+", " ", s)`; `inRun` says the character before `s`
      was one of them. */
  function TabRuns(s: string, inRun: bool): string
    decreases |s|
  {
    if s == [] then []
    else if IsTabLike(s[0]) then (if inRun then [] else " ") + TabRuns(s[1..], true)
    else [s[0]] + TabRuns(s[1..], false)
  }

  /** Collapsing tab runs removes every tab-like character, keeps every
      other character, and keeps a string blank exactly when it was. */
  lemma {:induction false} TabRunsShape(s: string, inRun: bool)
    ensures var r := TabRuns(s, inRun);
      && (forall i :: 0 <= i < |r| ==> !IsTabLike(r[i]) && (r[i] == ' ' || r[i] in s))
      && (IsBlank(r) <==> IsBlank(s))
    decreases |s|
  {
    if s != [] {
      var r := TabRuns(s, inRun);
      var rest := TabRuns(s[1..], IsTabLike(s[0]));
      TabRunsShape(s[1..], IsTabLike(s[0]));
      var head: string := if IsTabLike(s[0]) then (if inRun then [] else " ") else [s[0]];
      assert r == head + rest;
      BlankConcat(head, rest);
      BlankConcat([s[0]], s[1..]);
      assert s == [s[0]] + s[1..];
      forall i | 0 <= i < |r| ensures !IsTabLike(r[i]) && (r[i] == ' ' || r[i] in s) {
        if i >= |head| {
          assert r[i] == rest[i - |head|];
        }
      }
    }
  }

  /** Replacing one blank pattern by a blank replacement keeps a string
      blank exactly when it was. */
  lemma {:induction false} ReplaceAllBlank(s: string, pattern: string, replacement: string)
    requires pattern != [] && IsBlank(pattern) && IsBlank(replacement)
    ensures IsBlank(ReplaceAll(s, pattern, replacement)) <==> IsBlank(s)
    decreases |s|
  {
    if s != [] {
      if StartsWith(s, pattern) {
        ReplaceAllBlank(s[|pattern|..], pattern, replacement);
        BlankConcat(replacement, ReplaceAll(s[|pattern|..], pattern, replacement));
        assert s == pattern + s[|pattern|..];
        BlankConcat(pattern, s[|pattern|..]);
      } else {
        ReplaceAllBlank(s[1..], pattern, replacement);
        BlankConcat([s[0]], ReplaceAll(s[1..], pattern, replacement));
        assert s == [s[0]] + s[1..];
        BlankConcat([s[0]], s[1..]);
      }
    }
  }

  /** Replacing every lone `\r` by `\n` leaves no `\r`. */
  lemma {:induction false} NoCarriageReturns(s: string)
    ensures '\r' !in ReplaceAll(s, "\r", "\n")
    decreases |s|
  {
    if s != [] {
      NoCarriageReturns(s[1..]);
      assert StartsWith(s, "\r") <==> s[0] == '\r';
    }
  }

  /** Every character of `TabRuns(s, b)` is a space or a character of `s`. */
  lemma TabRunsKeepsNoCarriageReturn(s: string, inRun: bool)
    requires '\r' !in s
    ensures '\r' !in TabRuns(s, inRun)
  {
    TabRunsShape(s, inRun);
  }

  /** `normalize_ws(s)`: CRLF and lone CR become LF, and every run of tab,
      form-feed and vertical-tab characters becomes one space. */
  function NormalizeWs(s: string): (r: string)
    ensures '\r' !in r
    ensures forall i :: 0 <= i < |r| ==> !IsTabLike(r[i])
    ensures IsBlank(r) <==> IsBlank(s)
  {
    var a := ReplaceAll(s, "\r\n", "\n");
    var b := ReplaceAll(a, "\r", "\n");
    ReplaceAllBlank(s, "\r\n", "\n");
    ReplaceAllBlank(a, "\r", "\n");
    NoCarriageReturns(a);
    TabRunsShape(b, false);
    TabRunsKeepsNoCarriageReturn(b, false);
    TabRuns(b, false)
  }

  /** What the final cleanup of `split_sentences` lets through: non-empty,
      no whitespace at either end, single spaces between words. */
  predicate IsSentence(t: string) {
    t != [] && IsTrimmed(t) && SingleSpaced(t)
  }

  /** A sentence holds no line break, so it fits on one wrapper line. */
  lemma SentenceHasNoNewline(t: string)
    requires IsSentence(t)
    ensures '\n' !in t
  {
    if '\n' in t {
      var i :| 0 <= i < |t| && t[i] == '\n';
      assert IsSpace(t[i]);
    }
  }

  /** The final cleanup loop of `split_sentences`: every piece with its
      whitespace collapsed and stripped, the empty ones dropped. */
  function CleanAll(pieces: seq<string>): (r: seq<string>)
    ensures |r| <= |pieces|
    ensures forall k :: 0 <= k < |r| ==> IsSentence(r[k])
    decreases |pieces|
  {
    if pieces == [] then []
    else
      var front := CleanAll(pieces[..|pieces| - 1]);
      var c := Clean(pieces[|pieces| - 1]);
      CleanShape(pieces[|pieces| - 1]);
      if c != [] then front + [c] else front
  }

  /** The piece at position `i` survives the cleanup as `v`. */
  predicate CleansTo(pieces: seq<string>, i: int, v: string) {
    0 <= i < |pieces| && !IsBlank(pieces[i]) && Clean(pieces[i]) == v
  }

  /** The cleanup of the pieces with one more piece at the end. */
  lemma CleanAllSnoc(pieces: seq<string>)
    requires pieces != []
    ensures var c := Clean(pieces[|pieces| - 1]);
      CleanAll(pieces) == CleanAll(pieces[..|pieces| - 1]) + (if c != [] then [c] else [])
  {
  }

  /** The cleaned sentences are exactly the cleaned forms of the non-blank
      pieces. */
  lemma {:induction false} CleanAllMembers(pieces: seq<string>, v: string)
    ensures v in CleanAll(pieces) <==> exists i :: CleansTo(pieces, i, v)
    decreases |pieces|
  {
    if pieces != [] {
      var init := pieces[..|pieces| - 1];
      var last := |pieces| - 1;
      CleanAllSnoc(pieces);
      CleanAllMembers(init, v);
      CleansToInit(pieces, init, v);
      CleansToSplit(pieces, init, v);
      CleansToLast(pieces, v);
    }
  }

  lemma CleansToInit(pieces: seq<string>, init: seq<string>, v: string)
    requires pieces != [] && init == pieces[..|pieces| - 1]
    ensures (exists i :: CleansTo(init, i, v)) ==> exists i :: CleansTo(pieces, i, v)
  {
    if exists i :: CleansTo(init, i, v) {
      var i :| CleansTo(init, i, v);
      assert CleansTo(pieces, i, v);
    }
  }

  lemma CleansToSplit(pieces: seq<string>, init: seq<string>, v: string)
    requires pieces != [] && init == pieces[..|pieces| - 1]
    ensures (exists i :: CleansTo(pieces, i, v)) ==> (exists i :: CleansTo(init, i, v)) || CleansTo(pieces, |pieces| - 1, v)
  {
    if exists i :: CleansTo(pieces, i, v) {
      var i :| CleansTo(pieces, i, v);
      if i < |pieces| - 1 {
        assert CleansTo(init, i, v);
      }
    }
  }

  lemma CleansToLast(pieces: seq<string>, v: string)
    requires pieces != []
    ensures CleansTo(pieces, |pieces| - 1, v) <==> Clean(pieces[|pieces| - 1]) != [] && Clean(pieces[|pieces| - 1]) == v
  {
    CleanShape(pieces[|pieces| - 1]);
  }

  /** `split_sentences(text)`. The paragraph, line, bullet and punctuation
      splitting of the normalised text is regular-expression work and comes
      from `pieces`; the blank check before it and the cleanup after it are
      modelled. */
  function SplitSentences(text: string, pieces: string -> seq<string>): (r: seq<string>)
    ensures IsBlank(text) ==> r == []
    ensures forall k :: 0 <= k < |r| ==> IsSentence(r[k])
  {
    var t := NormalizeWs(text);
    if IsBlank(t) then [] else CleanAll(pieces(t))
  }

  // ---------------------------------------------------------------------
  // The article wrapper

  datatype Facts = Facts(
    title: string,
    canonicalUrl: string,
    organization: string,
    author: string,
    publishedAt: string,
    sentenceCount: nat,
    charCountUsed: nat,
    truncated: bool,
    textSha: string)

  datatype Article = Article(wrapper: string, facts: Facts)

  /** `safe_str(xaio.get("extracted_text_full", ""))` */
  function FullText(xaio: seq<Field>): string {
    match Lookup(xaio, "extracted_text_full")
    case None => ""
    case Some(v) => SafeStr(v)
  }

  /** The text the prompts see: the full text cut to `max_chars`. */
  function UsedText(xaio: seq<Field>, maxChars: int): string {
    TruncateKeepHead(FullText(xaio), maxChars).0
  }

  /** The first author, when `author_names` is a non-empty list. */
  function AuthorArg(xaio: seq<Field>): Json {
    var names := GetField(xaio, "author_names");
    if names.JArr? && names.items != [] then names.items[0] else JStr("")
  }

  function HeaderLines(f: Facts): seq<string> {
    [ "ARTICLE_META",
      "title: " + f.title,
      "canonical_url: " + f.canonicalUrl,
      "publisher/organization: " + f.organization,
      "author/byline: " + f.author,
      "published_at (if known): " + f.publishedAt,
      "",
      "ARTICLE_TEXT_WITH_SENTENCE_IDS" ]
  }

  /** `f"s{i}: {s}"` for the sentence at 0-based position `i`. */
  function SentenceLine(i: nat, s: string): string {
    "s" + NatToString(i + 1) + ": " + s
  }

  function SentenceLines(sentences: seq<string>): (lines: seq<string>)
    ensures |lines| == |sentences|
  {
    seq(|sentences|, i requires 0 <= i < |sentences| => SentenceLine(i, sentences[i]))
  }

  /** The sentences of the used text. */
  function Sentences(xaio: seq<Field>, maxChars: int, pieces: string -> seq<string>): seq<string> {
    SplitSentences(UsedText(xaio, maxChars), pieces)
  }

  /** `build_article_wrapper(xaio, max_chars)`: the shared prompt body and
      the facts recorded in the artifact. */
  function ArticleWrapper(xaio: seq<Field>, maxChars: int, sha256: string -> HexDigest,
                          pieces: string -> seq<string>): (a: Article)
    ensures a.facts.sentenceCount == |Sentences(xaio, maxChars, pieces)|
    ensures maxChars > 0 ==> a.facts.charCountUsed <= maxChars
    ensures a.facts.truncated <==> maxChars > 0 && |FullText(xaio)| > maxChars
    ensures a.facts.textSha == sha256(UsedText(xaio, maxChars))
    ensures a.wrapper == Join("\n", HeaderLines(a.facts) + SentenceLines(Sentences(xaio, maxChars, pieces)))
  {
    var (text, truncated) := TruncateKeepHead(FullText(xaio), maxChars);
    var sentences := SplitSentences(text, pieces);
    var facts := Facts(
      FirstStr([GetField(xaio, "url_content_title"), GetField(xaio, "title"), GetField(xaio, "content_title")]),
      FirstStr([GetField(xaio, "canonical_url")]),
      FirstStr([GetField(xaio, "organization_name"), GetField(xaio, "site_name")]),
      FirstStr([AuthorArg(xaio)]),
      FirstStr([GetField(xaio, "published_at")]),
      |sentences|,
      |text|,
      truncated,
      sha256(text));
    Article(Join("\n", HeaderLines(facts) + SentenceLines(sentences)), facts)
  }

  /** Joined with line breaks, the header and the numbered sentences split
      back into the same lines when no header value holds a line break. */
  lemma {:induction false} JoinedLines(f: Facts, sentences: seq<string>)
    requires '\n' !in f.title && '\n' !in f.canonicalUrl && '\n' !in f.organization
    requires '\n' !in f.author && '\n' !in f.publishedAt
    requires forall k :: 0 <= k < |sentences| ==> IsSentence(sentences[k])
    ensures SplitOn(Join("\n", HeaderLines(f) + SentenceLines(sentences)), '\n') == HeaderLines(f) + SentenceLines(sentences)
  {
    var header := HeaderLines(f);
    var body := SentenceLines(sentences);
    var lines := header + body;
    HeaderHasNoNewline(f);
    SentenceLinesHaveNoNewline(sentences);
    forall k | 0 <= k < |lines| ensures '\n' !in lines[k] {
      if k >= 8 { assert lines[k] == body[k - 8]; } else { assert lines[k] == header[k]; }
    }
    SplitOnJoin(lines, '\n');
  }

  lemma HeaderHasNoNewline(f: Facts)
    requires '\n' !in f.title && '\n' !in f.canonicalUrl && '\n' !in f.organization
    requires '\n' !in f.author && '\n' !in f.publishedAt
    ensures forall k :: 0 <= k < |HeaderLines(f)| ==> '\n' !in HeaderLines(f)[k]
  {
    var header := HeaderLines(f);
    forall k | 0 <= k < |header| ensures '\n' !in header[k] {
      assert k == 0 || k == 1 || k == 2 || k == 3 || k == 4 || k == 5 || k == 6 || k == 7;
    }
  }

  lemma SentenceLinesHaveNoNewline(sentences: seq<string>)
    requires forall k :: 0 <= k < |sentences| ==> IsSentence(sentences[k])
    ensures forall i :: 0 <= i < |sentences| ==> '\n' !in SentenceLines(sentences)[i]
  {
    forall i | 0 <= i < |sentences| ensures '\n' !in SentenceLines(sentences)[i] {
      assert SentenceLines(sentences)[i] == "s" + NatToString(i + 1) + ": " + sentences[i];
      SentenceHasNoNewline(sentences[i]);
      NatHasNoNewline(i + 1);
    }
  }

  /** The wrapper splits back into its eight header lines followed by one
      line `s<i>: <sentence>` per sentence, numbered from 1, whenever the
      metadata values hold no line break; the hash is that of the used
      text. */
  lemma WrapperLines(xaio: seq<Field>, maxChars: int, sha256: string -> HexDigest, pieces: string -> seq<string>)
    requires var f := ArticleWrapper(xaio, maxChars, sha256, pieces).facts;
      '\n' !in f.title && '\n' !in f.canonicalUrl && '\n' !in f.organization
      && '\n' !in f.author && '\n' !in f.publishedAt
    ensures var a := ArticleWrapper(xaio, maxChars, sha256, pieces);
      var sentences := Sentences(xaio, maxChars, pieces);
      var lines := SplitOn(a.wrapper, '\n');
      && |lines| == 8 + a.facts.sentenceCount
      && lines[..8] == HeaderLines(a.facts)
      && (forall i :: 0 <= i < |sentences| ==> lines[8 + i] == "s" + NatToString(i + 1) + ": " + sentences[i])
      && a.facts.textSha == sha256(UsedText(xaio, maxChars))
  {
    var a := ArticleWrapper(xaio, maxChars, sha256, pieces);
    SplitWrapper(a.facts, Sentences(xaio, maxChars, pieces));
  }

  lemma SplitWrapper(f: Facts, sentences: seq<string>)
    requires '\n' !in f.title && '\n' !in f.canonicalUrl && '\n' !in f.organization
    requires '\n' !in f.author && '\n' !in f.publishedAt
    requires forall k :: 0 <= k < |sentences| ==> IsSentence(sentences[k])
    ensures var lines := SplitOn(Join("\n", HeaderLines(f) + SentenceLines(sentences)), '\n');
      && |lines| == 8 + |sentences|
      && lines[..8] == HeaderLines(f)
      && (forall i :: 0 <= i < |sentences| ==> lines[8 + i] == "s" + NatToString(i + 1) + ": " + sentences[i])
  {
    JoinedLines(f, sentences);
    assert (HeaderLines(f) + SentenceLines(sentences))[..8] == HeaderLines(f);
  }

  lemma {:induction false} NatHasNoNewline(n: nat)
    ensures '\n' !in NatToString(n)
    decreases n
  {
    if n >= 10 {
      NatHasNoNewline(n / 10);
    }
  }

  // ---------------------------------------------------------------------
  // The artifact

  /** `isinstance(obj.get(k), str) and obj.get(k).strip()` */
  predicate Present(obj: seq<Field>, k: string) {
    var v := Lookup(obj, k);
    v.Some? && NonBlankStr(v.value)
  }

  /** The loop of `all_panels_present` over `keys`. */
  function AllPresent(keys: seq<string>, obj: seq<Field>): (r: bool)
    ensures r <==> forall i :: 0 <= i < |keys| ==> Present(obj, keys[i])
    decreases |keys|
  {
    if keys == [] then true
    else if !Present(obj, keys[0]) then false
    else
      var r := AllPresent(keys[1..], obj);
      assert r <==> forall i :: 0 <= i < |keys| ==> Present(obj, keys[i]) by {
        if r {
          forall i | 0 <= i < |keys| ensures Present(obj, keys[i]) {
            if i > 0 { assert keys[i] == keys[1..][i - 1]; }
          }
        }
      }
      r
  }

  /** `all_panels_present(obj)` */
  predicate AllPanelsPresent(obj: seq<Field>) {
    AllPresent(PanelOrder, obj)
  }

  /** The early exit of `main`: not forced, an existing non-empty artifact
      for the same text hash, and every panel present. */
  predicate SkipComplete(force: bool, existing: seq<Field>, textSha: string) {
    && !force
    && existing != []
    && Lookup(existing, "text_sha256") == Some(JStr(textSha))
    && AllPanelsPresent(existing)
  }

  /** The panels kept from a dict's items: panel keys whose value is a
      non-blank string. */
  function KeepPanels(items: seq<Field>): (r: seq<Field>)
    ensures forall k :: HasKey(r, k) ==> HasKey(items, k)
    decreases |items|
  {
    if items == [] then []
    else
      var init := items[..|items| - 1];
      var last := items[|items| - 1];
      var front := KeepPanels(init);
      assert forall k :: HasKey(init, k) ==> HasKey(items, k) by {
        forall k | HasKey(init, k) ensures HasKey(items, k) { HasKeySnoc(items, k); }
      }
      if last.key in PanelOrder && NonBlankStr(last.val) then
        var r := front + [last];
        assert forall k :: HasKey(r, k) ==> HasKey(items, k) by {
          forall k | HasKey(r, k) ensures HasKey(items, k) {
            HasKeySnoc(r, k);
            assert r[..|r| - 1] == front;
            HasKeySnoc(items, k);
          }
        }
        r
      else front
  }

  /** With distinct keys, the kept dict holds exactly the panel entries
      whose value is a non-blank string. */
  lemma {:induction false} KeepPanelsLookup(items: seq<Field>, k: string)
    requires forall i, j :: 0 <= i < j < |items| ==> items[i].key != items[j].key
    ensures Lookup(KeepPanels(items), k) == (if k in PanelOrder && Present(items, k) then Lookup(items, k) else None)
    decreases |items|
  {
    if items != [] {
      var init := items[..|items| - 1];
      var last := items[|items| - 1];
      KeepPanelsLookup(init, k);
      if last.key != k {
        assert Lookup(items, k) == Lookup(init, k);
        var front := KeepPanels(init);
        if last.key in PanelOrder && NonBlankStr(last.val) {
          assert (front + [last])[..|front|] == front;
        }
      } else {
        assert !HasKey(init, k);
        assert !HasKey(KeepPanels(init), k);
      }
    }
  }

  /** `{k: v for k, v in existing.items() if k in PANEL_ORDER and
      isinstance(v, str) and v.strip()}` */
  function KeptPanels(existing: seq<Field>): seq<Field> {
    KeepPanels(Items(existing))
  }

  /** The resumed dict keeps exactly the existing non-blank panels. */
  lemma KeptPanelsLookup(existing: seq<Field>, k: string)
    ensures Lookup(KeptPanels(existing), k) == (if k in PanelOrder && Present(existing, k) then Lookup(existing, k) else None)
  {
    var items := Items(existing);
    assert forall i, j :: 0 <= i < j < |items| ==> items[i].key != items[j].key by {
      forall i, j | 0 <= i < j < |items| ensures items[i].key != items[j].key {
        assert Keys(items)[i] == items[i].key && Keys(items)[j] == items[j].key;
      }
    }
    KeepPanelsLookup(items, k);
    ItemsLookup(existing, k);
  }

  datatype Args = Args(
    xaioPath: string,
    outdir: string,
    model: string,
    schemaVersion: string,
    maxChars: int,
    force: bool)

  /** The metadata `main` assigns, in order, after the kept panels. */
  function MetaFields(args: Args, now: string, f: Facts): (r: seq<Field>)
    ensures Keys(r) == MetaKeys
  {
    var r := [
      Field("aio_schema_version", JStr(args.schemaVersion)),
      Field("aio_generated_at", JStr(now)),
      Field("aio_model", JStr(args.model)),
      Field("title", JStr(f.title)),
      Field("canonical_url", JStr(f.canonicalUrl)),
      Field("publisher_organization", JStr(f.organization)),
      Field("author_byline", JStr(f.author)),
      Field("published_at", JStr(f.publishedAt)),
      Field("sentence_count", JNum(f.sentenceCount)),
      Field("text_char_count_used", JNum(f.charCountUsed)),
      Field("text_truncated", JBool(f.truncated)),
      Field("text_sha256", JStr(f.textSha))
    ];
    assert Keys(r) == MetaKeys;
    r
  }

  /** The collaborators of `main`: `json.loads`, `json.dumps`, SHA-256, the
      regular-expression sentence splitter, one remote panel call (`None`
      when it raises after its retries) and the clock. */
  datatype PanelEnv = PanelEnv(
    parse: string -> Option<Json>,
    dump: Json -> string,
    sha256: string -> HexDigest,
    pieces: string -> seq<string>,
    call: (string, string) -> Option<string>,
    now: string)

  /** What the run does, in order: a remote call for a panel, or a write of
      the artifact. */
  datatype PanelEvent = Called(panel: string) | Saved(path: string, text: string)

  /** The panels requested, in order. */
  function Calls(log: seq<PanelEvent>): seq<string>
    decreases |log|
  {
    if log == [] then []
    else (if log[0].Called? then [log[0].panel] else []) + Calls(log[1..])
  }

  /** The number of writes of the artifact. */
  function Saves(log: seq<PanelEvent>): nat
    decreases |log|
  {
    if log == [] then 0
    else (if log[0].Saved? then 1 else 0) + Saves(log[1..])
  }

  /** The keys of `keys` that are not present in `obj`, in order. */
  function Missing(keys: seq<string>, obj: seq<Field>): seq<string>
    decreases |keys|
  {
    if keys == [] then []
    else (if Present(obj, keys[0]) then [] else [keys[0]]) + Missing(keys[1..], obj)
  }

  datatype Fill = Fill(out: seq<Field>, fs: Fs, log: seq<PanelEvent>, ok: bool)

  /** The `for k in PANEL_ORDER` loop from `keys` on: a present panel is
      skipped; a missing one is requested, stored stripped and the whole
      dict written to `path`. A call that raises ends the loop. */
  function FillPanels(keys: seq<string>, out: seq<Field>, wrapper: string, env: PanelEnv, path: string, fs: Fs): Fill
    decreases |keys|
  {
    if keys == [] then Fill(out, fs, [], true)
    else if Present(out, keys[0]) then FillPanels(keys[1..], out, wrapper, env, path, fs)
    else match env.call(keys[0], wrapper)
      case None => Fill(out, fs, [Called(keys[0])], false)
      case Some(answer) =>
        var out1 := Assign(out, keys[0], JStr(Strip(answer)));
        var saved := env.dump(JObj(out1));
        var rest := FillPanels(keys[1..], out1, wrapper, env, path, fs[path := saved]);
        Fill(rest.out, rest.fs, [Called(keys[0]), Saved(path, saved)] + rest.log, rest.ok)
  }

  /** Presence of the given keys is all that `Missing` looks at. */
  lemma {:induction false} MissingFrame(keys: seq<string>, a: seq<Field>, b: seq<Field>)
    requires forall i :: 0 <= i < |keys| ==> (Present(a, keys[i]) <==> Present(b, keys[i]))
    ensures Missing(keys, a) == Missing(keys, b)
    decreases |keys|
  {
    if keys != [] {
      assert forall i :: 0 <= i < |keys| - 1 ==> keys[1..][i] == keys[i + 1];
      MissingFrame(keys[1..], a, b);
    }
  }

  lemma CallsStep(k: string, path: string, saved: string, rest: seq<PanelEvent>)
    ensures Calls([Called(k), Saved(path, saved)] + rest) == [k] + Calls(rest)
    ensures Saves([Called(k), Saved(path, saved)] + rest) == 1 + Saves(rest)
  {
    var log := [Called(k), Saved(path, saved)] + rest;
    assert log[1..] == [Saved(path, saved)] + rest;
    assert log[1..][1..] == rest;
  }

  lemma {:induction false} CallsAppendSaved(log: seq<PanelEvent>, path: string, text: string)
    ensures Calls(log + [Saved(path, text)]) == Calls(log)
    decreases |log|
  {
    if log == [] {
      assert Calls([Saved(path, text)]) == Calls([]);
    } else {
      assert (log + [Saved(path, text)])[1..] == log[1..] + [Saved(path, text)];
      CallsAppendSaved(log[1..], path, text);
    }
  }

  /** The loop requests exactly the panels missing when it starts, in
      order; a call that raises stops it after a non-empty prefix of them. */
  lemma {:induction false} FillCalls(keys: seq<string>, out: seq<Field>, wrapper: string, env: PanelEnv, path: string, fs: Fs)
    requires NoDup(keys)
    ensures var f := FillPanels(keys, out, wrapper, env, path, fs);
      && (f.ok ==> Calls(f.log) == Missing(keys, out))
      && (!f.ok ==> Calls(f.log) != [] && Calls(f.log) <= Missing(keys, out))
    decreases |keys|, 1
  {
    if keys != [] {
      var k := keys[0];
      NoDupTail(keys);
      assert Missing(keys, out) == (if Present(out, k) then [] else [k]) + Missing(keys[1..], out);
      if Present(out, k) {
        FillCalls(keys[1..], out, wrapper, env, path, fs);
      } else if env.call(k, wrapper).Some? {
        FillCallsAnswered(keys, out, wrapper, env, path, fs);
      } else {
        assert Calls([Called(k)]) == [k] + Calls([]);
      }
    }
  }

  /** The case of `FillCalls` where the first key is missing and answered. */
  lemma {:induction false} FillCallsAnswered(keys: seq<string>, out: seq<Field>, wrapper: string, env: PanelEnv, path: string, fs: Fs)
    requires keys != [] && NoDup(keys) && !Present(out, keys[0]) && env.call(keys[0], wrapper).Some?
    ensures var f := FillPanels(keys, out, wrapper, env, path, fs);
      f.ok ==> Calls(f.log) == [keys[0]] + Missing(keys[1..], out)
    ensures var f := FillPanels(keys, out, wrapper, env, path, fs);
      !f.ok ==> Calls(f.log) != [] && Calls(f.log) <= [keys[0]] + Missing(keys[1..], out)
    decreases |keys|, 0
  {
    var k, tail := keys[0], keys[1..];
    NoDupTail(keys);
    var out1 := Assign(out, k, JStr(Strip(env.call(k, wrapper).value)));
    var saved := env.dump(JObj(out1));
    var rest := FillPanels(tail, out1, wrapper, env, path, fs[path := saved]);
    assert FillPanels(keys, out, wrapper, env, path, fs).log == [Called(k), Saved(path, saved)] + rest.log;
    FillCalls(tail, out1, wrapper, env, path, fs[path := saved]);
    CallsStep(k, path, saved, rest.log);
    MissingFrame(tail, out1, out);
  }

  /** Every call is followed by a write of the artifact to `path`, except a
      call that raised, which is the last thing the loop does. */
  predicate SavedAfterCalls(log: seq<PanelEvent>, path: string, ok: bool) {
    forall i :: 0 <= i < |log| ==> SavedAt(log, i, path, ok)
  }

  /** The event at `i` is a write to `path`, or a call followed by a
      write, or (when the loop failed) the final call. */
  predicate SavedAt(log: seq<PanelEvent>, i: int, path: string, ok: bool)
    requires 0 <= i < |log|
  {
    && (log[i].Saved? ==> log[i].path == path)
    && (log[i].Called? ==> (i + 1 < |log| && log[i + 1].Saved?) || (!ok && i == |log| - 1))
  }

  lemma SavedAfterCallsStep(k: string, path: string, saved: string, rest: seq<PanelEvent>, ok: bool)
    requires SavedAfterCalls(rest, path, ok)
    requires !ok ==> rest != [] && rest[|rest| - 1].Called?
    ensures var log := [Called(k), Saved(path, saved)] + rest;
      SavedAfterCalls(log, path, ok) && (!ok ==> log[|log| - 1].Called?)
  {
    var log := [Called(k), Saved(path, saved)] + rest;
    forall i | 0 <= i < |log| ensures SavedAt(log, i, path, ok) {
      if i >= 2 {
        SavedAtShift(k, path, saved, rest, ok, i - 2);
      }
    }
    if !ok { assert log[|log| - 1] == rest[|rest| - 1]; }
  }

  lemma SavedAtShift(k: string, path: string, saved: string, rest: seq<PanelEvent>, ok: bool, j: int)
    requires 0 <= j < |rest| && SavedAt(rest, j, path, ok)
    ensures SavedAt([Called(k), Saved(path, saved)] + rest, j + 2, path, ok)
  {
    var log := [Called(k), Saved(path, saved)] + rest;
    assert log[j + 2] == rest[j];
    if j + 1 < |rest| { assert log[j + 3] == rest[j + 1]; }
  }

  /** What the loop leaves on disk: only `path` changes, and once it has
      been written it holds the dict the loop ends with; without any write
      nothing changed at all. */
  ghost predicate DiskAfterFill(f: Fill, out: seq<Field>, env: PanelEnv, path: string, fs: Fs) {
    && (forall p :: p != path ==> (p in f.fs <==> p in fs))
    && (forall p :: p != path && p in fs ==> f.fs[p] == fs[p])
    && (if Saves(f.log) > 0
        then path in f.fs && f.fs[path] == env.dump(JObj(f.out))
        else f.out == out && f.fs == fs)
  }

  /** The invariant `FillPersists` establishes. */
  ghost predicate Persisted(f: Fill, out: seq<Field>, env: PanelEnv, path: string, fs: Fs) {
    && SavedAfterCalls(f.log, path, f.ok)
    && (!f.ok ==> f.log != [] && f.log[|f.log| - 1].Called?)
    && DiskAfterFill(f, out, env, path, fs)
  }

  /** Writes follow calls, and the artifact on disk always matches what the
      loop has gathered. */
  lemma {:induction false} FillPersists(keys: seq<string>, out: seq<Field>, wrapper: string, env: PanelEnv, path: string, fs: Fs)
    ensures Persisted(FillPanels(keys, out, wrapper, env, path, fs), out, env, path, fs)
    decreases |keys|
  {
    if keys == [] {
    } else if Present(out, keys[0]) {
      FillPersists(keys[1..], out, wrapper, env, path, fs);
    } else if env.call(keys[0], wrapper).Some? {
      var out1 := Assign(out, keys[0], JStr(Strip(env.call(keys[0], wrapper).value)));
      var fs1 := fs[path := env.dump(JObj(out1))];
      FillPersists(keys[1..], out1, wrapper, env, path, fs1);
      FillPersistsCall(keys, out, wrapper, env, path, fs);
    } else {
      var f := FillPanels(keys, out, wrapper, env, path, fs);
      assert f.log == [Called(keys[0])];
      assert Saves(f.log) == 0;
    }
  }

  lemma FillPersistsCall(keys: seq<string>, out: seq<Field>, wrapper: string, env: PanelEnv, path: string, fs: Fs)
    requires keys != [] && !Present(out, keys[0]) && env.call(keys[0], wrapper).Some?
    requires var out1 := Assign(out, keys[0], JStr(Strip(env.call(keys[0], wrapper).value)));
      var fs1 := fs[path := env.dump(JObj(out1))];
      Persisted(FillPanels(keys[1..], out1, wrapper, env, path, fs1), out1, env, path, fs1)
    ensures Persisted(FillPanels(keys, out, wrapper, env, path, fs), out, env, path, fs)
  {
    var k := keys[0];
    var out1 := Assign(out, k, JStr(Strip(env.call(k, wrapper).value)));
    var saved := env.dump(JObj(out1));
    var fs1 := fs[path := saved];
    var rest := FillPanels(keys[1..], out1, wrapper, env, path, fs1);
    var f := FillPanels(keys, out, wrapper, env, path, fs);
    FillCallUnfold(keys, out, wrapper, env, path, fs);
    assert f == Fill(rest.out, rest.fs, [Called(k), Saved(path, saved)] + rest.log, rest.ok);
    SavedAfterCallsStep(k, path, saved, rest.log, rest.ok);
    CallsStep(k, path, saved, rest.log);
    forall p | p != path ensures (p in f.fs <==> p in fs) && (p in fs ==> f.fs[p] == fs[p]) {
      assert p in fs1 <==> p in fs;
    }
    if Saves(rest.log) == 0 {
      assert rest.out == out1 && rest.fs == fs1;
    }
  }

  /** What `FillValues` states about the dict the loop ends with. */
  ghost predicate ValuesAfterFill(keys: seq<string>, f: Fill, out: seq<Field>, wrapper: string, env: PanelEnv) {
    && (forall k2 :: k2 !in keys ==> Lookup(f.out, k2) == Lookup(out, k2))
    && (forall k2 :: k2 in keys && Present(out, k2) ==> Lookup(f.out, k2) == Lookup(out, k2))
    && (f.ok ==> forall k2 :: k2 in keys && !Present(out, k2) ==>
          env.call(k2, wrapper).Some? && Lookup(f.out, k2) == Some(JStr(Strip(env.call(k2, wrapper).value))))
  }

  /** Keys outside `keys` and panels already present keep their values; when
      every call returned, each missing panel holds its stripped answer. */
  lemma {:induction false} FillValues(keys: seq<string>, out: seq<Field>, wrapper: string, env: PanelEnv, path: string, fs: Fs)
    requires NoDup(keys)
    ensures ValuesAfterFill(keys, FillPanels(keys, out, wrapper, env, path, fs), out, wrapper, env)
    decreases |keys|
  {
    if keys != [] {
      NoDupTail(keys);
      if Present(out, keys[0]) {
        FillValues(keys[1..], out, wrapper, env, path, fs);
        FillValuesSkip(keys, out, wrapper, env, path, fs);
      } else if env.call(keys[0], wrapper).Some? {
        var out1 := Assign(out, keys[0], JStr(Strip(env.call(keys[0], wrapper).value)));
        var fs1 := fs[path := env.dump(JObj(out1))];
        FillValues(keys[1..], out1, wrapper, env, path, fs1);
        FillValuesCall(keys, out, wrapper, env, path, fs);
      }
    }
  }

  lemma FillValuesSkip(keys: seq<string>, out: seq<Field>, wrapper: string, env: PanelEnv, path: string, fs: Fs)
    requires keys != [] && Present(out, keys[0])
    requires keys[0] !in keys[1..]
    requires forall k2 :: k2 in keys <==> k2 == keys[0] || k2 in keys[1..]
    requires ValuesAfterFill(keys[1..], FillPanels(keys[1..], out, wrapper, env, path, fs), out, wrapper, env)
    ensures ValuesAfterFill(keys, FillPanels(keys, out, wrapper, env, path, fs), out, wrapper, env)
  {
  }

  lemma FillValuesCall(keys: seq<string>, out: seq<Field>, wrapper: string, env: PanelEnv, path: string, fs: Fs)
    requires keys != [] && !Present(out, keys[0]) && env.call(keys[0], wrapper).Some?
    requires keys[0] !in keys[1..]
    requires forall k2 :: k2 in keys <==> k2 == keys[0] || k2 in keys[1..]
    requires var out1 := Assign(out, keys[0], JStr(Strip(env.call(keys[0], wrapper).value)));
      var fs1 := fs[path := env.dump(JObj(out1))];
      ValuesAfterFill(keys[1..], FillPanels(keys[1..], out1, wrapper, env, path, fs1), out1, wrapper, env)
    ensures ValuesAfterFill(keys, FillPanels(keys, out, wrapper, env, path, fs), out, wrapper, env)
  {
    var k := keys[0];
    var out1 := Assign(out, k, JStr(Strip(env.call(k, wrapper).value)));
    var fs1 := fs[path := env.dump(JObj(out1))];
    var rest := FillPanels(keys[1..], out1, wrapper, env, path, fs1);
    var f := FillPanels(keys, out, wrapper, env, path, fs);
    FillCallUnfold(keys, out, wrapper, env, path, fs);
    assert f.out == rest.out && f.ok == rest.ok;
    forall k2 | k2 !in keys ensures Lookup(f.out, k2) == Lookup(out, k2) {
      assert k2 != k && k2 !in keys[1..];
    }
    forall k2 | k2 in keys && Present(out, k2) ensures Lookup(f.out, k2) == Lookup(out, k2) {
      assert k2 != k && k2 in keys[1..];
      assert Present(out1, k2);
    }
    if f.ok {
      forall k2 | k2 in keys && !Present(out, k2)
        ensures env.call(k2, wrapper).Some? && Lookup(f.out, k2) == Some(JStr(Strip(env.call(k2, wrapper).value)))
      {
        if k2 != k {
          assert k2 in keys[1..] && !Present(out1, k2);
        }
      }
    }
  }

  /** One loop step that calls the service. */
  lemma FillCallUnfold(keys: seq<string>, out: seq<Field>, wrapper: string, env: PanelEnv, path: string, fs: Fs)
    requires keys != [] && !Present(out, keys[0]) && env.call(keys[0], wrapper).Some?
    ensures var out1 := Assign(out, keys[0], JStr(Strip(env.call(keys[0], wrapper).value)));
      var saved := env.dump(JObj(out1));
      var rest := FillPanels(keys[1..], out1, wrapper, env, path, fs[path := saved]);
      FillPanels(keys, out, wrapper, env, path, fs) == Fill(rest.out, rest.fs, [Called(keys[0]), Saved(path, saved)] + rest.log, rest.ok)
  {
  }

  // ---------------------------------------------------------------------
  // The run

  /** The item id: the stem of the merged output without ".xaio_parsed". */
  function ItemId(xaioPath: string): string {
    ReplaceAll(Stem(xaioPath), ".xaio_parsed", "")
  }

  /** `outdir / f"{item_id}.buffers.json"` */
  function OutPath(outdir: string, xaioPath: string): string {
    JoinPath(outdir, ItemId(xaioPath) + ".buffers.json")
  }

  /** The existing artifact: `{}` when it is absent or does not load. */
  function Existing(env: PanelEnv, fs: Fs, path: string): Json {
    if path !in fs then Empty else env.parse(fs[path]).GetOr(Empty)
  }

  /** The exit code, the file system afterwards, what happened, and the
      dict held in memory at the end (empty when the run stopped before
      building it). */
  datatype Gen = Gen(rc: int, fs: Fs, log: seq<PanelEvent>, out: seq<Field>)

  /** `main` from the point where the merged output and the existing
      artifact have loaded as dicts. */
  function Resume(args: Args, env: PanelEnv, fs: Fs, xaio: seq<Field>, existing: seq<Field>): Gen {
    var a := ArticleWrapper(xaio, args.maxChars, env.sha256, env.pieces);
    var path := OutPath(args.outdir, args.xaioPath);
    if SkipComplete(args.force, existing, a.facts.textSha) then Gen(0, fs, [], [])
    else
      var out0 := Update(KeptPanels(existing), MetaFields(args, env.now, a.facts));
      var f := FillPanels(PanelOrder, out0, a.wrapper, env, path, fs);
      if !f.ok then Gen(1, f.fs, f.log, f.out)
      else
        var text := env.dump(JObj(f.out));
        Gen(0, f.fs[path := text], f.log + [Saved(path, text)], f.out)
  }

  /** `main`: a merged output that is missing, not JSON or not a dict, and
      an existing artifact that loads as something other than a dict, raise
      inside the `try` and give exit code 1. */
  function Generate(args: Args, env: PanelEnv, fs: Fs): Gen {
    if args.xaioPath !in fs then Gen(1, fs, [], [])
    else match env.parse(fs[args.xaioPath])
      case None => Gen(1, fs, [], [])
      case Some(x) =>
        if !x.JObj? then Gen(1, fs, [], [])
        else
          var existing := Existing(env, fs, OutPath(args.outdir, args.xaioPath));
          if !existing.JObj? then Gen(1, fs, [], [])
          else Resume(args, env, fs, x.fields, existing.fields)
  }

  /** The dict the panel loop starts from: the kept panels, then the
      metadata. */
  function StartDict(args: Args, env: PanelEnv, existing: seq<Field>, f: Facts): seq<Field> {
    Update(KeptPanels(existing), MetaFields(args, env.now, f))
  }

  /** Before the loop, the panel keys hold exactly the existing non-blank
      panels, the metadata keys hold the new metadata, and nothing else is
      there. */
  lemma StartDictLookup(args: Args, env: PanelEnv, existing: seq<Field>, f: Facts, k: string)
    ensures var out0 := StartDict(args, env, existing, f);
      && (k in PanelOrder ==> Lookup(out0, k) == (if Present(existing, k) then Lookup(existing, k) else None))
      && (k in PanelOrder ==> (Present(out0, k) <==> Present(existing, k)))
      && (k in MetaKeys ==> Lookup(out0, k) == Lookup(MetaFields(args, env.now, f), k))
      && (k !in PanelOrder && k !in MetaKeys ==> Lookup(out0, k) == None)
  {
    var meta := MetaFields(args, env.now, f);
    PanelKeysDistinct();
    KeptPanelsLookup(existing, k);
    assert HasKey(meta, k) <==> k in MetaKeys by {
      if HasKey(meta, k) {
        var i :| 0 <= i < |meta| && meta[i].key == k;
        assert Keys(meta)[i] == k;
      }
      if k in MetaKeys {
        var i :| 0 <= i < |MetaKeys| && MetaKeys[i] == k;
        assert meta[i].key == Keys(meta)[i];
      }
    }
  }

  /** The parts of a run that got past the early exit. */
  lemma ResumeUnfold(args: Args, env: PanelEnv, fs: Fs, xaio: seq<Field>, existing: seq<Field>)
    ensures var a := ArticleWrapper(xaio, args.maxChars, env.sha256, env.pieces);
      var path := OutPath(args.outdir, args.xaioPath);
      var g := Resume(args, env, fs, xaio, existing);
      var f := FillPanels(PanelOrder, StartDict(args, env, existing, a.facts), a.wrapper, env, path, fs);
      && (SkipComplete(args.force, existing, a.facts.textSha) ==> g == Gen(0, fs, [], []))
      && (!SkipComplete(args.force, existing, a.facts.textSha) && !f.ok ==> g == Gen(1, f.fs, f.log, f.out))
      && (!SkipComplete(args.force, existing, a.facts.textSha) && f.ok ==>
            g == Gen(0, f.fs[path := env.dump(JObj(f.out))], f.log + [Saved(path, env.dump(JObj(f.out)))], f.out))
  {
  }

  /** The run writes nothing and calls nothing exactly when it takes the
      early exit, and then it succeeds with the file system untouched. */
  lemma ResumeSkipsIff(args: Args, env: PanelEnv, fs: Fs, xaio: seq<Field>, existing: seq<Field>)
    ensures var a := ArticleWrapper(xaio, args.maxChars, env.sha256, env.pieces);
      var g := Resume(args, env, fs, xaio, existing);
      && (g.log == [] <==> SkipComplete(args.force, existing, a.facts.textSha))
      && (SkipComplete(args.force, existing, a.facts.textSha) ==> g.rc == 0 && g.fs == fs)
  {
    var a := ArticleWrapper(xaio, args.maxChars, env.sha256, env.pieces);
    var path := OutPath(args.outdir, args.xaioPath);
    var f := FillPanels(PanelOrder, StartDict(args, env, existing, a.facts), a.wrapper, env, path, fs);
    ResumeUnfold(args, env, fs, xaio, existing);
    FillPersists(PanelOrder, StartDict(args, env, existing, a.facts), a.wrapper, env, path, fs);
  }

  /** The service is asked for exactly the panels the existing artifact
      lacks, in `PANEL_ORDER`; a call that raises stops after a non-empty
      prefix of them, with exit code 1. */
  lemma ResumeCallsMissing(args: Args, env: PanelEnv, fs: Fs, xaio: seq<Field>, existing: seq<Field>)
    ensures var a := ArticleWrapper(xaio, args.maxChars, env.sha256, env.pieces);
      var g := Resume(args, env, fs, xaio, existing);
      !SkipComplete(args.force, existing, a.facts.textSha) ==>
        && (g.rc == 0 ==> Calls(g.log) == Missing(PanelOrder, existing))
        && (g.rc != 0 ==> g.rc == 1 && Calls(g.log) != [] && Calls(g.log) <= Missing(PanelOrder, existing))
  {
    var a := ArticleWrapper(xaio, args.maxChars, env.sha256, env.pieces);
    var path := OutPath(args.outdir, args.xaioPath);
    var out0 := StartDict(args, env, existing, a.facts);
    var f := FillPanels(PanelOrder, out0, a.wrapper, env, path, fs);
    ResumeUnfold(args, env, fs, xaio, existing);
    PanelKeysDistinct();
    FillCalls(PanelOrder, out0, a.wrapper, env, path, fs);
    forall i | 0 <= i < |PanelOrder| ensures Present(out0, PanelOrder[i]) <==> Present(existing, PanelOrder[i]) {
      StartDictLookup(args, env, existing, a.facts, PanelOrder[i]);
    }
    MissingFrame(PanelOrder, out0, existing);
    if f.ok {
      CallsAppendSaved(f.log, path, env.dump(JObj(f.out)));
    }
  }

  /** After a successful run the artifact holds the existing non-blank
      panels unchanged, the stripped answer for every other panel, the new
      metadata, and no other key; it is what the file at the output path
      now contains. */
  lemma ResumeOutput(args: Args, env: PanelEnv, fs: Fs, xaio: seq<Field>, existing: seq<Field>)
    ensures var a := ArticleWrapper(xaio, args.maxChars, env.sha256, env.pieces);
      var g := Resume(args, env, fs, xaio, existing);
      var path := OutPath(args.outdir, args.xaioPath);
      !SkipComplete(args.force, existing, a.facts.textSha) && g.rc == 0 ==>
        && (forall k :: k in PanelOrder && Present(existing, k) ==> Lookup(g.out, k) == Lookup(existing, k))
        && (forall k :: k in PanelOrder && !Present(existing, k) ==>
              env.call(k, a.wrapper).Some? && Lookup(g.out, k) == Some(JStr(Strip(env.call(k, a.wrapper).value))))
        && (forall k :: k in MetaKeys ==> Lookup(g.out, k) == Lookup(MetaFields(args, env.now, a.facts), k))
        && (forall k :: k !in PanelOrder && k !in MetaKeys ==> !HasKey(g.out, k))
        && path in g.fs && g.fs[path] == env.dump(JObj(g.out))
  {
    var a := ArticleWrapper(xaio, args.maxChars, env.sha256, env.pieces);
    var path := OutPath(args.outdir, args.xaioPath);
    var out0 := StartDict(args, env, existing, a.facts);
    var f := FillPanels(PanelOrder, out0, a.wrapper, env, path, fs);
    var g := Resume(args, env, fs, xaio, existing);
    ResumeUnfold(args, env, fs, xaio, existing);
    if !SkipComplete(args.force, existing, a.facts.textSha) && g.rc == 0 {
      assert f.ok && g.out == f.out;
      PanelKeysDistinct();
      FillValues(PanelOrder, out0, a.wrapper, env, path, fs);
      forall k | k in PanelOrder && Present(existing, k) ensures Lookup(g.out, k) == Lookup(existing, k) {
        StartDictLookup(args, env, existing, a.facts, k);
      }
      forall k | k in PanelOrder && !Present(existing, k)
        ensures env.call(k, a.wrapper).Some? && Lookup(g.out, k) == Some(JStr(Strip(env.call(k, a.wrapper).value)))
      {
        StartDictLookup(args, env, existing, a.facts, k);
      }
      forall k | k in MetaKeys ensures Lookup(g.out, k) == Lookup(MetaFields(args, env.now, a.facts), k) {
        StartDictLookup(args, env, existing, a.facts, k);
      }
      forall k | k !in PanelOrder && k !in MetaKeys ensures !HasKey(g.out, k) {
        StartDictLookup(args, env, existing, a.facts, k);
      }
    }
  }

  /** Whatever the outcome, only the output path changes, every call is
      followed by a write unless it raised, and after a raise the file holds
      every answer received before it. */
  lemma ResumePersists(args: Args, env: PanelEnv, fs: Fs, xaio: seq<Field>, existing: seq<Field>)
    ensures var g := Resume(args, env, fs, xaio, existing);
      var path := OutPath(args.outdir, args.xaioPath);
      && SavedAfterCalls(g.log, path, g.rc == 0)
      && (forall p :: p != path ==> (p in g.fs <==> p in fs))
      && (forall p :: p != path && p in fs ==> g.fs[p] == fs[p])
      && (g.rc != 0 && Saves(g.log) > 0 ==> path in g.fs && g.fs[path] == env.dump(JObj(g.out)))
  {
    var a := ArticleWrapper(xaio, args.maxChars, env.sha256, env.pieces);
    var path := OutPath(args.outdir, args.xaioPath);
    var out0 := StartDict(args, env, existing, a.facts);
    var f := FillPanels(PanelOrder, out0, a.wrapper, env, path, fs);
    var g := Resume(args, env, fs, xaio, existing);
    ResumeUnfold(args, env, fs, xaio, existing);
    FillPersists(PanelOrder, out0, a.wrapper, env, path, fs);
    if !SkipComplete(args.force, existing, a.facts.textSha) && f.ok {
      SavedAfterFinalWrite(f.log, path, env.dump(JObj(f.out)));
      forall p | p != path ensures (p in g.fs <==> p in fs) && (p in fs ==> g.fs[p] == fs[p]) {
        assert p in g.fs <==> p in f.fs;
      }
    }
  }

  lemma SavedAfterFinalWrite(log: seq<PanelEvent>, path: string, saved: string)
    requires SavedAfterCalls(log, path, true)
    ensures SavedAfterCalls(log + [Saved(path, saved)], path, true)
  {
    var log' := log + [Saved(path, saved)];
    forall i | 0 <= i < |log'| ensures SavedAt(log', i, path, true) {
      if i < |log| {
        assert SavedAt(log, i, path, true);
        assert log'[i] == log[i];
        if i + 1 < |log| { assert log'[i + 1] == log[i + 1]; }
      }
    }
  }

  /** `main` fails with exit code 1 and touches nothing when the merged
      output is missing, not JSON or not a dict, or when the existing
      artifact loads as something other than a dict; otherwise it resumes. */
  lemma GenerateCases(args: Args, env: PanelEnv, fs: Fs)
    ensures var g := Generate(args, env, fs);
      var x := if args.xaioPath in fs then env.parse(fs[args.xaioPath]) else None;
      var e := Existing(env, fs, OutPath(args.outdir, args.xaioPath));
      && (x.None? || !x.value.JObj? || !e.JObj? ==> g == Gen(1, fs, [], []))
      && (x.Some? && x.value.JObj? && e.JObj? ==> g == Resume(args, env, fs, x.value.fields, e.fields))
  {
  }

  lemma MetaShaLookup(args: Args, now: string, f: Facts)
    ensures Lookup(MetaFields(args, now, f), "text_sha256") == Some(JStr(f.textSha))
  {
  }

  /** Running again after a complete run, without `--force`, takes the
      early exit: nothing is called and nothing is written, provided the
      artifact reads back as the dict that was written and every panel came
      back non-blank. */
  lemma RerunSkips(args: Args, env: PanelEnv, fs: Fs)
    requires args.xaioPath != OutPath(args.outdir, args.xaioPath)
    requires Generate(args, env, fs).rc == 0 && Generate(args, env, fs).log != []
    requires AllPanelsPresent(Generate(args, env, fs).out)
    requires env.parse(env.dump(JObj(Generate(args, env, fs).out))) == Some(JObj(Generate(args, env, fs).out))
    ensures var g := Generate(args, env, fs);
      var g2 := Generate(args.(force := false), env, g.fs);
      g2.rc == 0 && g2.log == [] && g2.fs == g.fs
  {
    var g := Generate(args, env, fs);
    var args2 := args.(force := false);
    var path := OutPath(args.outdir, args.xaioPath);
    GenerateCases(args, env, fs);
    var x := env.parse(fs[args.xaioPath]).value.fields;
    var e := Existing(env, fs, path).fields;
    var a := ArticleWrapper(x, args.maxChars, env.sha256, env.pieces);
    ResumeSkipsIff(args, env, fs, x, e);
    ResumeOutput(args, env, fs, x, e);
    ResumePersists(args, env, fs, x, e);
    MetaShaLookup(args, env.now, a.facts);
    assert "text_sha256" in MetaKeys;
    assert g.fs[args.xaioPath] == fs[args.xaioPath];
    assert Existing(env, g.fs, path) == JObj(g.out);
    assert g.out != [] by { assert HasKey(g.out, "text_sha256"); }
    assert SkipComplete(false, g.out, a.facts.textSha);
    GenerateCases(args2, env, g.fs);
    ResumeSkipsIff(args2, env, g.fs, x, g.out);
  }
}

=== FILE: parse_stage.dfy ===
/** The plain-text xAIO stage, src/call_openai_parse.py: the model's free
    text is stored next to fields read straight from the ai input, and a
    failed model call still leaves an output file. */
module ParseStage {
  import opened Wrappers
  import opened PyText
  import opened JsonValue
  import opened Fingerprint
  import opened PyPath
  import opened Panels
  import opened Cli

  // ---------------------------------------------------------------------
  // Reading the ai input

  /** `x if isinstance(x, dict) else {}` for a top-level section. */
  function Section(fields: seq<Field>, k: string): seq<Field> {
    DictOrEmpty(GetField(fields, k))
  }

  /** The identity candidate lists: `identity_candidates or {}`, and when
      that is not a dict both lists are `[]`; a missing list is `None`. */
  function IdentityLists(meta: seq<Field>): (Json, Json) {
    var identity := Or(GetField(meta, "identity_candidates"), Empty);
    if identity.JObj? then (GetField(identity.fields, "organization_names"), GetField(identity.fields, "author_names"))
    else (JArr([]), JArr([]))
  }

  /** `author_names`, falling back to `[author_hint]` when the list is falsy
      and the hint is non-blank, and `[]` when the result is not a list. */
  function AuthorNames(meta: seq<Field>): (r: Json)
    ensures r.JArr?
  {
    var authors := IdentityLists(meta).1;
    var hint := FirstStr([GetField(meta, "author_hint")]);
    var names := if !Truthy(authors) && hint != [] then JArr([JStr(hint)]) else authors;
    if names.JArr? then names else JArr([])
  }

  /** `org_names[0] if org_names else ""`: indexing a non-empty string gives
      its first character, a dict raises `KeyError` and a number or `True`
      raises `TypeError`. */
  function FirstOrg(orgs: Json): (r: Result<Json>)
    ensures r.Failure? <==> Truthy(orgs) && !orgs.JArr? && !orgs.JStr?
  {
    if !Truthy(orgs) then Success(JStr(""))
    else if orgs.JArr? then Success(orgs.items[0])
    else if orgs.JStr? then Success(JStr([orgs.s[0]]))
    else if orgs.JObj? then Failure("KeyError: 0")
    else Failure("TypeError: object is not subscriptable")
  }

  /** The first organisation candidate, else the site name. */
  function Organization(orgs: Json, meta: seq<Field>): Result<string> {
    var first :- FirstOrg(orgs);
    Success(FirstStr([first, GetField(meta, "site_name")]))
  }

  /** The canonical URL sources, strongest first. */
  function CanonicalSources(url: seq<Field>, clean: seq<Field>): seq<Json> {
    [GetField(clean, "canonical"), GetField(url, "canonical_hint"), GetField(url, "final"), GetField(url, "original")]
  }

  /** `first_str(clean.canonical, canonical_hint, final, original)`; a truthy
      `url.clean` that is not a dict raises `AttributeError`. */
  function Canonical(url: seq<Field>): (r: Result<string>)
    ensures r.Success? <==> OrEmptyDict(GetField(url, "clean")).Success?
  {
    var clean :- OrEmptyDict(GetField(url, "clean"));
    Success(FirstStr(CanonicalSources(url, clean)))
  }

  /** The deterministic fields, before the model's text is added. */
  datatype Parsed = Parsed(canonicalUrl: string, domain: string, siteName: string, organizationName: string,
                           authorNames: Json, title: string, extractedText: string, charCount: Json, wordCount: Json)

  /** The fields computed from the three sections. */
  function FromSections(url: seq<Field>, meta: seq<Field>, content: seq<Field>): (r: Result<Parsed>)
    ensures r.Success? <==> Canonical(url).Success? && FirstOrg(IdentityLists(meta).0).Success?
    ensures r.Success? ==> r.value.authorNames.JArr?
  {
    var canonical :- Canonical(url);
    var org :- Organization(IdentityLists(meta).0, meta);
    Success(Parsed(canonical, FirstStr([GetField(url, "domain")]), FirstStr([GetField(meta, "site_name")]), org,
                   AuthorNames(meta), FirstStr([GetField(meta, "title")]),
                   FirstStr([GetField(content, "extracted_text_full")]),
                   GetField(content, "char_count"), GetField(content, "word_count")))
  }

  /** `deterministic_fields(ai_input)`: an input that is not a dict raises
      `AttributeError` at its first `.get`. */
  function DeterministicFields(ai: Json): (r: Result<Parsed>)
    ensures r.Success? ==> ai.JObj?
  {
    if !ai.JObj? then Failure("AttributeError: object has no attribute 'get'")
    else FromSections(Section(ai.fields, "url"), Section(ai.fields, "meta"), Section(ai.fields, "content"))
  }

  /** The keys of the output document, in the order they are written. */
  const OutputKeys: seq<string> := ["canonical_url", "domain", "site_name", "organization_name", "author_names",
                                    "url_content_title", "content_mode", "extracted_text_full", "char_count",
                                    "word_count", "xaio", "claims"]

  /** The output document: the deterministic fields, `content_mode`, and the
      model's text under both `xaio` and `claims`. */
  function ToJson(p: Parsed, text: string): Json {
    JObj([Field("canonical_url", JStr(p.canonicalUrl)), Field("domain", JStr(p.domain)),
          Field("site_name", JStr(p.siteName)), Field("organization_name", JStr(p.organizationName)),
          Field("author_names", p.authorNames), Field("url_content_title", JStr(p.title)),
          Field("content_mode", JStr("url")), Field("extracted_text_full", JStr(p.extractedText)),
          Field("char_count", p.charCount), Field("word_count", p.wordCount),
          Field("xaio", JStr(text)), Field("claims", JStr(text))])
  }

  // ---------------------------------------------------------------------
  // What the deterministic fields guarantee

  /** A section that is not a dict reads the same as `{}`. */
  lemma NonDictSectionIgnored(fields: seq<Field>, k: string)
    requires k == "url" || k == "meta" || k == "content"
    requires !GetField(fields, k).JObj?
    ensures DeterministicFields(JObj(Assign(fields, k, Empty))) == DeterministicFields(JObj(fields))
  {
    var f2 := Assign(fields, k, Empty);
    SectionReset(fields, k, "url");
    SectionReset(fields, k, "meta");
    SectionReset(fields, k, "content");
  }

  lemma SectionReset(fields: seq<Field>, k: string, k2: string)
    requires !GetField(fields, k).JObj?
    ensures Section(Assign(fields, k, Empty), k2) == Section(fields, k2)
  {
  }

  /** The authors: a non-empty list of candidates as it is; a falsy list
      gives way to a non-blank `author_hint`, stripped; anything else
      gives `[]`. */
  lemma AuthorNamesCases(meta: seq<Field>)
    ensures var a := IdentityLists(meta).1;
      var hint := GetField(meta, "author_hint");
      && (a.JArr? && a.items != [] ==> AuthorNames(meta) == a)
      && (!Truthy(a) && NonBlankStr(hint) ==> AuthorNames(meta) == JArr([JStr(Strip(hint.s))]))
      && (!Truthy(a) && !NonBlankStr(hint) ==> AuthorNames(meta) == JArr([]))
      && (Truthy(a) && !a.JArr? ==> AuthorNames(meta) == JArr([]))
  {
    if !Truthy(IdentityLists(meta).1) {
      AuthorNamesFromHint(meta);
    }
  }

  /** With no candidate list the hint decides. */
  lemma AuthorNamesFromHint(meta: seq<Field>)
    requires !Truthy(IdentityLists(meta).1)
    ensures var hint := GetField(meta, "author_hint");
      AuthorNames(meta) == if NonBlankStr(hint) then JArr([JStr(Strip(hint.s))]) else JArr([])
  {
    FirstStrSingle(GetField(meta, "author_hint"));
  }

  /** The organisation is the first candidate when that is a non-blank
      string, and otherwise the site name; a non-empty dict of candidates
      raises. */
  lemma OrganizationCases(orgs: Json, meta: seq<Field>)
    ensures orgs.JArr? && orgs.items != [] && NonBlankStr(orgs.items[0]) ==>
      Organization(orgs, meta) == Success(Strip(orgs.items[0].s))
    ensures !Truthy(orgs) || (orgs.JArr? && orgs.items != [] && !NonBlankStr(orgs.items[0])) ==>
      Organization(orgs, meta) == Success(FirstStr([GetField(meta, "site_name")]))
    ensures orgs.JObj? && orgs.fields != [] ==> Organization(orgs, meta).Failure?
  {
    var site := GetField(meta, "site_name");
    if FirstOrg(orgs).Success? {
      var first := FirstOrg(orgs).value;
      assert [first, site][0] == first && [first, site][1..] == [site];
      if !NonBlankStr(first) {
        assert [site][1..] == [];
      }
    }
  }

  /** The canonical URL is the first non-blank source, stripped, in the
      order clean.canonical, canonical_hint, final, original; `""` when
      none is. */
  lemma CanonicalPrecedence(url: seq<Field>)
    requires Canonical(url).Success?
    ensures var vs := CanonicalSources(url, OrEmptyDict(GetField(url, "clean")).value);
      var r := Canonical(url).value;
      && (r == [] <==> forall i :: 0 <= i < |vs| ==> !NonBlankStr(vs[i]))
      && (r != [] ==> exists i :: 0 <= i < |vs| && NonBlankStr(vs[i]) && r == Strip(vs[i].s)
                                  && forall j :: 0 <= j < i ==> !NonBlankStr(vs[j]))
  {
  }

  /** Every key is written once, in a fixed order. */
  lemma OutputKeysOf(p: Parsed, text: string)
    ensures ToJson(p, text).JObj? && Keys(ToJson(p, text).fields) == OutputKeys
  {
  }

  /** The model's text is stored twice, under `xaio` and `claims`. */
  lemma OutputText(p: Parsed, text: string)
    ensures Get(ToJson(p, text), "xaio") == JStr(text) && Get(ToJson(p, text), "claims") == JStr(text)
  {
    LookupLast(ToJson(p, text).fields, 11);
    LookupLast(ToJson(p, text).fields, 10);
  }

  /** `content_mode` is always `"url"`. */
  lemma OutputMode(p: Parsed, text: string)
    ensures Get(ToJson(p, text), "content_mode") == JStr("url")
  {
    LookupLast(ToJson(p, text).fields, 6);
  }

  // ---------------------------------------------------------------------
  // The script

  function OutPath(outdir: string, aiPath: string): string {
    JoinPath(outdir, ItemBase(aiPath, ".ai_input") + ".xaio_parsed.json")
  }

  function RawPath(outdir: string, aiPath: string): string {
    JoinPath(outdir, ItemBase(aiPath, ".ai_input") + ".xaio_response_raw.txt")
  }

  /** `main` of src/call_openai_parse.py. `call` is the model call after its
      retries. A missing ai input raises before the `try`, which also ends
      the interpreter with status 1; a failed call is logged and leaves the
      text empty. */
  function Main(fs: Fs, aiPath: string, outdir: string, writeRaw: bool,
                parse: string -> Option<Json>, dump: Json -> string, call: Json -> Result<string>): (r: Exit)
    ensures r.rc == 0 || r.rc == 1
    ensures Frame(fs, r.fs, {OutPath(outdir, aiPath), RawPath(outdir, aiPath)})
    ensures r.rc == 0 ==> OutPath(outdir, aiPath) in r.fs
    ensures r.rc == 1 ==> r.fs == fs
    ensures !writeRaw ==> Frame(fs, r.fs, {OutPath(outdir, aiPath)})
  {
    if aiPath !in fs then Exit(1, fs)
    else
      var ai := LoadJson(fs, aiPath, parse);
      if ai.Failure? then Exit(1, fs)
      else
        var reply := call(ai.value);
        var text := if reply.Success? then reply.value else "";
        var det := DeterministicFields(ai.value);
        if det.Failure? then Exit(1, fs)
        else
          var fs1 := fs[OutPath(outdir, aiPath) := dump(ToJson(det.value, text))];
          Exit(0, if writeRaw then fs1[RawPath(outdir, aiPath) := text] else fs1)
  }

  /** The output and raw files of an item are different files. */
  lemma PathsDiffer(outdir: string, aiPath: string)
    ensures OutPath(outdir, aiPath) != RawPath(outdir, aiPath)
  {
    var a := ItemBase(aiPath, ".ai_input") + ".xaio_parsed.json";
    var b := ItemBase(aiPath, ".ai_input") + ".xaio_response_raw.txt";
    assert |a| != |b|;
  }

  /** The run succeeds exactly when the input loads and its deterministic
      fields can be read, whatever the model call does; the file then holds
      those fields and the model's text, `""` when the call failed. */
  lemma CallFailureSwallowed(fs: Fs, aiPath: string, outdir: string, writeRaw: bool,
                             parse: string -> Option<Json>, dump: Json -> string, call: Json -> Result<string>)
    ensures var r := Main(fs, aiPath, outdir, writeRaw, parse, dump, call);
      r.rc == 0 <==> LoadJson(fs, aiPath, parse).Success? && DeterministicFields(LoadJson(fs, aiPath, parse).value).Success?
    ensures var r := Main(fs, aiPath, outdir, writeRaw, parse, dump, call);
      r.rc == 0 ==>
        var ai := LoadJson(fs, aiPath, parse).value;
        r.fs[OutPath(outdir, aiPath)] ==
          dump(ToJson(DeterministicFields(ai).value, if call(ai).Success? then call(ai).value else ""))
  {
    PathsDiffer(outdir, aiPath);
  }
}

=== FILE: pipeline.dfy ===
/** `pipeline_run.py`: run the capture, condense, ai and wp stages in that
    fixed order, restricted to the ones `--stages` names, stopping at the
    first stage that returns non-zero. */
module Pipeline {
  import opened PyText
  import opened Dedupe

  /** The stage names of `STAGES`, in the order they run. */
  const Stages: seq<string> := ["capture", "condense", "ai", "wp"]

  lemma StagesDistinct()
    ensures NoDup(Stages)
  {
    forall i, j | 0 <= i < j < |Stages| ensures Stages[i] != Stages[j] {
      assert Stages[i][0] != Stages[j][0] || Stages[i][1] != Stages[j][1];
    }
  }

  /** The stripped comma-separated parts of `--stages` that name a known
      stage, in the order written, repeats included. */
  function Known(parts: seq<string>): (r: seq<string>)
    ensures forall i :: 0 <= i < |r| ==> r[i] in Stages
    decreases |parts|
  {
    if parts == [] then []
    else
      var s := Strip(parts[0]);
      var rest := Known(parts[1..]);
      if s != [] && s in Stages then [s] + rest else rest
  }

  /** Some part of the argument strips to `s`. */
  predicate Mentions(parts: seq<string>, s: string) {
    exists j :: 0 <= j < |parts| && Strip(parts[j]) == s
  }

  lemma MentionsCons(parts: seq<string>, s: string)
    requires parts != []
    ensures Mentions(parts, s) <==> Strip(parts[0]) == s || Mentions(parts[1..], s)
  {
    if Mentions(parts, s) {
      var j :| 0 <= j < |parts| && Strip(parts[j]) == s;
      if j > 0 {
        assert parts[1..][j - 1] == parts[j];
      }
    }
    if Mentions(parts[1..], s) {
      var j :| 0 <= j < |parts[1..]| && Strip(parts[1..][j]) == s;
      assert parts[j + 1] == parts[1..][j];
    }
  }

  /** A stage is requested exactly when some part of the argument strips to
      its name. */
  lemma {:induction false} KnownMembers(parts: seq<string>, s: string)
    ensures s in Known(parts) <==> s in Stages && Mentions(parts, s)
    decreases |parts|
  {
    if parts != [] {
      KnownMembers(parts[1..], s);
      MentionsCons(parts, s);
    }
  }

  /** `requested` after both list comprehensions of `main`. */
  function Requested(stagesArg: string): seq<string> {
    Known(SplitOn(stagesArg, ','))
  }

  /** The stages of `order` that were requested, in the order of `order`:
      the `for stage_name, script in STAGES: if stage_name not in requested:
      continue` filter. */
  function Pick(order: seq<string>, requested: seq<string>): (r: seq<string>)
    ensures |r| <= |order|
    ensures forall s :: s in r <==> s in order && s in requested
    decreases |order|
  {
    if order == [] then []
    else
      var rest := Pick(order[1..], requested);
      if order[0] in requested then [order[0]] + rest else rest
  }

  /** The order-preservation step for a picked head. */
  lemma PickHeadInOrder(order: seq<string>, rest: seq<string>)
    requires order != [] && order[0] !in order[1..]
    requires forall v :: v in rest ==> v in order[1..] && v in order
    requires NoDup(rest)
    requires forall i, j :: 0 <= i < j < |rest| ==> FirstIndex(order[1..], rest[i]) < FirstIndex(order[1..], rest[j])
    ensures var r := [order[0]] + rest;
      NoDup(r) && forall i, j :: 0 <= i < j < |r| ==> FirstIndex(order, r[i]) < FirstIndex(order, r[j])
  {
    var r := [order[0]] + rest;
    ShiftedIndices(order, rest);
    assert FirstIndex(order, order[0]) == 0;
    forall i, j | 0 <= i < j < |r| ensures r[i] != r[j] && FirstIndex(order, r[i]) < FirstIndex(order, r[j]) {
      if i == 0 {
        HeadFirst(order, rest, j - 1);
      } else {
        assert FirstIndex(order[1..], rest[i - 1]) < FirstIndex(order[1..], rest[j - 1]);
      }
    }
  }

  lemma HeadFirst(order: seq<string>, rest: seq<string>, k: int)
    requires order != [] && 0 <= k < |rest|
    requires rest[k] != order[0] && rest[k] in order && FirstIndex(order, rest[k]) == FirstIndex(order[1..], rest[k]) + 1
    ensures FirstIndex(order, order[0]) < FirstIndex(order, rest[k])
  {
  }

  /** Elements of the tail sit one place further on in the whole list. */
  lemma ShiftedIndices(order: seq<string>, rest: seq<string>)
    requires order != [] && order[0] !in order[1..]
    requires forall v :: v in rest ==> v in order[1..]
    ensures forall k :: 0 <= k < |rest| ==>
      rest[k] != order[0] && rest[k] in order && FirstIndex(order, rest[k]) == FirstIndex(order[1..], rest[k]) + 1
  {
    forall k | 0 <= k < |rest|
      ensures rest[k] != order[0] && rest[k] in order && FirstIndex(order, rest[k]) == FirstIndex(order[1..], rest[k]) + 1
    {
      assert rest[k] in rest;
      FirstIndexTail(order, rest[k]);
    }
  }

  /** The order-preservation step for a skipped head. */
  lemma PickTailInOrder(order: seq<string>, rest: seq<string>)
    requires order != [] && order[0] !in order[1..]
    requires forall v :: v in rest ==> v in order[1..] && v in order
    requires forall i, j :: 0 <= i < j < |rest| ==> FirstIndex(order[1..], rest[i]) < FirstIndex(order[1..], rest[j])
    ensures forall i, j :: 0 <= i < j < |rest| ==> FirstIndex(order, rest[i]) < FirstIndex(order, rest[j])
  {
    forall v | v in rest ensures FirstIndex(order, v) == FirstIndex(order[1..], v) + 1 {
      FirstIndexTail(order, v);
    }
  }

  /** `Pick` keeps `order`'s relative order: the first positions in `order`
      of its elements increase, so with a duplicate-free `order` nothing runs
      twice. */
  lemma {:induction false} PickInOrder(order: seq<string>, requested: seq<string>)
    requires NoDup(order)
    ensures var r := Pick(order, requested);
      NoDup(r) && forall i, j :: 0 <= i < j < |r| ==> FirstIndex(order, r[i]) < FirstIndex(order, r[j])
    decreases |order|
  {
    if order != [] {
      NoDupTail(order);
      PickInOrder(order[1..], requested);
      var rest := Pick(order[1..], requested);
      if order[0] in requested {
        PickHeadInOrder(order, rest);
      } else {
        PickTailInOrder(order, rest);
      }
    }
  }

  /** Whether `order` is picked the same way by two requests depends only on
      which names they contain. */
  lemma {:induction false} PickByMembership(order: seq<string>, a: seq<string>, b: seq<string>)
    requires forall s :: s in order ==> (s in a <==> s in b)
    ensures Pick(order, a) == Pick(order, b)
    decreases |order|
  {
    if order != [] {
      assert forall s :: s in order[1..] ==> s in order;
      PickByMembership(order[1..], a, b);
    }
  }

  /** The exit status of `main` and the stages it started, in order. */
  datatype RunResult = RunResult(code: int, ran: seq<string>)

  /** The stage loop: run `stages` in turn and return the first non-zero
      return code, or 0 when every stage returned 0. `rc` gives each stage
      script's return code. */
  function RunStages(stages: seq<string>, rc: string -> int): (r: RunResult)
    ensures |r.ran| <= |stages| && r.ran == stages[..|r.ran|]
    decreases |stages|
  {
    if stages == [] then RunResult(0, [])
    else if rc(stages[0]) != 0 then RunResult(rc(stages[0]), [stages[0]])
    else
      var rest := RunStages(stages[1..], rc);
      RunResult(rest.code, [stages[0]] + rest.ran)
  }

  /** The loop returns 0 exactly when every stage returned 0, and then ran
      them all; otherwise it stopped at the first failing stage, whose code
      it returns, after stages that all returned 0. */
  lemma {:induction false} RunStagesOutcome(stages: seq<string>, rc: string -> int)
    ensures var r := RunStages(stages, rc);
      && (r.code == 0 <==> forall i :: 0 <= i < |stages| ==> rc(stages[i]) == 0)
      && (r.code == 0 ==> r.ran == stages)
      && (r.code != 0 ==> r.ran != [] && r.code == rc(r.ran[|r.ran| - 1]))
      && (forall i :: 0 <= i < |r.ran| - 1 ==> rc(r.ran[i]) == 0)
    decreases |stages|
  {
    if stages != [] && rc(stages[0]) == 0 {
      var tail := stages[1..];
      RunStagesOutcome(tail, rc);
      var rest := RunStages(tail, rc);
      var r := RunStages(stages, rc);
      assert r.ran == [stages[0]] + rest.ran;
      assert forall i :: 0 < i < |stages| ==> stages[i] == tail[i - 1];
      assert forall i :: 0 < i < |r.ran| ==> r.ran[i] == rest.ran[i - 1];
      if r.code == 0 {
        assert stages == [stages[0]] + tail;
      }
    }
  }

  /** `main` given the `--stages` text: exit status 2 and nothing run when no
      known stage is named, else the stage loop over the requested stages in
      `STAGES` order. */
  function Main(stagesArg: string, rc: string -> int): RunResult {
    var requested := Requested(stagesArg);
    if requested == [] then RunResult(2, [])
    else RunStages(Pick(Stages, requested), rc)
  }

  /** Nothing runs, and the exit status is 2, exactly when no part of the
      argument names a known stage. */
  lemma NoStagesRequested(stagesArg: string, rc: string -> int)
    ensures (forall s :: s in Stages ==> !Mentions(SplitOn(stagesArg, ','), s)) <==> Main(stagesArg, rc) == RunResult(2, [])
  {
    var parts := SplitOn(stagesArg, ',');
    var requested := Requested(stagesArg);
    if requested != [] {
      KnownMembers(parts, requested[0]);
      var r := RunStages(Pick(Stages, requested), rc);
      assert requested[0] in Pick(Stages, requested);
      RunStagesOutcome(Pick(Stages, requested), rc);
    } else {
      forall s | s in Stages ensures !Mentions(parts, s) {
        KnownMembers(parts, s);
      }
    }
  }

  /** A run starts only requested stages, each once, in `STAGES` order. */
  lemma MainOrder(stagesArg: string, rc: string -> int)
    ensures var r := Main(stagesArg, rc);
      && NoDup(r.ran)
      && (forall s :: s in r.ran ==> s in Requested(stagesArg))
      && (forall i, j :: 0 <= i < j < |r.ran| ==> FirstIndex(Stages, r.ran[i]) < FirstIndex(Stages, r.ran[j]))
  {
    var requested := Requested(stagesArg);
    if requested != [] {
      var picked := Pick(Stages, requested);
      var r := RunStages(picked, rc);
      StagesDistinct();
      PickInOrder(Stages, requested);
      assert forall i :: 0 <= i < |r.ran| ==> r.ran[i] == picked[i];
    }
  }

  /** A run of a non-empty request returns 0 exactly when every requested
      stage returned 0, having run them all; otherwise it returns the code of
      the last stage it started, all earlier ones having returned 0. */
  lemma MainOutcome(stagesArg: string, rc: string -> int)
    requires Requested(stagesArg) != []
    ensures var r := Main(stagesArg, rc);
      var requested := Requested(stagesArg);
      && (r.code == 0 <==> forall s :: s in requested ==> rc(s) == 0)
      && (r.code == 0 ==> forall s :: s in requested ==> s in r.ran)
      && (r.code != 0 ==> r.ran != [] && r.code == rc(r.ran[|r.ran| - 1]))
      && (forall i :: 0 <= i < |r.ran| - 1 ==> rc(r.ran[i]) == 0)
  {
    var requested := Requested(stagesArg);
    var picked := Pick(Stages, requested);
    RunStagesOutcome(picked, rc);
    var r := RunStages(picked, rc);
    if forall s :: s in requested ==> rc(s) == 0 {
      forall i | 0 <= i < |picked| ensures rc(picked[i]) == 0 {
        assert picked[i] in picked;
      }
    }
    if r.code == 0 {
      forall s | s in requested ensures rc(s) == 0 && s in r.ran {
        var i :| 0 <= i < |picked| && picked[i] == s;
      }
    }
  }

  /** Only which stages are named matters: reordering or repeating names in
      `--stages` runs the same stages and returns the same status. */
  lemma RequestOrderIrrelevant(a: string, b: string, rc: string -> int)
    requires forall s :: s in Requested(a) <==> s in Requested(b)
    ensures Main(a, rc) == Main(b, rc)
  {
    PickByMembership(Stages, Requested(a), Requested(b));
    assert Requested(a) == [] <==> Requested(b) == [] by {
      if Requested(a) != [] {
        assert Requested(a)[0] in Requested(b);
      }
      if Requested(b) != [] {
        assert Requested(b)[0] in Requested(a);
      }
    }
  }
}

=== FILE: pypath.dfy ===
/** The `pathlib` operations the pipeline applies to file names. Paths are
    the absolute strings `Path.resolve()` produces, so they never end in a
    separator except for the root itself. */
module PyPath {
  import opened PyText

  /** The position just after the last `/`, or 0. */
  function NameStart(p: string): (i: nat)
    ensures i <= |p|
    ensures i > 0 ==> p[i - 1] == '/'
    ensures forall j :: i <= j < |p| ==> p[j] != '/'
    decreases |p|
  {
    if p == [] then 0
    else if p[|p| - 1] == '/' then |p|
    else NameStart(p[..|p| - 1])
  }

  /** `Path(p).name`: the final component. */
  function Name(p: string): (r: string)
    ensures '/' !in r
    ensures |r| <= |p| && r == p[|p| - |r|..]
  {
    var r := p[NameStart(p)..];
    assert forall j :: 0 <= j < |r| ==> r[j] == p[NameStart(p) + j];
    r
  }

  /** The last `.` of a name, as `str.rfind` gives it. */
  function LastDot(name: string): (i: int)
    ensures -1 <= i < |name|
    ensures i >= 0 ==> name[i] == '.'
    ensures forall j :: i < j < |name| ==> name[j] != '.'
    decreases |name|
  {
    if name == [] then -1
    else if name[|name| - 1] == '.' then |name| - 1
    else LastDot(name[..|name| - 1])
  }

  /** `Path(p).stem`: the name without its final suffix, where a suffix needs
      a dot that is neither the first nor the last character. */
  function Stem(p: string): (r: string)
    ensures StartsWith(Name(p), r)
    ensures r == Name(p) || (|r| > 0 && |r| < |Name(p)| - 1 && Name(p)[|r|] == '.')
  {
    var name := Name(p);
    var i := LastDot(name);
    if 0 < i < |name| - 1 then name[..i] else name
  }

  /** `directory / name` for a resolved directory. */
  function JoinPath(dir: string, name: string): (r: string)
    ensures StartsWith(r, dir)
    ensures '/' !in name && name != [] ==> Name(r) == name
  {
    var r := if dir != [] && dir[|dir| - 1] == '/' then dir + name else dir + "/" + name;
    assert '/' !in name && name != [] ==> NameStart(r) == |r| - |name| by {
      if '/' !in name && name != [] {
        NameStartOfJoin(r, |r| - |name|);
      }
    }
    r
  }

  lemma {:induction false} NameStartOfJoin(r: string, k: nat)
    requires 0 < k <= |r| && r[k - 1] == '/'
    requires forall j :: k <= j < |r| ==> r[j] != '/'
    ensures NameStart(r) == k
    decreases |r|
  {
    if |r| > k {
      NameStartOfJoin(r[..|r| - 1], k);
    }
  }
}

=== FILE: pytext.dfy ===
/** Python `str` operations the pipeline relies on, with the semantics of
    CPython 3: whitespace is what `str.isspace()` (and the `\s` class of `re`
    on str patterns) accepts, `strip()` removes it at both ends, `split()`
    with no argument splits on runs of it, `splitlines()` breaks on the
    universal line boundaries. Case mapping is modelled for ASCII letters. */
module PyText {

  /** `c.isspace()` in CPython: the ASCII controls TAB..CR, the separators
      0x1C..0x1F, space, NEL, NBSP and the Unicode space separators. */
  predicate IsSpace(c: char) {
    || c == ' '
    || ('\t' <= c <= '\r')
    || ('\U{1C}' <= c <= '\U{1F}')
    || c == '\U{85}' || c == '\U{A0}' || c == '\U{1680}'
    || ('\U{2000}' <= c <= '\U{200A}')
    || c == '\U{2028}' || c == '\U{2029}' || c == '\U{202F}'
    || c == '\U{205F}' || c == '\U{3000}'
  }

  /** `not s.strip()`: the string holds nothing but whitespace. */
  predicate IsBlank(s: string) {
    forall i :: 0 <= i < |s| ==> IsSpace(s[i])
  }

  lemma BlankConcat(a: string, b: string)
    ensures IsBlank(a + b) <==> IsBlank(a) && IsBlank(b)
  {
    if IsBlank(a + b) {
      assert forall i :: 0 <= i < |a| ==> a[i] == (a + b)[i];
      assert forall i :: 0 <= i < |b| ==> b[i] == (a + b)[|a| + i];
    }
  }

  /** No whitespace at either end: what `strip()` leaves behind. */
  predicate IsTrimmed(s: string) {
    s == [] || (!IsSpace(s[0]) && !IsSpace(s[|s| - 1]))
  }

  predicate InfixAt(needle: string, hay: string, i: nat) {
    i + |needle| <= |hay| && hay[i..i + |needle|] == needle
  }

  /** `needle in hay` on strings. */
  predicate Infix(needle: string, hay: string) {
    exists i: nat :: i <= |hay| && InfixAt(needle, hay, i)
  }

  /** `s.lstrip()` */
  function LStrip(s: string): (r: string)
    ensures |r| <= |s| && r == s[|s| - |r|..]
    ensures forall i :: 0 <= i < |s| - |r| ==> IsSpace(s[i])
    ensures r == [] || !IsSpace(r[0])
  {
    if s == [] || !IsSpace(s[0]) then s else LStrip(s[1..])
  }

  /** `s.rstrip()` */
  function RStrip(s: string): (r: string)
    ensures |r| <= |s| && r == s[..|r|]
    ensures forall i :: |r| <= i < |s| ==> IsSpace(s[i])
    ensures r == [] || !IsSpace(r[|r| - 1])
  {
    if s == [] || !IsSpace(s[|s| - 1]) then s else RStrip(s[..|s| - 1])
  }

  /** `s.strip()`: the result is empty exactly for blank input and otherwise
      starts and ends with a non-space character. */
  function Strip(s: string): (r: string)
    ensures IsTrimmed(r)
    ensures r == [] <==> IsBlank(s)
    ensures |r| <= |s|
  {
    var l := LStrip(s);
    var r := RStrip(l);
    assert r == [] ==> IsBlank(s) by {
      if r == [] {
        forall i | 0 <= i < |s| ensures IsSpace(s[i]) {
          if i >= |s| - |l| {
            assert s[i] == l[i - (|s| - |l|)];
          }
        }
      }
    }
    assert |r| > 0 ==> !IsSpace(r[0]) by {
      if |r| > 0 { assert r[0] == l[0]; }
    }
    r
  }

  lemma StripOfTrimmed(s: string)
    requires IsTrimmed(s)
    ensures Strip(s) == s
  {
  }

  lemma StripIdempotent(s: string)
    ensures Strip(Strip(s)) == Strip(s)
  {
    StripOfTrimmed(Strip(s));
  }

  /** Where `strip()` cut: the result is the slice `s[a..a + |Strip(s)|]`. */
  function StripStart(s: string): (a: nat)
    ensures a + |Strip(s)| <= |s| && Strip(s) == s[a..a + |Strip(s)|]
  {
    var l := LStrip(s);
    assert Strip(s) == l[..|Strip(s)|];
    |s| - |l|
  }

  /** ASCII upper/lower case, the part of `str.upper()` / `str.lower()`
      the status tokens and topic labels rely on. */
  function UpperChar(c: char): char {
    if 'a' <= c <= 'z' then (c as int - 32) as char else c
  }

  function LowerChar(c: char): char {
    if 'A' <= c <= 'Z' then (c as int + 32) as char else c
  }

  function Upper(s: string): (r: string)
    ensures |r| == |s|
    ensures forall i :: 0 <= i < |s| ==> r[i] == UpperChar(s[i])
  {
    seq(|s|, i requires 0 <= i < |s| => UpperChar(s[i]))
  }

  function Lower(s: string): (r: string)
    ensures |r| == |s|
    ensures forall i :: 0 <= i < |s| ==> r[i] == LowerChar(s[i])
  {
    seq(|s|, i requires 0 <= i < |s| => LowerChar(s[i]))
  }

  predicate StartsWith(s: string, prefix: string) {
    |prefix| <= |s| && s[..|prefix|] == prefix
  }

  /** `s[:n]` for a non-negative bound. */
  function Head(s: string, n: nat): (r: string)
    ensures |r| <= n && |r| <= |s|
    ensures r == s[..|r|]
    ensures |s| <= n ==> r == s
    ensures |s| > n ==> |r| == n
  {
    if |s| <= n then s else s[..n]
  }

  /** `s.find(c)`: the first position of `c`, or -1. */
  function Find(s: string, c: char): (r: int)
    ensures -1 <= r < |s|
    ensures r == -1 <==> c !in s
    ensures r >= 0 ==> s[r] == c && c !in s[..r]
  {
    if s == [] then -1
    else if s[0] == c then 0
    else
      var k := Find(s[1..], c);
      assert s[1..][..if k < 0 then 0 else k] == s[1..if k < 0 then 1 else k + 1];
      if k < 0 then -1 else k + 1
  }

  /** `s.split(c, 1)[0]` (equally `s.split(c)[0]`): the text before the
      first `c`, or all of `s`. */
  function Before(s: string, c: char): (r: string)
    ensures c !in r
    ensures StartsWith(s, r)
    ensures c !in s ==> r == s
    ensures c in s ==> |r| < |s| && s[|r|] == c
  {
    var i := Find(s, c);
    if i < 0 then s else s[..i]
  }

  /** `s.split(c, 1)[1]` when `c in s`: the text after the first `c`. */
  function After(s: string, c: char): (r: string)
    requires c in s
    ensures s == Before(s, c) + [c] + r
  {
    s[Find(s, c) + 1..]
  }

  /** `s.replace(pattern, replacement)`: every non-overlapping occurrence,
      scanning left to right. */
  function ReplaceAll(s: string, pattern: string, replacement: string): string
    requires pattern != []
    decreases |s|
  {
    if s == [] then []
    else if StartsWith(s, pattern) then replacement + ReplaceAll(s[|pattern|..], pattern, replacement)
    else [s[0]] + ReplaceAll(s[1..], pattern, replacement)
  }

  /** The longest prefix of `s` without whitespace. */
  function TakeWord(s: string): (w: string)
    ensures |w| <= |s| && w == s[..|w|]
    ensures forall i :: 0 <= i < |w| ==> !IsSpace(w[i])
    ensures |w| == |s| || IsSpace(s[|w|])
  {
    if s == [] || IsSpace(s[0]) then [] else [s[0]] + TakeWord(s[1..])
  }

  /** A non-empty run of non-whitespace characters. */
  predicate IsWord(w: string) {
    w != [] && forall i :: 0 <= i < |w| ==> !IsSpace(w[i])
  }

  /** `s.split()`: the maximal runs of non-whitespace, in order. */
  function Words(s: string): (ws: seq<string>)
    ensures forall w :: w in ws ==> IsWord(w)
    decreases |s|
  {
    var t := LStrip(s);
    if t == [] then []
    else
      var w := TakeWord(t);
      assert IsWord(w) by { assert !IsSpace(t[0]); }
      [w] + Words(t[|w|..])
  }

  /** An independent single-pass count of the positions where a word starts
      (a non-space character that follows whitespace or the beginning). */
  function WordStarts(s: string, afterSpace: bool): nat {
    if s == [] then 0
    else (if afterSpace && !IsSpace(s[0]) then 1 else 0) + WordStarts(s[1..], IsSpace(s[0]))
  }

  lemma {:induction false} WordStartsSkipsSpaces(s: string)
    ensures WordStarts(s, true) == WordStarts(LStrip(s), true)
    decreases |s|
  {
    if s != [] && IsSpace(s[0]) {
      WordStartsSkipsSpaces(s[1..]);
    }
  }

  lemma {:induction false} WordStartsInsideWord(w: string, rest: string)
    requires forall i :: 0 <= i < |w| ==> !IsSpace(w[i])
    requires rest == [] || IsSpace(rest[0])
    ensures WordStarts(w + rest, false) == WordStarts(rest, true)
    decreases |w|
  {
    if w == [] {
      assert w + rest == rest;
      if rest != [] {
        assert WordStarts(rest, false) == WordStarts(rest[1..], true);
        assert WordStarts(rest, true) == WordStarts(rest[1..], true);
      }
    } else {
      assert (w + rest)[1..] == w[1..] + rest;
      WordStartsInsideWord(w[1..], rest);
    }
  }

  /** One step of `split()`: the first word, then the words of what follows it. */
  lemma WordsStep(s: string)
    requires LStrip(s) != []
    ensures |Words(s)| == 1 + |Words(LStrip(s)[|TakeWord(LStrip(s))|..])|
  {
  }

  /** `len(text.split())` counts exactly the word starts. */
  lemma {:induction false} WordsCountsWordStarts(s: string)
    ensures |Words(s)| == WordStarts(s, true)
    decreases |s|
  {
    WordStartsSkipsSpaces(s);
    var t := LStrip(s);
    if t != [] {
      WordStartsFirstWord(t);
      WordsStep(s);
      WordsCountsWordStarts(t[|TakeWord(t)|..]);
    }
  }

  /** A stripped text starts one word, which ends where its first word does. */
  lemma WordStartsFirstWord(t: string)
    requires t != [] && !IsSpace(t[0])
    ensures WordStarts(t, true) == 1 + WordStarts(t[|TakeWord(t)|..], true)
  {
    var w := TakeWord(t);
    var rest := t[|w|..];
    assert WordStarts(t, true) == 1 + WordStarts(t[1..], false);
    assert t[1..] == w[1..] + rest;
    WordStartsInsideWord(w[1..], rest);
  }

  /** The universal line boundaries of `str.splitlines()`. */
  predicate IsLineBreak(c: char) {
    || ('\n' <= c <= '\r')
    || ('\U{1C}' <= c <= '\U{1E}')
    || c == '\U{85}' || c == '\U{2028}' || c == '\U{2029}'
  }

  function FirstBreak(s: string): (i: nat)
    ensures i <= |s|
    ensures forall j :: 0 <= j < i ==> !IsLineBreak(s[j])
    ensures i < |s| ==> IsLineBreak(s[i])
  {
    if s == [] || IsLineBreak(s[0]) then 0 else 1 + FirstBreak(s[1..])
  }

  /** `s.splitlines()`: lines without their terminators; "\r\n" is one
      boundary and a final terminator does not open an empty line. */
  function SplitLines(s: string): (lines: seq<string>)
    ensures forall k :: 0 <= k < |lines| ==> forall j :: 0 <= j < |lines[k]| ==> !IsLineBreak(lines[k][j])
    ensures s == [] <==> lines == []
    decreases |s|
  {
    if s == [] then []
    else
      var i := FirstBreak(s);
      if i == |s| then [s]
      else
        var width := if s[i] == '\r' && i + 1 < |s| && s[i + 1] == '\n' then 2 else 1;
        [s[..i]] + SplitLines(s[i + width..])
  }

  function DigitChar(d: int): char
    requires 0 <= d < 10
  {
    "0123456789"[d]
  }

  function NatToString(n: nat): (r: string)
    ensures r != []
    decreases n
  {
    if n < 10 then [DigitChar(n)] else NatToString(n / 10) + [DigitChar(n % 10)]
  }

  /** `str(n)` for a Python int. */
  function IntToString(n: int): string {
    if n < 0 then "-" + NatToString(-n) else NatToString(n)
  }

  function Join(sep: string, parts: seq<string>): string {
    if parts == [] then ""
    else if |parts| == 1 then parts[0]
    else parts[0] + sep + Join(sep, parts[1..])
  }

  /** `re.sub(r"\s+", " ", s)`: every maximal run of whitespace becomes a
      single space; `inRun` says the character before `s` was whitespace. */
  function CollapseRuns(s: string, inRun: bool): string
    decreases |s|
  {
    if s == [] then []
    else if IsSpace(s[0]) then (if inRun then [] else " ") + CollapseRuns(s[1..], true)
    else [s[0]] + CollapseRuns(s[1..], false)
  }

  function CollapseWs(s: string): string {
    CollapseRuns(s, false)
  }

  /** Whitespace occurs only as single spaces, never two in a row. */
  predicate SingleSpaced(t: string) {
    forall i :: 0 <= i < |t| && IsSpace(t[i]) ==> t[i] == ' ' && (i + 1 == |t| || !IsSpace(t[i + 1]))
  }

  /** Collapsing leaves single spaces only, never starts with a space
      inside a run, and keeps a string blank exactly when it was. */
  lemma {:induction false} CollapseRunsShape(s: string, inRun: bool)
    ensures var r := CollapseRuns(s, inRun);
      && SingleSpaced(r)
      && (inRun ==> r == [] || !IsSpace(r[0]))
      && (IsBlank(r) <==> IsBlank(s))
    decreases |s|
  {
    if s != [] {
      var r := CollapseRuns(s, inRun);
      var rest := CollapseRuns(s[1..], IsSpace(s[0]));
      CollapseRunsShape(s[1..], IsSpace(s[0]));
      var head: string := if IsSpace(s[0]) then (if inRun then [] else " ") else [s[0]];
      assert r == head + rest;
      forall i | 0 <= i < |r| && IsSpace(r[i])
        ensures r[i] == ' ' && (i + 1 == |r| || !IsSpace(r[i + 1]))
      {
        if i >= |head| {
          assert r[i] == rest[i - |head|];
          if i + 1 < |r| { assert r[i + 1] == rest[i + 1 - |head|]; }
        } else if i + 1 < |r| {
          assert r[i + 1] == rest[0];
        }
      }
      if !IsSpace(s[0]) {
        assert r[0] == s[0];
      } else {
        assert IsBlank(s) <==> IsBlank(s[1..]) by {
          if IsBlank(s[1..]) {
            forall i | 0 <= i < |s| ensures IsSpace(s[i]) {
              if i > 0 { assert s[i] == s[1..][i - 1]; }
            }
          }
        }
        assert IsBlank(r) <==> IsBlank(rest) by {
          if IsBlank(rest) {
            assert r == head;
          }
          if IsBlank(r) {
            forall i | 0 <= i < |rest| ensures IsSpace(rest[i]) {
              assert rest[i] == r[i + |head|];
            }
          }
        }
      }
    }
  }

  lemma SingleSpacedSlice(t: string, a: nat, b: nat)
    requires SingleSpaced(t) && a <= b <= |t|
    ensures SingleSpaced(t[a..b])
  {
    var u := t[a..b];
    forall i | 0 <= i < |u| && IsSpace(u[i]) ensures u[i] == ' ' && (i + 1 == |u| || !IsSpace(u[i + 1])) {
      assert u[i] == t[a + i];
      if i + 1 < |u| { assert u[i + 1] == t[a + i + 1]; }
    }
  }

  /** `re.sub(r"\s+", " ", s).strip()`: the text with its whitespace
      normalised to single spaces between words. */
  function Clean(s: string): string {
    Strip(CollapseWs(s))
  }

  /** A cleaned text is trimmed and single-spaced, and empty exactly when
      the input was blank. */
  lemma CleanShape(s: string)
    ensures var r := Clean(s); IsTrimmed(r) && SingleSpaced(r) && (r == [] <==> IsBlank(s))
  {
    var c := CollapseWs(s);
    CollapseRunsShape(s, false);
    var a := StripStart(c);
    SingleSpacedSlice(c, a, a + |Strip(c)|);
  }

  /** A trimmed, single-spaced string is its own collapse. */
  lemma {:induction false} CollapseRunsOfSingleSpaced(t: string, inRun: bool)
    requires SingleSpaced(t)
    requires inRun ==> t == [] || !IsSpace(t[0])
    ensures CollapseRuns(t, inRun) == t
    decreases |t|
  {
    if t != [] {
      SingleSpacedSlice(t, 1, |t|);
      CollapseRunsOfSingleSpaced(t[1..], IsSpace(t[0]));
      assert t == [t[0]] + t[1..];
    }
  }

  /** Cleaning is idempotent. */
  lemma CleanIdempotent(s: string)
    ensures Clean(Clean(s)) == Clean(s)
  {
    var c := Clean(s);
    CleanShape(s);
    CollapseRunsOfSingleSpaced(c, false);
    StripOfTrimmed(c);
  }

  /** `s` begins in the middle of a word: its first character is not whitespace. */
  predicate StartsWord(s: string) {
    s != [] && !IsSpace(s[0])
  }

  /** The two ways of cutting a string into its first character and the
      rest, and its last character and the rest. */
  lemma ConsSplit(s: string)
    requires s != []
    ensures s == [s[0]] + s[1..]
    ensures s == s[..|s| - 1] + [s[|s| - 1]]
  {
  }

  lemma ConsSnocSplit(t: string, c: char)
    requires t != []
    ensures t + [c] == [t[0]] + (t[1..] + [c])
  {
  }

  /** A leading space is dropped by `split()`. */
  lemma WordsSpaceCons(c: char, t: string)
    requires IsSpace(c)
    ensures Words([c] + t) == Words(t)
  {
    assert ([c] + t)[1..] == t;
  }

  /** `split()` of a text beginning inside a word: that word, then the rest. */
  lemma WordsOfWordStart(s: string)
    requires StartsWord(s)
    ensures var w := TakeWord(s); Words(s) == [w] + Words(s[|w|..])
  {
    assert LStrip(s) == s;
  }

  lemma TakeWordCons(c: char, t: string)
    requires !IsSpace(c)
    ensures TakeWord([c] + t) == [c] + TakeWord(t)
  {
    assert ([c] + t)[1..] == t;
  }

  /** A non-space character in front of `t` starts a new word when `t` does
      not begin with one, and otherwise lengthens `t`'s first word. */
  lemma WordsCharCons(c: char, t: string)
    requires !IsSpace(c)
    ensures !StartsWord(t) ==> Words([c] + t) == [[c]] + Words(t)
    ensures StartsWord(t) ==> Words(t) != [] && Words([c] + t) == [[c] + Words(t)[0]] + Words(t)[1..]
  {
    var s := [c] + t;
    var w := TakeWord(t);
    WordsOfWordStart(s);
    TakeWordCons(c, t);
    assert s[|[c] + w|..] == t[|w|..];
    if StartsWord(t) {
      WordsOfWordStart(t);
    } else {
      assert w == [];
      assert t[|w|..] == t;
    }
  }

  /** `split()` of `[c] + t` depends only on `split()` of `t` and on whether
      `t` begins inside a word. */
  lemma WordsCongruence(c: char, x: string, y: string)
    requires Words(x) == Words(y) && StartsWord(x) == StartsWord(y)
    ensures Words([c] + x) == Words([c] + y)
  {
    if IsSpace(c) {
      WordsSpaceCons(c, x);
      WordsSpaceCons(c, y);
    } else {
      WordsCharCons(c, x);
      WordsCharCons(c, y);
    }
  }

  /** A whitespace character in front: the collapse writes at most one space,
      and `split()` ignores it either way. */
  lemma CollapseSpaceStep(s: string, inRun: bool)
    requires s != [] && IsSpace(s[0])
    requires Words(CollapseRuns(s[1..], true)) == Words(s[1..])
    ensures Words(CollapseRuns(s, inRun)) == Words(s)
    ensures !inRun ==> StartsWord(CollapseRuns(s, inRun)) == StartsWord(s)
  {
    var rest := CollapseRuns(s[1..], true);
    ConsSplit(s);
    WordsSpaceCons(s[0], s[1..]);
    assert Words(s) == Words(s[1..]);
    if inRun {
      assert CollapseRuns(s, inRun) == rest;
    } else {
      assert CollapseRuns(s, inRun) == [' '] + rest;
      WordsSpaceCons(' ', rest);
    }
  }

  /** A non-space character in front is copied, so the words stay the same
      when they did for the rest. */
  lemma CollapseCharStep(s: string, inRun: bool)
    requires s != [] && !IsSpace(s[0])
    requires Words(CollapseRuns(s[1..], false)) == Words(s[1..])
    requires StartsWord(CollapseRuns(s[1..], false)) == StartsWord(s[1..])
    ensures Words(CollapseRuns(s, inRun)) == Words(s)
    ensures StartsWord(CollapseRuns(s, inRun)) == StartsWord(s)
  {
    var rest := CollapseRuns(s[1..], false);
    ConsSplit(s);
    assert CollapseRuns(s, inRun) == [s[0]] + rest;
    WordsCongruence(s[0], rest, s[1..]);
    assert Words(s) == Words([s[0]] + s[1..]);
  }

  /** Collapsing whitespace runs keeps the words, and outside a run it keeps
      whether the text begins inside a word. */
  lemma {:induction false} CollapseRunsWords(s: string, inRun: bool)
    ensures Words(CollapseRuns(s, inRun)) == Words(s)
    ensures !inRun ==> StartsWord(CollapseRuns(s, inRun)) == StartsWord(s)
    decreases |s|
  {
    if s != [] {
      CollapseRunsWords(s[1..], IsSpace(s[0]));
      if IsSpace(s[0]) {
        CollapseSpaceStep(s, inRun);
      } else {
        CollapseCharStep(s, inRun);
      }
    }
  }

  /** One character in front of both sides keeps a trailing space invisible. */
  lemma WordsSpaceSnocStep(t: string, c: char)
    requires t != [] && IsSpace(c)
    requires Words(t[1..] + [c]) == Words(t[1..]) && StartsWord(t[1..] + [c]) == StartsWord(t[1..])
    ensures Words(t + [c]) == Words(t) && StartsWord(t + [c]) == StartsWord(t)
  {
    var u := t[1..];
    ConsSnocSplit(t, c);
    ConsSplit(t);
    WordsCongruence(t[0], u + [c], u);
    assert Words(t + [c]) == Words([t[0]] + (u + [c]));
    assert Words(t) == Words([t[0]] + u);
    assert (t + [c])[0] == t[0];
  }

  /** A trailing space is dropped by `split()`. */
  lemma {:induction false} WordsSpaceSnoc(t: string, c: char)
    requires IsSpace(c)
    ensures Words(t + [c]) == Words(t)
    ensures StartsWord(t + [c]) == StartsWord(t)
    decreases |t|
  {
    if t == [] {
      WordsSpaceCons(c, []);
      assert t + [c] == [c] + [];
    } else {
      WordsSpaceSnoc(t[1..], c);
      WordsSpaceSnocStep(t, c);
    }
  }

  lemma {:induction false} RStripWords(s: string)
    ensures Words(RStrip(s)) == Words(s)
    decreases |s|
  {
    if s != [] && IsSpace(s[|s| - 1]) {
      var init := s[..|s| - 1];
      RStripWords(init);
      ConsSplit(s);
      WordsSpaceSnoc(init, s[|s| - 1]);
    }
  }

  lemma LStripWords(s: string)
    ensures Words(LStrip(s)) == Words(s)
  {
    var t := LStrip(s);
    assert LStrip(t) == t;
  }

  /** `s.strip().split() == s.split()` */
  lemma StripKeepsWords(s: string)
    ensures Words(Strip(s)) == Words(s)
  {
    LStripWords(s);
    RStripWords(LStrip(s));
  }

  /** Cleaning changes only the whitespace: the words of the cleaned text
      are the words of the input, in order. */
  lemma CleanKeepsWords(s: string)
    ensures Words(Clean(s)) == Words(s)
  {
    CollapseRunsWords(s, false);
    StripKeepsWords(CollapseWs(s));
  }

  /** Cutting `a + [c] + b` at its first `c` gives back `a` and `b` when `a`
      holds no `c`. */
  lemma BeforeAfterJoin(a: string, b: string, c: char)
    requires c !in a
    ensures var s := a + [c] + b; c in s && Before(s, c) == a && After(s, c) == b
  {
    var s := a + [c] + b;
    assert s[|a|] == c;
    var i := Find(s, c);
    assert i == |a|;
    assert s[..i] == a;
    assert s == a + [c] + After(s, c);
    assert After(s, c) == s[|a| + 1..];
  }

  /** `s.split(c)` for a one-character separator. */
  function SplitOn(s: string, c: char): (parts: seq<string>)
    ensures parts != []
    ensures forall k :: 0 <= k < |parts| ==> c !in parts[k]
    decreases |s|
  {
    if c !in s then [s]
    else
      var rest := SplitOn(After(s, c), c);
      assert forall k :: 0 < k < |rest| + 1 ==> ([Before(s, c)] + rest)[k] == rest[k - 1];
      [Before(s, c)] + rest
  }

  /** `sep.join(parts).split(sep)` gives the parts back when none of them
      contains the separator. */
  lemma {:induction false} SplitOnJoin(parts: seq<string>, c: char)
    requires parts != []
    requires forall k :: 0 <= k < |parts| ==> c !in parts[k]
    ensures SplitOn(Join([c], parts), c) == parts
    decreases |parts|
  {
    if |parts| > 1 {
      var rest := parts[1..];
      assert forall k :: 0 <= k < |rest| ==> rest[k] == parts[k + 1];
      SplitOnJoin(rest, c);
      var tail := Join([c], rest);
      var s := Join([c], parts);
      assert s == parts[0] + [c] + tail;
      BeforeAfterJoin(parts[0], tail, c);
      assert SplitOn(s, c) == [Before(s, c)] + SplitOn(After(s, c), c);
      assert SplitOn(s, c) == [parts[0]] + rest;
      assert parts == [parts[0]] + rest;
    }
  }
}

=== FILE: reduce4ai.dfy ===
/** `reduce4ai.py`: a capture JSON reduced to the compact "AI envelope" the
    AI stage reads. Every signal is looked up along several candidate paths
    and the first non-blank one wins; the extracted text is kept whole and
    identified by its SHA-256. URL parsing (`urlparse`, `parse_qsl`,
    `urlencode`) is a parameter: `clean` is `clean_url` on a non-empty
    stripped URL and `netloc` is `urlparse(u).netloc`, `None` when it raises. */
module Reduce4AI {
  import opened Wrappers
  import opened PyText
  import opened JsonValue
  import opened Dedupe
  import opened PyPath
  import opened Fingerprint
  import AiQueue

  /** `safe_str`: strings stripped, `None` as "", anything else through `str`
      and stripped. */
  function SafeStr(v: Json): (r: string)
    ensures IsTrimmed(r)
  {
    if v.JNull? then ""
    else if v.JStr? then Strip(v.s)
    else StrStripped(v)
  }

  /** `str(v).strip()` */
  function StrStripped(v: Json): (r: string)
    ensures IsTrimmed(r)
  {
    Strip(Str(v))
  }

  /** Only `None` and blank strings read as empty. */
  lemma SafeStrEmpty(v: Json)
    ensures SafeStr(v) == [] <==> v.JNull? || (v.JStr? && IsBlank(v.s))
  {
    if !v.JNull? && !v.JStr? {
      ReprStartsSolid(v);
      assert !IsBlank(Str(v)) by { assert !IsSpace(Str(v)[0]); }
    }
  }

  /** `repr` of a non-string value starts with a letter, a digit, `-`, `[`
      or `{`. */
  lemma ReprStartsSolid(v: Json)
    requires !v.JNull? && !v.JStr?
    ensures Str(v) != [] && !IsSpace(Str(v)[0])
  {
    if v.JNum? {
      NatLeadsWithDigit(if v.n < 0 then -v.n else v.n);
    }
  }

  lemma {:induction false} NatLeadsWithDigit(n: nat)
    ensures '0' <= NatToString(n)[0] <= '9'
    decreases n
  {
    if n >= 10 {
      NatLeadsWithDigit(n / 10);
      assert NatToString(n)[0] == NatToString(n / 10)[0];
    }
  }

  /** `text.split()` counted: `word_count`. */
  function WordCount(text: string): nat {
    |Words(text)|
  }

  /** Stripped text is empty exactly when it has no word. */
  lemma WordCountOfTrimmed(text: string)
    requires IsTrimmed(text)
    ensures WordCount(text) == 0 <==> text == []
  {
    if text != [] {
      assert LStrip(text) == text;
    }
  }

  // ---------------------------------------------------------------------
  // get_nested / first_nonempty

  /** `get_nested` on a path already split at `.`: `None` as soon as a
      segment is missing or the value reached is not a dict. */
  function GetNested(d: Json, parts: seq<string>): Json
    decreases |parts|
  {
    if parts == [] then d
    else if Contains(d, parts[0]) then GetNested(GetField(d.fields, parts[0]), parts[1..])
    else JNull
  }

  /** Walking `p + q` is walking `p` and then `q` from wherever `p` ended;
      a walk that stopped early stays stopped. */
  lemma {:induction false} GetNestedConcat(d: Json, p: seq<string>, q: seq<string>)
    ensures GetNested(d, p + q) == GetNested(GetNested(d, p), q)
    decreases |p|
  {
    if p == [] {
      assert p + q == q;
    } else {
      assert (p + q)[0] == p[0];
      if Contains(d, p[0]) {
        assert (p + q)[1..] == p[1..] + q;
        GetNestedConcat(GetField(d.fields, p[0]), p[1..], q);
      }
    }
  }

  /** A segment missing from (or a non-dict at) some point of the walk makes
      the whole path read as `None`. */
  lemma GetNestedMissing(d: Json, parts: seq<string>, i: nat)
    requires i < |parts|
    requires !Contains(GetNested(d, parts[..i]), parts[i])
    ensures GetNested(d, parts) == JNull
  {
    assert parts == parts[..i] + parts[i..];
    GetNestedConcat(d, parts[..i], parts[i..]);
  }

  /** Read from the end: a path is the value stored under its last segment
      in the dict its prefix reaches, and `None` when that is not there. */
  lemma GetNestedLast(d: Json, parts: seq<string>)
    requires parts != []
    ensures var cur := GetNested(d, parts[..|parts| - 1]);
      var k := parts[|parts| - 1];
      GetNested(d, parts) == (if Contains(cur, k) then GetField(cur.fields, k) else JNull)
  {
    var n := |parts| - 1;
    assert parts == parts[..n] + [parts[n]];
    GetNestedConcat(d, parts[..n], [parts[n]]);
    assert [parts[n]][1..] == [];
  }

  /** `first_nonempty(*vals)` */
  function FirstNonempty(vals: seq<Json>): (r: string)
    ensures IsTrimmed(r)
    decreases |vals|
  {
    if vals == [] then ""
    else if SafeStr(vals[0]) != "" then SafeStr(vals[0])
    else FirstNonempty(vals[1..])
  }

  /** Nothing is found exactly when every value reads as empty. */
  lemma {:induction false} FirstNonemptyEmpty(vals: seq<Json>)
    ensures FirstNonempty(vals) == [] <==> forall i :: 0 <= i < |vals| ==> SafeStr(vals[i]) == []
    decreases |vals|
  {
    if vals != [] {
      FirstNonemptyEmpty(vals[1..]);
      assert forall i :: 1 <= i < |vals| ==> vals[i] == vals[1..][i - 1];
    }
  }

  /** The value chosen is the first whose `safe_str` is non-empty. */
  lemma {:induction false} FirstNonemptyAt(vals: seq<Json>, i: nat)
    requires i < |vals| && SafeStr(vals[i]) != []
    requires forall j :: 0 <= j < i ==> SafeStr(vals[j]) == []
    ensures FirstNonempty(vals) == SafeStr(vals[i])
    decreases i
  {
    if i > 0 {
      assert SafeStr(vals[0]) == [];
      EmptyPrefixShift(vals, i);
      assert vals[1..][i - 1] == vals[i];
      FirstNonemptyAt(vals[1..], i - 1);
    }
  }

  lemma EmptyPrefixShift(vals: seq<Json>, i: nat)
    requires 0 < i <= |vals|
    requires forall j :: 0 <= j < i ==> SafeStr(vals[j]) == []
    ensures forall j :: 0 <= j < i - 1 ==> SafeStr(vals[1..][j]) == []
  {
    forall j | 0 <= j < i - 1 ensures SafeStr(vals[1..][j]) == [] {
      assert vals[1..][j] == vals[j + 1];
    }
  }

  /** Appending fallbacks only matters when every earlier value is empty. */
  lemma {:induction false} FirstNonemptyConcat(a: seq<Json>, b: seq<Json>)
    ensures FirstNonempty(a + b) == (if FirstNonempty(a) != [] then FirstNonempty(a) else FirstNonempty(b))
    decreases |a|
  {
    if a == [] {
      assert a + b == b;
    } else {
      assert (a + b)[0] == a[0];
      if SafeStr(a[0]) == [] {
        assert (a + b)[1..] == a[1..] + b;
        FirstNonemptyConcat(a[1..], b);
      }
    }
  }

  /** A stripped string offered as a fallback is taken as it is. */
  lemma SafeStrOfTrimmed(s: string)
    requires IsTrimmed(s)
    ensures SafeStr(JStr(s)) == s
  {
    StripOfTrimmed(s);
  }

  // ---------------------------------------------------------------------
  // extract_signals

  datatype Signals = Signals(
    originalUrl: string,
    finalUrl: string,
    canonicalHint: string,
    title: string,
    description: string,
    siteName: string,
    publishedAtHint: string,
    authorHint: string,
    extractedText: string,
    fetchMethod: string)

  /** The values found along each path, in order. The dotted paths of the
      source (`"page.meta.og:title"`) are written already split at their dots. */
  function Candidates(capture: Json, paths: seq<seq<string>>): (vs: seq<Json>)
    ensures |vs| == |paths|
    ensures forall i :: 0 <= i < |paths| ==> vs[i] == GetNested(capture, paths[i])
  {
    seq(|paths|, i requires 0 <= i < |paths| => GetNested(capture, paths[i]))
  }

  const OriginalPaths: seq<seq<string>> := [["url", "original"], ["urls", "original"], ["payload", "url", "original"]]
  const FinalPaths: seq<seq<string>> := [["url", "final"], ["urls", "final"], ["fetch", "final_url"], ["page", "url"]]
  const CanonicalPaths: seq<seq<string>> :=
    [["url", "canonical"], ["urls", "canonical"], ["page", "canonical_url"],
     ["page", "meta", "canonical"], ["page", "meta", "og:url"]]
  const TitlePaths: seq<seq<string>> :=
    [["page", "title"], ["page", "meta", "og:title"], ["page", "meta", "twitter:title"], ["title"]]
  const DescriptionPaths: seq<seq<string>> :=
    [["page", "description"], ["page", "meta", "og:description"], ["page", "meta", "description"], ["description"]]
  const SiteNamePaths: seq<seq<string>> := [["page", "site_name"], ["page", "meta", "og:site_name"], ["site", "name"]]
  const PublishedPaths: seq<seq<string>> :=
    [["page", "published_at"], ["page", "meta", "article:published_time"], ["page", "meta", "og:published_time"],
     ["page", "meta", "parsely-pub-date"], ["published_at"]]
  const AuthorPaths: seq<seq<string>> :=
    [["page", "byline"], ["page", "author"], ["page", "meta", "author"], ["page", "meta", "article:author"], ["author"]]
  const TextPaths: seq<seq<string>> :=
    [["content", "text"], ["content", "extracted_text"], ["extracted_text"], ["payload", "extracted_text"]]
  const MethodPaths: seq<seq<string>> := [["fetch", "method"], ["payload", "fetch", "method"], ["method"]]

  /** String values offered as fallbacks. */
  function Strs(xs: seq<string>): (vs: seq<Json>)
    ensures |vs| == |xs| && forall i :: 0 <= i < |xs| ==> vs[i] == JStr(xs[i])
  {
    seq(|xs|, i requires 0 <= i < |xs| => JStr(xs[i]))
  }

  /** `first_nonempty` over the values at `paths`, then `extras`. */
  function Signal(capture: Json, paths: seq<seq<string>>, extras: seq<string>): string {
    FirstNonempty(Candidates(capture, paths) + Strs(extras))
  }

  /** A signal is its own paths' first non-blank value, else the first
      non-blank fallback. */
  lemma SignalSplit(capture: Json, paths: seq<seq<string>>, extras: seq<string>)
    ensures var own := FirstNonempty(Candidates(capture, paths));
      Signal(capture, paths, extras) == (if own != [] then own else FirstNonempty(Strs(extras)))
  {
    FirstNonemptyConcat(Candidates(capture, paths), Strs(extras));
  }

  /** The first non-blank value along `paths`, stripped, or "". */
  function PlainSignal(capture: Json, paths: seq<seq<string>>): (r: string)
    ensures r == FirstNonempty(Candidates(capture, paths))
  {
    var r := Signal(capture, paths, []);
    assert Candidates(capture, paths) + Strs([]) == Candidates(capture, paths);
    SafeStrOfTrimmed(r);
    SafeStr(JStr(r))
  }

  /** `safe_str` applied once more to a signal: it is already stripped. */
  function Restrip(s: string): (r: string)
    ensures IsTrimmed(s) ==> r == s
  {
    assert IsTrimmed(s) ==> SafeStr(JStr(s)) == s by {
      if IsTrimmed(s) { SafeStrOfTrimmed(s); }
    }
    SafeStr(JStr(s))
  }

  lemma FallbackOne(a: string)
    requires IsTrimmed(a)
    ensures FirstNonempty(Strs([a])) == a
  {
    var vs := Strs([a]);
    assert vs == [JStr(a)];
    SafeStrOfTrimmed(a);
    assert vs[1..] == [];
    assert FirstNonempty(vs[1..]) == [];
  }

  lemma FallbackTwo(a: string, b: string)
    requires IsTrimmed(a) && IsTrimmed(b)
    requires a == [] ==> b == []
    ensures FirstNonempty(Strs([a, b])) == a
  {
    var vs := Strs([a, b]);
    assert vs == [JStr(a), JStr(b)];
    SafeStrOfTrimmed(a);
    if a == [] {
      assert vs[1..] == Strs([b]);
      FallbackOne(b);
    }
  }

  datatype Urls = Urls(original: string, final: string, canonical: string)

  /** The three URL signals of `extract_signals`, read along the path lists
      `op`, `fp` and `cp`: the final URL is the first non-blank final-URL
      path or else the original URL, and the canonical hint is the first
      non-blank canonical path or else the final URL; so an empty canonical
      hint means no URL was found at all. */
  function UrlChain(capture: Json, op: seq<seq<string>>, fp: seq<seq<string>>, cp: seq<seq<string>>): (u: Urls)
    ensures u.original == FirstNonempty(Candidates(capture, op))
    ensures var own := FirstNonempty(Candidates(capture, fp));
      u.final == (if own != [] then own else u.original)
    ensures var own := FirstNonempty(Candidates(capture, cp));
      u.canonical == (if own != [] then own else u.final)
    ensures u.canonical == [] ==> u.final == [] && u.original == []
  {
    var original := PlainSignal(capture, op);
    var final := FinalSignal(capture, fp, original);
    var canonical := CanonicalSignal(capture, cp, final, original);
    assert Restrip(original) == original && Restrip(final) == final && Restrip(canonical) == canonical;
    Urls(Restrip(original), Restrip(final), Restrip(canonical))
  }

  /** The final URL: its own paths, then the original URL. */
  function FinalSignal(capture: Json, fp: seq<seq<string>>, original: string): (r: string)
    requires IsTrimmed(original)
    ensures var own := FirstNonempty(Candidates(capture, fp));
      r == (if own != [] then own else original)
    ensures IsTrimmed(r)
  {
    SignalSplit(capture, fp, [original]);
    FallbackOne(original);
    Signal(capture, fp, [original])
  }

  /** The canonical hint: its own paths, then the final URL, then the
      original URL. */
  function CanonicalSignal(capture: Json, cp: seq<seq<string>>, final: string, original: string): (r: string)
    requires IsTrimmed(final) && IsTrimmed(original)
    requires final == [] ==> original == []
    ensures var own := FirstNonempty(Candidates(capture, cp));
      r == (if own != [] then own else final)
    ensures IsTrimmed(r)
  {
    SignalSplit(capture, cp, [final, original]);
    FallbackTwo(final, original);
    Signal(capture, cp, [final, original])
  }

  function UrlSignals(capture: Json): Urls {
    UrlChain(capture, OriginalPaths, FinalPaths, CanonicalPaths)
  }

  /** `extract_signals`: every signal is the first non-blank value along its
      paths, stripped; the URLs fall back on each other as `UrlSignals` says. */
  function ExtractSignals(capture: Json): (sig: Signals)
    ensures var u := UrlSignals(capture);
      sig.originalUrl == u.original && sig.finalUrl == u.final && sig.canonicalHint == u.canonical
    ensures sig.title == FirstNonempty(Candidates(capture, TitlePaths))
    ensures sig.extractedText == FirstNonempty(Candidates(capture, TextPaths))
    ensures sig.fetchMethod == FirstNonempty(Candidates(capture, MethodPaths))
  {
    var u := UrlSignals(capture);
    Signals(u.original, u.final, u.canonical,
      PlainSignal(capture, TitlePaths),
      PlainSignal(capture, DescriptionPaths),
      PlainSignal(capture, SiteNamePaths),
      PlainSignal(capture, PublishedPaths),
      PlainSignal(capture, AuthorPaths),
      PlainSignal(capture, TextPaths),
      PlainSignal(capture, MethodPaths))
  }

  // ---------------------------------------------------------------------
  // domain_of, unique_strings, the meta whitelist

  /** No upper-case ASCII letter. */
  predicate NoUpper(s: string) {
    forall i :: 0 <= i < |s| ==> !('A' <= s[i] <= 'Z')
  }

  /** The host steps of `domain_of` on a netloc: lower-case it, drop
      everything up to the first `@`, then everything from the first `:`. */
  function HostOf(netloc: string): (r: string)
    ensures ':' !in r
    ensures NoUpper(r)
  {
    var noUser := DropUser(Lower(netloc));
    NoUpperPrefix(noUser, Before(noUser, ':'));
    Before(noUser, ':')
  }

  /** What follows the first `@` of a lower-cased netloc, or all of it when
      there is none. */
  function DropUser(host: string): (r: string)
    requires NoUpper(host)
    ensures NoUpper(r)
  {
    if '@' in host then
      var r := After(host, '@');
      assert forall i :: 0 <= i < |r| ==> r[i] == host[|host| - |r| + i];
      r
    else host
  }

  lemma NoUpperPrefix(s: string, p: string)
    requires NoUpper(s) && StartsWith(s, p)
    ensures NoUpper(p)
  {
    assert forall i :: 0 <= i < |p| ==> p[i] == s[i];
  }

  /** `domain_of(url)`; a URL `urlparse` rejects gives "". */
  function DomainOf(url: string, netloc: string -> Option<string>): (r: string)
    ensures netloc(url).None? ==> r == []
    ensures netloc(url).Some? ==> r == HostOf(netloc(url).value)
  {
    match netloc(url)
    case None => ""
    case Some(n) => HostOf(n)
  }

  lemma LowerConcat(a: string, b: string)
    ensures Lower(a + b) == Lower(a) + Lower(b)
  {
  }

  lemma LowerKeeps(s: string, c: char)
    requires !('A' <= c <= 'Z') && !('a' <= c <= 'z')
    ensures c in Lower(s) <==> c in s
  {
    if c in s {
      var i :| 0 <= i < |s| && s[i] == c;
      assert Lower(s)[i] == c;
    }
    if c in Lower(s) {
      var i :| 0 <= i < |s| && Lower(s)[i] == c;
      assert s[i] == c;
    }
  }

  /** Cutting a lower-cased `host[:port]` at its first `:` leaves the
      lower-cased host. */
  lemma HostBeforePort(host: string, port: string)
    requires ':' !in host
    requires port == [] || port[0] == ':'
    ensures Before(Lower(host + port), ':') == Lower(host)
  {
    LowerConcat(host, port);
    LowerKeeps(host, ':');
    if port == [] {
      assert host + port == host;
    } else {
      assert Lower(port)[0] == ':';
      BeforeColon(Lower(host), Lower(port));
    }
  }

  lemma BeforeColon(a: string, b: string)
    requires ':' !in a && b != [] && b[0] == ':'
    ensures Before(a + b, ':') == a
  {
    assert a + b == a + [':'] + b[1..];
    BeforeAfterJoin(a, b[1..], ':');
  }

  /** A netloc put together from a host and an optional `:port` gives the
      host back, lower-cased. */
  lemma HostOfPlain(host: string, port: string)
    requires '@' !in host && ':' !in host && '@' !in port
    requires port == [] || port[0] == ':'
    ensures HostOf(host + port) == Lower(host)
  {
    LowerKeeps(host + port, '@');
    HostBeforePort(host, port);
  }

  /** With credentials in front, the host still comes back: the first `@`
      ends the credentials. */
  lemma HostOfWithUser(user: string, host: string, port: string)
    requires '@' !in user && ':' !in host
    requires port == [] || port[0] == ':'
    ensures HostOf(user + "@" + host + port) == Lower(host)
  {
    var n := user + "@" + host + port;
    assert n == user + "@" + (host + port);
    LowerConcat(user + "@", host + port);
    LowerConcat(user, "@");
    LowerKeeps(user, '@');
    assert Lower(n) == Lower(user) + ['@'] + Lower(host + port);
    BeforeAfterJoin(Lower(user), Lower(host + port), '@');
    HostBeforePort(host, port);
  }

  /** A meta value the whitelist takes: a string that is not blank. */
  predicate Wanted(meta: seq<Field>, k: string) {
    GetField(meta, k).JStr? && !IsBlank(GetField(meta, k).s)
  }

  /** What the whitelist stores for `k`, if anything. */
  function Entry(meta: seq<Field>, k: string): Option<Json> {
    if Wanted(meta, k) then Some(JStr(Strip(GetField(meta, k).s))) else None
  }

  /** One pass of the loop: `meta_whitelist[k] = v.strip()` for a wanted
      value, nothing otherwise. */
  function Take(acc: seq<Field>, meta: seq<Field>, k: string): (r: seq<Field>)
    ensures NoDup(Keys(acc)) ==> NoDup(Keys(r))
  {
    match Entry(meta, k)
    case Some(v) =>
      AssignDistinct(acc, k, v);
      Assign(acc, k, v)
    case None => acc
  }

  /** After one pass, `k` holds its entry if it has one; every other key
      reads as before. */
  lemma TakeLookup(acc: seq<Field>, meta: seq<Field>, k: string, k2: string)
    ensures Lookup(Take(acc, meta, k), k2) == (if k2 == k && Entry(meta, k).Some? then Entry(meta, k) else Lookup(acc, k2))
  {
  }

  lemma AssignDistinct(acc: seq<Field>, k: string, v: Json)
    ensures NoDup(Keys(acc)) ==> NoDup(Keys(Assign(acc, k, v)))
  {
    if NoDup(Keys(acc)) && !HasKey(acc, k) {
      var ks := Keys(acc);
      forall i | 0 <= i < |ks| ensures ks[i] != k {
        assert ks[i] == acc[i].key;
      }
      assert Keys(Assign(acc, k, v)) == ks + [k];
    }
  }

  /** The loop over `include_meta_keys`, assigning into `acc`. */
  function Whitelist(acc: seq<Field>, meta: seq<Field>, keys: seq<string>): seq<Field>
    decreases |keys|
  {
    if keys == [] then acc else Whitelist(Take(acc, meta, keys[0]), meta, keys[1..])
  }

  /** `meta_whitelist`: empty unless `page.meta` is a dict and keys were
      asked for. */
  function MetaWhitelist(metaDict: Json, keys: seq<string>): seq<Field> {
    if metaDict.JObj? && keys != [] then Whitelist([], metaDict.fields, keys) else []
  }

  /** `k in keys`, by recursion over the list. */
  predicate Asked(keys: seq<string>, k: string)
    decreases |keys|
  {
    keys != [] && (keys[0] == k || Asked(keys[1..], k))
  }

  lemma {:induction false} AskedIn(keys: seq<string>, k: string)
    ensures Asked(keys, k) <==> k in keys
    decreases |keys|
  {
    if keys != [] {
      AskedIn(keys[1..], k);
      assert keys == [keys[0]] + keys[1..];
    }
  }

  lemma {:induction false} WhitelistLookup(acc: seq<Field>, meta: seq<Field>, keys: seq<string>, k: string)
    ensures Lookup(Whitelist(acc, meta, keys), k) ==
      (if Asked(keys, k) && Entry(meta, k).Some? then Entry(meta, k) else Lookup(acc, k))
    decreases |keys|
  {
    if keys != [] {
      var next := Take(acc, meta, keys[0]);
      assert Whitelist(acc, meta, keys) == Whitelist(next, meta, keys[1..]);
      WhitelistLookup(next, meta, keys[1..], k);
      TakeLookup(acc, meta, keys[0], k);
    }
  }

  lemma {:induction false} WhitelistKeysDistinct(acc: seq<Field>, meta: seq<Field>, keys: seq<string>)
    requires NoDup(Keys(acc))
    ensures NoDup(Keys(Whitelist(acc, meta, keys)))
    decreases |keys|
  {
    if keys != [] {
      var next := Take(acc, meta, keys[0]);
      assert Whitelist(acc, meta, keys) == Whitelist(next, meta, keys[1..]);
      WhitelistKeysDistinct(next, meta, keys[1..]);
    }
  }

  /** The whitelist holds exactly the asked-for keys whose meta value is a
      non-blank string, each once, with the value stripped. */
  lemma MetaWhitelistContents(metaDict: Json, keys: seq<string>, k: string)
    ensures NoDup(Keys(MetaWhitelist(metaDict, keys)))
    ensures Lookup(MetaWhitelist(metaDict, keys), k) ==
      (if metaDict.JObj? && k in keys && Wanted(metaDict.fields, k)
       then Some(JStr(Strip(GetField(metaDict.fields, k).s))) else None)
  {
    if metaDict.JObj? && keys != [] {
      WhitelistLookup([], metaDict.fields, keys, k);
      AskedIn(keys, k);
      WhitelistKeysDistinct([], metaDict.fields, keys);
    }
  }

  // ---------------------------------------------------------------------
  // build_ai_envelope

  datatype Identity = Identity(
    organizationNames: seq<string>,
    authorNames: seq<string>,
    datePublished: seq<string>,
    dateModified: seq<string>)

  /** The three cleaned URLs. */
  datatype CleanUrls = CleanUrls(original: string, final: string, canonical: string)

  /** The `content` block: the whole text, its size and its hash. */
  datatype Content = Content(text: string, charCount: nat, wordCount: nat, sha256: string)

  datatype Envelope = Envelope(
    captureId: string,
    sourcePath: string,
    collectedAt: string,
    sig: Signals,
    clean: CleanUrls,
    domain: string,
    metaWhitelist: seq<Field>,
    identity: Identity,
    content: Content,
    promptSetId: string)

  /** `clean_url`: a blank URL gives "", anything else goes through `clean`. */
  function CleanUrl(url: string, clean: string -> string): (r: string)
    ensures IsBlank(url) ==> r == []
    ensures !IsBlank(url) ==> r == clean(Strip(url))
  {
    var u := Strip(url);
    if u == [] then "" else clean(u)
  }

  function CleanAll(sig: Signals, clean: string -> string): CleanUrls {
    CleanUrls(CleanUrl(sig.originalUrl, clean), CleanUrl(sig.finalUrl, clean), CleanUrl(sig.canonicalHint, clean))
  }

  /** `final_clean or canonical_clean or original_clean` */
  function DomainSource(c: CleanUrls): (u: string)
    ensures u == [] <==> c.final == [] && c.canonical == [] && c.original == []
  {
    if c.final != [] then c.final else if c.canonical != [] then c.canonical else c.original
  }

  /** The hash tag of the capture id: the first 12 hex digits of the text
      hash, or "no_text". */
  function ShaTag(textSha: string): string {
    if textSha != [] then Head(textSha, 12) else "no_text"
  }

  /** `capture_id` */
  function CaptureId(capturePath: string, textSha: string): string {
    Name(capturePath) + "__textsha:" + ShaTag(textSha)
  }

  /** The tag tells a capture with text from one without: a hash prefix is
      never "no_text". */
  lemma ShaTagTellsEmpty(d: HexDigest)
    ensures ShaTag(d) != ShaTag("")
  {
    assert !IsHexDigit('n');
    assert ShaTag(d)[0] == d[0];
  }

  /** A string splits into no words exactly when it is blank. */
  lemma NoWordsIffBlank(t: string)
    ensures |Words(t)| == 0 <==> IsBlank(t)
  {
    var l := LStrip(t);
    if l != [] {
      assert t[|t| - |l|] == l[0];
    }
  }

  /** The content block of a text: no hash and no words exactly when there
      is no text (the text is stripped, so a non-empty one has a word). */
  function ContentOf(text: string, sha: string -> HexDigest): (c: Content)
    ensures c.text == text && c.charCount == |text|
    ensures c.sha256 == [] <==> text == []
    ensures text != [] ==> c.sha256 == sha(text)
    ensures c.wordCount == |Words(text)|
    ensures IsTrimmed(text) ==> (c.wordCount == 0 <==> text == [])
  {
    NoWordsIffBlank(text);
    var textSha := if text != [] then sha(text) else "";
    var words := if text != [] then WordCount(text) else 0;
    Content(text, |text|, words, textSha)
  }

  /** `page.jsonld_extracted` */
  function JsonLd(capture: Json): Json {
    GetNested(capture, ["page", "jsonld_extracted"])
  }

  /** The identity candidates; reading them from a truthy `jsonld_extracted`
      that is not a dict raises. */
  function IdentityOf(capture: Json): (r: Result<Identity>)
    ensures r.Success? <==> OrEmptyDict(JsonLd(capture)).Success?
  {
    var jsonld :- OrEmptyDict(JsonLd(capture));
    Success(Identity(
      UniqueStrings(GetField(jsonld, "publisher_names")),
      UniqueStrings(GetField(jsonld, "author_names")),
      UniqueStrings(GetField(jsonld, "date_published")),
      UniqueStrings(GetField(jsonld, "date_modified"))))
  }

  /** `collected_at_utc`: when the capture was ingested or submitted, else now. */
  function CollectedAt(capture: Json, now: string): string {
    FirstNonempty([GetNested(capture, ["ingest", "seen_at"]), GetNested(capture, ["submitted_at"]), JStr(now)])
  }

  /** The envelope around the given identity candidates. */
  function Assemble(capturePath: string, capture: Json, promptSetId: string, metaKeys: seq<string>,
                    sha: string -> HexDigest, netloc: string -> Option<string>,
                    clean: string -> string, now: string, identity: Identity): Envelope
  {
    var sig := ExtractSignals(capture);
    var cleaned := CleanAll(sig, clean);
    var content := ContentOf(sig.extractedText, sha);
    Envelope(
      CaptureId(capturePath, content.sha256), capturePath, CollectedAt(capture, now), sig, cleaned,
      DomainOf(DomainSource(cleaned), netloc),
      MetaWhitelist(GetNested(capture, ["page", "meta"]), metaKeys),
      identity, content, promptSetId)
  }

  /** `build_ai_envelope`: it fails only when `page.jsonld_extracted` is a
      truthy non-dict. */
  function BuildEnvelope(capturePath: string, capture: Json, promptSetId: string, metaKeys: seq<string>,
                         sha: string -> HexDigest, netloc: string -> Option<string>,
                         clean: string -> string, now: string): (r: Result<Envelope>)
    ensures r.Success? <==> OrEmptyDict(JsonLd(capture)).Success?
  {
    var identity :- IdentityOf(capture);
    Success(Assemble(capturePath, capture, promptSetId, metaKeys, sha, netloc, clean, now, identity))
  }

  /** The envelope's content block is built from the extracted-text signal,
      and its capture id from the capture path and the content hash. */
  lemma BuildEnvelopeContent(capturePath: string, capture: Json, promptSetId: string, metaKeys: seq<string>,
                             sha: string -> HexDigest, netloc: string -> Option<string>,
                             clean: string -> string, now: string)
    requires OrEmptyDict(JsonLd(capture)).Success?
    ensures var e := BuildEnvelope(capturePath, capture, promptSetId, metaKeys, sha, netloc, clean, now).value;
      && e.content == ContentOf(ExtractSignals(capture).extractedText, sha)
      && e.captureId == CaptureId(capturePath, e.content.sha256)
  {
  }

  /** The capture id names the capture file and carries the first 12 digits
      of the text hash, or "no_text" when there is no text. */
  lemma CaptureIdShape(capturePath: string, text: string, sha: string -> HexDigest)
    ensures CaptureId(capturePath, ContentOf(text, sha).sha256) ==
      Name(capturePath) + "__textsha:" + (if text == [] then "no_text" else sha(text)[..12])
  {
  }

  /** The envelope as the JSON object `build_ai_envelope` returns, keys in
      the order written. */
  function ToJson(e: Envelope): Json {
    JObj([
      Field("xaio_parse_request_version", JStr("1.0")),
      Field("capture", JObj([
        Field("capture_id", JStr(e.captureId)),
        Field("source_capture_json_path", JStr(e.sourcePath)),
        Field("collected_at_utc", JStr(e.collectedAt))])),
      Field("url", JObj([
        Field("original", JStr(e.sig.originalUrl)),
        Field("final", JStr(e.sig.finalUrl)),
        Field("canonical_hint", JStr(e.sig.canonicalHint)),
        Field("clean", JObj([
          Field("original", JStr(e.clean.original)),
          Field("final", JStr(e.clean.final)),
          Field("canonical", JStr(e.clean.canonical))])),
        Field("domain", JStr(e.domain))])),
      Field("meta", JObj([
        Field("title", JStr(e.sig.title)),
        Field("description", JStr(e.sig.description)),
        Field("site_name", JStr(e.sig.siteName)),
        Field("published_at_hint", JStr(e.sig.publishedAtHint)),
        Field("author_hint", JStr(e.sig.authorHint)),
        Field("fetch_method", JStr(e.sig.fetchMethod)),
        Field("meta_whitelist", JObj(e.metaWhitelist)),
        Field("identity_candidates", JObj([
          Field("organization_names", StrList(e.identity.organizationNames)),
          Field("author_names", StrList(e.identity.authorNames)),
          Field("date_published", StrList(e.identity.datePublished)),
          Field("date_modified", StrList(e.identity.dateModified))]))])),
      Field("content", JObj(ContentJson(e.content))),
      Field("instructions", JObj([
        Field("target_cpt", JStr("content")),
        Field("prompt_set_id", JStr(e.promptSetId)),
        Field("claims_granularity", JStr("atomic")),
        Field("claims_should_be_verifiable", JBool(true)),
        Field("no_fact_checking_yet", JBool(true)),
        Field("verdict_default", JStr("unverified"))]))])
  }

  function ContentJson(c: Content): seq<Field> {
    [Field("extracted_text_full", JStr(c.text)),
     Field("char_count", JNum(c.charCount)),
     Field("word_count", JNum(c.wordCount)),
     Field("sha256", JStr(c.sha256))]
  }

  /** The AI queue's freshness hash, read from the written envelope, is the
      hash of the extracted text ("" when there is none). */
  lemma AiQueueReadsTextSha(e: Envelope)
    ensures AiQueue.ContentSha(ToJson(e).fields) == e.content.sha256
  {
    var top := ToJson(e).fields;
    assert top[4] == Field("content", JObj(ContentJson(e.content)));
    LookupLast(top, 4);
    assert GetField(top, "content") == JObj(ContentJson(e.content));
    var content := ContentJson(e.content);
    assert content[3] == Field("sha256", JStr(e.content.sha256));
    LookupLast(content, 3);
    assert Get(GetField(top, "content"), "sha256") == JStr(e.content.sha256);
  }

  // ---------------------------------------------------------------------
  // main

  datatype Args = Args(captureJson: string, outdir: string, promptSetId: string, metaKeys: string)

  const DefaultOutdir := "./out_ai"
  const DefaultPromptSetId := "xaio-v1-claims+scores"
  const DefaultMetaKeys :=
    "og:title,og:description,og:site_name,og:url,article:published_time,article:modified_time,"
    + "article:section,article:tag,twitter:title,twitter:description,description,author"

  /** `[k.strip() for k in parts if k.strip()]` */
  function NonEmptyStripped(parts: seq<string>): seq<string>
    decreases |parts|
  {
    if parts == [] then []
    else KeepNonEmpty(Strip(parts[0])) + NonEmptyStripped(parts[1..])
  }

  function KeepNonEmpty(k: string): (r: seq<string>)
    ensures r == [] <==> k == []
    ensures forall i :: 0 <= i < |r| ==> r[i] == k
  {
    if k != [] then [k] else []
  }

  /** Every key kept is non-empty and stripped. */
  lemma {:induction false} NonEmptyStrippedClean(parts: seq<string>)
    ensures AllClean(NonEmptyStripped(parts))
    decreases |parts|
  {
    if parts != [] {
      NonEmptyStrippedClean(parts[1..]);
      var k := Strip(parts[0]);
      var t := NonEmptyStripped(parts[1..]);
      if k == [] {
        assert NonEmptyStripped(parts) == t;
      } else {
        var r := [k] + t;
        assert NonEmptyStripped(parts) == r;
        forall i | 0 <= i < |r| ensures r[i] != [] && IsTrimmed(r[i]) {
          if i > 0 {
            assert r[i] == t[i - 1];
          }
        }
      }
    }
  }

  /** The keys kept are exactly the non-empty stripped parts. */
  lemma {:induction false} NonEmptyStrippedMembers(parts: seq<string>, k: string)
    ensures k in NonEmptyStripped(parts) <==> k != [] && k in Stripped(parts)
    decreases |parts|
  {
    if parts != [] {
      NonEmptyStrippedMembers(parts[1..], k);
      var s0 := Strip(parts[0]);
      var h := KeepNonEmpty(s0);
      var t := NonEmptyStripped(parts[1..]);
      assert NonEmptyStripped(parts) == h + t;
      InConcat(h, t, k);
      assert k in h <==> k != [] && k == s0;
      var rest := Stripped(parts[1..]);
      StrippedCons(parts);
      InConcat([s0], rest, k);
    }
  }

  /** `--meta-keys` split on commas. */
  function MetaKeyList(arg: string): seq<string> {
    NonEmptyStripped(SplitOn(arg, ','))
  }

  /** `<outdir>/<capture stem>.ai_input.json` */
  function OutPath(args: Args): (p: string)
    ensures Name(p) == Stem(args.captureJson) + ".ai_input.json"
  {
    var name := Stem(args.captureJson) + ".ai_input.json";
    assert '/' !in name by {
      assert forall i :: 0 <= i < |Stem(args.captureJson)| ==> Stem(args.captureJson)[i] == Name(args.captureJson)[i];
    }
    JoinPath(args.outdir, name)
  }

  /** An exit code and the files afterwards. */
  datatype Run = Run(rc: int, fs: Fs)

  /** The capture read from disk: present only when the file exists and
      parses as JSON. */
  function ReadCapture(path: string, fs: Fs, parse: string -> Option<Json>): (r: Option<Json>)
    ensures r.Some? <==> path in fs && parse(fs[path]).Some?
    ensures r.Some? ==> r == parse(fs[path])
  {
    if path in fs then parse(fs[path]) else None
  }

  /** `main`: a run succeeds exactly when the capture exists, parses, and
      its `page.jsonld_extracted` is a dict or falsy; it then writes the
      envelope built from the capture to the one output file. A failed run
      writes nothing. */
  function Main(args: Args, fs: Fs, parse: string -> Option<Json>, dump: Json -> string,
                sha: string -> HexDigest, netloc: string -> Option<string>,
                clean: string -> string, now: string): (r: Run)
    ensures r.rc == 0 || r.rc == 1
    ensures var c := ReadCapture(args.captureJson, fs, parse);
      r.rc == 0 <==> c.Some? && OrEmptyDict(JsonLd(c.value)).Success?
    ensures r.rc == 1 ==> r.fs == fs
    ensures r.rc == 0 ==>
      && ReadCapture(args.captureJson, fs, parse).Some?
      && var e := BuildEnvelope(args.captureJson, ReadCapture(args.captureJson, fs, parse).value, args.promptSetId,
                                MetaKeyList(args.metaKeys), sha, netloc, clean, now);
         e.Success? && r.fs == fs[OutPath(args) := dump(ToJson(e.value))]
  {
    var c := ReadCapture(args.captureJson, fs, parse);
    if c.None? then Run(1, fs)
    else
      var e := BuildEnvelope(args.captureJson, c.value, args.promptSetId, MetaKeyList(args.metaKeys), sha, netloc, clean, now);
      if e.Failure? then Run(1, fs)
      else Run(0, fs[OutPath(args) := dump(ToJson(e.value))])
  }
}

=== FILE: scf.dfy ===
/** The field-group export of the site's custom-fields plugin, as the meta
    and claims scripts read it: `find_select_choices` looks for a `select`
    field by name and the enum helpers turn its `choices` dict into a
    sorted list of option keys. The same two functions appear verbatim in
    src/call_openai_meta.py, src/call_openai_claims.py and the legacy
    root call_openai_meta.py. */
module Scf {
  import opened Wrappers
  import opened PyText
  import opened JsonValue
  import opened Dedupe
  import opened StrOrder

  /** `for x in v`: a list yields its items, a string its characters, a
      dict its keys; `None`, numbers and booleans raise `TypeError`. Only a
      list can yield a dict. */
  function Iter(v: Json): (r: Result<seq<Json>>)
    ensures r.Success? <==> (v.JArr? || v.JStr? || v.JObj?)
    ensures v.JArr? ==> r == Success(v.items)
    ensures r.Success? && !v.JArr? ==> forall i :: 0 <= i < |r.value| ==> r.value[i].JStr?
  {
    if v.JArr? then Success(v.items)
    else if v.JStr? then Success(seq(|v.s|, i requires 0 <= i < |v.s| => JStr([v.s[i]])))
    else if v.JObj? then
      var ks := DistinctKeys(v.fields);
      Success(seq(|ks|, i requires 0 <= i < |ks| => JStr(ks[i])))
    else Failure("TypeError: object is not iterable")
  }

  /** `isinstance(f, dict) and f.get("name") == name and f.get("type") == "select"` */
  predicate IsSelect(f: Json, name: string) {
    f.JObj? && GetField(f.fields, "name") == JStr(name) && GetField(f.fields, "type") == JStr("select")
  }

  /** `f.get("type") in ("repeater", "group")` on a dict. */
  predicate IsContainer(f: Json) {
    f.JObj? && (GetField(f.fields, "type") == JStr("repeater") || GetField(f.fields, "type") == JStr("group"))
  }

  /** `f.get("choices", {}) or {}` */
  function ChoicesOf(f: Json): (r: Json)
    requires f.JObj?
    ensures Truthy(r) || r == Empty
    ensures Truthy(GetField(f.fields, "choices")) ==> r == GetField(f.fields, "choices")
  {
    Or(GetField(f.fields, "choices"), Empty)
  }

  /** `f.get("sub_fields", []) or []` */
  function SubFields(f: Json): Json
    requires f.JObj?
  {
    Or(GetField(f.fields, "sub_fields"), JArr([]))
  }

  /** `group.get("fields", []) if isinstance(group, dict) else []`: only a
      missing key defaults; a stored `None` stays `None`. */
  function FieldsOf(g: Json): (r: Json)
    ensures !g.JObj? || !HasKey(g.fields, "fields") ==> r == JArr([])
  {
    if g.JObj? then Lookup(g.fields, "fields").GetOr(JArr([])) else JArr([])
  }

  /** The choices of the first wanted select among `xs`; this is the inner
      loop over `sub_fields`. */
  function FirstSelect(xs: seq<Json>, name: string): (r: Option<Json>)
    ensures r.None? <==> forall i :: 0 <= i < |xs| ==> !IsSelect(xs[i], name)
    decreases |xs|
  {
    if xs == [] then None
    else if IsSelect(xs[0], name) then Some(ChoicesOf(xs[0]))
    else
      var r := FirstSelect(xs[1..], name);
      assert r.None? ==> forall i :: 0 <= i < |xs| ==> !IsSelect(xs[i], name) by {
        if r.None? {
          forall i | 0 < i < |xs| ensures !IsSelect(xs[i], name) {
            assert xs[i] == xs[1..][i - 1];
          }
        }
      }
      assert r.Some? ==> exists i :: 0 <= i < |xs| && IsSelect(xs[i], name) by {
        if r.Some? {
          var i :| 0 <= i < |xs[1..]| && IsSelect(xs[1..][i], name);
          assert xs[i + 1] == xs[1..][i];
        }
      }
      r
  }

  /** The loop over one group's fields: dicts only; a matching select
      returns at once, a repeater or group searches its sub-fields. */
  function SearchFields(fields: seq<Json>, name: string): Result<Option<Json>>
    decreases |fields|
  {
    if fields == [] then Success(None)
    else
      var f := fields[0];
      if !f.JObj? then SearchFields(fields[1..], name)
      else if IsSelect(f, name) then Success(Some(ChoicesOf(f)))
      else if IsContainer(f) then
        var subs :- Iter(SubFields(f));
        var hit := FirstSelect(subs, name);
        if hit.Some? then Success(hit) else SearchFields(fields[1..], name)
      else SearchFields(fields[1..], name)
  }

  /** The loop over the groups of the export. */
  function SearchGroups(groups: seq<Json>, name: string): Result<Option<Json>>
    decreases |groups|
  {
    if groups == [] then Success(None)
    else
      var fields :- Iter(FieldsOf(groups[0]));
      var hit :- SearchFields(fields, name);
      if hit.Some? then Success(hit) else SearchGroups(groups[1..], name)
  }

  /** `find_select_choices(scf, name)`: `{}` for anything but a list,
      otherwise the choices of the first matching select, or `{}`.
      Iterating a `None`, number or boolean where fields are expected
      raises. */
  function FindSelectChoices(scf: Json, name: string): (r: Result<Json>)
    ensures !scf.JArr? ==> r == Success(Empty)
    ensures r.Success? ==> Truthy(r.value) || r.value == Empty
  {
    if !scf.JArr? then Success(Empty)
    else
      var hit :- SearchGroups(scf.items, name);
      assert hit.Some? ==> Truthy(hit.value) || hit.value == Empty by {
        if hit.Some? { SearchGroupsShape(scf.items, name); }
      }
      Success(hit.GetOr(Empty))
  }

  lemma {:induction false} SearchGroupsShape(groups: seq<Json>, name: string)
    ensures var r := SearchGroups(groups, name);
      r.Success? && r.value.Some? ==> Truthy(r.value.value) || r.value.value == Empty
    decreases |groups|
  {
    if groups != [] {
      var fields := Iter(FieldsOf(groups[0]));
      if fields.Success? {
        SearchFieldsShape(fields.value, name);
        SearchGroupsShape(groups[1..], name);
      }
    }
  }

  lemma {:induction false} SearchFieldsShape(fields: seq<Json>, name: string)
    ensures var r := SearchFields(fields, name);
      r.Success? && r.value.Some? ==> Truthy(r.value.value) || r.value.value == Empty
    decreases |fields|
  {
    if fields != [] {
      var f := fields[0];
      if f.JObj? && !IsSelect(f, name) && IsContainer(f) {
        var subs := Iter(SubFields(f));
        if subs.Success? {
          FirstSelectShape(subs.value, name);
        }
      }
      SearchFieldsShape(fields[1..], name);
    }
  }

  lemma {:induction false} FirstSelectShape(xs: seq<Json>, name: string)
    ensures var r := FirstSelect(xs, name);
      r.Some? ==> Truthy(r.value) || r.value == Empty
    decreases |xs|
  {
    if xs != [] && !IsSelect(xs[0], name) {
      FirstSelectShape(xs[1..], name);
    }
  }

  // ---------------------------------------------------------------------
  // The search as a first match over a flat list of candidates

  /** The dicts among `xs`, in order. */
  function Dicts(xs: seq<Json>): (r: seq<Json>)
    ensures forall i :: 0 <= i < |r| ==> r[i].JObj?
    decreases |xs|
  {
    if xs == [] then []
    else if xs[0].JObj? then [xs[0]] + Dicts(xs[1..])
    else Dicts(xs[1..])
  }

  /** Every dict one group's loop inspects, in order: each field dict,
      followed by the dict sub-fields of a repeater or group. Nothing
      deeper is a candidate. Fails where the loop could raise. */
  function FieldCands(fields: seq<Json>): Result<seq<Json>>
    decreases |fields|
  {
    if fields == [] then Success([])
    else
      var f := fields[0];
      var rest :- FieldCands(fields[1..]);
      if !f.JObj? then Success(rest)
      else if IsContainer(f) then
        var subs :- Iter(SubFields(f));
        Success([f] + Dicts(subs) + rest)
      else Success([f] + rest)
  }

  /** The candidates of every group, group after group. */
  function GroupCands(groups: seq<Json>): Result<seq<Json>>
    decreases |groups|
  {
    if groups == [] then Success([])
    else
      var fields :- Iter(FieldsOf(groups[0]));
      var here :- FieldCands(fields);
      var rest :- GroupCands(groups[1..]);
      Success(here + rest)
  }

  lemma {:induction false} FirstSelectConcat(a: seq<Json>, b: seq<Json>, name: string)
    ensures FirstSelect(a + b, name) == if FirstSelect(a, name).Some? then FirstSelect(a, name) else FirstSelect(b, name)
    decreases |a|
  {
    if a == [] {
      assert a + b == b;
    } else {
      assert (a + b)[0] == a[0];
      assert (a + b)[1..] == a[1..] + b;
      FirstSelectConcat(a[1..], b, name);
    }
  }

  lemma {:induction false} FirstSelectDicts(xs: seq<Json>, name: string)
    ensures FirstSelect(Dicts(xs), name) == FirstSelect(xs, name)
    decreases |xs|
  {
    if xs != [] {
      FirstSelectDicts(xs[1..], name);
      if xs[0].JObj? {
        assert Dicts(xs)[1..] == Dicts(xs[1..]);
      }
    }
  }

  /** A container is never itself a select. */
  lemma ContainerNotSelect(f: Json, name: string)
    requires IsContainer(f)
    ensures !IsSelect(f, name)
  {
  }

  /** Where one group's candidates can be listed, its loop returns the
      first matching select among them. */
  lemma {:induction false} SearchFieldsFlat(fields: seq<Json>, name: string)
    requires FieldCands(fields).Success?
    ensures SearchFields(fields, name) == Success(FirstSelect(FieldCands(fields).value, name))
    decreases |fields|
  {
    if fields != [] {
      var f := fields[0];
      var rest := FieldCands(fields[1..]).value;
      SearchFieldsFlat(fields[1..], name);
      if f.JObj? {
        if IsContainer(f) {
          var subs := Iter(SubFields(f)).value;
          ContainerNotSelect(f, name);
          assert [f] + Dicts(subs) + rest == [f] + (Dicts(subs) + rest);
          FirstSelectConcat(Dicts(subs), rest, name);
          FirstSelectDicts(subs, name);
          assert ([f] + (Dicts(subs) + rest))[1..] == Dicts(subs) + rest;
        } else {
          assert ([f] + rest)[1..] == rest;
        }
      }
    }
  }

  lemma {:induction false} SearchGroupsFlat(groups: seq<Json>, name: string)
    requires GroupCands(groups).Success?
    ensures SearchGroups(groups, name) == Success(FirstSelect(GroupCands(groups).value, name))
    decreases |groups|
  {
    if groups != [] {
      var fields := Iter(FieldsOf(groups[0])).value;
      var here := FieldCands(fields).value;
      SearchFieldsFlat(fields, name);
      SearchGroupsFlat(groups[1..], name);
      FirstSelectConcat(here, GroupCands(groups[1..]).value, name);
    }
  }

  /** The nested search is a first match over the flat candidate list:
      when the candidates of the whole scf can be listed, the result is
      the choices of the first select named `name` among them, or `{}`.
      A hit followed by a group or container that cannot be read is
      covered by `FindStopsAtFirstSelect` below. */
  lemma FindIsFirstCandidate(scf: Json, name: string)
    requires scf.JArr? && GroupCands(scf.items).Success?
    ensures FindSelectChoices(scf, name) == Success(FirstSelect(GroupCands(scf.items).value, name).GetOr(Empty))
  {
    SearchGroupsFlat(scf.items, name);
  }

  lemma ConcatSplit(a: seq<Json>, b: seq<Json>)
    requires a != []
    ensures (a + b)[0] == a[0] && (a + b)[1..] == a[1..] + b
  {
  }

  /** The field loop over two runs of fields: the first run's hit or error
      stands, and only when the first run finds nothing is the second run
      read at all. */
  lemma {:induction false} SearchFieldsConcat(a: seq<Json>, b: seq<Json>, name: string)
    ensures SearchFields(a + b, name) == if SearchFields(a, name) == Success(None) then SearchFields(b, name) else SearchFields(a, name)
    decreases |a|
  {
    if a == [] {
      assert a + b == b;
    } else {
      ConcatSplit(a, b);
      SearchFieldsConcat(a[1..], b, name);
    }
  }

  /** The same for the group loop. */
  lemma {:induction false} SearchGroupsConcat(a: seq<Json>, b: seq<Json>, name: string)
    ensures SearchGroups(a + b, name) == if SearchGroups(a, name) == Success(None) then SearchGroups(b, name) else SearchGroups(a, name)
    decreases |a|
  {
    if a == [] {
      assert a + b == b;
    } else {
      ConcatSplit(a, b);
      SearchGroupsConcat(a[1..], b, name);
    }
  }

  /** The candidates the search walks through before stopping inside group
      `k` after its first `j` fields: every candidate of the earlier groups,
      then those of these fields. Fails where that walk could raise. */
  function CandsUpTo(groups: seq<Json>, k: nat, j: nat): (r: Result<seq<Json>>)
    requires k < |groups|
    ensures r.Success? ==> GroupCands(groups[..k]).Success?
  {
    var before :- GroupCands(groups[..k]);
    var fields :- Iter(FieldsOf(groups[k]));
    if j > |fields| then Failure("no such field")
    else
      var here :- FieldCands(fields[..j]);
      Success(before + here)
  }

  /** The hit lies `j` fields into group `k`: the group loop reaches group
      `k` and its field loop returns the hit, whatever follows. */
  lemma HitInGroup(groups: seq<Json>, k: nat, j: nat, name: string)
    requires k < |groups| && Iter(FieldsOf(groups[k])).Success?
    requires j <= |Iter(FieldsOf(groups[k])).value|
    requires var fields := Iter(FieldsOf(groups[k])).value;
      SearchFields(fields[..j], name).Success? && SearchFields(fields[..j], name).value.Some?
    ensures var fields := Iter(FieldsOf(groups[k])).value;
      SearchGroups(groups[k..], name) == SearchFields(fields[..j], name)
  {
    var fields := Iter(FieldsOf(groups[k])).value;
    TakeDropSplit(fields, j);
    SearchFieldsConcat(fields[..j], fields[j..], name);
    assert groups[k..][0] == groups[k];
  }

  lemma TakeDropSplit(s: seq<Json>, k: nat)
    requires k <= |s|
    ensures s == s[..k] + s[k..]
  {
  }

  /** The group loop returns at its first hit: the hit `j` fields into
      group `k`, when the walk up to it can be listed. */
  lemma SearchGroupsStops(groups: seq<Json>, k: nat, j: nat, name: string)
    requires k < |groups| && CandsUpTo(groups, k, j).Success?
    requires FirstSelect(CandsUpTo(groups, k, j).value, name).Some?
    ensures SearchGroups(groups, name) == Success(FirstSelect(CandsUpTo(groups, k, j).value, name))
  {
    var before := GroupCands(groups[..k]).value;
    var fields := Iter(FieldsOf(groups[k])).value;
    var here := FieldCands(fields[..j]).value;
    assert CandsUpTo(groups, k, j).value == before + here;
    SearchGroupsFlat(groups[..k], name);
    FirstSelectConcat(before, here, name);
    TakeDropSplit(groups, k);
    SearchGroupsConcat(groups[..k], groups[k..], name);
    if FirstSelect(before, name).None? {
      SearchFieldsFlat(fields[..j], name);
      HitInGroup(groups, k, j, name);
    }
  }

  /** `find_select_choices` returns at its first hit: when the walk up to
      the hit, `j` fields into group `k`, can be listed, the result is the
      choices of the first select named `name` in that walk, whatever the
      rest of the export holds. */
  lemma FindStopsAtFirstSelect(scf: Json, name: string, k: nat, j: nat)
    requires scf.JArr? && k < |scf.items| && CandsUpTo(scf.items, k, j).Success?
    requires FirstSelect(CandsUpTo(scf.items, k, j).value, name).Some?
    ensures FindSelectChoices(scf, name) == Success(FirstSelect(CandsUpTo(scf.items, k, j).value, name).value)
  {
    SearchGroupsStops(scf.items, k, j, name);
  }

  /** `{"name": name, "type": "select", "choices": choices}` is the wanted
      select, and its choices are read back. */
  lemma SelectDict(name: string, choices: Json)
    requires Truthy(choices)
    ensures var sel := JObj([Field("name", JStr(name)), Field("type", JStr("select")), Field("choices", choices)]);
      IsSelect(sel, name) && !IsContainer(sel) && ChoicesOf(sel) == choices
  {
    var fs := [Field("name", JStr(name)), Field("type", JStr("select")), Field("choices", choices)];
    assert "choices" != "name" && "choices" != "type" by { assert "choices"[0] == 'c'; }
    assert "type" != "name" by { assert "type"[0] == 't'; }
    assert fs[..2] == [Field("name", JStr(name)), Field("type", JStr("select"))];
    assert fs[..2][..1] == [Field("name", JStr(name))];
    assert Lookup(fs, "choices") == Some(choices);
    assert Lookup(fs, "type") == Some(JStr("select"));
    assert Lookup(fs, "name") == Lookup(fs[..2], "name") == Lookup(fs[..2][..1], "name");
    assert Lookup(fs[..2][..1], "name") == Some(JStr(name));
    assert JStr("select") != JStr("repeater") by { assert "select"[0] == 's'; }
    assert JStr("select") != JStr("group") by { assert "select"[0] == 's'; }
  }

  /** A field dict that is no container is its own only candidate. */
  lemma PlainFieldCands(f: Json)
    requires f.JObj? && !IsContainer(f)
    ensures FieldCands([f]) == Success([f])
  {
    assert [f][1..] == [];
    assert [f] + [] == [f];
  }

  /** An export whose first group holds the wanted select and whose second
      group stores `fields` as null: the search returns the select's
      choices and never reaches the group that would raise. */
  lemma HitBeforeNullFields(choices: Json, name: string)
    requires Truthy(choices)
    ensures var sel := JObj([Field("name", JStr(name)), Field("type", JStr("select")), Field("choices", choices)]);
      var scf := JArr([JObj([Field("fields", JArr([sel]))]), JObj([Field("fields", JNull)])]);
      FindSelectChoices(scf, name) == Success(choices) && GroupCands(scf.items).Failure?
  {
    var sel := JObj([Field("name", JStr(name)), Field("type", JStr("select")), Field("choices", choices)]);
    var g0 := JObj([Field("fields", JArr([sel]))]);
    var g1 := JObj([Field("fields", JNull)]);
    var scf := JArr([g0, g1]);
    SelectDict(name, choices);
    PlainFieldCands(sel);
    assert [sel][..1] == [sel];
    assert FieldsOf(g0) == JArr([sel]);
    assert Iter(FieldsOf(g0)) == Success([sel]);
    assert scf.items[..0] == [];
    assert GroupCands(scf.items[..0]) == Success([]);
    assert CandsUpTo(scf.items, 0, 1) == Success([] + [sel]);
    assert [] + [sel] == [sel];
    FindStopsAtFirstSelect(scf, name, 0, 1);
    assert scf.items[1..] == [g1];
    NullFieldsRaise(g1, [], name);
  }

  /** A group that is not a dict, or has no "fields" key, is skipped. */
  lemma FieldlessGroupSkipped(g: Json, groups: seq<Json>, name: string)
    requires !g.JObj? || !HasKey(g.fields, "fields")
    ensures SearchGroups([g] + groups, name) == SearchGroups(groups, name)
  {
    assert ([g] + groups)[1..] == groups;
  }

  /** A group whose "fields" is stored as `None` raises, whatever follows. */
  lemma NullFieldsRaise(g: Json, groups: seq<Json>, name: string)
    requires g.JObj? && Lookup(g.fields, "fields") == Some(JNull)
    ensures SearchGroups([g] + groups, name).Failure?
  {
  }

  // ---------------------------------------------------------------------
  // Enum option keys

  /** `[k for k in keys if k.strip() != ""]` (JSON keys are strings);
      `k.strip() != ""` is `!IsBlank(k)` by the contract of `Strip`. */
  function NonBlank(ks: seq<string>): (r: seq<string>)
    ensures forall k :: k in r <==> k in ks && !IsBlank(k)
    ensures NoDup(ks) ==> NoDup(r)
    decreases |ks|
  {
    if ks == [] then []
    else
      var rest := NonBlank(ks[1..]);
      assert NoDup(ks) ==> NoDup(ks[1..]) && ks[0] !in ks[1..] by {
        if NoDup(ks) { NoDupTail(ks); }
      }
      assert ks == [ks[0]] + ks[1..];
      if !IsBlank(ks[0]) then
        [ks[0]] + rest
      else rest
  }

  /** The `keys` helper of `scf_enums_from_export` and
      `scf_claim_type_choices`: the non-blank keys of the choices dict,
      sorted. A truthy choices value that is not a dict raises
      `AttributeError` at `.keys()`. */
  function EnumKeys(scf: Json, name: string): (r: Result<seq<string>>)
    ensures var c := FindSelectChoices(scf, name);
      r.Success? <==> c.Success? && (c.value.JObj? || !Truthy(c.value))
    ensures r.Success? ==> Sorted(r.value) && NoDup(r.value)
    ensures r.Success? ==> forall k :: k in r.value <==> Contains(FindSelectChoices(scf, name).value, k) && !IsBlank(k)
  {
    var c :- FindSelectChoices(scf, name);
    var d :- OrEmptyDict(c);
    var ks := NonBlank(DistinctKeys(d));
    SortShape(ks);
    NoDupPerm(ks, Sort(ks));
    assert forall k :: k in Sort(ks) <==> k in multiset(ks);
    Success(Sort(ks))
  }

  /** The contract pins the list down: any sorted, duplicate-free list of
      exactly the non-blank option keys is the one returned. */
  lemma EnumKeysDetermined(scf: Json, name: string, ks: seq<string>)
    requires EnumKeys(scf, name).Success?
    requires Sorted(ks) && NoDup(ks)
    requires forall k :: k in ks <==> Contains(FindSelectChoices(scf, name).value, k) && !IsBlank(k)
    ensures ks == EnumKeys(scf, name).value
  {
    var r := EnumKeys(scf, name).value;
    SameMembersPerm(ks, r);
    SortedUnique(ks, r);
  }

  /** When no select named `name` exists the list is empty. */
  lemma MissingFieldNoKeys(scf: Json, name: string)
    requires scf.JArr? && GroupCands(scf.items).Success?
    requires forall i :: 0 <= i < |GroupCands(scf.items).value| ==> !IsSelect(GroupCands(scf.items).value[i], name)
    ensures EnumKeys(scf, name) == Success([])
  {
    FindIsFirstCandidate(scf, name);
  }

  /** The four enum lists `scf_enums_from_export` builds. */
  datatype Enums = Enums(contentMode: seq<string>, language: seq<string>, workflowStatus: seq<string>, intakeKind: seq<string>)

  /** `scf_enums_from_export` on the parsed scf: the first error raised
      by any of the four lookups propagates. */
  function EnumsFromExport(scf: Json): (r: Result<Enums>)
    ensures r.Success? <==> EnumKeys(scf, "content_mode").Success? && EnumKeys(scf, "language").Success?
                            && EnumKeys(scf, "workflow_status").Success? && EnumKeys(scf, "intake_kind").Success?
    ensures r.Success? ==> Sorted(r.value.contentMode) && Sorted(r.value.language)
                           && Sorted(r.value.workflowStatus) && Sorted(r.value.intakeKind)
  {
    var contentMode :- EnumKeys(scf, "content_mode");
    var language :- EnumKeys(scf, "language");
    var workflowStatus :- EnumKeys(scf, "workflow_status");
    var intakeKind :- EnumKeys(scf, "intake_kind");
    Success(Enums(contentMode, language, workflowStatus, intakeKind))
  }

  /** `scf_claim_type_choices` on the parsed scf. */
  function ClaimTypeChoices(scf: Json): (r: Result<seq<string>>)
    ensures r.Success? ==> Sorted(r.value) && NoDup(r.value)
    ensures r.Success? ==> FindSelectChoices(scf, "claim_type").Success?
    ensures r.Success? ==> forall k :: k in r.value <==> Contains(FindSelectChoices(scf, "claim_type").value, k) && !IsBlank(k)
  {
    EnumKeys(scf, "claim_type")
  }
}

=== FILE: sheet.dfy ===
/** The spreadsheet as the queue drivers see it: column letters from the
    configuration, rows of cell strings as `get_all_values()` or
    `col_values()` return them (short rows simply end early), cell writes, and
    the 49000-character cap the drivers put on error text. */
module Sheet {
  import opened Wrappers
  import opened PyText

  /** `ord(ch) - ord("A") + 1`: 1 for `A` … 26 for `Z`, and whatever the
      arithmetic gives for any other character. */
  function LetterDigit(c: char): int {
    c as int - 'A' as int + 1
  }

  /** The accumulation `n = n * 26 + digit` over the letters, left to right. */
  function LettersValue(s: string): int
    decreases |s|
  {
    if s == [] then 0 else LettersValue(s[..|s| - 1]) * 26 + LetterDigit(s[|s| - 1])
  }

  /** `col_letter_to_index` of `agent.py` and `buffer_panels_queue.py`:
      the 1-based column number of the trimmed, upper-cased letters. */
  function ColumnNumber(letters: string): int {
    LettersValue(Upper(Strip(letters)))
  }

  /** `col_letter_to_index` of `ai_queue.py`, `condense_queue.py` and
      `wp_upload_queue.py`: the same number minus one, a 0-based index. */
  function ColumnIndex(letters: string): int {
    ColumnNumber(letters) - 1
  }

  predicate IsUpperLetter(c: char) {
    'A' <= c <= 'Z'
  }

  /** A spreadsheet column name: one or more capital letters. */
  predicate IsColumnName(s: string) {
    s != [] && forall i :: 0 <= i < |s| ==> IsUpperLetter(s[i])
  }

  /** The name of the 1-based column `n` in bijective base 26 ("A" = 1,
      "Z" = 26, "AA" = 27). */
  function ColumnLetters(n: int): (s: string)
    requires n >= 1
    ensures IsColumnName(s)
    decreases n
  {
    var last := ((n - 1) % 26 + 'A' as int) as char;
    if n <= 26 then [last] else ColumnLetters((n - 1) / 26) + [last]
  }

  /** A column name evaluates to a positive number. */
  lemma {:induction false} LettersValuePositive(s: string)
    requires IsColumnName(s)
    ensures LettersValue(s) >= 1
    decreases |s|
  {
    if |s| > 1 {
      LettersValuePositive(s[..|s| - 1]);
    }
  }

  /** Numbers to letters and back is the identity. */
  lemma {:induction false} LettersOfNumber(n: int)
    requires n >= 1
    ensures LettersValue(ColumnLetters(n)) == n
    decreases n
  {
    var s := ColumnLetters(n);
    if n > 26 {
      LettersOfNumber((n - 1) / 26);
      assert s[..|s| - 1] == ColumnLetters((n - 1) / 26);
    }
  }

  /** Letters to numbers and back is the identity on column names. */
  lemma {:induction false} NumberOfLetters(s: string)
    requires IsColumnName(s)
    ensures LettersValue(s) >= 1 && ColumnLetters(LettersValue(s)) == s
    decreases |s|
  {
    LettersValuePositive(s);
    var n := LettersValue(s);
    if |s| > 1 {
      var init := s[..|s| - 1];
      NumberOfLetters(init);
      LettersValuePositive(init);
      assert (n - 1) / 26 == LettersValue(init);
      assert s == init + [s[|s| - 1]];
    }
  }

  lemma {:induction false} UpperOfColumnName(s: string)
    requires IsColumnName(s)
    ensures Upper(s) == s
  {
    assert forall i :: 0 <= i < |s| ==> UpperChar(s[i]) == s[i];
  }

  /** `col_letter_to_index` maps each column name to the number it denotes
      in bijective base 26, so distinct names get distinct numbers. */
  lemma ColumnNumberOfName(s: string)
    requires IsColumnName(s)
    ensures ColumnNumber(s) >= 1 && ColumnLetters(ColumnNumber(s)) == s
  {
    StripOfTrimmed(s);
    UpperOfColumnName(s);
    NumberOfLetters(s);
  }

  lemma UpperKeepsTrimmed(u: string)
    requires IsTrimmed(u)
    ensures IsTrimmed(Upper(u))
  {
    if u != [] {
      assert Upper(u)[0] == UpperChar(u[0]);
      assert Upper(u)[|u| - 1] == UpperChar(u[|u| - 1]);
    }
  }

  lemma UpperIdempotent(u: string)
    ensures Upper(Upper(u)) == Upper(u)
  {
    var t := Upper(u);
    forall i | 0 <= i < |t| ensures UpperChar(t[i]) == t[i] {
      assert t[i] == UpperChar(u[i]);
    }
  }

  /** `ColumnNumber` of a name padded with whitespace or in lower case is
      that of the trimmed, upper-cased name. */
  lemma ColumnNumberNormalises(s: string)
    ensures ColumnNumber(s) == ColumnNumber(Upper(Strip(s)))
  {
    var u := Strip(s);
    var t := Upper(u);
    UpperKeepsTrimmed(u);
    StripOfTrimmed(t);
    UpperIdempotent(u);
  }

  lemma ColumnNumberOfSample(s: string, n: int)
    requires IsColumnName(s) && LettersValue(s) == n
    ensures ColumnNumber(s) == n
  {
    StripOfTrimmed(s);
    UpperOfColumnName(s);
  }

  lemma ColumnNumberSamples()
    ensures ColumnNumber("A") == 1 && ColumnNumber("Z") == 26 && ColumnNumber("AA") == 27
  {
    assert LettersValue("A") == 1 by { assert "A"[..0] == ""; }
    assert LettersValue("Z") == 26 by { assert "Z"[..0] == ""; }
    assert LettersValue("AA") == 27 by { assert "AA"[..1] == "A"; assert "A"[..0] == ""; }
    ColumnNumberOfSample("A", 1);
    ColumnNumberOfSample("Z", 26);
    ColumnNumberOfSample("AA", 27);
  }

  /** The 0-based variant is one below the 1-based number, so every column
      name has a non-negative index that names it back. */
  lemma ColumnIndexOfName(s: string)
    requires IsColumnName(s)
    ensures ColumnIndex(s) >= 0
    ensures ColumnLetters(ColumnIndex(s) + 1) == s
  {
    ColumnNumberOfName(s);
    SameLetters(ColumnIndex(s) + 1, ColumnNumber(s), s);
  }

  lemma SameLetters(m: int, n: int, s: string)
    requires m == n >= 1 && ColumnLetters(n) == s
    ensures ColumnLetters(m) == s
  {
  }

  lemma ColumnIndexSamples()
    ensures ColumnIndex("A") == 0 && ColumnIndex("Z") == 25 && ColumnIndex("AA") == 26
  {
    ColumnNumberSamples();
  }

  /** `xs[i]` with Python's negative indexing; `None` is an `IndexError`. */
  function PyItem<T>(xs: seq<T>, i: int): (r: Option<T>)
    ensures r.Some? <==> -|xs| <= i < |xs|
    ensures 0 <= i < |xs| ==> r == Some(xs[i])
    ensures -|xs| <= i < 0 ==> r == Some(xs[|xs| + i])
  {
    if 0 <= i < |xs| then Some(xs[i])
    else if -|xs| <= i < 0 then Some(xs[|xs| + i])
    else None
  }

  /** `row[idx] if idx < len(row) else ""`: a short row reads as blank, a
      negative index counts from the end, and one beyond the start raises. */
  function ReadCell(row: seq<string>, idx: int): (r: Option<string>)
    ensures idx >= |row| ==> r == Some("")
    ensures 0 <= idx < |row| ==> r == Some(row[idx])
    ensures r.None? <==> idx < -|row|
  {
    if idx < |row| then PyItem(row, idx) else Some("")
  }

  /** `(s or "").strip()`, the drivers' `safe`. */
  function Safe(s: string): string {
    Strip(s)
  }

  const ErrorCap: nat := 49000

  /** `err[:49000]` */
  function CapError(err: string): (r: string)
    ensures |r| <= ErrorCap && |r| <= |err|
    ensures r == err[..|r|]
    ensures |err| <= ErrorCap ==> r == err
  {
    Head(err, ErrorCap)
  }

  /** One cell of a row update: the configured column letters and the text. */
  datatype Cell = Cell(col: string, value: string)

  /** `f"{col}{row}"`: an A1 cell address. */
  function A1(col: string, row: int): string {
    col + IntToString(row)
  }

  /** What a driver does to the outside world, in order. */
  datatype Event =
    | Put(row: int, cells: seq<Cell>)
    | Ran(row: int, stage: string, rc: int)
    | Marked(path: string, sha: string)
    | Wrote(path: string)

  /** Every `Put` and `Ran` of the log concerns `row`. */
  predicate RowsAre(events: seq<Event>, row: int) {
    forall i :: 0 <= i < |events| && (events[i].Put? || events[i].Ran?) ==> events[i].row == row
  }

  /** A `Put` whose first cell sets a status ending in `_DONE`. */
  predicate IsDonePut(e: Event) {
    e.Put? && |e.cells| > 0 && |e.cells[0].value| >= 5 &&
    e.cells[0].value[|e.cells[0].value| - 5..] == "_DONE"
  }

  /** The event at `i`, if it is a marker write, comes right after a child
      that returned 0 and right before a `_DONE` status write. */
  predicate GuardedAt(events: seq<Event>, i: int)
    requires 0 <= i < |events|
  {
    events[i].Marked? ==>
      0 < i < |events| - 1 && events[i - 1].Ran? && events[i - 1].rc == 0 && IsDonePut(events[i + 1])
  }

  /** Every marker write of the log is guarded. */
  predicate MarkersGuarded(events: seq<Event>) {
    forall i :: 0 <= i < |events| ==> GuardedAt(events, i)
  }

  /** Some child in the log returned non-zero. */
  predicate SomeFailed(events: seq<Event>) {
    exists i :: 0 <= i < |events| && events[i].Ran? && events[i].rc != 0
  }

  /** No child runs after one that failed. */
  predicate FailuresLast(events: seq<Event>) {
    forall i, j :: 0 <= i < j < |events| && events[i].Ran? && events[j].Ran? ==> events[i].rc == 0
  }

  /** Joining two logs whose markers are guarded keeps them guarded. */
  lemma MarkersConcat(a: seq<Event>, b: seq<Event>)
    requires MarkersGuarded(a) && MarkersGuarded(b)
    ensures MarkersGuarded(a + b)
  {
    var e := a + b;
    forall i | 0 <= i < |e| ensures GuardedAt(e, i) {
      if i >= |a| {
        assert GuardedAt(b, i - |a|);
        assert e[i] == b[i - |a|];
        if e[i].Marked? {
          assert e[i - 1] == b[i - 1 - |a|];
          assert e[i + 1] == b[i + 1 - |a|];
        }
      } else {
        assert GuardedAt(a, i);
        assert e[i] == a[i];
        if e[i].Marked? {
          assert e[i - 1] == a[i - 1];
          assert e[i + 1] == a[i + 1];
        }
      }
    }
  }

  lemma ConcatLogs(a: seq<Event>, b: seq<Event>, row: int)
    requires RowsAre(a, row) && RowsAre(b, row)
    requires MarkersGuarded(a) && MarkersGuarded(b)
    requires FailuresLast(a) && FailuresLast(b) && !SomeFailed(a)
    ensures RowsAre(a + b, row) && MarkersGuarded(a + b) && FailuresLast(a + b)
    ensures SomeFailed(a + b) <==> SomeFailed(b)
  {
    var e := a + b;
    MarkersConcat(a, b);
    forall i, j | 0 <= i < j < |e| && e[i].Ran? && e[j].Ran? ensures e[i].rc == 0 {
      if i < |a| {
        assert e[i] == a[i];
      } else {
        assert e[i] == b[i - |a|] && e[j] == b[j - |a|];
      }
    }
    if SomeFailed(e) {
      var i :| 0 <= i < |e| && e[i].Ran? && e[i].rc != 0;
      assert i >= |a|;
      assert e[i] == b[i - |a|];
    }
    if SomeFailed(b) {
      var i :| 0 <= i < |b| && b[i].Ran? && b[i].rc != 0;
      assert e[|a| + i] == b[i];
    }
  }

  /** The number of children the log starts. */
  function RanCount(events: seq<Event>): nat
    decreases |events|
  {
    if events == [] then 0
    else RanCount(events[..|events| - 1]) + (if events[|events| - 1].Ran? then 1 else 0)
  }

  lemma {:induction false} RanCountConcat(a: seq<Event>, b: seq<Event>)
    ensures RanCount(a + b) == RanCount(a) + RanCount(b)
    decreases |b|
  {
    if b == [] {
      assert a + b == a;
    } else {
      var init := b[..|b| - 1];
      assert (a + b)[..|a + b| - 1] == a + init;
      RanCountConcat(a, init);
    }
  }

  lemma RanCountSnoc(a: seq<Event>, e: Event)
    ensures RanCount(a + [e]) == RanCount(a) + (if e.Ran? then 1 else 0)
  {
    assert (a + [e])[..|a|] == a;
  }

  /** A `Put` whose first cell sets one of `statuses`. */
  predicate SetsStatus(e: Event, statuses: set<string>) {
    e.Put? && |e.cells| > 0 && e.cells[0].value in statuses
  }

  /** The number of puts in the log that set one of `statuses`. */
  function StatusCount(events: seq<Event>, statuses: set<string>): nat
    decreases |events|
  {
    if events == [] then 0
    else StatusCount(events[..|events| - 1], statuses) + (if SetsStatus(events[|events| - 1], statuses) then 1 else 0)
  }

  lemma {:induction false} StatusCountConcat(a: seq<Event>, b: seq<Event>, statuses: set<string>)
    ensures StatusCount(a + b, statuses) == StatusCount(a, statuses) + StatusCount(b, statuses)
    decreases |b|
  {
    if b == [] {
      assert a + b == a;
    } else {
      var init := b[..|b| - 1];
      assert (a + b)[..|a + b| - 1] == a + init;
      StatusCountConcat(a, init, statuses);
    }
  }

  lemma StatusCountSingle(e: Event, statuses: set<string>)
    ensures StatusCount([e], statuses) == (if SetsStatus(e, statuses) then 1 else 0)
  {
    assert [e][..0] == [];
  }

  /** A log none of whose puts sets one of `statuses` counts nothing. */
  lemma {:induction false} NoStatusCount(events: seq<Event>, statuses: set<string>)
    requires forall i :: 0 <= i < |events| ==> !SetsStatus(events[i], statuses)
    ensures StatusCount(events, statuses) == 0
    decreases |events|
  {
    if events != [] {
      NoStatusCount(events[..|events| - 1], statuses);
    }
  }

  /** A log whose only candidate is its last event counts that event alone. */
  lemma StatusCountLast(init: seq<Event>, last: Event, statuses: set<string>)
    requires forall i :: 0 <= i < |init| ==> !SetsStatus(init[i], statuses)
    ensures StatusCount(init + [last], statuses) == (if SetsStatus(last, statuses) then 1 else 0)
  {
    NoStatusCount(init, statuses);
    assert (init + [last])[..|init|] == init;
  }

  /** The log of a failed block: start, the child, the failure. */
  lemma FailedLog(start: Event, ran: Event, failed: Event, row: int)
    requires start.Put? && start.row == row && failed.Put? && failed.row == row
    requires ran.Ran? && ran.row == row
    ensures var e := [start, ran, failed];
      && RowsAre(e, row) && MarkersGuarded(e) && FailuresLast(e) && RanCount(e) == 1
      && (SomeFailed(e) <==> ran.rc != 0)
  {
    var e := [start, ran, failed];
    forall i | 0 <= i < |e| && (e[i].Put? || e[i].Ran?) ensures e[i].row == row {
      assert i == 0 || i == 1 || i == 2;
    }
    forall i | 0 <= i < |e| ensures GuardedAt(e, i) {
      assert i == 0 || i == 1 || i == 2;
    }
    forall i | 0 <= i < |e| && e[i].Ran? ensures i == 1 {
      assert i == 0 || i == 1 || i == 2;
    }
    if SomeFailed(e) {
      var i :| 0 <= i < |e| && e[i].Ran? && e[i].rc != 0;
      assert i == 1;
    }
    if ran.rc != 0 {
      assert e[1].Ran? && e[1].rc != 0;
    }
    RanCountSnoc([], start);
    RanCountSnoc([start], ran);
    RanCountSnoc([start, ran], failed);
    assert [] + [start] == [start] && [start] + [ran] == [start, ran] && [start, ran] + [failed] == e;
  }

  /** The log of a successful block: start, the child, the optional marker,
      the done status. */
  lemma DoneLog(start: Event, ran: Event, marks: seq<Event>, done: Event, row: int)
    requires start.Put? && start.row == row && IsDonePut(done) && done.row == row
    requires ran.Ran? && ran.row == row && ran.rc == 0
    requires marks == [] || (|marks| == 1 && marks[0].Marked?)
    ensures var e := [start, ran] + marks + [done];
      RowsAre(e, row) && MarkersGuarded(e) && FailuresLast(e) && !SomeFailed(e) && RanCount(e) == 1
  {
    if marks == [] {
      assert [start, ran] + marks + [done] == [start, ran, done];
      RanCountSnoc([], start);
      RanCountSnoc([start], ran);
      RanCountSnoc([start, ran], done);
      assert [] + [start] == [start] && [start] + [ran] == [start, ran] && [start, ran] + [done] == [start, ran, done];
      var e := [start, ran, done];
      forall i | 0 <= i < |e| ensures GuardedAt(e, i) {
        assert i == 0 || i == 1 || i == 2;
      }
      assert forall i :: 0 <= i < |e| && e[i].Ran? ==> i == 1;
    } else {
      var m := marks[0];
      assert [start, ran] + marks + [done] == [start, ran, m, done];
      DoneLogMarked(start, ran, m, done, row);
    }
  }

  lemma DoneLogMarked(start: Event, ran: Event, m: Event, done: Event, row: int)
    requires start.Put? && start.row == row && IsDonePut(done) && done.row == row
    requires ran.Ran? && ran.row == row && ran.rc == 0 && m.Marked?
    ensures var e := [start, ran, m, done];
      RowsAre(e, row) && MarkersGuarded(e) && FailuresLast(e) && !SomeFailed(e) && RanCount(e) == 1
  {
    var e := [start, ran, m, done];
    RanCountSnoc([], start);
    RanCountSnoc([start], ran);
    RanCountSnoc([start, ran], m);
    RanCountSnoc([start, ran, m], done);
    assert [] + [start] == [start] && [start] + [ran] == [start, ran] && [start, ran] + [m] == [start, ran, m];
    assert [start, ran, m] + [done] == e;
    forall i | 0 <= i < |e| ensures GuardedAt(e, i) {
      assert i == 0 || i == 1 || i == 2 || i == 3;
    }
    assert forall i :: 0 <= i < |e| && e[i].Ran? ==> i == 1;
  }

  /** Whether a log holds a `Put` for `row`. */
  predicate Touches(events: seq<Event>, row: int) {
    exists i :: 0 <= i < |events| && events[i].Put? && events[i].row == row
  }
}

=== FILE: sheets_batch.dfy ===
/** `sheets_batch.py`: one row's cell updates sent as a single
    `batch_update` call with one single-cell range per column. */
module SheetsBatch {
  import opened PyText
  import opened Sheet

  /** One entry of the payload: `{"range": a1, "values": [[value]]}`. */
  datatype Range = Range(a1: string, values: seq<seq<string>>)

  /** A call made on the worksheet. */
  datatype Call = BatchUpdate(data: seq<Range>, valueInputOption: string)

  /** The payload, one entry per column in the order given. */
  function Payload(row: int, cells: seq<Cell>): (data: seq<Range>)
    ensures |data| == |cells|
    ensures forall i :: 0 <= i < |cells| ==> data[i].values == [[cells[i].value]]
  {
    seq(|cells|, i requires 0 <= i < |cells| => Range(A1(cells[i].col, row), [[cells[i].value]]))
  }

  /** `batch_update_row_cells`: nothing for an empty map, otherwise exactly
      one call carrying the payload. */
  function BatchUpdateRowCells(row: int, cells: seq<Cell>, valueInputOption: string): (calls: seq<Call>)
    ensures cells == [] <==> calls == []
    ensures |calls| <= 1
    ensures cells != [] ==> calls[0].valueInputOption == valueInputOption && |calls[0].data| == |cells|
  {
    if cells == [] then [] else [BatchUpdate(Payload(row, cells), valueInputOption)]
  }

  predicate IsDigit(c: char) {
    '0' <= c <= '9'
  }

  /** The longest prefix of `s` without a digit. */
  function Letters(s: string): (r: string)
    ensures |r| <= |s| && r == s[..|r|]
    ensures forall i :: 0 <= i < |r| ==> !IsDigit(r[i])
    ensures |r| < |s| ==> IsDigit(s[|r|])
  {
    if s == [] || IsDigit(s[0]) then [] else [s[0]] + Letters(s[1..])
  }

  lemma {:induction false} NatDigits(n: nat)
    ensures forall i :: 0 <= i < |NatToString(n)| ==> IsDigit(NatToString(n)[i])
    decreases n
  {
    if n >= 10 {
      NatDigits(n / 10);
      var d := DigitChar(n % 10);
      assert IsDigit(d);
      var s := NatToString(n / 10) + [d];
      assert forall i :: 0 <= i < |s| - 1 ==> s[i] == NatToString(n / 10)[i];
    } else {
      assert IsDigit(DigitChar(n));
    }
  }

  lemma {:induction false} LettersOfJoin(col: string, digits: string)
    requires forall i :: 0 <= i < |col| ==> !IsDigit(col[i])
    requires digits != [] && IsDigit(digits[0])
    ensures Letters(col + digits) == col
    decreases |col|
  {
    if col != [] {
      assert (col + digits)[1..] == col[1..] + digits;
      LettersOfJoin(col[1..], digits);
      assert col == [col[0]] + col[1..];
    }
  }

  /** The column a range of the payload addresses. */
  function ColumnOf(r: Range): string {
    Letters(r.a1)
  }

  /** The payload names every cell by its column and the row: for columns
      written in letters and a row number from 1, reading the column back
      from each range and the value from its single cell gives the map back,
      and the rest of each range is the row number. */
  lemma PayloadRoundTrip(row: int, cells: seq<Cell>)
    requires row >= 1
    requires forall i :: 0 <= i < |cells| ==> IsColumnName(cells[i].col)
    ensures var data := Payload(row, cells);
      forall i :: 0 <= i < |cells| ==>
        && Cell(ColumnOf(data[i]), data[i].values[0][0]) == cells[i]
        && data[i].a1 == ColumnOf(data[i]) + NatToString(row)
  {
    var data := Payload(row, cells);
    NatDigits(row);
    forall i | 0 <= i < |cells|
      ensures Cell(ColumnOf(data[i]), data[i].values[0][0]) == cells[i]
      ensures data[i].a1 == ColumnOf(data[i]) + NatToString(row)
    {
      var col := cells[i].col;
      assert forall j :: 0 <= j < |col| ==> !IsDigit(col[j]) by {
        forall j | 0 <= j < |col| ensures !IsDigit(col[j]) {
          assert IsUpperLetter(col[j]);
        }
      }
      LettersOfJoin(col, NatToString(row));
    }
  }
}

=== FILE: sorting.dfy ===
/** `sorted()` on a list of strings: Python compares strings code point by
    code point, a proper prefix first. */
module StrOrder {
  import opened Dedupe
  /** `a <= b` on strings. */
  predicate StrLe(a: string, b: string)
    decreases |a|
  {
    a == [] || (b != [] && (a[0] < b[0] || (a[0] == b[0] && StrLe(a[1..], b[1..]))))
  }

  /** Any two strings compare one way or the other. */
  lemma {:induction false} StrLeTotal(a: string, b: string)
    ensures StrLe(a, b) || StrLe(b, a)
    decreases |a|
  {
    if a != [] && b != [] && a[0] == b[0] {
      StrLeTotal(a[1..], b[1..]);
    }
  }

  /** Only equal strings compare both ways. */
  lemma {:induction false} StrLeAntisymmetric(a: string, b: string)
    requires StrLe(a, b) && StrLe(b, a)
    ensures a == b
    decreases |a|
  {
    if a != [] {
      StrLeAntisymmetric(a[1..], b[1..]);
      assert a == [a[0]] + a[1..] && b == [b[0]] + b[1..];
    }
  }

  predicate Sorted(xs: seq<string>) {
    forall i :: 0 < i < |xs| ==> StrLe(xs[i - 1], xs[i])
  }

  /** Insert `x` before the first element it does not follow. */
  function Insert(x: string, xs: seq<string>): (r: seq<string>)
    ensures |r| == |xs| + 1
    ensures r[0] == x || (xs != [] && r[0] == xs[0])
    ensures multiset(r) == multiset(xs) + multiset{x}
    decreases |xs|
  {
    if xs == [] || StrLe(x, xs[0]) then [x] + xs
    else
      var rest := Insert(x, xs[1..]);
      assert xs == [xs[0]] + xs[1..];
      [xs[0]] + rest
  }

  lemma {:induction false} InsertSorted(x: string, xs: seq<string>)
    requires Sorted(xs)
    ensures Sorted(Insert(x, xs))
    decreases |xs|
  {
    if xs != [] && !StrLe(x, xs[0]) {
      var rest := Insert(x, xs[1..]);
      assert Sorted(xs[1..]) by {
        forall i | 0 < i < |xs[1..]| ensures StrLe(xs[1..][i - 1], xs[1..][i]) {
          assert xs[1..][i - 1] == xs[i] && xs[1..][i] == xs[i + 1];
        }
      }
      InsertSorted(x, xs[1..]);
      StrLeTotal(x, xs[0]);
      var r := [xs[0]] + rest;
      forall i | 0 < i < |r| ensures StrLe(r[i - 1], r[i]) {
        if i > 1 {
          assert r[i - 1] == rest[i - 2] && r[i] == rest[i - 1];
        } else if rest[0] != x {
          assert rest[0] == xs[1];
        }
      }
    }
  }

  /** `sorted(xs)`: insertion sort, which yields the same list as Python's
      sort because equal strings are indistinguishable. */
  function Sort(xs: seq<string>): (r: seq<string>)
    ensures |r| == |xs|
    ensures multiset(r) == multiset(xs)
    decreases |xs|
  {
    if xs == [] then []
    else
      assert xs == [xs[0]] + xs[1..];
      Insert(xs[0], Sort(xs[1..]))
  }

  /** The result is in order and holds the same strings, as often. */
  lemma {:induction false} SortShape(xs: seq<string>)
    ensures Sorted(Sort(xs)) && multiset(Sort(xs)) == multiset(xs)
    decreases |xs|
  {
    if xs != [] {
      SortShape(xs[1..]);
      InsertSorted(xs[0], Sort(xs[1..]));
    }
  }

  /** A sorted list with the same elements is the sorted list: the order
      is total, so `Sort` is the only possible answer. */
  lemma {:induction false} SortedUnique(a: seq<string>, b: seq<string>)
    requires Sorted(a) && Sorted(b) && multiset(a) == multiset(b)
    ensures a == b
    decreases |a|
  {
    if a != [] {
      assert |b| == |multiset(b)| == |a|;
      assert a[0] in multiset(b);
      assert b[0] in multiset(a);
      var i :| 0 <= i < |b| && b[i] == a[0];
      var j :| 0 <= j < |a| && a[j] == b[0];
      SortedHeadLe(b, i);
      SortedHeadLe(a, j);
      StrLeAntisymmetric(a[0], b[0]);
      HeadTail(a);
      HeadTail(b);
      assert multiset(a[1..]) == multiset(b[1..]) by {
        forall x ensures multiset(a[1..])[x] == multiset(b[1..])[x] {
          assert multiset(a)[x] == multiset(b)[x];
        }
      }
      assert a == [a[0]] + a[1..] && b == [b[0]] + b[1..];
      SortedTail(a);
      SortedTail(b);
      SortedUnique(a[1..], b[1..]);
    }
  }

  lemma HeadTail(a: seq<string>)
    requires a != []
    ensures multiset(a) == multiset{a[0]} + multiset(a[1..])
  {
    assert a == [a[0]] + a[1..];
  }

  lemma SortedTail(a: seq<string>)
    requires Sorted(a) && a != []
    ensures Sorted(a[1..])
  {
    forall i | 0 < i < |a[1..]| ensures StrLe(a[1..][i - 1], a[1..][i]) {
      assert a[1..][i - 1] == a[i] && a[1..][i] == a[i + 1];
    }
  }

  /** The head of a sorted list is below every element. */
  lemma {:induction false} SortedHeadLe(a: seq<string>, i: nat)
    requires Sorted(a) && i < |a|
    ensures StrLe(a[0], a[i])
    decreases i
  {
    if i == 0 {
      StrLeRefl(a[0]);
    } else {
      SortedHeadLe(a, i - 1);
      StrLeTrans(a[0], a[i - 1], a[i]);
    }
  }

  lemma {:induction false} StrLeRefl(a: string)
    ensures StrLe(a, a)
    decreases |a|
  {
    if a != [] {
      StrLeRefl(a[1..]);
    }
  }

  lemma {:induction false} StrLeTrans(a: string, b: string, c: string)
    requires StrLe(a, b) && StrLe(b, c)
    ensures StrLe(a, c)
    decreases |a|
  {
    if a != [] && b != [] && c != [] && a[0] == b[0] && b[0] == c[0] {
      StrLeTrans(a[1..], b[1..], c[1..]);
    }
  }

  /** In a duplicate-free list every string occurs at most once. */
  lemma {:induction false} NoDupCount(a: seq<string>, x: string)
    requires NoDup(a)
    ensures multiset(a)[x] == (if x in a then 1 else 0)
    decreases |a|
  {
    if a != [] {
      HeadTail(a);
      assert NoDup(a[1..]) by {
        forall i, j | 0 <= i < j < |a[1..]| ensures a[1..][i] != a[1..][j] {
          assert a[1..][i] == a[i + 1] && a[1..][j] == a[j + 1];
        }
      }
      NoDupCount(a[1..], x);
      assert a[0] !in a[1..] by {
        forall j | 0 <= j < |a[1..]| ensures a[1..][j] != a[0] {
          assert a[1..][j] == a[j + 1];
        }
      }
      assert a == [a[0]] + a[1..];
    }
  }

  /** A repeated string occurs at least twice. */
  lemma DupCount(b: seq<string>, i: nat, j: nat)
    requires i < j < |b| && b[i] == b[j]
    ensures multiset(b)[b[i]] >= 2
  {
    assert b == b[..j] + [b[j]] + b[j + 1..];
    assert b[..j][i] == b[i];
    assert multiset(b[..j])[b[i]] >= 1;
  }

  /** Reordering keeps a list duplicate-free. */
  lemma NoDupPerm(a: seq<string>, b: seq<string>)
    requires NoDup(a) && multiset(a) == multiset(b)
    ensures NoDup(b)
  {
    forall i, j | 0 <= i < j < |b| ensures b[i] != b[j] {
      if b[i] == b[j] {
        DupCount(b, i, j);
        NoDupCount(a, b[i]);
      }
    }
  }

  /** Two duplicate-free lists with the same members are permutations of
      each other. */
  lemma SameMembersPerm(a: seq<string>, b: seq<string>)
    requires NoDup(a) && NoDup(b)
    requires forall x :: x in a <==> x in b
    ensures multiset(a) == multiset(b)
  {
    forall x ensures multiset(a)[x] == multiset(b)[x] {
      NoDupCount(a, x);
      NoDupCount(b, x);
    }
  }
}

=== FILE: topics.dfy ===
/** `topics_simple` in `wp_upload_queue.py`: count capitalised phrases and
    longer lower-cased tokens, order the terms by count, and keep the first
    `k` distinct labels that are not stopwords. The two regular-expression
    scans are parameters; everything after them is modelled. */
module Topics {
  import opened PyText
  import opened Dedupe

  const Stopwords: set<string> := {
    "a", "an", "and", "are", "as", "at", "be", "but", "by", "for", "from", "has", "have", "he", "her", "hers",
    "him", "his", "i", "if", "in", "into", "is", "it", "its", "me", "my", "of", "on", "or", "our", "ours",
    "she", "that", "the", "their", "theirs", "them", "they", "this", "to", "was", "we", "were", "what", "when",
    "where", "which", "who", "why", "will", "with", "you", "your", "yours", "not"}

  predicate IsStopword(s: string) {
    Lower(s) in Stopwords
  }

  /** No element is a stopword once lower-cased. */
  predicate NoStopwords(xs: seq<string>) {
    forall i :: 0 <= i < |xs| ==> !IsStopword(xs[i])
  }

  // ---------------------------------------------------------------------
  // Counting

  /** The capitalised phrases that are counted: stripped, at least four
      characters long. */
  function CapsKept(caps: seq<string>): seq<string>
    decreases |caps|
  {
    if caps == [] then []
    else
      var c := Strip(caps[0]);
      if |c| < 4 then CapsKept(caps[1..]) else [c] + CapsKept(caps[1..])
  }

  lemma {:induction false} CapsKeptMembers(caps: seq<string>, t: string)
    ensures t in CapsKept(caps) <==> t in Stripped(caps) && |t| >= 4
    decreases |caps|
  {
    if caps != [] {
      CapsKeptMembers(caps[1..], t);
      StrippedCons(caps);
      InConcat([Strip(caps[0])], Stripped(caps[1..]), t);
      InConcat([Strip(caps[0])], CapsKept(caps[1..]), t);
    }
  }

  /** The tokens that are counted: those that are not stopwords. */
  function TokensKept(tokens: seq<string>): (r: seq<string>)
    ensures forall t :: t in r <==> t in tokens && t !in Stopwords
    decreases |tokens|
  {
    if tokens == [] then []
    else
      var rest := TokensKept(tokens[1..]);
      assert tokens == [tokens[0]] + tokens[1..];
      if tokens[0] in Stopwords then rest else [tokens[0]] + rest
  }

  /** Every occurrence counted, phrases first and then tokens, as the two
      loops fill the same dict. */
  function Kept(caps: seq<string>, tokens: seq<string>): seq<string> {
    CapsKept(caps) + TokensKept(tokens)
  }

  /** One entry of the insertion-ordered frequency dict. */
  datatype Tally = Tally(term: string, count: nat)

  predicate Counted(freq: seq<Tally>, t: string) {
    exists i :: 0 <= i < |freq| && freq[i].term == t
  }

  /** `freq[t] = freq.get(t, 0) + 1`: an existing entry is incremented in
      place, a new term is appended. */
  function Tallied(freq: seq<Tally>, t: string): seq<Tally>
    decreases |freq|
  {
    if freq == [] then [Tally(t, 1)]
    else if freq[0].term == t then [Tally(t, freq[0].count + 1)] + freq[1..]
    else [freq[0]] + Tallied(freq[1..], t)
  }

  lemma CountedCons(x: Tally, rest: seq<Tally>)
    ensures forall s :: Counted([x] + rest, s) <==> x.term == s || Counted(rest, s)
  {
    var r := [x] + rest;
    forall s ensures Counted(r, s) ==> x.term == s || Counted(rest, s) {
      if Counted(r, s) && x.term != s {
        var i :| 0 <= i < |r| && r[i].term == s;
        assert rest[i - 1].term == s;
      }
    }
    forall s ensures Counted(rest, s) ==> Counted(r, s) {
      if Counted(rest, s) {
        var i :| 0 <= i < |rest| && rest[i].term == s;
        assert r[i + 1].term == s;
      }
    }
    assert r[0].term == x.term;
  }

  /** Counting a term adds it to the dict's terms and removes none. */
  lemma {:induction false} TalliedTerms(freq: seq<Tally>, t: string)
    ensures forall s :: Counted(Tallied(freq, t), s) <==> Counted(freq, s) || s == t
    decreases |freq|
  {
    if freq == [] {
      assert Tallied(freq, t)[0].term == t;
    } else {
      assert freq == [freq[0]] + freq[1..];
      CountedCons(freq[0], freq[1..]);
      if freq[0].term == t {
        CountedCons(Tally(t, freq[0].count + 1), freq[1..]);
      } else {
        TalliedTerms(freq[1..], t);
        CountedCons(freq[0], Tallied(freq[1..], t));
      }
    }
  }

  /** The counting loops over `terms`, starting from `freq`. */
  function Count(freq: seq<Tally>, terms: seq<string>): seq<Tally>
    decreases |terms|
  {
    if terms == [] then freq else Count(Tallied(freq, terms[0]), terms[1..])
  }

  /** The dict holds exactly the terms it started with and the counted
      ones. */
  lemma {:induction false} CountTerms(freq: seq<Tally>, terms: seq<string>)
    ensures forall s :: Counted(Count(freq, terms), s) <==> Counted(freq, s) || s in terms
    decreases |terms|
  {
    if terms != [] {
      CountTerms(Tallied(freq, terms[0]), terms[1..]);
      TalliedTerms(freq, terms[0]);
      assert forall s :: s in terms <==> s == terms[0] || s in terms[1..] by {
        assert terms == [terms[0]] + terms[1..];
      }
    }
  }

  /** The count the dict holds for `s`, zero when it has no entry. */
  function CountOf(freq: seq<Tally>, s: string): nat
    decreases |freq|
  {
    if freq == [] then 0 else if freq[0].term == s then freq[0].count else CountOf(freq[1..], s)
  }

  /** Each term has one entry. */
  predicate DistinctTerms(freq: seq<Tally>) {
    forall i, j :: 0 <= i < j < |freq| ==> freq[i].term != freq[j].term
  }

  /** Counting `t` adds one to `t`'s count and changes no other. */
  lemma {:induction false} TalliedCountOf(freq: seq<Tally>, t: string, s: string)
    ensures CountOf(Tallied(freq, t), s) == CountOf(freq, s) + (if s == t then 1 else 0)
    decreases |freq|
  {
    if freq != [] && freq[0].term != t {
      TalliedCountOf(freq[1..], t, s);
      assert ([freq[0]] + Tallied(freq[1..], t))[1..] == Tallied(freq[1..], t);
    } else if freq != [] {
      assert ([Tally(t, freq[0].count + 1)] + freq[1..])[1..] == freq[1..];
    }
  }

  lemma {:induction false} TalliedDistinct(freq: seq<Tally>, t: string)
    requires DistinctTerms(freq)
    ensures DistinctTerms(Tallied(freq, t))
    decreases |freq|
  {
    if freq != [] && freq[0].term != t {
      var rest := Tallied(freq[1..], t);
      TalliedDistinct(freq[1..], t);
      TalliedTerms(freq[1..], t);
      var r := [freq[0]] + rest;
      forall i, j | 0 <= i < j < |r| ensures r[i].term != r[j].term {
        if i == 0 {
          assert Counted(rest, r[j].term) by { assert rest[j - 1] == r[j]; }
          if Counted(freq[1..], r[j].term) {
            var m :| 0 <= m < |freq[1..]| && freq[1..][m].term == r[j].term;
            assert freq[m + 1] == freq[1..][m];
          }
        } else {
          assert r[i] == rest[i - 1] && r[j] == rest[j - 1];
        }
      }
    }
  }

  /** With one entry per term, an entry's count is the term's count. */
  lemma {:induction false} CountOfEntry(freq: seq<Tally>, i: nat)
    requires DistinctTerms(freq) && i < |freq|
    ensures CountOf(freq, freq[i].term) == freq[i].count
    decreases |freq|
  {
    if i > 0 {
      assert freq[0].term != freq[i].term;
      assert freq[1..][i - 1] == freq[i];
      CountOfEntry(freq[1..], i - 1);
    }
  }

  /** Counting a list of terms adds each term's number of occurrences. */
  lemma {:induction false} CountCountOf(freq: seq<Tally>, terms: seq<string>, s: string)
    ensures CountOf(Count(freq, terms), s) == CountOf(freq, s) + multiset(terms)[s]
    decreases |terms|
  {
    if terms != [] {
      CountCountOf(Tallied(freq, terms[0]), terms[1..], s);
      TalliedCountOf(freq, terms[0], s);
      assert terms == [terms[0]] + terms[1..];
      assert multiset(terms) == multiset{terms[0]} + multiset(terms[1..]);
    }
  }

  lemma {:induction false} CountDistinct(freq: seq<Tally>, terms: seq<string>)
    requires DistinctTerms(freq)
    ensures DistinctTerms(Count(freq, terms))
    decreases |terms|
  {
    if terms != [] {
      TalliedDistinct(freq, terms[0]);
      CountDistinct(Tallied(freq, terms[0]), terms[1..]);
    }
  }

  /** The dict built from the kept terms has one entry per term, and each
      entry's count is the number of times its term occurs. */
  lemma TallyIsOccurrences(terms: seq<string>)
    ensures DistinctTerms(Count([], terms))
    ensures forall i :: 0 <= i < |Count([], terms)| ==>
      Count([], terms)[i].count == multiset(terms)[Count([], terms)[i].term]
  {
    var freq := Count([], terms);
    CountDistinct([], terms);
    forall i | 0 <= i < |freq| ensures freq[i].count == multiset(terms)[freq[i].term] {
      CountOfEntry(freq, i);
      CountCountOf([], terms, freq[i].term);
    }
  }

  // ---------------------------------------------------------------------
  // Ordering

  /** Place `x` after every entry counted at least as often, so equal
      counts keep their dict order, as the stable `sorted(..., reverse=True)`
      does. */
  function Insert(x: Tally, s: seq<Tally>): seq<Tally>
    decreases |s|
  {
    if s == [] || s[0].count < x.count then [x] + s else [s[0]] + Insert(x, s[1..])
  }

  /** `sorted(freq.items(), key=count, reverse=True)` */
  function SortByCount(freq: seq<Tally>): seq<Tally>
    decreases |freq|
  {
    if freq == [] then [] else Insert(freq[|freq| - 1], SortByCount(freq[..|freq| - 1]))
  }

  predicate Descending(s: seq<Tally>) {
    forall i, j :: 0 <= i < j < |s| ==> s[i].count >= s[j].count
  }

  lemma {:induction false} InsertPerm(x: Tally, s: seq<Tally>)
    ensures multiset(Insert(x, s)) == multiset(s) + multiset{x}
    decreases |s|
  {
    if s != [] && s[0].count >= x.count {
      InsertPerm(x, s[1..]);
      assert s == [s[0]] + s[1..];
    }
  }

  /** Inserting keeps every count under a bound that `x` and `s` respect. */
  lemma {:induction false} InsertBounded(x: Tally, s: seq<Tally>, c: nat)
    requires x.count <= c && forall i :: 0 <= i < |s| ==> s[i].count <= c
    ensures forall i :: 0 <= i < |Insert(x, s)| ==> Insert(x, s)[i].count <= c
    decreases |s|
  {
    if s != [] && s[0].count >= x.count {
      InsertBounded(x, s[1..], c);
    }
  }

  lemma {:induction false} InsertDescending(x: Tally, s: seq<Tally>)
    requires Descending(s)
    ensures Descending(Insert(x, s))
    decreases |s|
  {
    if s != [] && s[0].count >= x.count {
      var rest := Insert(x, s[1..]);
      InsertDescending(x, s[1..]);
      InsertBounded(x, s[1..], s[0].count);
      var r := [s[0]] + rest;
      forall i, j | 0 <= i < j < |r| ensures r[i].count >= r[j].count {
        if i == 0 {
          assert r[j] == rest[j - 1];
        } else {
          assert r[i] == rest[i - 1] && r[j] == rest[j - 1];
        }
      }
    }
  }

  /** The order is a permutation of the dict's entries, by falling count. */
  lemma {:induction false} SortByCountShape(freq: seq<Tally>)
    ensures multiset(SortByCount(freq)) == multiset(freq)
    ensures Descending(SortByCount(freq))
    decreases |freq|
  {
    if freq != [] {
      var init := freq[..|freq| - 1];
      SortByCountShape(init);
      InsertPerm(freq[|freq| - 1], SortByCount(init));
      InsertDescending(freq[|freq| - 1], SortByCount(init));
      assert freq == init + [freq[|freq| - 1]];
    }
  }

  /** After sorting, every entry still carries its term's number of
      occurrences. */
  lemma SortedOccurrences(terms: seq<string>)
    ensures var sorted := SortByCount(Count([], terms));
      forall i :: 0 <= i < |sorted| ==> sorted[i].count == multiset(terms)[sorted[i].term]
  {
    var freq := Count([], terms);
    var sorted := SortByCount(freq);
    TallyIsOccurrences(terms);
    SortByCountShape(freq);
    forall i | 0 <= i < |sorted| ensures sorted[i].count == multiset(terms)[sorted[i].term] {
      assert sorted[i] in multiset(freq);
      var j :| 0 <= j < |freq| && freq[j] == sorted[i];
    }
  }

  lemma SortByCountTerms(freq: seq<Tally>)
    ensures forall s :: Counted(SortByCount(freq), s) <==> Counted(freq, s)
  {
    var r := SortByCount(freq);
    SortByCountShape(freq);
    forall s ensures Counted(r, s) ==> Counted(freq, s) {
      if Counted(r, s) {
        var i :| 0 <= i < |r| && r[i].term == s;
        assert r[i] in multiset(freq);
        var j :| 0 <= j < |freq| && freq[j] == r[i];
      }
    }
    forall s ensures Counted(freq, s) ==> Counted(r, s) {
      if Counted(freq, s) {
        var i :| 0 <= i < |freq| && freq[i].term == s;
        assert freq[i] in multiset(r);
        var j :| 0 <= j < |r| && r[j] == freq[i];
      }
    }
  }

  // ---------------------------------------------------------------------
  // Labels

  predicate IsAsciiLetter(c: char) {
    'a' <= c <= 'z' || 'A' <= c <= 'Z'
  }

  predicate HasUpper(s: string) {
    exists i :: 0 <= i < |s| && 'A' <= s[i] <= 'Z'
  }

  /** `s.title()` on ASCII: a letter is upper-cased after a non-letter or
      at the start, lower-cased after a letter. */
  function Title(s: string): (r: string)
    ensures |r| == |s|
  {
    seq(|s|, i requires 0 <= i < |s| =>
      if !IsAsciiLetter(s[i]) then s[i]
      else if i == 0 || !IsAsciiLetter(s[i - 1]) then UpperChar(s[i])
      else LowerChar(s[i]))
  }

  /** `s.replace("-", " ")` */
  function Unhyphen(s: string): (r: string)
    ensures |r| == |s| && '-' !in r
  {
    seq(|s|, i requires 0 <= i < |s| => if s[i] == '-' then ' ' else s[i])
  }

  /** A term with an upper-case letter is its own label; any other is
      title-cased with hyphens read as spaces. */
  function Label(term: string): string {
    if HasUpper(term) then term else Title(Unhyphen(term))
  }

  function Labels(sorted: seq<Tally>): (r: seq<string>)
    ensures |r| == |sorted|
    ensures forall i :: 0 <= i < |sorted| ==> r[i] == Label(sorted[i].term)
  {
    seq(|sorted|, i requires 0 <= i < |sorted| => Label(sorted[i].term))
  }

  /** A label is appended and then compared with `k`, so a `k` below one
      still lets the first label through. */
  function Bound(k: int): nat {
    if k >= 1 then k else 1
  }

  /** The selection loop from the list `topics`: skip stopwords and labels
      already taken, stop once `k` are taken. */
  function Pick(topics: seq<string>, labels: seq<string>, k: int): seq<string>
    decreases |labels|
  {
    if labels == [] then topics
    else
      var l := labels[0];
      if IsStopword(l) || l in topics then Pick(topics, labels[1..], k)
      else
        var t := topics + [l];
        if |t| >= k then t else Pick(t, labels[1..], k)
  }

  /** What the selection loop keeps: no more than the bound, no
      duplicates, no stopwords, only the given labels, and, when the bound
      was not reached, every label that is not a stopword. */
  predicate Picked(topics: seq<string>, labels: seq<string>, k: int, r: seq<string>) {
    && |r| <= Bound(k) && NoDup(r) && NoStopwords(r)
    && (forall l :: l in topics ==> l in r)
    && (forall l :: l in r ==> l in topics || l in labels)
    && (|r| < Bound(k) ==> forall l :: l in labels ==> IsStopword(l) || l in r)
  }

  lemma PickSkipStep(topics: seq<string>, labels: seq<string>, k: int)
    requires labels != [] && (IsStopword(labels[0]) || labels[0] in topics)
    requires Picked(topics, labels[1..], k, Pick(topics, labels[1..], k))
    ensures Picked(topics, labels, k, Pick(topics, labels, k))
  {
    assert forall l :: l in labels <==> l == labels[0] || l in labels[1..] by {
      assert labels == [labels[0]] + labels[1..];
    }
  }

  lemma PickTakeStep(topics: seq<string>, labels: seq<string>, k: int)
    requires labels != [] && !IsStopword(labels[0]) && labels[0] !in topics
    requires NoDup(topics) && NoStopwords(topics) && |topics| < Bound(k)
    requires var t := topics + [labels[0]];
      |t| < k ==> Picked(t, labels[1..], k, Pick(t, labels[1..], k))
    ensures Picked(topics, labels, k, Pick(topics, labels, k))
  {
    var t := topics + [labels[0]];
    assert forall l :: l in labels <==> l == labels[0] || l in labels[1..] by {
      assert labels == [labels[0]] + labels[1..];
    }
    assert forall l :: l in t <==> l in topics || l == labels[0];
  }

  lemma {:induction false} PickShape(topics: seq<string>, labels: seq<string>, k: int)
    requires NoDup(topics) && NoStopwords(topics) && |topics| < Bound(k)
    ensures Picked(topics, labels, k, Pick(topics, labels, k))
    decreases |labels|
  {
    if labels != [] {
      var l := labels[0];
      if IsStopword(l) || l in topics {
        PickShape(topics, labels[1..], k);
        PickSkipStep(topics, labels, k);
      } else {
        var t := topics + [l];
        if |t| < k {
          assert NoDup(t) && NoStopwords(t);
          PickShape(t, labels[1..], k);
        }
        PickTakeStep(topics, labels, k);
      }
    }
  }

  /** The topics come in the order of their first occurrence among the
      labels. */
  predicate InLabelOrder(r: seq<string>, labels: seq<string>) {
    && (forall i :: 0 <= i < |r| ==> r[i] in labels)
    && (forall i, j :: 0 <= i < j < |r| ==> FirstIndex(labels, r[i]) < FirstIndex(labels, r[j]))
  }

  /** The selection loop from position `n` of `labels`, having taken
      `topics` from the labels before `n`, keeps the label order. */
  lemma {:induction false} PickOrder(topics: seq<string>, labels: seq<string>, n: nat, k: int)
    requires n <= |labels| && InLabelOrder(topics, labels)
    requires forall i :: 0 <= i < |topics| ==> FirstIndex(labels, topics[i]) < n
    requires forall p :: 0 <= p < n ==> IsStopword(labels[p]) || labels[p] in topics
    ensures InLabelOrder(Pick(topics, labels[n..], k), labels)
    decreases |labels| - n
  {
    if n < |labels| {
      var l := labels[n];
      assert labels[n..][0] == l && labels[n..][1..] == labels[n + 1..];
      if IsStopword(l) || l in topics {
        PickOrder(topics, labels, n + 1, k);
      } else {
        var f := FirstIndex(labels, l);
        assert IsStopword(labels[f]) || labels[f] in topics || f >= n;
        FirstIndexAtMost(labels, l, n);
        assert f == n;
        var t := topics + [l];
        assert InLabelOrder(t, labels) by {
          forall i, j | 0 <= i < j < |t| ensures FirstIndex(labels, t[i]) < FirstIndex(labels, t[j]) {
            if j == |topics| {
              assert t[i] == topics[i];
            } else {
              assert t[i] == topics[i] && t[j] == topics[j];
            }
          }
        }
        if |t| < k {
          forall i | 0 <= i < |t| ensures FirstIndex(labels, t[i]) < n + 1 {
            if i < |topics| { assert t[i] == topics[i]; }
          }
          PickOrder(t, labels, n + 1, k);
        }
      }
    }
  }

  /** A string occurring at `n` first occurs at `n` or before. */
  lemma {:induction false} FirstIndexAtMost(xs: seq<string>, v: string, n: nat)
    requires n < |xs| && xs[n] == v
    ensures FirstIndex(xs, v) <= n
    decreases n
  {
    if xs[0] != v {
      assert xs[1..][n - 1] == v;
      FirstIndexAtMost(xs[1..], v, n - 1);
    }
  }

  /** The count behind a label: that of the first entry that bears it. */
  function LabelCount(sorted: seq<Tally>, l: string): nat {
    if l in Labels(sorted) then sorted[FirstIndex(Labels(sorted), l)].count else 0
  }

  // ---------------------------------------------------------------------
  // topics_simple

  /** `topics_simple(text, k)`, given the phrase scan of `text` and the
      token scan of `text.lower()`. */
  function TopicsSimple(text: string, k: int, findCaps: string -> seq<string>,
                        findTokens: string -> seq<string>): (r: seq<string>)
    ensures text == [] ==> r == []
  {
    if text == [] then []
    else
      var kept := Kept(findCaps(text), findTokens(Lower(text)));
      Pick([], Labels(SortByCount(Count([], kept))), k)
  }

  lemma LabelsOfCounted(sorted: seq<Tally>, kept: seq<string>, l: string)
    requires forall s :: Counted(sorted, s) <==> s in kept
    requires l in Labels(sorted)
    ensures exists t :: t in kept && l == Label(t)
  {
    var i :| 0 <= i < |sorted| && Labels(sorted)[i] == l;
    assert Counted(sorted, sorted[i].term);
  }

  lemma CountedLabel(sorted: seq<Tally>, t: string)
    requires Counted(sorted, t)
    ensures Label(t) in Labels(sorted)
  {
    var i :| 0 <= i < |sorted| && sorted[i].term == t;
    assert Labels(sorted)[i] == Label(t);
  }

  /** The topics are at most `k` (one when `k` is below one), distinct, never
      a stopword, each the label of a counted term; when fewer than the bound
      are returned, every counted term's label is among them or is a
      stopword. */
  lemma TopicsSimpleShape(text: string, k: int, findCaps: string -> seq<string>,
                          findTokens: string -> seq<string>)
    ensures var r := TopicsSimple(text, k, findCaps, findTokens);
      && |r| <= Bound(k) && NoDup(r) && NoStopwords(r)
      && (k >= 1 ==> |r| <= k)
    ensures var r := TopicsSimple(text, k, findCaps, findTokens);
      var kept := Kept(findCaps(text), findTokens(Lower(text)));
      && (forall l :: l in r ==> exists t :: t in kept && l == Label(t))
      && (text != [] && |r| < Bound(k) ==> forall t :: t in kept ==> IsStopword(Label(t)) || Label(t) in r)
  {
    if text != [] {
      var kept := Kept(findCaps(text), findTokens(Lower(text)));
      var freq := Count([], kept);
      var sorted := SortByCount(freq);
      CountTerms([], kept);
      SortByCountTerms(freq);
      assert forall s :: Counted(sorted, s) <==> s in kept;
      PickShape([], Labels(sorted), k);
      var r := Pick([], Labels(sorted), k);
      forall l | l in r ensures exists t :: t in kept && l == Label(t) {
        LabelsOfCounted(sorted, kept, l);
      }
      forall t | t in kept ensures |r| < Bound(k) ==> IsStopword(Label(t)) || Label(t) in r {
        CountedLabel(sorted, t);
      }
    }
  }

  /** The topics come by falling count: each topic's count is at least
      that of every topic after it. */
  lemma TopicsByCount(text: string, k: int, findCaps: string -> seq<string>,
                      findTokens: string -> seq<string>)
    ensures var r := TopicsSimple(text, k, findCaps, findTokens);
      var sorted := SortByCount(Count([], Kept(findCaps(text), findTokens(Lower(text)))));
      forall i, j :: 0 <= i < j < |r| ==> LabelCount(sorted, r[i]) >= LabelCount(sorted, r[j])
  {
    if text != [] {
      var kept := Kept(findCaps(text), findTokens(Lower(text)));
      var sorted := SortByCount(Count([], kept));
      var labels := Labels(sorted);
      var r := TopicsSimple(text, k, findCaps, findTokens);
      SortByCountShape(Count([], kept));
      assert labels[0..] == labels;
      PickOrder([], labels, 0, k);
      forall i, j | 0 <= i < j < |r| ensures LabelCount(sorted, r[i]) >= LabelCount(sorted, r[j]) {
        assert FirstIndex(labels, r[i]) < FirstIndex(labels, r[j]);
      }
    }
  }

  /** A counted term is a phrase of at least four characters once stripped,
      or a token that is not a stopword. */
  lemma KeptTerms(caps: seq<string>, tokens: seq<string>, t: string)
    ensures t in Kept(caps, tokens) <==> (t in Stripped(caps) && |t| >= 4) || (t in tokens && t !in Stopwords)
  {
    CapsKeptMembers(caps, t);
  }
}

=== FILE: wp_upload_queue.dfy ===
/** `wp_upload_queue.py`: for every sheet row whose xaio status is
    `XAIO_DONE`, with an xaio path and a blank or `WP_FAILED` WordPress
    status, build the ingest payload from the parsed file, mark the row
    `WP_RUNNING`, post it, and record `WP_DONE` with the post id or
    `WP_FAILED` with the HTTP error. Both outcomes count toward the cap,
    which is checked before every row. */
module WpUploadQueue {
  import opened Wrappers
  import opened PyText
  import opened JsonValue
  import opened Sheet
  import opened Fingerprint
  import opened PyPath
  import opened Drivers
  import opened Topics
  import opened Dedupe
  import Panels

  datatype Config = Config(
    colXaioStatus: string,
    colXaioPath: string,
    colWpStatus: string,
    colWpPostId: string,
    colWpError: string,
    topicsMode: string,
    topicsMax: int,
    maxPerRun: int)

  /** `get_cell`: a negative or out-of-range index reads as blank; unlike
      the other queues, a negative index does not count from the end. */
  function GetCell(row: seq<string>, idx: int): (r: string)
    ensures IsTrimmed(r)
  {
    if idx < 0 || idx >= |row| then "" else Strip(row[idx])
  }

  /** For a non-negative index `get_cell` reads what the other queues'
      `safe(row[idx] if idx < len(row) else "")` reads; for a negative one it
      reads blank where they would read from the end of the row or raise. */
  lemma GetCellAgainstReadCell(row: seq<string>, idx: int)
    ensures idx >= 0 ==> ReadCell(row, idx).Some? && GetCell(row, idx) == Safe(ReadCell(row, idx).value)
    ensures -|row| <= idx < 0 ==> GetCell(row, idx) == "" && ReadCell(row, idx) == Some(row[|row| + idx])
    ensures idx < -|row| ==> GetCell(row, idx) == "" && ReadCell(row, idx).None?
  {
  }

  // ---------------------------------------------------------------------
  // normalize_domain

  /** The scheme prefix removed by the pattern `^https?://`. */
  function DropScheme(s: string): (r: string)
    ensures StartsWith(s, "https://") ==> r == s[8..]
    ensures !StartsWith(s, "https://") && StartsWith(s, "http://") ==> r == s[7..]
    ensures !StartsWith(s, "https://") && !StartsWith(s, "http://") ==> r == s
  {
    if StartsWith(s, "https://") then s[8..]
    else if StartsWith(s, "http://") then s[7..]
    else s
  }

  /** `normalize_domain`: strip, drop a leading `http://` or `https://`,
      keep the text before the first `/`. */
  function NormalizeDomain(d: string): (r: string)
    ensures '/' !in r
  {
    Before(DropScheme(Strip(d)), '/')
  }

  lemma SchemeUrl(scheme: string, host: string, path: string)
    requires scheme == "https://" || scheme == "http://"
    requires '/' !in host
    ensures var u := scheme + host + "/" + path;
      DropScheme(u) == host + "/" + path
  {
    var u := scheme + host + "/" + path;
    assert u[..|scheme|] == scheme;
    assert u[|scheme|..] == host + "/" + path;
    if scheme == "http://" {
      assert u[4] == ':';
    }
  }

  /** A URL with either scheme normalises to its host. */
  lemma NormalizeDomainOfUrl(scheme: string, host: string, path: string)
    requires scheme == "https://" || scheme == "http://"
    requires '/' !in host
    requires IsTrimmed(scheme + host + "/" + path)
    ensures NormalizeDomain(scheme + host + "/" + path) == host
  {
    var u := scheme + host + "/" + path;
    StripOfTrimmed(u);
    SchemeUrl(scheme, host, path);
    BeforeAfterJoin(host, path, '/');
  }

  lemma NoSlashNoScheme(h: string)
    requires '/' !in h
    ensures !StartsWith(h, "https://") && !StartsWith(h, "http://")
  {
    if |h| >= 7 {
      assert h[..7][5] == h[5] != '/';
    }
    if |h| >= 8 {
      assert h[..8][6] == h[6] != '/';
    }
  }

  /** A trimmed domain without a slash normalises to itself. */
  lemma NormalizeDomainOfHost(h: string)
    requires '/' !in h && IsTrimmed(h)
    ensures NormalizeDomain(h) == h
  {
    StripOfTrimmed(h);
    NoSlashNoScheme(h);
    assert DropScheme(h) == h;
  }

  /** A trimmed result normalises to itself. */
  lemma NormalizeDomainIdempotent(d: string)
    requires IsTrimmed(NormalizeDomain(d))
    ensures NormalizeDomain(NormalizeDomain(d)) == NormalizeDomain(d)
  {
    NormalizeDomainOfHost(NormalizeDomain(d));
  }

  // ---------------------------------------------------------------------
  // The payload

  /** The fields posted to the ingest endpoint. */
  datatype Payload = Payload(
    xaioId: string,
    canonicalUrl: string,
    contentMode: string,
    contentTitle: string,
    postBody: string,
    contributorName: string,
    orgName: string,
    orgDomain: string,
    topics: seq<string>)

  /** `safe_str(xaio.get(k, "")).strip()` */
  function Text(xaio: Json, k: string): (r: string)
    ensures IsTrimmed(r)
  {
    Strip(Panels.SafeStr(Get(xaio, k)))
  }

  /** The first author when `author_names` is a non-empty list, stripped. */
  function Contributor(xaio: Json): (r: string)
    ensures IsTrimmed(r)
  {
    var authors := Get(xaio, "author_names");
    if authors.JArr? && authors.items != [] then Strip(Panels.SafeStr(authors.items[0])) else ""
  }

  /** `xaio_path.stem` without `.xaio_parsed`. */
  function ItemId(xaioPath: string): string {
    ReplaceAll(Stem(xaioPath), ".xaio_parsed", "")
  }

  /** `safe_str(xaio.get("content_mode", "url")).strip() or "url"` */
  function ContentMode(xaio: Json): (r: string)
    ensures r != [] && IsTrimmed(r)
  {
    var mode := Text(xaio, "content_mode");
    assert IsTrimmed("url") by {
      assert "url"[0] == 'u' && "url"[2] == 'l';
    }
    if mode == [] then "url" else mode
  }

  /** `safe_str(xaio.get("organization_name") or site_name).strip()` */
  function OrgName(xaio: Json): (r: string)
    ensures IsTrimmed(r)
  {
    Strip(Panels.SafeStr(Or(Get(xaio, "organization_name"), JStr(Text(xaio, "site_name")))))
  }

  /** `safe_str(xaio.get("url_content_title") or xaio.get("title") or "")` */
  function ContentTitle(xaio: Json): string {
    Panels.SafeStr(Or(Or(Get(xaio, "url_content_title"), Get(xaio, "title")), JStr("")))
  }

  /** `normalize_domain(safe_str(xaio.get("domain", "")))` */
  function OrgDomain(xaio: Json): (r: string)
    ensures '/' !in r
  {
    NormalizeDomain(Panels.SafeStr(Get(xaio, "domain")))
  }

  /** The payload of a parsed file, given the topics. */
  function BuildPayload(xaioPath: string, xaio: Json, topics: seq<string>): (p: Payload)
    ensures p.contentMode != [] && IsTrimmed(p.contentMode)
    ensures '/' !in p.orgDomain
    ensures IsTrimmed(p.canonicalUrl) && IsTrimmed(p.postBody) && IsTrimmed(p.orgName)
    ensures p.topics == topics
  {
    Payload(ItemId(xaioPath), Text(xaio, "canonical_url"), ContentMode(xaio), ContentTitle(xaio),
            Text(xaio, "extracted_text_full"), Contributor(xaio), OrgName(xaio), OrgDomain(xaio), topics)
  }

  /** The organisation falls back to the site name when
      `organization_name` is falsy ... */
  lemma OrgNameFallback(xaio: Json)
    requires !Truthy(Get(xaio, "organization_name"))
    ensures OrgName(xaio) == Text(xaio, "site_name")
  {
    var raw := Panels.SafeStr(Get(xaio, "site_name"));
    assert Or(Get(xaio, "organization_name"), JStr(Strip(raw))) == JStr(Strip(raw));
    StripIdempotent(raw);
  }

  /** ... and otherwise a non-empty string is taken, stripped. */
  lemma OrgNameGiven(xaio: Json)
    requires var o := Get(xaio, "organization_name"); o.JStr? && o.s != []
    ensures OrgName(xaio) == Strip(Get(xaio, "organization_name").s)
  {
    var o := Get(xaio, "organization_name");
    assert Or(o, JStr(Text(xaio, "site_name"))) == o;
    assert Panels.SafeStr(o) == o.s;
  }

  // ---------------------------------------------------------------------
  // The row loop

  /** The outcome of the POST: its status code, its body text, and the body
      parsed as JSON (`None` when `r.json()` raises). */
  datatype Response = Response(statusCode: int, text: string, body: Option<Json>)

  /** What the run depends on outside the sheet: the two regular-expression
      scans of `topics_simple`, the remote topic call (`None` when it
      raises), and the POST of a row's payload (`None` when it raises). */
  datatype Env = Env(
    findCaps: string -> seq<string>,
    findTokens: string -> seq<string>,
    openaiTopics: int -> Option<seq<string>>,
    ingest: (int, Payload) -> Option<Response>)

  /** `wp_ingest`'s parsed body: `{}` for an empty body or one that does not
      parse. */
  function Body(resp: Response): Json {
    if resp.text == [] then Empty else resp.body.GetOr(Empty)
  }

  /** `wp_ingest`'s text: the first 4000 characters. */
  function RawText(resp: Response): (r: string)
    ensures |r| <= 4000
  {
    Head(resp.text, 4000)
  }

  /** The POST failed: a status of 300 or more, or a falsy `ok`. */
  predicate IngestFailed(resp: Response) {
    resp.statusCode >= 300 || !Truthy(Get(Body(resp), "ok"))
  }

  function HttpError(resp: Response): string {
    "HTTP " + IntToString(resp.statusCode) + " " + RawText(resp)
  }

  /** `js.get("content_id") or js.get("post_id") or ""` */
  function PostId(js: Json): string {
    Panels.SafeStr(Or(Or(Get(js, "content_id"), Get(js, "post_id")), JStr("")))
  }

  datatype RowView = RowView(xaioStatus: string, xaioPath: string, wpStatus: string)

  datatype Indices = Indices(xaioStatus: int, xaioPath: int, wpStatus: int)

  function ColumnIndices(cfg: Config): Indices {
    Indices(ColumnIndex(cfg.colXaioStatus), ColumnIndex(cfg.colXaioPath), ColumnIndex(cfg.colWpStatus))
  }

  function ReadRow(ix: Indices, row: seq<string>): RowView {
    RowView(GetCell(row, ix.xaioStatus), GetCell(row, ix.xaioPath), GetCell(row, ix.wpStatus))
  }

  /** The rows uploaded: xaio done, a path, and not yet running or done. */
  predicate Eligible(v: RowView) {
    v.xaioStatus == "XAIO_DONE" && v.xaioPath != [] && (v.wpStatus == [] || v.wpStatus == "WP_FAILED")
  }

  const FileNotFound: string := "FileNotFoundError"
  const DecodeError: string := "JSONDecodeError"
  const AttributeError: string := "AttributeError: object has no attribute 'get'"
  const RequestError: string := "RequestException"

  /** The statuses that settle a row. */
  const Settled: set<string> := {"WP_DONE", "WP_FAILED"}

  function RunningPut(cfg: Config, row: int): Event {
    Put(row, [Cell(cfg.colWpStatus, "WP_RUNNING"), Cell(cfg.colWpPostId, ""), Cell(cfg.colWpError, "")])
  }

  function FailedPut(cfg: Config, row: int, resp: Response): Event {
    Put(row, [Cell(cfg.colWpStatus, "WP_FAILED"), Cell(cfg.colWpPostId, ""), Cell(cfg.colWpError, CapError(HttpError(resp)))])
  }

  function DonePut(cfg: Config, row: int, resp: Response): Event {
    Put(row, [Cell(cfg.colWpStatus, "WP_DONE"), Cell(cfg.colWpPostId, PostId(Body(resp))), Cell(cfg.colWpError, "")])
  }

  /** The topics of a body text: the remote call when so configured (none
      when it raises), `topics_simple` otherwise. */
  function TopicsFor(cfg: Config, env: Env, row: int, bodyText: string): seq<string> {
    if cfg.topicsMode == "openai" then env.openaiTopics(row).GetOr([])
    else TopicsSimple(bodyText, cfg.topicsMax, env.findCaps, env.findTokens)
  }

  /** The payload of an eligible row's parsed file. */
  function RowPayload(cfg: Config, env: Env, row: int, xaioPath: string, xaio: Json): Payload {
    BuildPayload(xaioPath, xaio, TopicsFor(cfg, env, row, Text(xaio, "extracted_text_full")))
  }

  /** After the load: mark running, post, record the outcome. A missing
      POST outcome, or a successful status with a body that is not a dict,
      raises and ends the run. */
  function Post(cfg: Config, row: int, resp: Option<Response>, fs: Fs): RowResult {
    if resp.None? then RowResult([RunningPut(cfg, row)], fs, false, Some(RequestError))
    else
      var r := resp.value;
      var ran := Ran(row, "WP_INGEST", r.statusCode);
      if r.statusCode < 300 && !Body(r).JObj? then
        RowResult([RunningPut(cfg, row), ran], fs, false, Some(AttributeError))
      else if IngestFailed(r) then RowResult([RunningPut(cfg, row), ran, FailedPut(cfg, row, r)], fs, true, None)
      else RowResult([RunningPut(cfg, row), ran, DonePut(cfg, row, r)], fs, true, None)
  }

  /** The work on an eligible row: load the parsed file (a missing file,
      invalid JSON or a non-dict raises), then post. */
  function Visit(cfg: Config, env: Env, parse: string -> Option<Json>, row: int, view: RowView, fs: Fs): RowResult {
    var path := view.xaioPath;
    if path !in fs then RowResult([], fs, false, Some(FileNotFound))
    else if parse(fs[path]).None? then RowResult([], fs, false, Some(DecodeError))
    else if !parse(fs[path]).value.JObj? then RowResult([], fs, false, Some(AttributeError))
    else
      var xaio := parse(fs[path]).value;
      Post(cfg, row, env.ingest(row, RowPayload(cfg, env, row, path, xaio)), fs)
  }

  /** With `topics_simple`, the posted topics are at most `topics_max` (one
      when that is below one), distinct, and never a stopword. */
  lemma PayloadTopics(cfg: Config, env: Env, row: int, xaioPath: string, xaio: Json)
    requires cfg.topicsMode != "openai"
    ensures var t := RowPayload(cfg, env, row, xaioPath, xaio).topics;
      |t| <= Bound(cfg.topicsMax) && NoDup(t) && NoStopwords(t)
  {
    TopicsSimpleShape(Text(xaio, "extracted_text_full"), cfg.topicsMax, env.findCaps, env.findTokens);
  }

  /** The outcome of one POST: failure exactly when the status is 300 or
      more or `ok` is falsy, with the HTTP error cut to 49000 characters;
      success with the post id. Either counts. */
  lemma PostOutcome(cfg: Config, row: int, r: Response, fs: Fs)
    requires r.statusCode >= 300 || Body(r).JObj?
    ensures var one := Post(cfg, row, Some(r), fs);
      && one.crash.None? && one.counted
      && var last := one.events[|one.events| - 1];
         && (IngestFailed(r) ==> last == FailedPut(cfg, row, r) && |last.cells[2].value| <= ErrorCap)
         && (!IngestFailed(r) ==> last == DonePut(cfg, row, r))
  {
  }

  /** What the loop relies on from a visited row: its log concerns the row,
      it counts exactly when it ends without an exception, and then it
      settled the row once. */
  predicate VisitLog(one: RowResult, row: int) {
    && RowsAre(one.events, row)
    && (one.counted <==> one.crash.None?)
    && StatusCount(one.events, Settled) == (if one.counted then 1 else 0)
  }

  lemma PostLog(cfg: Config, row: int, resp: Option<Response>, fs: Fs)
    ensures VisitLog(Post(cfg, row, resp, fs), row)
  {
    var running := RunningPut(cfg, row);
    StatusCountSingle(running, Settled);
    if resp.Some? {
      var r := resp.value;
      var ran := Ran(row, "WP_INGEST", r.statusCode);
      StatusCountSingle(ran, Settled);
      StatusCountConcat([running], [ran], Settled);
      if r.statusCode >= 300 || Body(r).JObj? {
        var last := if IngestFailed(r) then FailedPut(cfg, row, r) else DonePut(cfg, row, r);
        StatusCountSingle(last, Settled);
        StatusCountConcat([running, ran], [last], Settled);
        assert Post(cfg, row, resp, fs).events == [running, ran] + [last];
        SettledLog(running, ran, last, row);
      } else {
        assert [running] + [ran] == [running, ran];
      }
    }
  }

  lemma SettledLog(a: Event, b: Event, c: Event, row: int)
    requires a.Put? && a.row == row && b.Ran? && b.row == row && c.Put? && c.row == row
    ensures RowsAre([a, b] + [c], row)
  {
    var e := [a, b] + [c];
    assert forall i :: 0 <= i < |e| ==> e[i] == a || e[i] == b || e[i] == c;
  }

  lemma VisitShape(cfg: Config, env: Env, parse: string -> Option<Json>, row: int, view: RowView, fs: Fs)
    ensures VisitLog(Visit(cfg, env, parse, row, view, fs), row)
  {
    var path := view.xaioPath;
    if path in fs && parse(fs[path]).Some? && parse(fs[path]).value.JObj? {
      var xaio := parse(fs[path]).value;
      PostLog(cfg, row, env.ingest(row, RowPayload(cfg, env, row, path, xaio)), fs);
    }
  }

  /** The rows as the loop reads them: `views[k]` is sheet row `k + 1`. */
  function Views(ix: Indices, rows: seq<seq<string>>): (views: seq<RowView>)
    ensures |views| == |rows|
    ensures forall k :: 0 <= k < |rows| ==> views[k] == ReadRow(ix, rows[k])
  {
    seq(|rows|, k requires 0 <= k < |rows| => ReadRow(ix, rows[k]))
  }

  /** `for i, row in enumerate(all_vals[1:], start=2)` from sheet row `i`,
      with `processed` rows handled so far; `views` are the rows as read. */
  function Loop(cfg: Config, views: seq<RowView>, visit: (int, RowView, Fs) -> RowResult,
                i: int, processed: nat, fs: Fs): (r: Outcome)
    requires i >= 2
    ensures processed <= r.processed <= CapFrom(processed, cfg.maxPerRun)
    decreases |views| + 1 - i
  {
    if i > |views| || processed >= cfg.maxPerRun then Outcome([], processed, fs, None)
    else
      var view := views[i - 1];
      if !Eligible(view) then Loop(cfg, views, visit, i + 1, processed, fs)
      else
        var one := visit(i, view, fs);
        if one.crash.Some? then Outcome(one.events, processed, one.fs, one.crash)
        else
          var rest := Loop(cfg, views, visit, i + 1, Bump(processed, one.counted), one.fs);
          Outcome(one.events + rest.events, rest.processed, rest.fs, rest.crash)
  }

  predicate EligibleAt(views: seq<RowView>, row: int, lo: int) {
    2 <= lo <= row <= |views| && Eligible(views[row - 1])
  }

  /** Every cell write and POST of the log is for an eligible row from `lo`
      to the last row. */
  predicate EligibleRowsOnly(views: seq<RowView>, events: seq<Event>, lo: int) {
    forall k :: 0 <= k < |events| && (events[k].Put? || events[k].Ran?) ==> EligibleAt(views, events[k].row, lo)
  }

  /** What the scan guarantees: only eligible rows are touched, and
      `processed` grew by the number of rows settled as done or failed. */
  predicate ScanLog(views: seq<RowView>, o: Outcome, lo: int, processed: nat) {
    EligibleRowsOnly(views, o.events, lo) && o.processed == processed + StatusCount(o.events, Settled)
  }

  lemma EligibleConcat(views: seq<RowView>, a: seq<Event>, b: seq<Event>, i: int)
    requires EligibleAt(views, i, i)
    requires RowsAre(a, i) && EligibleRowsOnly(views, b, i + 1)
    ensures EligibleRowsOnly(views, a + b, i)
  {
    var e := a + b;
    forall k | 0 <= k < |e| && (e[k].Put? || e[k].Ran?) ensures EligibleAt(views, e[k].row, i) {
      if k >= |a| { assert e[k] == b[k - |a|]; } else { assert e[k] == a[k]; }
    }
  }

  lemma ScanEndStep(cfg: Config, views: seq<RowView>, visit: (int, RowView, Fs) -> RowResult,
                    i: int, processed: nat, fs: Fs)
    requires i >= 2 && (i > |views| || processed >= cfg.maxPerRun)
    ensures ScanLog(views, Loop(cfg, views, visit, i, processed, fs), i, processed)
  {
    assert Loop(cfg, views, visit, i, processed, fs).events == [];
  }

  lemma ScanSkipStep(cfg: Config, views: seq<RowView>, visit: (int, RowView, Fs) -> RowResult,
                     i: int, processed: nat, fs: Fs)
    requires 2 <= i <= |views| && processed < cfg.maxPerRun && !Eligible(views[i - 1])
    requires ScanLog(views, Loop(cfg, views, visit, i + 1, processed, fs), i + 1, processed)
    ensures ScanLog(views, Loop(cfg, views, visit, i, processed, fs), i, processed)
  {
  }

  lemma ScanVisitStep(cfg: Config, views: seq<RowView>, visit: (int, RowView, Fs) -> RowResult,
                      i: int, processed: nat, fs: Fs, one: RowResult, rest: Outcome)
    requires 2 <= i <= |views| && processed < cfg.maxPerRun && Eligible(views[i - 1])
    requires one == visit(i, views[i - 1], fs) && VisitLog(one, i)
    requires rest == Loop(cfg, views, visit, i + 1, Bump(processed, one.counted), one.fs)
    requires one.crash.None? ==> ScanLog(views, rest, i + 1, Bump(processed, one.counted))
    ensures ScanLog(views, Loop(cfg, views, visit, i, processed, fs), i, processed)
  {
    if one.crash.Some? {
      EligibleConcat(views, one.events, [], i);
      assert one.events + [] == one.events;
    } else {
      EligibleConcat(views, one.events, rest.events, i);
      StatusCountConcat(one.events, rest.events, Settled);
    }
  }

  lemma {:induction false} LoopShape(cfg: Config, views: seq<RowView>, visit: (int, RowView, Fs) -> RowResult,
                                     i: int, processed: nat, fs: Fs)
    requires i >= 2
    requires forall n, v, f :: VisitLog(visit(n, v, f), n)
    ensures ScanLog(views, Loop(cfg, views, visit, i, processed, fs), i, processed)
    decreases |views| + 1 - i, 1
  {
    if i > |views| || processed >= cfg.maxPerRun {
      ScanEndStep(cfg, views, visit, i, processed, fs);
    } else if !Eligible(views[i - 1]) {
      LoopShape(cfg, views, visit, i + 1, processed, fs);
      ScanSkipStep(cfg, views, visit, i, processed, fs);
    } else {
      LoopVisitShape(cfg, views, visit, i, processed, fs);
    }
  }

  /** The eligible-row case of `LoopShape`. */
  lemma {:induction false} LoopVisitShape(cfg: Config, views: seq<RowView>, visit: (int, RowView, Fs) -> RowResult,
                                          i: int, processed: nat, fs: Fs)
    requires 2 <= i <= |views| && processed < cfg.maxPerRun && Eligible(views[i - 1])
    requires forall n, v, f :: VisitLog(visit(n, v, f), n)
    ensures ScanLog(views, Loop(cfg, views, visit, i, processed, fs), i, processed)
    decreases |views| + 1 - i, 0
  {
    var one := visit(i, views[i - 1], fs);
    assert VisitLog(one, i);
    var next := Bump(processed, one.counted);
    LoopShape(cfg, views, visit, i + 1, next, one.fs);
    ScanVisitStep(cfg, views, visit, i, processed, fs, one, Loop(cfg, views, visit, i + 1, next, one.fs));
  }

  /** The loop body of `main`. */
  function Visitor(cfg: Config, env: Env, parse: string -> Option<Json>): (int, RowView, Fs) -> RowResult {
    (n: int, v: RowView, f: Fs) => Visit(cfg, env, parse, n, v, f)
  }

  /** `main`: the scan from sheet row 2, below the header. At most
      `max_per_run` rows are settled, and none when it is not positive. */
  function Run(cfg: Config, env: Env, parse: string -> Option<Json>, rows: seq<seq<string>>, fs: Fs): (r: Outcome)
    ensures cfg.maxPerRun >= 0 ==> r.processed <= cfg.maxPerRun
    ensures cfg.maxPerRun <= 0 ==> r.processed == 0 && r.events == []
  {
    Loop(cfg, Views(ColumnIndices(cfg), rows), Visitor(cfg, env, parse), 2, 0, fs)
  }

  /** A run writes cells and posts only for eligible rows below the header,
      and `processed` is the number of rows it settled as `WP_DONE` or
      `WP_FAILED`. */
  lemma RunShape(cfg: Config, env: Env, parse: string -> Option<Json>, rows: seq<seq<string>>, fs: Fs)
    ensures var r := Run(cfg, env, parse, rows, fs);
      && r.processed == StatusCount(r.events, Settled)
      && forall k :: 0 <= k < |r.events| && (r.events[k].Put? || r.events[k].Ran?) ==>
           2 <= r.events[k].row <= |rows| && Eligible(ReadRow(ColumnIndices(cfg), rows[r.events[k].row - 1]))
  {
    forall n, v, f ensures VisitLog(Visitor(cfg, env, parse)(n, v, f), n) {
      VisitShape(cfg, env, parse, n, v, f);
    }
    var views := Views(ColumnIndices(cfg), rows);
    LoopShape(cfg, views, Visitor(cfg, env, parse), 2, 0, fs);
    assert ScanLog(views, Run(cfg, env, parse, rows, fs), 2, 0);
  }
}

=== FILE: wrappers.dfy ===
/** Failure-compatible wrappers used throughout the model: `Option` for values
    that may be absent (Python's `None`), `Result` for computations that may
    raise (the string carries the exception's message). */
module Wrappers {

  datatype Option<+T> = None | Some(value: T) {

    predicate IsFailure() {
      None?
    }

    function PropagateFailure<U>(): Option<U>
      requires None?
    {
      None
    }

    function Extract(): T
      requires Some?
    {
      value
    }

    function GetOr(default: T): T {
      match this
      case Some(v) => v
      case None => default
    }
  }

  datatype Result<+T> = Success(value: T) | Failure(error: string) {

    predicate IsFailure() {
      Failure?
    }

    function PropagateFailure<U>(): Result<U>
      requires Failure?
    {
      Failure(error)
    }

    function Extract(): T
      requires Success?
    {
      value
    }
  }
}
